=== FILE: README.md ===
# SynthMark — a Dafny model of its sequential core

SynthMark is a benchmark for audio synthesis on Android and desktop hosts. A
software synthesizer renders voices into a simulated or real audio sink, and
a family of test harnesses measures the device:

- VoiceMark: how many voices fit a CPU target;
- LatencyMark: the smallest glitch-free buffer;
- JitterMark, UtilizationMark, ClockRamp and the utilisation series;
- the automated suite, which combines several of these.

This project models the sequential logic around that engine and proves what
each piece promises:

- **Parameters**: the engine's typed parameters (`Params.h`), which clamp on
  every write, and the group that stores and renders them. Also the Java
  `Param` view, the JNI boundary (`native-lib.cpp`) with its sentinel
  answers, the settings sliders, and the `NativeTest` status machine with its
  test-id dispatch.
- **Android app**: the app's orchestration (`AppObject.java`,
  `MainActivity.java`) as sequential event traces of its two background
  tasks and of intent handling.
- **Engine tools**:
  - LatencyMark's burst search;
  - the byte FIFO over monotonic counters;
  - the bin counter, CPU-migration and timing histograms;
  - the result record;
  - audio-sink buffer sizing and the virtual sink's frame accounting;
  - host-thread flags, sleep chunks and CPU-manager requests;
  - the harness's `open` checks and note on/off state machine;
  - the changing-voice schedule, and the ClockRamp and VoiceMark per-burst
    state machines;
  - the utilisation series;
  - the automated suite's CPU choices;
  - the simple util-clamp stepper.
- **Command-line front ends**: the `synthmark` command and the `apps/` tools,
  which share one generic argument loop (`CommandLine.Parse`). Each is
  modelled as parse, check, then launch.
- **The Monsoon power-monitor script**: serial framing with a length byte
  and a checksum, the USB passthrough setting, the data-packet filter and
  its sequence check, and the Bresenham-style resampler.

State is kept in immutable records. Most operations are pure functions from
the old record to the new one; the ones whose source is a loop over calls
into the engine or over input data (the settings reset, the test-id search,
the bundle handling, the progress task, the CPU dump, the render loop, the
utilisation series and the resampler) are methods with loop invariants. Clocks, random numbers, `strtol`, CPU
numbers, utilisation readings, measurement results and serial-port bytes are
parameters. C integer behaviour is written out where it matters:

- `CDiv` for truncating division;
- `WrapInt32` and `WrapInt16` for storage into fixed-width integers;
- `TruncReal` for `(int)` casts of doubles, which are modelled as reals.

Every module lives in its own file, named after the source component.

## Model

| member | source | states |
|---|---|---|
| Params.TypeCode | source/tools/Params.h:78-80 | the type code is 0 exactly for integer parameters, 1 exactly for float ones and -1 for anything else |
| Params.TypeToString | source/tools/Params.h:82-95 | code 0 is named "Integer", code 1 "Float", and every other code "Undefined" |
| Params.NewInteger | source/tools/Params.h:110-114 | a new integer parameter keeps its name, description, default and bounds; it starts at the default when that is in range, at min when the default is below it and at max when the default is above it |
| Params.NewFloat | source/tools/Params.h:193-197 | a new float parameter keeps its fields; it starts at the default when that is in range, at min when the default is below it and at max when the default is above it |
| Params.SetIntValue | source/tools/Params.h:143-145 | an integer write lands inside [min, max]: an in-range value is stored as is, a value below stores min, a value above stores max; nothing else changes |
| Params.SetFloatValue | source/tools/Params.h:226-228 | a float write lands inside [min, max]: an in-range value is stored as is, a value below stores min, a value above stores max; nothing else changes |
| Params.SetIntValueIdempotent | source/tools/Params.h:143-145 | writing the same value twice leaves the parameter as one write does |
| Params.SetIntValueReadBack | source/tools/Params.h:143-150 | an in-range value reads back as written, and writing back what was read changes nothing |
| Params.SetFloatValueIdempotent | source/tools/Params.h:226-228 | writing the same float twice leaves the parameter as one write does |
| Params.SetFloatValueReadBack | source/tools/Params.h:226-230 | an in-range float reads back as written, and writing back what was read changes nothing |
| Params.ValueAsString | source/tools/Params.h:172-176 | an integer's value text is non-empty and `atoi` reads it back as the value; a float's text is the stream's rendering of its value |
| Params.SetValueFromString | source/tools/Params.h:177-180 | an integer parameter takes `atoi` of the text, stored as is when in range and always within the bounds; a float takes the `atof` reading the same way; name, description, default and bounds are kept |
| Params.IntTextRoundTrip | source/tools/Params.h:172-180 | setting an in-range integer parameter from its own value text leaves it unchanged |
| Params.ParamToString | source/tools/Params.h:35-46 | the compact form of an integer or float parameter is `description : value`, followed by `*` exactly when the value equals the default; an untyped parameter has no compact form; the full form begins with the name and description lines; unknown levels print nothing |
| Params.CompactMarkerIffDefault | source/tools/Params.h:163-169 | the compact text of an integer parameter ends in `*` exactly when its value equals its default |
| Params.NewGroup | source/tools/Params.h:278-279 | a new group has its name and no parameters |
| Params.AddParam | source/tools/Params.h:285-313 | a copy of an integer or float parameter is appended; a null or untyped one leaves the group unchanged; groups hold only typed parameters |
| Params.AddAllAppendsAccepted | source/tools/Params.h:285-313 | a run of `addParam` calls appends exactly the accepted parameters, in call order |
| Params.ParamCount | source/tools/Params.h:360-362 | the count is the number of parameters held |
| Params.ParamByIndex | source/tools/Params.h:381-388 | a parameter is found exactly for indexes in [0, count), and it is the one at that position |
| Params.ParamByName | source/tools/Params.h:364-379 | the result is null exactly when no parameter has the name; otherwise it is the first parameter with that name |
| Params.GetValueFromInt | source/tools/Params.h:391-400 | an unknown name reads as 0; a known integer parameter reads as its value; a float parameter reads as 0 (see Left out) |
| Params.GetValueFromFloat | source/tools/Params.h:402-411 | an unknown name reads as 0.0; a known float parameter reads as its value; an integer parameter reads as 0.0 (see Left out) |
| Params.GroupToString | source/tools/Params.h:328-358 | the compact listing is the group header followed by one line per parameter; unknown levels print nothing |
| Params.CompactListingAppends | source/tools/Params.h:341-348 | the compact listing of `ps + [p]` is the listing of `ps` followed by one line for `p`, numbered `\|ps\|` |
| Params.AddParamExtendsListing | source/tools/Params.h:285-313 | adding a typed parameter appends exactly its numbered line to the compact listing |
| NativeTest.UnitFor | source/tools/NativeTest.h:585-596 | exactly the ids 0 to 5 select a unit, each its own (automated suite, clock ramp, JitterMark, LatencyMark, UtilizationMark, VoiceMark) |
| NativeTest.IdOf | source/tools/NativeTest.h:60-67 | every unit has an id in [0, 6) |
| NativeTest.UnitForIsBijective | source/tools/NativeTest.h:585-596 | the id-to-unit switch and its inverse undo each other in both directions |
| NativeTest.TestName | source/tools/NativeTest.h:532-539 | an id without a unit is named "--"; any other id is named by its unit's title |
| NativeTest.TestCount | source/tools/NativeTest.h:541-543 | the count is 6, and the ids below it are exactly those with a unit |
| NativeTest.CommonDecls | source/tools/NativeTest.h:155-213 | the shared registration holds 9 parameters on Apple hosts and 10 elsewhere |
| NativeTest.Declarations | source/tools/NativeTest.h:274-285 | every unit registers the shared parameters first |
| NativeTest.RegistrationOrder | source/tools/NativeTest.h:186-209 | every unit registers the shared names in the order sample rate, samples per frame, frames per render, frames per burst, audio level, ADPF, note-on delay, start delay, seconds, then core affinity off Apple |
| NativeTest.OwnParamsAfterShared | source/tools/NativeTest.h:274-450 | after the shared parameters VoiceMark registers only the target load, UtilizationMark only the voice count, LatencyMark, JitterMark and ClockRamp both voice counts, and the suite nothing |
| NativeTest.Materialize | source/tools/NativeTest.h:161-181 | a range declaration becomes the integer parameter with those bounds and default; a list declaration comes from the list constructor |
| NativeTest.MaterializeAll | source/tools/NativeTest.h:186-194 | one parameter per declaration, in declaration order |
| NativeTest.AcceptedAllTyped | source/tools/Params.h:285-313 | when every offered parameter is typed, the group accepts all of them, in order |
| NativeTest.RegisteredFollowsDeclarations | source/tools/NativeTest.h:186-209 | registering the declarations yields a group whose i-th parameter is the i-th declaration's, so the count equals the number of declarations |
| NativeTest.UnitGroupFollowsDeclarations | source/tools/NativeTest.h:469-478 | each unit's group after start-up lists its declarations' parameters in registration order |
| NativeTest.NewEngine | source/tools/NativeTest.h:452-463 | a new manager is UNDEFINED with no progress, and every unit's group is the one its `init` registers |
| NativeTest.Init | source/tools/NativeTest.h:480-485 | `init` makes the manager READY with that test current and answers SUCCESS for any id, leaving the groups alone |
| NativeTest.Run | source/tools/NativeTest.h:487-495 | `run` passes through RUNNING to COMPLETED, runs the current id's unit if there is one, and answers SUCCESS |
| NativeTest.Finish | source/tools/NativeTest.h:497-503 | `finish` succeeds exactly when the current id has a unit, and is an error otherwise |
| NativeTest.CloseTest | source/tools/NativeTest.h:513-515 | closing always succeeds |
| NativeTest.ParamGroup | source/tools/NativeTest.h:545-555 | a group is returned exactly for ids with a unit, and it is that unit's group |
| NativeTest.ParamCount | source/tools/NativeTest.h:557-564 | the count is 0 for an id without a unit, the size of its group otherwise |
| NativeTest.HasLogs | source/tools/NativeTest.h:566-573 | there are never logs when the current id has no unit |
| NativeTest.ReadLog | source/tools/NativeTest.h:575-582 | reading the log with no unit gives "[nolog]", otherwise the unit's log text |
| NativeTest.InitThenRun | source/tools/NativeTest.h:480-503 | after `init(id)` and `run()`, the manager is COMPLETED, ran the unit of that id, and `finish` succeeds exactly for the ids 0 to 5 |
| NativeLib.Create | android/app/src/main/cpp/native-lib.cpp:28-34 | creating gives a live handle to a manager in status UNDEFINED |
| NativeLib.TestInit | android/app/src/main/cpp/native-lib.cpp:37-47 | a null handle answers ERROR and changes nothing; a live one answers SUCCESS and stays live |
| NativeLib.TestClose | android/app/src/main/cpp/native-lib.cpp:50-61 | the handle is always gone afterwards; the answer is ERROR for a null handle and the manager's SUCCESS otherwise |
| NativeLib.TestRun | android/app/src/main/cpp/native-lib.cpp:64-73 | a null handle answers ERROR; a live one answers SUCCESS |
| NativeLib.TestProgress | android/app/src/main/cpp/native-lib.cpp:76-85 | the progress is -1 for a null handle and the manager's progress otherwise |
| NativeLib.TestStatus | android/app/src/main/cpp/native-lib.cpp:88-97 | the status is STATUS_ERROR for a null handle and the manager's status otherwise |
| NativeLib.TestHasLogs | android/app/src/main/cpp/native-lib.cpp:100-109 | a null handle has no logs; a live one answers the manager's `hasLogs` |
| NativeLib.TestReadLog | android/app/src/main/cpp/native-lib.cpp:112-122 | a null handle reads "[native closed]"; a live one the manager's log |
| NativeLib.GetTestCount | android/app/src/main/cpp/native-lib.cpp:125-135 | the count is 0 for a null handle and 6 otherwise |
| NativeLib.GetTestName | android/app/src/main/cpp/native-lib.cpp:138-149 | the name is null exactly for a null handle, otherwise the manager's name for the id |
| NativeLib.GetParamCount | android/app/src/main/cpp/native-lib.cpp:152-173 | the count is 0 for a null handle, otherwise the manager's count for the id |
| NativeLib.ParamAt | android/app/src/main/cpp/native-lib.cpp:175-181 | a parameter is found only through a live handle and an id with a unit |
| NativeLib.ParamAtIffBelowCount | android/app/src/main/cpp/native-lib.cpp:152-181 | a parameter is addressable exactly when its index is below the count the same handle reports |
| NativeLib.GetParamType | android/app/src/main/cpp/native-lib.cpp:184-195 | a missing parameter answers -1; an existing one its type code |
| NativeLib.GetParamHoldType | android/app/src/main/cpp/native-lib.cpp:198-209 | a missing parameter answers -1; an existing one the engine's hold type |
| NativeLib.GetParamListSize | android/app/src/main/cpp/native-lib.cpp:212-223 | a missing parameter answers 0; an existing one the engine's list size |
| NativeLib.GetParamListCurrentIndex | android/app/src/main/cpp/native-lib.cpp:226-237 | a missing parameter answers -1; an existing one the engine's current list index |
| NativeLib.GetParamListDefaultIndex | android/app/src/main/cpp/native-lib.cpp:240-251 | a missing parameter answers -1; an existing one the engine's default list index |
| NativeLib.SetParamListCurrentIndex | android/app/src/main/cpp/native-lib.cpp:254-267 | the answer is SUCCESS exactly when the parameter exists, ERROR exactly when it does not |
| NativeLib.SelectListIndex | android/app/src/main/cpp/native-lib.cpp:254-267 | for an existing parameter, the list index set through `setListCurrentIndex` is the one `getParamListCurrentIndex` then reports, and no other parameter's list answers change; a missing parameter changes nothing |
| NativeLib.GetParamListNameFromIndex | android/app/src/main/cpp/native-lib.cpp:270-300 | the name is null exactly for a missing parameter, the list entry's name for a typed one, and empty for any other |
| NativeLib.GetParamName | android/app/src/main/cpp/native-lib.cpp:303-315 | the name is null exactly for a missing parameter, otherwise the parameter's name |
| NativeLib.GetParamDesc | android/app/src/main/cpp/native-lib.cpp:318-330 | the description is null exactly for a missing parameter, otherwise the parameter's description |
| NativeLib.ResetParamValue | android/app/src/main/cpp/native-lib.cpp:333-345 | the answer is SUCCESS exactly when the parameter exists, ERROR exactly when it does not |
| NativeLib.ReplaceKeepsShape | android/app/src/main/cpp/native-lib.cpp:408-423 | swapping a parameter for one with the same name, description and type leaves every test's parameter list looking the same to the app |
| NativeLib.GetParamIntMin | android/app/src/main/cpp/native-lib.cpp:348-361 | a missing parameter reads 0; an integer one its minimum |
| NativeLib.GetParamIntMax | android/app/src/main/cpp/native-lib.cpp:363-376 | a missing parameter reads 0; an integer one its maximum |
| NativeLib.GetParamIntValue | android/app/src/main/cpp/native-lib.cpp:378-391 | a missing parameter reads 0; an integer one its value |
| NativeLib.GetParamIntDefault | android/app/src/main/cpp/native-lib.cpp:393-405 | a missing parameter reads 0; an integer one its default |
| NativeLib.SetParamIntValue | android/app/src/main/cpp/native-lib.cpp:408-423 | the answer is SUCCESS exactly when the parameter exists; a missing one changes nothing; an integer one gets the clamped value; a float one is left unchanged (see Left out) |
| NativeLib.SetIntKeepsShape | android/app/src/main/cpp/native-lib.cpp:408-423 | an integer write leaves every test's parameter list looking the same to the app: the same names, descriptions and types |
| NativeLib.GetParamFloatMin | android/app/src/main/cpp/native-lib.cpp:426-438 | a missing parameter reads 0.0; a float one its minimum |
| NativeLib.GetParamFloatMax | android/app/src/main/cpp/native-lib.cpp:441-453 | a missing parameter reads 0.0; a float one its maximum |
| NativeLib.GetParamFloatValue | android/app/src/main/cpp/native-lib.cpp:456-468 | a missing parameter reads 0.0; a float one its value |
| NativeLib.GetParamFloatDefault | android/app/src/main/cpp/native-lib.cpp:471-483 | a missing parameter reads 0.0; a float one its default |
| NativeLib.SetParamFloatValue | android/app/src/main/cpp/native-lib.cpp:486-501 | the answer is SUCCESS exactly when the parameter exists; a missing one changes nothing; a float one gets the clamped value; an integer one is left unchanged (see Left out) |
| NativeLib.SetFloatKeepsShape | android/app/src/main/cpp/native-lib.cpp:486-501 | a float write leaves every test's parameter list looking the same to the app |
| NativeLib.NullHandleSentinels | android/app/src/main/cpp/native-lib.cpp:37-423 | with a null handle every entry point answers its own sentinel: ERROR, -1, STATUS_ERROR, false, "[native closed]", 0 or null |
| NativeLib.SetThenGetInt | android/app/src/main/cpp/native-lib.cpp:378-423 | an in-range integer write reads back as written; the bounds, the default, the count and every other parameter stay unchanged |
| ParamView.NewView | android/app/src/main/java/com/sonodroid/synthmark/Param.java:30-40 | a view keeps the test and parameter ids and caches the description, type and hold type the engine reports for them |
| ParamView.GetMin | android/app/src/main/java/com/sonodroid/synthmark/Param.java:85-93 | the minimum is null exactly when the cached type is neither integer nor float; otherwise it is the engine's integer or float minimum |
| ParamView.GetMax | android/app/src/main/java/com/sonodroid/synthmark/Param.java:95-103 | the maximum is null exactly when the cached type is neither integer nor float; otherwise it is the engine's maximum |
| ParamView.GetValue | android/app/src/main/java/com/sonodroid/synthmark/Param.java:105-113 | the value is null exactly when the cached type is neither integer nor float; otherwise it is the engine's value |
| ParamView.Marker | android/app/src/main/java/com/sonodroid/synthmark/Param.java:121 | the marker is `*` exactly for a value at its default and empty otherwise |
| ParamView.ValueAsString | android/app/src/main/java/com/sonodroid/synthmark/Param.java:115-134 | a range integer shows decimal text that `atoi` reads back as the value, ending in `*` exactly when the value is the default; a range float shows its formatted value followed by `*` exactly at the default; a list shows the current entry's name followed by `*` exactly when the current index is the default; any other hold type, or a range of unknown type, shows nothing |
| ParamView.SetValue | android/app/src/main/java/com/sonodroid/synthmark/Param.java:136-142 | an integer view writes the number's integer value, a float view its float value, and any other view writes nothing |
| ParamView.SetValueByObject | android/app/src/main/java/com/sonodroid/synthmark/Param.java:144-150 | a view of unknown type writes nothing; a null object throws a null-pointer error and an object of the wrong boxed class a class-cast error; a write happens only with an object of the matching class |
| ParamView.SetValueByObjectKeepsShape | android/app/src/main/java/com/sonodroid/synthmark/Param.java:144-150 | a write through `setValueByObject` leaves every test's parameter list looking the same to the app |
| ParamView.SetValueByObjectAgreesWithSetValue | android/app/src/main/java/com/sonodroid/synthmark/Param.java:136-150 | a boxed value of the matching class is written exactly as `setValue` writes it |
| ParamView.SetValueThenGetValue | android/app/src/main/java/com/sonodroid/synthmark/Param.java:105-142 | writing an in-range integer through a view and reading it back gives that integer, and the shown text parses back to it |
| AppObject.NotificationType | android/app/src/main/java/com/sonodroid/synthmark/AppObject.java:365-368 | every notification carries one of the four type codes 1 to 4 |
| AppObject.NewApp | android/app/src/main/java/com/sonodroid/synthmark/AppObject.java:45-95 | a fresh app has no selected test (-1), is not running, and holds the engine handle |
| AppObject.GetParamsForTest | android/app/src/main/java/com/sonodroid/synthmark/AppObject.java:197-206 | one view per parameter the engine reports, view i addressing index i of that test |
| AppObject.ResetSettings | android/app/src/main/java/com/sonodroid/synthmark/AppObject.java:355-360 | the parameters 0 up to the reported count are reset in order, and every one of those calls succeeds |
| AppObject.StartTest | android/app/src/main/java/com/sonodroid/synthmark/AppObject.java:249-254 | both tasks are always launched; a busy Update is posted exactly when a test is already running |
| AppObject.RunTask | android/app/src/main/java/com/sonodroid/synthmark/AppObject.java:316-343 | a live engine ends the run task COMPLETED with that test current; a null handle stays null |
| AppObject.RunTaskFlag | android/app/src/main/java/com/sonodroid/synthmark/AppObject.java:322-342 | the running flag is raised first and stays up through the first six steps of the run task; it is down once the task and `onPostExecute` are done; Completed is the last notification |
| AppObject.RaisedUntilLowered | android/app/src/main/java/com/sonodroid/synthmark/AppObject.java:322-342 | once a trace raises the running flag, it stays up over every prefix in which nothing sets it again |
| AppObject.FirstStop | android/app/src/main/java/com/sonodroid/synthmark/AppObject.java:277-282 | the index found is the first poll whose status is not RUNNING, every earlier poll being RUNNING |
| AppObject.ProgressTask | android/app/src/main/java/com/sonodroid/synthmark/AppObject.java:264-311 | the wake lock is taken first; each poll up to and including the first non-RUNNING one posts its decimal progress; the task finishes exactly when the handle is null or such a poll exists, and then releases the wake lock and posts "Done" |
| Settings.NewSeekBar | android/app/src/main/java/com/sonodroid/synthmark/SettingsActivity.java:79-111 | a bar captures the view's bounds; an integer range bar spans max - min and sits at value - min; a list bar spans the list size minus one and sits at the current index; any other hold type leaves the bar unset |
| Settings.OnProgressChanged | android/app/src/main/java/com/sonodroid/synthmark/SettingsActivity.java:116-130 | moving an integer range bar to i writes i + min; moving a list bar to i leaves the engine's values and makes entry i the current one; the label shown is the value text of the state after the change |
| Settings.ListSeekRoundTrip | android/app/src/main/java/com/sonodroid/synthmark/SettingsActivity.java:104-130 | for a list-held parameter, moving the bar to any i makes entry i current: the label names entry i with `*` exactly when i is the default, and a bar rebuilt on the new state sits at i of the same span |
| Settings.SeekRoundTrip | android/app/src/main/java/com/sonodroid/synthmark/SettingsActivity.java:89-121 | for an integer range, moving the bar to any i in [0, max - min] stores i + min, and a bar rebuilt on the new state sits at i again |
| Settings.Label | android/app/src/main/java/com/sonodroid/synthmark/SettingsActivity.java:111 | the label, two spaces before the value text, reads back under `atoi` as the value text does |
| Settings.IntSeekWrites | android/app/src/main/java/com/sonodroid/synthmark/SettingsActivity.java:116-129 | on an integer range bar, moving to i writes i + min through the view and labels the bar with the new state's value text |
| Settings.SeekStores | android/app/src/main/java/com/sonodroid/synthmark/SettingsActivity.java:116-129 | after moving an integer range bar to i in [0, max - min], the engine holds i + min and the same bounds |
| Settings.SeekLabel | android/app/src/main/java/com/sonodroid/synthmark/SettingsActivity.java:116-129 | after moving an integer range bar to i, the label reads back as i + min |
| Settings.SeekRebuilds | android/app/src/main/java/com/sonodroid/synthmark/SettingsActivity.java:89-101 | a bar rebuilt after moving an integer range bar to i spans max - min and sits at i |
| Settings.ProgressOfValueRoundTrip | android/app/src/main/java/com/sonodroid/synthmark/SettingsActivity.java:89-121 | a bar built on an in-range integer value and moved to its own position leaves the value unchanged |
| Settings.OnDefaults | android/app/src/main/java/com/sonodroid/synthmark/SettingsActivity.java:70-73 | the Defaults button resets parameters 0 up to the reported count in order, then rebuilds one view per parameter, view i addressing index i |
| MainActivity.GetString | android/app/src/main/java/com/sonodroid/synthmark/MainActivity.java:202 | a string is found exactly when the key is present with a string value, and it is that value |
| MainActivity.FirstMatch | android/app/src/main/java/com/sonodroid/synthmark/MainActivity.java:218-234 | the id found lies in the searched range and its lower-cased title starts with the lower-cased query |
| MainActivity.FirstMatchSpec | android/app/src/main/java/com/sonodroid/synthmark/MainActivity.java:218-234 | the id found is the first match: every earlier title fails to match; -1 comes back exactly when no title from the start index on matches |
| MainActivity.Titles | source/tools/NativeTest.h:532-543 | the title list has one entry per id below the count, the engine's name for that id |
| MainActivity.NameIsTitle | android/app/src/main/cpp/native-lib.cpp:125-149 | for an id below the count a live handle reports, the name the library returns is that id's title |
| MainActivity.FirstLetterDiffers | android/app/src/main/java/com/sonodroid/synthmark/MainActivity.java:228 | a title whose first letter differs from the query's, ignoring case, never matches |
| MainActivity.NoTitleStartsWith | android/app/src/main/java/com/sonodroid/synthmark/MainActivity.java:218-234 | a query whose first letter starts no title, ignoring case, finds -1 |
| MainActivity.TitlesAre | source/tools/NativeTest.h:532-543 | the six titles in id order are AutomatedSuite, ClockRamp, JitterMark, LatencyMark, UtilizationMark and VoiceMark |
| MainActivity.QueryAt | android/app/src/main/java/com/sonodroid/synthmark/MainActivity.java:218-234 | each documented query ("auto", "jitter", "Latency", "util", "VOICE") finds its own id in the title list |
| MainActivity.ExtractTestId | android/app/src/main/java/com/sonodroid/synthmark/MainActivity.java:218-234 | the loop over the engine's test names returns the same id as the reference search over the titles, which is -1 or an id below the count |
| MainActivity.FirstMatchFrom | android/app/src/main/java/com/sonodroid/synthmark/MainActivity.java:224-232 | skipping ids that do not match leaves the first match unchanged |
| MainActivity.MatchesIff | android/app/src/main/java/com/sonodroid/synthmark/MainActivity.java:228 | a title matches exactly when it is at least as long as the query and agrees with it, case folded, position by position |
| MainActivity.FirstMatchIs | android/app/src/main/java/com/sonodroid/synthmark/MainActivity.java:218-234 | an id whose title the query starts, case folded, is the match when no earlier title starts with the query's first letter |
| MainActivity.DocumentedQueries | android/app/src/main/java/com/sonodroid/synthmark/MainActivity.java:218-234 | the queries "auto", "jitter", "Latency", "util" and "VOICE" select their tests whatever their case |
| MainActivity.UnknownQuery | android/app/src/main/java/com/sonodroid/synthmark/MainActivity.java:218-234 | a query that starts no title, such as "mark", selects nothing |
| MainActivity.ExtractParametersFromBundle | android/app/src/main/java/com/sonodroid/synthmark/MainActivity.java:236-249 | only parameters whose name is a bundle key are written, in index order; without an exception every such parameter is written; the parameter lists keep their shape |
| MainActivity.ProcessBundleFromIntent | android/app/src/main/java/com/sonodroid/synthmark/MainActivity.java:187-216 | without a bundle, or while an intent test runs, nothing happens; otherwise the bundle is consumed; a test is launched exactly when the "test" string matches a title, and it then becomes current, running by intent, with the "file" string as result file |
| MainActivity.WriteTestResult | android/app/src/main/java/com/sonodroid/synthmark/MainActivity.java:365-388 | the output goes to the result file, after which the activity is no longer running by intent and has no result file |
| MainActivity.MaybeWriteTestResult | android/app/src/main/java/com/sonodroid/synthmark/MainActivity.java:318-337 | a file is written exactly when an intent test with a result file completes and storage is permitted; permission is requested exactly when it is not; otherwise nothing changes |
| MainActivity.OnPermissionResult | android/app/src/main/java/com/sonodroid/synthmark/MainActivity.java:339-354 | a granted request writes the result; a refused one changes nothing |
| MainActivity.WriteAtMostOnce | android/app/src/main/java/com/sonodroid/synthmark/MainActivity.java:318-388 | once a result was written, a later completion writes nothing more |
| MainActivity.OnRunTest | android/app/src/main/java/com/sonodroid/synthmark/MainActivity.java:395-400 | a test is started exactly when one is selected (id above -1), and then as the app starts any test |
| LatencySearch.ResetBinarySearch | source/tools/LatencyMarkHarness.h:175-181 | a binary reset starts ramping up from nothing, with the power of two at 1 |
| LatencySearch.ResetLinearSearch | source/tools/LatencyMarkHarness.h:170-173 | a linear reset verifies from the initial burst count and keeps the bounds found so far |
| LatencySearch.NextBurstsToTry | source/tools/LatencyMarkHarness.h:199-254 | the size returned is the new current size; a glitch while ramping up raises the bad bound and doubles; a success while ramping or bounded lowers the good bound and moves to verifying when the bounds meet; the bounded step is max(1, gap / 8); a glitch while verifying moves both bounds up by one; a success while verifying, or being done, ends with size 0 |
| LatencySearch.RampUpTriesPowersOfTwo | source/tools/LatencyMarkHarness.h:235-238 | while every size glitches, the ramp tries 1, 2, 4, 8 and so on |
| LatencySearch.FeedSnoc | source/tools/LatencyMarkHarness.h:199-254 | feeding one more outcome is one more `getNextBurstsToTry` call |
| LatencySearch.LinearSearchSteps | source/tools/LatencyMarkHarness.h:170-173 | after a linear reset each glitch moves on by exactly one burst |
| LatencySearch.StepKeepsInv | source/tools/LatencyMarkHarness.h:199-254 | each step of the search driven by a fixed target keeps the bounds around the target and only moves to a later phase |
| LatencySearch.TestSearch | source/tools/LatencyMarkHarness.h:183-196 | the search driven by "glitch exactly below the target" ends with the lowest good size equal to the target (1 below 1), and every size tried lies in [1, 2 x target) |
| LatencySearch.TestSearchSeries | source/tools/LatencyMarkHarness.h:98-107 | the series over targets 1 to 199 finds every target and returns 0 |
| LatencySearch.RunTestStartAsWritten | source/tools/LatencyMarkHarness.h:75-82 | as written, the first size tried is 1 burst, ramping up with the next power of two at 2 and nothing known bad; for a positive initial count this differs from the linear start that `runTest` chose |
| LatencySearch.InitialBurstsIgnored | source/tools/LatencyMarkHarness.h:75-82 | as written, the initial burst count changes nothing: the first size tried is always 1, while ramping up |
| LatencySearch.RunTestStart | source/tools/LatencyMarkHarness.h:75-82 | corrected, a positive initial count verifies from one above it, otherwise the ramp starts at 1 |
| LatencySearch.RunTestStartHonoursInitialBursts | source/tools/LatencyMarkHarness.h:75-82 | corrected, with a positive initial count each later glitch tries the next size up from initial + 1 |
| ByteFifo.NewFifo | source/tools/ByteFIFO.h:26-32 | a new FIFO has the requested size and holds no unread bytes |
| ByteFifo.WritePosition | source/tools/ByteFIFO.h:79-81 | the write position is the whole write counter modulo the size and lies inside the buffer (the 32-bit cut is in WritePositionAsWritten) |
| ByteFifo.ReadPosition | source/tools/ByteFIFO.h:91-93 | the read position is the whole read counter modulo the size and lies inside the buffer (the 32-bit cut is in ReadPositionAsWritten) |
| ByteFifo.WritePositionAsWritten | source/tools/ByteFIFO.h:79-81 | the source's write position, with the counter cut to 32 bits before the modulo, lies inside the buffer and agrees with the whole-counter position while the counter is below 2^32 |
| ByteFifo.ReadPositionAsWritten | source/tools/ByteFIFO.h:91-93 | the same for the read position |
| ByteFifo.TruncatedPositionsCollide | source/tools/ByteFIFO.h:79-81 | with a 3-byte buffer, write counters 2^32 - 1 and 2^32 both map to position 0 under the cut, where the whole-counter positions are 0 and 1 |
| ByteFifo.AvailableToRead | source/tools/ByteFIFO.h:47-49 | the readable count is the number of unread bytes, between 0 and the size |
| ByteFifo.AvailableToWrite | source/tools/ByteFIFO.h:51-53 | the writable room and the readable count add up to the size |
| ByteFifo.AdvanceWriteCounter | source/tools/ByteFIFO.h:75-77 | the write counter never goes back: a positive count moves it by that count, any other count changes nothing |
| ByteFifo.AdvanceReadCounter | source/tools/ByteFIFO.h:87-89 | the read counter never goes back: a positive count moves it by that count, any other count changes nothing |
| ByteFifo.AvailableToWriteContiguous | source/tools/ByteFIFO.h:63-67 | the contiguous room fits both the free room and the space up to the end of the buffer, and is 0 only when the FIFO is full |
| ByteFifo.AvailableToReadContiguous | source/tools/ByteFIFO.h:69-73 | the contiguous readable run fits both the unread bytes and the space up to the end of the buffer, and is 0 only when the FIFO is empty |
| ByteFifo.CopyAt | source/tools/ByteFIFO.h:39 | the copy puts the data at the position and leaves every other byte alone |
| ByteFifo.ChunkKeepsUnread | source/tools/ByteFIFO.h:37-43 | a chunk write leaves every unread byte in place |
| ByteFifo.ChunkAppends | source/tools/ByteFIFO.h:37-43 | after a chunk write the bytes past the old unread ones are the chunk, in order |
| ByteFifo.WriteChunk | source/tools/ByteFIFO.h:37-43 | one chunk of a write appends its bytes to the unread contents, each at its counter's position |
| ByteFifo.WriteLoop | source/tools/ByteFIFO.h:36-44 | the write loop accepts as much of the rest of the source as there is room for, advancing only the write counter |
| ByteFifo.WriteLoopContents | source/tools/ByteFIFO.h:36-44 | the bytes the loop accepts are appended, in order, after the unread contents |
| ByteFifo.Write | source/tools/ByteFIFO.h:33-45 | a write accepts min(length, room) bytes and appends exactly that prefix of the source to the unread contents |
| ByteFifo.WritePositions | source/tools/ByteFIFO.h:33-45 | the accepted bytes land at the positions (whole counter) mod size, in order |
| ByteFifo.ReadLog | source/tools/ByteFIFO.h:55-60 | a read returns the contiguous run of the oldest unread bytes, at least one when any is unread, and the rest stays unread in order |
| ByteFifo.Step | source/tools/ByteFIFO.h:33-60 | every operation keeps the FIFO law: bytes read followed by the bytes still unread equal the old contents followed by the bytes accepted |
| ByteFifo.Run | source/tools/ByteFIFO.h:33-60 | over a run of operations the counters advance by exactly the bytes accepted and read |
| ByteFifo.RunIsFifo | source/tools/ByteFIFO.h:33-60 | over any run, bytes read followed by bytes still unread equal the old contents followed by the bytes accepted |
| ByteFifo.ReadsArePrefixOfWrites | source/tools/ByteFIFO.h:33-60 | from an empty FIFO, the bytes read are always a prefix of the bytes accepted: nothing is lost, duplicated or reordered |
| BinCounter.NewBins | source/tools/BinCounter.h:28-37 | a new histogram has exactly `numBins` bins, every count and marker zero, and the event index at 0 |
| BinCounter.ClampIndex | source/tools/BinCounter.h:44-49 | the bin always lies in range; an in-range index is kept, a negative one goes to the first bin and one past the end to the last bin |
| BinCounter.Increment | source/tools/BinCounter.h:44-52 | exactly the clamped bin gains one count and records the current event index as its marker; every other bin is unchanged and the index advances by one |
| BinCounter.SumBump | source/tools/BinCounter.h:50 | raising one bin by one raises the total of all bins by one |
| BinCounter.SumCountsCalls | source/tools/BinCounter.h:44-52 | after any run of `increment` calls the bin totals grew by exactly the number of calls and the event index by the same amount: no event is lost or counted twice, whatever the indices |
| BinCounter.FreshSumIsCalls | source/tools/BinCounter.h:28-52 | from a fresh histogram the counts add up to the number of `increment` calls |
| CpuAnalyzer.NewAnalyzer | source/tools/CpuAnalyzer.h:78-81 | a fresh analyzer has no previous CPU (-1), zero migrations, zero calls and 32 empty bins |
| CpuAnalyzer.RecordCpu | source/tools/CpuAnalyzer.h:41-53 | only a CPU index in [0, 32) is counted in its bin (others leave the bins alone); a migration is counted exactly when the CPU differs from the previous one, which becomes this CPU; every call counts towards the total |
| CpuAnalyzer.ChangesAtMostLength | source/tools/CpuAnalyzer.h:48-51 | a run of calls can report no more migrations than calls |
| CpuAnalyzer.RecordAllCounts | source/tools/CpuAnalyzer.h:41-53 | after a run of calls the total grew by the number of calls, the migrations by the number of CPU changes along the run, the bin counts by the number of valid CPU indices, and the previous CPU is the last one seen |
| CpuAnalyzer.FreshCounts | source/tools/CpuAnalyzer.h:41-53 | from a fresh analyzer migrations never exceed the calls, and a first call on a valid CPU is a migration, since no CPU was recorded before |
| CpuAnalyzer.MigrationPerMil | source/tools/CpuAnalyzer.h:59 | the per-thousand figure is 1000 x migrations / calls rounded down: it never exceeds the exact ratio and the next integer does; it lies in [0, 1000] when migrations do not exceed calls |
| CpuAnalyzer.RowsBelowSpec | source/tools/CpuAnalyzer.h:63-73 | the listed rows are exactly the bins with a positive count, in increasing CPU order, each with its own count and last marker |
| CpuAnalyzer.DumpRows | source/tools/CpuAnalyzer.h:55-75 | the loop of `dump` reports a row for a CPU if and only if its bin count is positive, in strictly increasing CPU order, with that bin's figures |
| TimingAnalyzer.Reset | source/tools/TimingAnalyzer.h:104-115 | after `reset` the times, active time, call count and wakeup total are zero and no histogram is in use; the last render duration and bin width are kept |
| TimingAnalyzer.NewTiming | source/tools/TimingAnalyzer.h:37-43 | a new analyzer starts reset: no calls, no base time, no active time and no histograms |
| TimingAnalyzer.SetupHistograms | source/tools/TimingAnalyzer.h:51-56 | the three histograms become fresh `numBins`-bin counters with the given bin width; the timing state is untouched |
| TimingAnalyzer.MarkEntry | source/tools/TimingAnalyzer.h:64-81 | the first entry fixes the base time; from the second callback on, with histograms, the wakeup delay is measured from the later of the previous exit and the ideal time, added to the total and binned once; nothing else changes |
| TimingAnalyzer.MarkExit | source/tools/TimingAnalyzer.h:84-101 | the render duration is exit minus entry and adds to the active time; the call count grows by one; from the second callback on each existing render and delivery histogram gains exactly its binned duration |
| TimingAnalyzer.DutyCycle | source/tools/TimingAnalyzer.h:144-152 | the duty cycle times the span from base to current entry equals the active time before the current callback, and is 0 when that span is not positive |
| TimingAnalyzer.RunKeepsRunning | source/tools/TimingAnalyzer.h:64-101 | on a clock that never runs backwards, a run of callbacks keeps the active time within the elapsed time since the base |
| TimingAnalyzer.RunningDutyCycle | source/tools/TimingAnalyzer.h:144-152 | once callbacks have been recorded on a monotone clock, the duty cycle lies in [0, 1] |
| TimingAnalyzer.DutyCycleIsFraction | source/tools/TimingAnalyzer.h:64-152 | from a reset analyzer, any non-empty run of callbacks on a monotone clock gives a duty cycle in [0, 1], with the base time at the first entry |
| TimingAnalyzer.BaseFixed | source/tools/TimingAnalyzer.h:66-68 | once the base time is non-zero, no later callback moves it |
| TimingAnalyzer.ActiveTimeIsSum | source/tools/TimingAnalyzer.h:84-87 | the active time grows by exactly the sum of the render durations of the callbacks |
| TimingAnalyzer.CallbackBins | source/tools/TimingAnalyzer.h:64-101 | one callback adds one event to the wakeup and render histograms, except when it is the first call |
| TimingAnalyzer.HistogramsSkipFirst | source/tools/TimingAnalyzer.h:64-101 | over a run of callbacks every call but the very first lands exactly once in the wakeup and render histograms |
| SynthMarkResult.NewResult | source/tools/SynthMarkResult.h:50-54 | a fresh result has code UNINITIALIZED (-2), measurement 0, no name or message, and is not successful |
| SynthMarkResult.Reset | source/tools/SynthMarkResult.h:56-59 | `reset` clears the measurement and the message but keeps the code, name and therefore success |
| SynthMarkResult.AppendMessage | source/tools/SynthMarkResult.h:73-75 | the old message is a prefix of the new one and the appended text is exactly what follows; all other fields are untouched |
| SynthMarkResult.SetTestName | source/tools/SynthMarkResult.h:65-67 | only the name changes |
| SynthMarkResult.SetResultCode | source/tools/SynthMarkResult.h:81-87 | only the code changes, and the result is successful if and only if the code is SUCCESS (0) |
| SynthMarkResult.SetMeasurement | source/tools/SynthMarkResult.h:93-95 | only the measurement changes |
| SynthMarkResult.AppendTwice | source/tools/SynthMarkResult.h:73-75 | appending two messages in turn equals appending their concatenation |
| SynthMarkResult.ResetThenAppend | source/tools/SynthMarkResult.h:56-75 | after a reset, the message is exactly what is appended next |
| AudioSink.NewSink | source/tools/AudioSinkBase.h:255-277 | a constructed sink has no CPU requested or in use, a 4096-frame capacity, an 8-burst default size, no buffer size or burst yet, mono at the engine's 48000 Hz, SCHED_FIFO on, ADPF and util-clamp off, and no underruns or frames written |
| AudioSink.BaseOpen | source/tools/AudioSinkBase.h:58-63 | the base `open` records rate, channel count and burst size, changes nothing else and always returns 0 |
| AudioSink.SetBufferSizeInFrames | source/tools/AudioSinkBase.h:98-107 | the stored size is the request clamped to [1, capacity] and is what is returned; only the size changes |
| AudioSink.SetBufferSizeIdempotent | source/tools/AudioSinkBase.h:98-107 | asking for the size that was just granted changes nothing and returns the same size |
| AudioSink.UtilClampLevels | source/tools/AudioSinkBase.h:181-192 | logging implies dynamic, dynamic implies enabled, dynamic is exactly levels 1 and 2, and enabled-but-fixed is exactly a level above 2 |
| AudioSink.Low16 | source/tools/AudioSinkBase.h:218 | masking with 0xFFFF gives a value in [0, 65536) and keeps any value already in that range |
| AudioSink.SchedulerToString | source/tools/AudioSinkBase.h:217-231 | each of the four policies is named exactly when the low 16 bits equal its code, and "unknown" exactly when they equal none of them |
| AudioSink.SchedulerIgnoresHighFlags | source/tools/AudioSinkBase.h:218 | flags above the low 16 bits never change the name |
| AudioSink.SchedulerExamples | source/tools/AudioSinkBase.h:217-231 | SCHED_FIFO with the reset-on-fork flag is still named SCHED_FIFO, and the unset scheduler (-1) is "unknown" |
| AudioSink.BufferSizeInBursts | source/tools/AudioSinkBase.h:242-243 | the reported burst count is the number of whole bursts that fit in the buffer |
| AudioSink.Open | source/tools/VirtualAudioSink.h:53-80 | the virtual sink records the format, sets its capacity to 512 bursts, keeps a size already chosen or else takes the default burst count clamped into the capacity, stores the burst time as a truncated `int32_t`, and resets the simulator clock; it always returns 0 |
| AudioSink.ConvertFrameToTime | source/tools/VirtualAudioSink.h:82-84 | the time of a frame is the start time plus the frame's share of burst time, rounded down |
| AudioSink.EmptyFramesAvailable | source/tools/VirtualAudioSink.h:86-92 | free room and queued frames always add up to the buffer size |
| AudioSink.DueBursts | source/tools/VirtualAudioSink.h:357-360 | the number of read times `next`, `next + step`, ... that have come by `now`: none exactly when `now` is before `next`, otherwise the count that brackets `now` |
| AudioSink.ConsumedIsDue | source/tools/VirtualAudioSink.h:353-361 | the simulator loop consumes exactly the due bursts, but no more than its countdown allows |
| AudioSink.DueShift | source/tools/VirtualAudioSink.h:359 | moving the next read time on by one burst leaves exactly one burst fewer due |
| AudioSink.UpdateHardwareSimulator | source/tools/VirtualAudioSink.h:353-361 | one update consumes at most 32 bursts, moving frames consumed and the next read time on by whole bursts and changing nothing else |
| AudioSink.UpdateConsumesDue | source/tools/VirtualAudioSink.h:353-361 | an update consumes min(32, due) bursts, and when no more than 32 were due the next read time is in the future afterwards |
| AudioSink.WriteBurst | source/tools/VirtualAudioSink.h:94-122 | the first write fixes the start time; an underflow found on entry is counted once; every write adds exactly one burst of frames; the buffer geometry does not change |
| AudioSink.Start | source/tools/VirtualAudioSink.h:131-146 | `start` primes the buffer full, marks the callback loop result as THREAD_FAILURE until the loop runs, and returns THREAD_FAILURE exactly when the thread could not be started |
| AudioSink.WrittenAfterBursts | source/tools/VirtualAudioSink.h:94-122 | after n bursts the frames written grew by n bursts and the underrun count never went down |
| AudioSink.StartedThenBursts | source/tools/VirtualAudioSink.h:94-146 | after `start` and n bursts the frames written are the primed buffer plus n bursts |
| HostTools.SleepChunk | source/tools/HostTools.h:82-93 | one `usleep` argument lies in [1, 999999]; for up to 999999 microseconds it is the remaining nanoseconds rounded up to whole microseconds, and a longer wait is cut to 999999 |
| HostTools.SleepUntil | source/tools/HostTools.h:81-99 | the sleep returns the first clock reading at or past the wake-up time (or the first reading when already past it), having slept one valid chunk per later reading; it never returns before the wake-up time unless it was already reached |
| HostTools.ShortSleepTakesOneChunk | source/tools/HostTools.h:84-97 | when `usleep` lasts at least as long as asked, a wait of at most 999999 microseconds is over after exactly one chunk |
| HostTools.Start | source/tools/HostTools.h:122-131 | a thread that was never started takes the creation result and runs exactly when it is 0; a running or finished thread is left alone and the call fails with 1 |
| HostTools.Join | source/tools/HostTools.h:137-144 | joining a running thread marks it finished and returns the join result; otherwise nothing changes and the result is 0 |
| HostTools.StartOnlyOnce | source/tools/HostTools.h:122-144 | a thread object runs at most once: after a successful start and a join every later start fails with 1, and a failed start leaves it unstarted |
| HostTools.StartJoinRepeat | source/tools/HostTools.h:122-144 | a second start on a running thread fails with 1 and a second join changes nothing and returns 0 |
| HostTools.SetApplicationLoad | source/tools/HostTools.h:220-223 | the base manager stores both work-unit values exactly as given |
| HostTools.RequestCpuSpeed | source/tools/HostTools.h:318-322 | the granted speed is the request clamped to [300, 2000] MHz |
| HostTools.RequestCpuSpeedIdempotent | source/tools/HostTools.h:318-322 | asking again for a granted speed grants the same speed |
| HostTools.StubSetApplicationLoad | source/tools/HostTools.h:284-305 | the load is always stored; a new speed is requested only when either value changed, for the required clock at 80% utilisation, and the speed stays within [300, 2000] |
| HostTools.SameLoadTwice | source/tools/HostTools.h:284-305 | setting the same load twice in a row is the same as setting it once |
| HostTools.GetInstance | source/tools/HostTools.h:393-403 | the singleton, once created, is returned unchanged; on first use it is the custom manager exactly when the hint level is ON (1) or ON_LOGGED (2), the stub otherwise |
| TestHarness.NewHarness | source/tools/TestHarnessBase.h:43-64 | a new harness runs at the synthesizer's rate in stereo with 8 voices, no frames counted, no note delay, no notes on and an uninitialised result |
| TestHarness.Open | source/tools/TestHarnessBase.h:292-323 | a rate below 8000, a channel count other than 2, a render block outside [1, 8] or a burst below 8 frames is refused with -1 and changes nothing; otherwise the format is stored and the sink's own `open` result is returned |
| TestHarness.SetDelayNoteOnSeconds | source/tools/TestHarnessBase.h:284-286 | the delay becomes seconds times the current rate in frames, as a 32-bit value, and equals the exact product whenever that fits; nothing else changes |
| TestHarness.BeginMeasure | source/tools/TestHarnessBase.h:168-184 | `measure` needs rate x seconds frames (truncated), starts from frame 0 with notes off, and keeps notes on for 0.2 s and off for 0.3 s worth of bursts, so the on count never exceeds the off count |
| TestHarness.FinishMeasure | source/tools/TestHarnessBase.h:188-216 | a sink that fails to start yields AUDIO_SINK_START_FAILURE and returns the sink's error; otherwise the callback loop's result is recorded and returned; the run is successful exactly when the sink started and the loop returned 0 |
| TestHarness.RenderAudio | source/tools/TestHarnessBase.h:103-160 | past the frames needed nothing changes and the answer is Finished; a failing hook ends the run with its negative code recorded and nothing else changed; before the delay frame only the frame count moves; a block that goes on adds its frames; a note is counted exactly when the notes were on and the countdown expired |
| TestHarness.CountdownHolds | source/tools/TestHarnessBase.h:112-141 | while the countdown of k blocks runs, the notes stay as they were and no note is counted; after k blocks the countdown is 0 |
| TestHarness.Toggle | source/tools/TestHarnessBase.h:114-138 | an expired countdown flips the notes: on becomes off for `burstsOff` blocks and counts one note, off becomes on for `burstsOn` blocks |
| TestHarness.RunStopsWhenDone | source/tools/TestHarnessBase.h:103-160 | a run of callbacks never renders more than one block past the frames needed, and it stops only when enough frames were rendered or a hook failed |
| TestHarness.FinishedStaysPut | source/tools/TestHarnessBase.h:107-109 | once enough frames are rendered every further callback answers Finished and changes nothing |
| ChangingVoice.RandRem | source/tools/ChangingVoiceHarness.h:61 | C's `%` on a non-negative `rand()` gives a remainder in [0, \|d\|), equal to the mathematical remainder for a positive divisor |
| ChangingVoice.CurrentNumVoices | source/tools/ChangingVoiceHarness.h:42-80 | without a high count the test's own count is returned and nothing is remembered; otherwise the remembered count is returned, recomputed every fifth note: SWITCH (and an undefined mode) gives low for the first half of each ten-note step and high for the second, LINEAR_LOOP steps up by 5 and restarts at low outside [low, high], RANDOM draws uniformly from [low, high] by `rand() % span` |
| ChangingVoice.UpdateInRange | source/tools/ChangingVoiceHarness.h:48-72 | whenever the count is recomputed with low <= high, it lies in [low, high] in every mode |
| ChangingVoice.RunInRange | source/tools/ChangingVoiceHarness.h:42-80 | over any run of consecutive notes that starts with a recomputation or an in-range remembered count, every count handed out lies in [low, high] |
| ChangingVoice.SwitchPattern | source/tools/ChangingVoiceHarness.h:64-70 | SWITCH from note 0 gives low at note 0, high at note 5, low again at note 10, and between updates (note 7) the remembered count |
| ClockRamp.BeginMeasurement | source/tools/ClockRampHarness.h:51-63 | a measurement starts in state LOW with no ramps, the low voice count as the previous count and no previous utilisation |
| ClockRamp.OnRenderAudio | source/tools/ClockRampHarness.h:74-154 | LOW moves only on a rise in voices: to TOO_HIGH if the previous burst was already saturated, to TOO_LOW if the projected utilisation stays below the threshold, to SATURATED if this burst is saturated, else straight to HIGH with a zero-length ramp; SATURATED fails as SLOW on a drop in voices and goes HIGH, counting one ramp, once utilisation falls below 0.95; HIGH returns to LOW on a drop; failed states stay put and force Finished; the ramp count grows exactly on entering HIGH |
| ClockRamp.RunCountsRamps | source/tools/ClockRampHarness.h:74-154 | over any run of bursts the ramp count grows by exactly the number of entries into HIGH, and a failed run stays failed with no further ramps |
| ClockRamp.EndMeasurement | source/tools/ClockRampHarness.h:156-183 | the verdict is valid exactly when the run did not fail and completed at least one ramp, and then the measurement is the mean ramp in milliseconds; SLOW and TOO_HIGH report their own failure; a failure leaves the result untouched |
| ClockRamp.ValidAfterRamp | source/tools/ClockRampHarness.h:51-183 | a measurement whose bursts completed a ramp without failing is valid |
| VoiceMark.NewMark | source/tools/VoiceMarkHarness.h:151-152 | a new VoiceMark has no target load and starts from 10 voices |
| VoiceMark.BeginMeasurement | source/tools/VoiceMarkHarness.h:53-66 | a measurement starts at the initial voice count with nothing summed, no beats and not yet stable; the target and initial count are kept |
| VoiceMark.NewNumVoices | source/tools/VoiceMarkHarness.h:73-78 | the next count is the estimate for the target fraction rounded to the nearest voice and never above the synthesizer's 512 voices |
| VoiceMark.BeforeNoteOn | source/tools/VoiceMarkHarness.h:68-103 | the first beat only counts itself; later beats set the next voice count to the estimate; inside the load window [f/2, 1-(1-f)/2] the first estimate not above the current count latches stability, which is never lost; an estimate is summed exactly when it is in the window and stable; every beat is counted and the hook always answers 0 |
| VoiceMark.BeatsCount | source/tools/VoiceMarkHarness.h:68-103 | over a measurement every beat is counted, the number of summed estimates is exactly the number of accepted beats, and the first beat is never one of them |
| VoiceMark.EndMeasurement | source/tools/VoiceMarkHarness.h:105-132 | `onEndMeasurement` records TOO_FEW_MEASUREMENTS with measurement 0 for fewer than four summed estimates, otherwise SUCCESS with the mean summed estimate (`measure` later overwrites this code; see MeasureEndAsWritten) |
| VoiceMark.ShortRunFails | source/tools/VoiceMarkHarness.h:105-132 | `onEndMeasurement` marks a measurement of at most four beats as failed, since the first beat is never summed |
| VoiceMark.MeasureEndAsWritten | source/tools/TestHarnessBase.h:197-215 | as written, after a normal loop the recorded code and the returned value are the loop's result, whatever `onEndMeasurement` recorded; its measurement is kept |
| VoiceMark.ShortRunReportedAsSuccess | source/tools/TestHarnessBase.h:197-215 | as written, a run of at most four beats with a normal loop is returned and recorded as SUCCESS although `onEndMeasurement` found too few measurements |
| VoiceMark.MeasureEnd | source/tools/TestHarnessBase.h:197-215 | corrected: after a normal loop the code `onEndMeasurement` recorded is kept and returned, so a run succeeds exactly when the sink started, the loop did not fail and at least four estimates were summed |
| VoiceMark.ShortRunMeasureFails | source/tools/VoiceMarkHarness.h:105-132 | with the correction, a run of at most four beats returns and records a failure |
| UtilSeries.Steps | source/tools/UtilizationSeriesHarness.h:57-60 | the series has exactly 20 steps, step i at `begin + (i * range) / 19` with C division |
| UtilSeries.StepPair | source/tools/UtilizationSeriesHarness.h:60 | a later step is never closer to the low count than an earlier one: the counts rise with a positive range and fall with a negative one |
| UtilSeries.StepsSpan | source/tools/UtilizationSeriesHarness.h:53-60 | the series starts exactly at the low count, ends exactly at the high count, is monotone between them and never leaves the interval they span |
| UtilSeries.RunSeries | source/tools/UtilizationSeriesHarness.h:57-72 | the counts tried are a prefix of the steps; every step before the last tried succeeded at a utilisation of at most 0.96; the error returned is that of the last step tried; a successful series stops early only after a utilisation above 0.96 |
| UtilSeries.RunTest | source/tools/UtilizationSeriesHarness.h:37-72 | a given high count is used as is; without one a VoiceMark run at 95% picks it, and its error is returned before any step is measured; otherwise the series runs from the low count to the high count |
| AutomatedSuite.CpuChoice | source/tools/AutomatedTestSuite.h:100-112 | on any device with CPUs, the CPUs n/4 and 3n/4 are valid indices with the low one not above the high one, and they differ exactly when there are at least two CPUs |
| AutomatedSuite.Assign | source/tools/AutomatedTestSuite.h:123-145 | with big/little the two CPUs take the two roles as the role test decides; without it both roles go to the high CPU with its maximum |
| AutomatedSuite.Decide | source/tools/AutomatedTestSuite.h:112-121 | big/little is decided only when two distinct CPUs were measured, as a difference of more than 10% of their mean; otherwise the flag keeps its value and nothing else changes |
| AutomatedSuite.MeasureLowHighAsWritten | source/tools/AutomatedTestSuite.h:89-156 | the code as written: an error on the low CPU returns at once with nothing changed, otherwise the call succeeds, with the roles decided by comparing the still-unset little maximum |
| AutomatedSuite.AsWrittenIgnoresMeasurements | source/tools/AutomatedTestSuite.h:123-134 | as written, on a fresh suite with big/little the high CPU is always called little and the low CPU big, whatever the two CPUs measured |
| AutomatedSuite.AsWrittenSwapsRoles | source/tools/AutomatedTestSuite.h:123-134 | as written, with eight CPUs, CPU 2 at 100 voices and CPU 6 at 200 voices, CPU 6 is called little although it sustains twice the voices |
| AutomatedSuite.MeasureLowHigh | source/tools/AutomatedTestSuite.h:89-156 | corrected: an error on the low CPU returns at once with nothing changed; otherwise, with big/little, the two roles are the two measured CPUs and the little CPU never has the higher maximum |
| AutomatedSuite.LowHighRoles | source/tools/AutomatedTestSuite.h:89-156 | corrected, from a fresh suite: big/little holds exactly when two distinct CPUs differ by more than 10%, and then the big CPU sustains strictly more voices; otherwise both roles are the high CPU with one maximum |
| AutomatedSuite.CpuToBigLittle | source/tools/AutomatedTestSuite.h:189-193 | a CPU is named big exactly when it is the big CPU, little exactly when it is the little CPU and not the big one |
| AutomatedSuite.HomogeneousIsBig | source/tools/AutomatedTestSuite.h:139-145 | on a device that is not big/little the single CPU measured is reported as big, never little |
| AutomatedSuite.LatencyLevels | source/tools/AutomatedTestSuite.h:201-202 | the light and heavy counts are a quarter and three quarters of the maximum with C division, ordered and within the maximum, and distinct and positive from a maximum of 4 |
| AutomatedSuite.MeasureLatency | source/tools/AutomatedTestSuite.h:195-242 | the light, heavy and mixed runs are made in that order on the given CPU, stopping after the first that fails; every run before the last made succeeded and the error returned is the last run's |
| AutomatedSuite.LatencyPlan | source/tools/AutomatedTestSuite.h:76-84 | latency is measured on the little CPU first when big/little and always last on the big CPU, each against its maximum truncated to an integer |
| AutomatedSuite.HomogeneousPlan | source/tools/AutomatedTestSuite.h:76-84 | on a device with one CPU index measured, latency is measured once, on that CPU |
| AutomatedSuite.LatencyRuns | source/tools/AutomatedTestSuite.h:76-84 | once the roles are set, every latency run is on the little CPU (the first three, when big/little) or the big CPU, and without an error three runs are made per CPU in the plan |
| AutomatedSuite.RunTest | source/tools/AutomatedTestSuite.h:72-87 | as written: an error on the low CPU ends the suite with no latency runs; otherwise the latency runs follow the roles the as-written role test assigns |
| AutomatedSuite.RunTestCorrected | source/tools/AutomatedTestSuite.h:72-87 | corrected: the same suite with the latency runs following the roles of the corrected role test |
| AutomatedSuite.LatencyOrderSwapped | source/tools/AutomatedTestSuite.h:72-134 | on eight CPUs with CPU 2 at 100 voices and CPU 6 at 200, the suite as written measures latency on CPU 6 at 50 and 150 voices first and on CPU 2 at 25 and 75 last; corrected, CPU 2 comes first |
| UtilClamp.NewBehavior | source/tools/UtilClampAudioBehaviorSimple.h:37-41 | the controller keeps the sample rate and start time; the start clamp is stored as an `int16_t`, so a value in [0, 1024] is kept exactly |
| UtilClamp.Decrease | source/tools/UtilClampAudioBehaviorSimple.h:71-74 | the clamp drops by 30 and never below 0; without 16-bit overflow it is exactly max(cur - 30, 0) |
| UtilClamp.Increase | source/tools/UtilClampAudioBehaviorSimple.h:76-79 | the clamp rises by 1024 and never above 1024; without 16-bit overflow it is exactly min(cur + 1024, 1024), so from any in-range value it jumps straight to 1024 |
| UtilClamp.ProcessTiming | source/tools/UtilClampAudioBehaviorSimple.h:43-63 | within 300 ms of the start the clamp is returned unchanged; afterwards a callback shorter than half its audio duration decreases it, one longer than 95% increases it, any other leaves it; only the clamp changes and it is what is returned; an in-range clamp stays in [0, 1024] |
| UtilClamp.StaysInRange | source/tools/UtilClampAudioBehaviorSimple.h:43-79 | a clamp that starts in [0, 1024] stays there over any run of callbacks |
| UtilClamp.LightRunsDown | source/tools/UtilClampAudioBehaviorSimple.h:56-74 | after k light callbacks past the start interval an in-range clamp is exactly max(cur - 30k, 0) |
| CommandLine.CharAt | source/tools/SynthMarkCommand.cpp:129-132 | reading position i of an argument gives that character inside the text and the terminating NUL at or past its end |
| CommandLine.From | source/tools/SynthMarkCommand.cpp:133-135 | the text after a switch letter is the rest of the argument, and empty when the argument is shorter |
| CommandLine.Parse | source/tools/SynthMarkCommand.cpp:128-216 | with no arguments left the loop finishes with the settings it has |
| CommandLine.ParseAppend | source/tools/SynthMarkCommand.cpp:128-216 | the loop over two argument lists in a row is the loop over the first, then, unless it exited, the loop over the second from the settings it reached |
| CommandLine.ParseKeeps | source/tools/SynthMarkCommand.cpp:128-216 | a property of the settings that every accepted argument keeps still holds when the loop finishes |
| CommandLine.ParseExitCodes | source/tools/SynthMarkCommand.cpp:128-216 | the loop can only exit with a code that some single argument can exit with |
| CommandLine.ParseExitsAt | source/tools/SynthMarkCommand.cpp:128-216 | an argument that exits, once the loop reaches it, decides the loop's exit code whatever follows it |
| SynthMarkCommand.StringToPositiveInteger | source/tools/SynthMarkCommand.cpp:89-98 | a reading is -1 when strtol reported an error or stopped at a printable character; a non-negative reading is exactly strtol's value; a leading minus sign is not rejected by itself |
| SynthMarkCommand.ModeOf | source/tools/SynthMarkCommand.cpp:158-171 | `-m` gives the random mode exactly for 'r', the linear mode exactly for 'l', and the switching mode otherwise; it never leaves the mode undefined |
| SynthMarkCommand.SetNumber | source/tools/SynthMarkCommand.cpp:133-199 | storing a non-negative reading into a switch's field keeps the settings sane |
| SynthMarkCommand.ApplyArg | source/tools/SynthMarkCommand.cpp:131-215 | one argument exits with 0 exactly for `-h`/`-?`, with 1 for a non-switch or an unknown switch, and a numeric switch is accepted exactly when its reading is non-negative; `-m` and `-t` store the character after the switch |
| SynthMarkCommand.ApplyArgKeepsSane | source/tools/SynthMarkCommand.cpp:131-215 | an accepted argument keeps every number non-negative and the audio thread tied to a positive audio level |
| SynthMarkCommand.ParsedSane | source/tools/SynthMarkCommand.cpp:128-216 | settings that survive the whole loop are sane: no negative reading gets through |
| SynthMarkCommand.ParseExitsOkOrError | source/tools/SynthMarkCommand.cpp:201-215 | the argument loop only exits with 0 or 1 |
| SynthMarkCommand.FirstProblem | source/tools/SynthMarkCommand.cpp:217-269 | the first check fails on the CPU percentage exactly when it is outside 1..100, and a burst problem means fewer than 4 frames |
| SynthMarkCommand.NoProblemIffValid | source/tools/SynthMarkCommand.cpp:217-269 | the chain of checks passes exactly for settings meeting every documented rule (percentage, voice counts, high count only for the l/j/s/c tests, mode only with a high count, seconds, delay, burst, SCHED_FIFO for the audio thread and util clamp) |
| SynthMarkCommand.TestFor | source/tools/SynthMarkCommand.cpp:284-351 | a harness is chosen exactly for the seven known test codes; any other code falls to the error branch |
| SynthMarkCommand.CodeOf | source/tools/SynthMarkCommand.cpp:284-351 | every harness has one of the known test codes |
| SynthMarkCommand.TestCodesRoundTrip | source/tools/SynthMarkCommand.cpp:284-351 | test codes and harnesses correspond one to one in both directions |
| SynthMarkCommand.Setup | source/tools/SynthMarkCommand.cpp:284-356 | every harness ends with the voices, note-on delay and thread-type setters |
| SynthMarkCommand.SetupSelects | source/tools/SynthMarkCommand.cpp:284-356 | the high count reaches exactly LatencyMark, JitterMark, ClockRamp and the utilisation series, the mode exactly the first three, the CPU target only VoiceMark, the initial bursts only LatencyMark |
| SynthMarkCommand.Command | source/tools/SynthMarkCommand.cpp:100-356 | the command exits with 0 exactly when the loop met a help switch, exits only with 0 or 1, and launches exactly when the loop finished with valid settings and a known test code; the launched harness matches the code, uses the real sink only at the output audio level and gets the high count whenever one was given |
| SynthMarkCommand.HelpExitsZero | source/tools/SynthMarkCommand.cpp:201-204 | a help switch reached by the loop ends the command with 0 whatever arguments follow |
| SynthMarkCommand.NegativeExitsOne | source/tools/SynthMarkCommand.cpp:89-98 | a numeric switch whose text reads negative or invalid ends the command with 1 once reached |
| SynthMarkApp.ApplyArg | apps/synthmark.cpp:88-150 | one argument exits only with 0 or 1, and with 0 exactly for `-h`/`-?` |
| SynthMarkApp.ApplyArgAccepts | apps/synthmark.cpp:88-150 | an argument is accepted exactly when it is a known switch other than help, and a numeric switch stores whatever `atoi` makes of its text |
| SynthMarkApp.NumVoicesSwitch | apps/synthmark.cpp:101-103 | `-n` followed by any text stores that text's `atoi` reading as the voice count and never exits |
| SynthMarkApp.TrailingTextIgnored | apps/synthmark.cpp:101-103 | `-n` with digits followed by other text stores the digits' value and ignores the rest |
| SynthMarkApp.NoProblemIffValid | apps/synthmark.cpp:151-191 | the chain of checks passes exactly for settings meeting every rule: percentage, voice counts, a high count only for LatencyMark, mode only with a high count, seconds, delay inside the run, bursts of at least 4 frames |
| SynthMarkApp.TestFor | apps/synthmark.cpp:196-234 | a harness is chosen exactly for the five codes v, l, j, u and a, and it is the same harness the `synthmark` command picks for that code |
| SynthMarkApp.Setup | apps/synthmark.cpp:196-239 | every harness ends with the voices, note-on delay and thread-type setters |
| SynthMarkApp.SetupSelects | apps/synthmark.cpp:196-239 | the high count and the voices mode reach LatencyMark and no other test |
| SynthMarkApp.Command | apps/synthmark.cpp:66-239 | the tool exits only with 0 or 1 and launches exactly when the loop finished with valid settings and one of its five test codes; the harness matches the code, and a high voice count is only ever launched with LatencyMark |
| RecordOneApp.ApplyArg | apps/sm_record_one.cpp:53-78 | one argument exits with 0 exactly for `-h`/`-?`, exits only with 0 or 1, and a non-switch argument is accepted and becomes the file name |
| RecordOneApp.LastNameWins | apps/sm_record_one.cpp:53-78 | when the loop runs to the end the file name is the last non-switch argument, or the one before the loop if there is none |
| RecordOneApp.Command | apps/sm_record_one.cpp:36-92 | the tool exits only with 0 or 1 and records exactly when the loop finished with 1 to 512 voices and 1 to 60 seconds, into the last non-switch argument or the default file name |
| RecordOneApp.ConvertSample | apps/sm_record_one.cpp:102-114 | a converted sample always lies in the 16-bit range, so the final cast never wraps; inside that range it is the truncated scaled value, above it the maximum and below it the minimum |
| RecordOneApp.InRangeNotClipped | apps/sm_record_one.cpp:106-108 | a synthesizer sample between -1 and 1 is scaled and truncated without any clipping |
| RecordOneApp.RenderLoop | apps/sm_record_one.cpp:92-125 | the loop renders whole 8-frame blocks until the frame count reaches rate times seconds, overshooting by less than one block; the notes are switched off at most once, exactly when the run goes past frame 30008, and then at frame 30008 |
| LatencyApp.ApplyArg | apps/sm_hs_latency.cpp:50-78 | a non-switch argument changes nothing; one argument exits with 0 exactly for `-h`/`-?` and with 1 exactly for a switch other than n, r, s, b, h and ? |
| LatencyApp.NonSwitchesSkipped | apps/sm_hs_latency.cpp:75-77 | dropping arguments that are not switches from the front of the list changes nothing about the loop |
| LatencyApp.Launch | apps/sm_hs_latency.cpp:96-97 | the harness is opened with the parsed rate and burst, two channels and 8-frame renders, and measured for the parsed seconds |
| LatencyApp.Command | apps/sm_hs_latency.cpp:38-98 | the tool exits only with 0 or 1 and launches exactly when the loop finished with 1 to 512 voices, at least one second and bursts of at least 4 frames |
| LatencyApp.NumVoicesIgnored | apps/sm_hs_latency.cpp:79-97 | the voice count is checked but not handed on: changing it between valid counts launches the same run |
| LatencyApp.SmallBurstRejectedByOpen | apps/sm_hs_latency.cpp:89-96 | a burst of 4 to 7 frames passes the tool's own check, yet the harness's open rejects it and changes nothing |
| Measure50App.DefaultPercentCpu | apps/sm_hs_measure50_app.cpp:28 | the default CPU target, 100 times the engine's 0.5 target load truncated, is 50 percent |
| Measure50App.ApplyArg | apps/sm_hs_measure50_app.cpp:51-79 | a non-switch argument changes nothing; one argument exits with 0 exactly for `-h`/`-?` and with 1 exactly for a switch other than p, i, s, b, h and ? |
| Measure50App.Launch | apps/sm_hs_measure50_app.cpp:98-102 | the harness is opened at 48000 Hz with two channels, 8-frame renders and the parsed burst, given the target load percent/100 and the initial voice count, and measured for the parsed seconds; valid settings give a load in (0, 1] |
| Measure50App.Command | apps/sm_hs_measure50_app.cpp:39-103 | the tool exits only with 0 or 1 and launches exactly when the loop finished with 1 to 100 percent, at least one second and bursts of at least 4 frames |
| Measure50App.InitialCountUnchecked | apps/sm_hs_measure50_app.cpp:80-101 | the initial voice count is never checked: any value, negative included, passes the checks and is handed to the harness as given |
| Measure50App.SmallBurstRejectedByOpen | apps/sm_hs_measure50_app.cpp:90-99 | a burst of 4 to 7 frames passes the tool's own check, yet the harness's open rejects it and changes nothing |
| Monsoon.Frame | scripts/android/autopower/monsoon.py:270-276 | a command is framed exactly when its length fits a length byte: the length byte counts the body plus the checksum, the body follows unchanged, and the checksum byte closes the frame |
| Monsoon.ReadPacket | scripts/android/autopower/monsoon.py:279-297 | a read consumes a prefix of the port's bytes; no byte is a timeout, a zero length byte the empty packet, a short read a failure, and a packet that comes back is the body before a checksum byte that matches it |
| Monsoon.ReadFrame | scripts/android/autopower/monsoon.py:270-297 | reading back a framed command gives the body that was framed and leaves the following bytes on the port |
| Monsoon.BadChecksumRefused | scripts/android/autopower/monsoon.py:293-296 | a frame whose last byte is not the checksum of its body is refused |
| Monsoon.SetUsbPassthrough | scripts/android/autopower/monsoon.py:191-197 | a mode is accepted exactly when it is off, on or auto; an accepted mode is remembered and sent as the framed command 01 10 mode, a refused one raises and sends nothing |
| Monsoon.PassthroughIsLastAccepted | scripts/android/autopower/monsoon.py:191-202 | after a series of requests the mode read back is the last accepted one, so it stays off, on or auto |
| Monsoon.GroupCount | scripts/android/autopower/monsoon.py:227-228 | the sample groups are exactly the 8-byte slices starting at 4, 12, 20, ... that `range(4, len - 8, 8)` visits |
| Monsoon.WholeGroups | scripts/android/autopower/monsoon.py:227-228 | a packet of a 4-byte header, n groups and a trailing byte yields exactly its n groups |
| Monsoon.Receive | scripts/android/autopower/monsoon.py:216-232 | no packet or an empty one ends the collection, a short packet or one whose type byte is outside 0x20..0x2F is dropped with the device unchanged; a data packet reports a gap exactly when a number was seen before and this one does not follow it modulo 16, becomes the last number seen, and is cut into its 8-byte groups |
| Monsoon.InOrderNoGaps | scripts/android/autopower/monsoon.py:230-232 | packets whose sequence numbers follow on modulo 16 never report a lost packet |
| Monsoon.LostPacketReported | scripts/android/autopower/monsoon.py:230-232 | once a number has been seen, a packet that skips exactly one number is reported |
| Monsoon.NeedIsMinimal | scripts/android/autopower/monsoon.py:378 | the number of inputs to consume is the least count that brings the accumulator to the native rate |
| Monsoon.ConsumeStep | scripts/android/autopower/monsoon.py:378-403 | one step consumes the fewest inputs that reach the native rate, emits at least one output, and leaves the accumulator in [0, native rate) equal to the old one plus consumed x hz minus emitted x native rate |
| Monsoon.Resample | scripts/android/autopower/monsoon.py:358-411 | the accumulator always equals consumed x hz minus emitted x native rate and stays in [0, native rate); the loop stops only when enough outputs were emitted or the data ran out; it never emits more than requested when the output rate is at most the native one, and otherwise overshoots by less than one step |
| Monsoon.OvershootBound | scripts/android/autopower/monsoon.py:376-402 | a step begun below the request ends less than one step's outputs past it, and not past it at all when the output rate is at most the native rate |

## Left out

- Concurrency and delivery in the app: AsyncTask scheduling, broadcast fan-out, the wake-lock service, activity receivers and all view and layout code. Each task is modelled as its own sequential trace.
- Real audio and OS back-ends: `RealAudioSink.h`, OpenSL ES, AAudio, PortAudio, `AdpfWrapper`, `UtilClampController.h` and `scheddl.h`. These are foreign APIs, threads and raw syscalls.
- `CustomHostCpuManager.h` and `UtilClampAudioBehavior.h`: floating-point smoothing and regression, SCHED_DEADLINE syscalls and wall-clock read-back.
- The synthesizer and its rendered samples, the WAV writer, `LogTool` and all printing. The harness runs themselves are left out; their measurements and results are inputs.
- Wall-clock sleeping and thread creation. Time comes in as clock readings.
- Float rendering (`"%.3f"`, iostream doubles), the float slider mapping, Monsoon status and calibration scaling, `GetStatus`, `SetVoltage`, `SetMaxCurrent`, and the averaging and printing of resampled output.
- `autopower.py`, the PortAudio demo apps and `sm_print_pitches.cpp`. They only orchestrate or print.
- List-hold parameter internals and `setDefaultValue` are called but not defined in `Params.h`, so they are not part of this model. The JNI list accessors take the engine's list answers as an input.
- NativeLib.SelectListIndex: the list code behind `setListCurrentIndex` is not part of this model. The model takes the index as stored and read back, with no range check. The settings screen only asks for indices in [0, list size - 1].
- `UtilizationMarkHarness.h` and `JitterMarkHarness.h` only report. The first calls a `setResultMessage` that `SynthMarkResult.h` does not define.
- Common.Atoi: reads digits into an unbounded integer. An `atoi` overflow is undefined behaviour in C and is not modelled.
- RecordOneApp.ConvertSample: the float-to-`int32_t` conversion is modelled as truncation of a real. Values outside the `int32_t` range are undefined behaviour in C and are not modelled.
- RecordOneApp.RenderLoop: `frameCounter` is an `int32_t` that could overflow when rate x seconds is close to 2^31. The model counts with an unbounded integer.
- NativeLib.GetParamIntMin: on a float parameter the source reads the float's storage through an unchecked cast. The model answers 0.
- NativeLib.GetParamIntMax: the same unchecked cast on a float parameter; the model answers 0.
- NativeLib.GetParamIntValue: the same unchecked cast on a float parameter; the model answers 0.
- NativeLib.GetParamIntDefault: the same unchecked cast on a float parameter; the model answers 0.
- NativeLib.GetParamFloatMin: on an integer parameter the source reads the integer's storage through an unchecked cast. The model answers 0.0.
- NativeLib.GetParamFloatMax: the same unchecked cast on an integer parameter; the model answers 0.0.
- NativeLib.GetParamFloatValue: the same unchecked cast on an integer parameter; the model answers 0.0.
- NativeLib.GetParamFloatDefault: the same unchecked cast on an integer parameter; the model answers 0.0.
- SetParamIntValue: on a float parameter the source's unchecked cast calls the integer `setValue` on the float's storage. The model returns SUCCESS and leaves the engine unchanged.
- SetParamFloatValue: on an integer parameter the source's unchecked cast calls the float `setValue` on the integer's storage. The model returns SUCCESS and leaves the engine unchanged.
- GetValueFromInt: on a float parameter the source's unchecked cast reads the float's storage as an integer. The model answers 0.
- GetValueFromFloat: on an integer parameter the source's unchecked cast reads the integer's storage as a float. The model answers 0.0.
- FirstMatch: lower-cases the ASCII letters only. Java's `toLowerCase()` follows the default locale and all of Unicode, so under a Turkish locale "JITTER" becomes "jıtter" and no longer matches. The model assumes an English or root default locale and ASCII titles and queries.
- ExtractTestId: the same ASCII-only case folding and the same locale assumption as FirstMatch.
- DocumentedQueries: "whatever their case" holds under the model's ASCII folding, that is, under an English or root default locale.
- ParamView.ValueAsString: Java's `String.format("%d", …)` uses the default locale's digits. The model writes ASCII digits, as an English or root locale does.
- ExtractParametersFromBundle: `MainActivity.java` line 237 calls a `getParamsForTest()` without arguments, which `AppObject.java` does not define; it only has `getParamsForTest(int)`. The model reads the call as asking for the current test's parameters.
- CpuAnalyzer.MigrationPerMil: requires at least one recorded call, because `dump()` before any call divides by zero in the source. The product `1000 * mMigrationCount` is an `int32_t` that would overflow above 2147483 migrations; the model's arithmetic is unbounded.
- AudioSink.BufferSizeInBursts: requires a positive burst size. The source divides by zero when it is asked before `open` has set one.
- LatencySearch.NextBurstsToTry: the ramp-up doubles an `int32_t` power of two, which would overflow after 31 doublings. The model's power of two is unbounded, so LatencySearch.RampUpTriesPowersOfTwo holds for every length of ramp-up.
- ParamView.IntValue: Java's `Number.intValue()` on a `Float` saturates at the `int` limits and maps NaN to 0. The model truncates a real toward zero with no bound and has no NaN.
- AutomatedSuite.RunTest: models the suite as written, with the swapped roles of the Findings row below. AutomatedSuite.RunTestCorrected is the same suite with the corrected role test.
- AudioSink frame counts: the frames-written counter is 64-bit but `getFramesWritten` and `setFramesWritten` pass it as `int32_t`. The model does not truncate it.
- The JNI entry point for the test result does not exist, so `MainActivity` takes the result text as an input.
- The settings screen's float slider ignores the minimum in the source. Float sliders are not modelled.
- HostTools.SleepUntil: returns `None` when the clock readings run out. The source would keep sleeping.
- TimingAnalyzer.Reset: the source deletes the histograms without clearing the pointers, which leaves them dangling. The model sets them to `None`.
- ChangingVoice.CurrentNumVoices: requires a non-zero `high - low + 1` in random mode, because `rand() % 0` is undefined behaviour in C. It also requires the random draw to be non-negative, as `rand()` guarantees.
- UtilClamp.ProcessTiming: a sample rate of 0 divides by zero in the source. The model requires a non-zero rate.
- VoiceMark.BeforeNoteOn: a measured CPU load of 0 divides by zero in the source. The model requires a non-zero load.
- AutomatedSuite.Decide: the source's `abs` of a double may resolve to the integer overload, depending on headers. The model takes the real absolute value.
- AutomatedSuite.MeasureLowHigh: the source ignores the second VoiceMark run's return code, so the model has no error input for that run. Only the first run's error is returned.
- Monsoon.Resample: when the output rate exceeds the native rate, the loop can emit up to one step's outputs past `--samples`. The contract states this bound rather than an exact count. It also requires both rates to be positive. In the source, `--hz` is not checked and the native rate comes from the device status. `--hz 0` raises ZeroDivisionError on the first step, at `monsoon.py` line 378. A status sample rate of 0 raises ZeroDivisionError at line 388, on `sum([]) / 0`. A negative `--hz` never ends: with `--hz -1` and a native rate of 5000, the second step needs 0 samples, so the offset stays at 4998, nothing is emitted and nothing is read.
- Monsoon.ConsumeStep: requires both rates to be positive, for the same reasons as Monsoon.Resample. A rate of 0 divides by zero in the source, and a negative `--hz` gives a step that consumes and emits nothing.
- Numeric limits taken as given: the engine's `kSynthmarkMaxVoices` is 512 and `NANOS_PER_MILLISECOND` is 10^6.
- The `sm_hs_latency` and `sm_hs_measure50` tools accept bursts of 4 to 7 frames, which the harness's `open` then rejects without the tools noticing. `LatencyApp.SmallBurstRejectedByOpen` and `Measure50App.SmallBurstRejectedByOpen` state this; it is a behaviour of the tools, not a change to the model.

## Findings

| source | as written | input that shows it | evidently intended | confidence | as-written member | corrected member |
|---|---|---|---|---|---|---|
| source/tools/LatencyMarkHarness.h:75-112 | `runTest` chooses the linear search when initial bursts are set, but `searchForLowestLatency` resets to the binary search before the first try | initial bursts 5: the first candidate is 1 burst in ramp-up, not 6 in verify | a positive initial burst count starts a linear search from that count | not executed | LatencySearch.InitialBurstsIgnored | LatencySearch.RunTestStartHonoursInitialBursts |
| source/tools/AutomatedTestSuite.h:123-134 | the big/little roles are decided by comparing `mVoiceMarkMaxLittle`, still 0, with the low CPU's count, so the high CPU is always called little; `runTest` (AutomatedSuite.RunTest) then measures latency on it first | 8 CPUs, CPU 2 at 100 voices and CPU 6 at 200: CPU 6 is called little and CPU 2 big, and latency runs on CPU 6 at 50/150 voices before CPU 2 at 25/75 | the CPU with fewer voices is the little one, as the comparison's operands and the 10% difference test suggest; caveat: the field comments at lines 248 and 251 put big in the low half and little in the high half, which agrees with the as-written outcome, so the intent is less certain | not executed | AutomatedSuite.AsWrittenSwapsRoles | AutomatedSuite.LowHighRoles |
| source/tools/TestHarnessBase.h:204-215 | after `onEndMeasurement` has recorded its code, `measure` records the callback loop's result over it and returns that result | a VoiceMark run whose loop returns 0 after four beats: only three estimates are summed and `onEndMeasurement` records TOO_FEW_MEASUREMENTS, yet `measure` records and returns SUCCESS, so the utilisation series and the automated suite go on with the result | the code `onEndMeasurement` recorded reaches the result and the caller | not executed | VoiceMark.ShortRunReportedAsSuccess | VoiceMark.ShortRunMeasureFails |
| source/tools/ByteFIFO.h:79-93 | the read and write positions cut the 64-bit counter to 32 bits before `% mSize` | a 3-byte FIFO at write counter 2^32 - 1: that byte goes to position 0, and so does the next one, at counter 2^32, over the byte still unread | the position is the whole counter modulo the size | not executed | ByteFifo.TruncatedPositionsCollide | ByteFifo.RunIsFifo |

=== FILE: app_hs_latency.dfy ===
/**
 * `sm_hs_latency` (`apps/sm_hs_latency.cpp`): run LatencyMark on a virtual
 * sink. A non-switch argument only prints the usage; the voice count is
 * checked but never handed to the harness.
 */
module LatencyApp {
  import opened Common
  import opened CommandLine
  import AudioSink
  import TestHarness
  import Cmd = SynthMarkCommand

  const DEFAULT_SECONDS := 10
  const DEFAULT_FRAMES_PER_BURST := 64
  const DEFAULT_NUM_VOICES := 8
  const SAMPLES_PER_FRAME := 2

  datatype Options = Options(sampleRate: int, framesPerBurst: int, numSeconds: int, numVoices: int)

  const DEFAULT_OPTIONS := Options(AudioSink.SYNTH_SAMPLE_RATE, DEFAULT_FRAMES_PER_BURST, DEFAULT_SECONDS,
                                   DEFAULT_NUM_VOICES)

  /**
   * One argument: `-n`, `-r`, `-s` and `-b` store their `atoi` reading, a
   * help switch exits with 0 and any other switch with 1; a non-switch
   * changes nothing and the loop goes on.
   */
  function ApplyArg(o: Options, arg: string): (s: Step<Options>)
    ensures !IsSwitch(arg) ==> s == Next(o)
    ensures s.Exit? ==> s.code == Cmd.EXIT_OK || s.code == Cmd.EXIT_ERROR
    ensures s == Exit(Cmd.EXIT_OK) <==> IsSwitch(arg) && (CharAt(arg, 1) == 'h' || CharAt(arg, 1) == '?')
    ensures s == Exit(Cmd.EXIT_ERROR) <==> IsSwitch(arg) && CharAt(arg, 1) !in {'n', 'r', 's', 'b', 'h', '?'}
  {
    if !IsSwitch(arg) then Next(o)
    else
      match CharAt(arg, 1)
      case 'n' => Next(o.(numVoices := Atoi(From(arg, 2))))
      case 'r' => Next(o.(sampleRate := Atoi(From(arg, 2))))
      case 's' => Next(o.(numSeconds := Atoi(From(arg, 2))))
      case 'b' => Next(o.(framesPerBurst := Atoi(From(arg, 2))))
      case 'h' => Exit(Cmd.EXIT_OK)
      case '?' => Exit(Cmd.EXIT_OK)
      case _ => Exit(Cmd.EXIT_ERROR)
  }

  function Stepper(): (Options, string) -> Step<Options> {
    (p, arg) => ApplyArg(p, arg)
  }

  function ParseCommand(args: seq<string>): Step<Options> {
    Parse(DEFAULT_OPTIONS, args, Stepper())
  }

  /** Arguments that are not switches are skipped: dropping them changes nothing. */
  lemma {:induction false} NonSwitchesSkipped(o: Options, a: seq<string>, b: seq<string>)
    requires forall i :: 0 <= i < |a| ==> !IsSwitch(a[i])
    ensures Parse(o, a + b, Stepper()) == Parse(o, b, Stepper())
    decreases |a|
  {
    if |a| > 0 {
      assert (a + b)[0] == a[0] && (a + b)[1..] == a[1..] + b;
      NonSwitchesSkipped(o, a[1..], b);
    } else {
      assert a + b == b;
    }
  }

  /** 1 to 512 voices, at least one second, bursts of at least 4 frames. */
  predicate ValidOptions(o: Options) {
    1 <= o.numVoices <= TestHarness.MAX_VOICES && o.numSeconds >= 1 && o.framesPerBurst >= 4
  }

  /** What the harness is given: `open(rate, 2, 8, burst)` and then `measure(seconds)`. */
  datatype Run = Run(sampleRate: int, samplesPerFrame: int, framesPerRender: int, framesPerBurst: int,
                     numSeconds: int)

  function Launch(o: Options): (r: Run)
    ensures r.sampleRate == o.sampleRate && r.framesPerBurst == o.framesPerBurst && r.numSeconds == o.numSeconds
    ensures r.samplesPerFrame == SAMPLES_PER_FRAME && r.framesPerRender == TestHarness.FRAMES_PER_RENDER
  {
    Run(o.sampleRate, SAMPLES_PER_FRAME, TestHarness.FRAMES_PER_RENDER, o.framesPerBurst, o.numSeconds)
  }

  datatype Outcome = Exited(code: int) | Launched(run: Run)

  function Command(args: seq<string>): (r: Outcome)
    ensures r.Exited? ==> r.code == Cmd.EXIT_OK || r.code == Cmd.EXIT_ERROR
    ensures r.Launched? <==> ParseCommand(args).Next? && ValidOptions(ParseCommand(args).o)
    ensures r.Launched? ==> r.run == Launch(ParseCommand(args).o)
  {
    ParseExitCodes(DEFAULT_OPTIONS, args, Stepper(), {Cmd.EXIT_OK, Cmd.EXIT_ERROR});
    match ParseCommand(args)
    case Exit(c) => Exited(c)
    case Next(o) => if ValidOptions(o) then Launched(Launch(o)) else Exited(Cmd.EXIT_ERROR)
  }

  /** The voice count is checked but not passed on: any two valid counts launch the same run. */
  lemma NumVoicesIgnored(o: Options, v: int)
    requires ValidOptions(o) && 1 <= v <= TestHarness.MAX_VOICES
    ensures ValidOptions(o.(numVoices := v)) && Launch(o.(numVoices := v)) == Launch(o)
  {
  }

  /**
   * A burst of 4 to 7 frames passes the tool's check, yet the harness's
   * `open`, whose result the tool ignores, rejects it.
   */
  lemma SmallBurstRejectedByOpen(o: Options, h: TestHarness.Harness, sinkOpenResult: int)
    requires ValidOptions(o) && o.framesPerBurst < TestHarness.MIN_FRAMES_PER_BURST
    ensures TestHarness.Open(h, Launch(o).sampleRate, Launch(o).samplesPerFrame, Launch(o).framesPerRender,
                             Launch(o).framesPerBurst, sinkOpenResult) == (h, TestHarness.OPEN_ERROR)
  {
  }
}

=== FILE: app_hs_measure50.dfy ===
/**
 * `sm_hs_measure50_app` (`apps/sm_hs_measure50_app.cpp`): run VoiceMark at a
 * target CPU load on a virtual sink. A non-switch argument only prints the
 * usage; the initial voice count is passed on without any check.
 */
module Measure50App {
  import opened Common
  import opened CommandLine
  import AudioSink
  import TestHarness
  import Cmd = SynthMarkCommand

  const DEFAULT_SECONDS := 10
  const DEFAULT_FRAMES_PER_BURST := 64
  const DEFAULT_INITIAL_VOICES := 10
  /** The engine's default target load. */
  const TARGET_CPU_LOAD := 0.5
  const SAMPLES_PER_FRAME := 2

  /** `(int)(100 * SYNTHMARK_TARGET_CPU_LOAD)`. */
  function DefaultPercentCpu(): (p: int)
    ensures p == 50
  {
    TruncReal(100.0 * TARGET_CPU_LOAD)
  }

  datatype Options = Options(percentCpu: int, framesPerBurst: int, numSeconds: int, initialVoiceCount: int)

  function DefaultOptions(): Options {
    Options(DefaultPercentCpu(), DEFAULT_FRAMES_PER_BURST, DEFAULT_SECONDS, DEFAULT_INITIAL_VOICES)
  }

  /**
   * One argument: `-p`, `-i`, `-s` and `-b` store their `atoi` reading, a
   * help switch exits with 0 and any other switch with 1; a non-switch
   * changes nothing and the loop goes on.
   */
  function ApplyArg(o: Options, arg: string): (s: Step<Options>)
    ensures !IsSwitch(arg) ==> s == Next(o)
    ensures s.Exit? ==> s.code == Cmd.EXIT_OK || s.code == Cmd.EXIT_ERROR
    ensures s == Exit(Cmd.EXIT_OK) <==> IsSwitch(arg) && (CharAt(arg, 1) == 'h' || CharAt(arg, 1) == '?')
    ensures s == Exit(Cmd.EXIT_ERROR) <==> IsSwitch(arg) && CharAt(arg, 1) !in {'p', 'i', 's', 'b', 'h', '?'}
  {
    if !IsSwitch(arg) then Next(o)
    else
      match CharAt(arg, 1)
      case 'p' => Next(o.(percentCpu := Atoi(From(arg, 2))))
      case 'i' => Next(o.(initialVoiceCount := Atoi(From(arg, 2))))
      case 's' => Next(o.(numSeconds := Atoi(From(arg, 2))))
      case 'b' => Next(o.(framesPerBurst := Atoi(From(arg, 2))))
      case 'h' => Exit(Cmd.EXIT_OK)
      case '?' => Exit(Cmd.EXIT_OK)
      case _ => Exit(Cmd.EXIT_ERROR)
  }

  function Stepper(): (Options, string) -> Step<Options> {
    (p, arg) => ApplyArg(p, arg)
  }

  function ParseCommand(args: seq<string>): Step<Options> {
    Parse(DefaultOptions(), args, Stepper())
  }

  /** A CPU target of 1 to 100 percent, at least one second, bursts of at least 4 frames. */
  predicate ValidOptions(o: Options) {
    1 <= o.percentCpu <= 100 && o.numSeconds >= 1 && o.framesPerBurst >= 4
  }

  /**
   * What the harness is given: `open(48000, 2, 8, burst)`, the target load
   * `percent * 0.01`, the initial voice count, then `measure(seconds)`.
   */
  datatype Run = Run(sampleRate: int, samplesPerFrame: int, framesPerRender: int, framesPerBurst: int,
                     targetCpuLoad: real, initialVoiceCount: int, numSeconds: int)

  function Launch(o: Options): (r: Run)
    ensures r.sampleRate == AudioSink.SYNTH_SAMPLE_RATE && r.samplesPerFrame == SAMPLES_PER_FRAME
    ensures r.framesPerRender == TestHarness.FRAMES_PER_RENDER && r.framesPerBurst == o.framesPerBurst
    ensures r.targetCpuLoad == o.percentCpu as real * 0.01 && r.initialVoiceCount == o.initialVoiceCount
    ensures r.numSeconds == o.numSeconds
    ensures ValidOptions(o) ==> 0.0 < r.targetCpuLoad <= 1.0
  {
    Run(AudioSink.SYNTH_SAMPLE_RATE, SAMPLES_PER_FRAME, TestHarness.FRAMES_PER_RENDER, o.framesPerBurst,
        o.percentCpu as real * 0.01, o.initialVoiceCount, o.numSeconds)
  }

  datatype Outcome = Exited(code: int) | Launched(run: Run)

  function Command(args: seq<string>): (r: Outcome)
    ensures r.Exited? ==> r.code == Cmd.EXIT_OK || r.code == Cmd.EXIT_ERROR
    ensures r.Launched? <==> ParseCommand(args).Next? && ValidOptions(ParseCommand(args).o)
    ensures r.Launched? ==> r.run == Launch(ParseCommand(args).o)
  {
    ParseExitCodes(DefaultOptions(), args, Stepper(), {Cmd.EXIT_OK, Cmd.EXIT_ERROR});
    match ParseCommand(args)
    case Exit(c) => Exited(c)
    case Next(o) => if ValidOptions(o) then Launched(Launch(o)) else Exited(Cmd.EXIT_ERROR)
  }

  /** The initial voice count is not checked: any count, even a negative one, is launched as given. */
  lemma InitialCountUnchecked(o: Options, v: int)
    requires ValidOptions(o)
    ensures ValidOptions(o.(initialVoiceCount := v))
    ensures Launch(o.(initialVoiceCount := v)).initialVoiceCount == v
  {
  }

  /**
   * A burst of 4 to 7 frames passes the tool's check, yet the harness's
   * `open`, whose result the tool ignores, rejects it.
   */
  lemma SmallBurstRejectedByOpen(o: Options, h: TestHarness.Harness, sinkOpenResult: int)
    requires ValidOptions(o) && o.framesPerBurst < TestHarness.MIN_FRAMES_PER_BURST
    ensures TestHarness.Open(h, Launch(o).sampleRate, Launch(o).samplesPerFrame, Launch(o).framesPerRender,
                             Launch(o).framesPerBurst, sinkOpenResult) == (h, TestHarness.OPEN_ERROR)
  {
  }
}

=== FILE: app_object.dfy ===
/**
 * The app-wide orchestrator (`AppObject.java`): parameter views for a test,
 * resetting a test's settings, the `running` flag, and the two background
 * tasks a test start launches, each modelled as the sequential list of
 * events its body produces.
 *
 * Task scheduling, broadcast delivery and the wake-lock service are platform
 * code; the engine's answers while a test runs (progress, status, the result
 * text) are inputs.
 */
module AppObject {
  import opened Common
  import NativeTest
  import NativeLib
  import ParamView

  /** `NATIVETEST_STATUS_RUNNING`, copied into the app. */
  const NATIVETEST_STATUS_RUNNING := 2

  const NOTIFICATION_TEST_STARTED := 1
  const NOTIFICATION_TEST_UPDATE := 2
  const NOTIFICATION_TEST_COMPLETED := 3
  const NOTIFICATION_TEST_SHORT_UPDATE := 4

  const BUSY_MESSAGE := "Can't start test when another test is running"

  /** A broadcast the app posts to its activities. */
  datatype Notification =
    | TestStarted(testId: int)
    | TestUpdate(testId: int, message: string)
    | TestCompleted(testId: int)
    | TestShortUpdate(testId: int, message: string)

  function NotificationType(n: Notification): (t: int)
    ensures 1 <= t <= 4
  {
    match n
    case TestStarted(_) => NOTIFICATION_TEST_STARTED
    case TestUpdate(_, _) => NOTIFICATION_TEST_UPDATE
    case TestCompleted(_) => NOTIFICATION_TEST_COMPLETED
    case TestShortUpdate(_, _) => NOTIFICATION_TEST_SHORT_UPDATE
  }

  /** One observable step of a task body. */
  datatype Event =
    | SetRunning(on: bool)
    | Post(n: Notification)
    | NativeInit(testId: int)
    | NativeRun
    | WakeLockAcquire
    | WakeLockRelease

  datatype Task = LaunchRun(testId: int) | LaunchProgress(testId: int)

  /** One poll of the engine by the progress task. */
  datatype Poll = Poll(progress: int, status: int)

  /** The app's state: the engine handle, the selected test and the `running` flag. */
  datatype App = App(handle: NativeLib.Handle, ls: NativeLib.ListSide, currentTestId: int, running: bool)

  /** A fresh app: a new engine, no selected test, nothing running. */
  function NewApp(handle: NativeLib.Handle, ls: NativeLib.ListSide): (a: App)
    ensures a.currentTestId == -1 && !a.running && a.handle == handle
  {
    App(handle, ls, -1, false)
  }

  /** The `running` flag after a sequence of events, starting from `start`. */
  function RunningAfter(start: bool, es: seq<Event>): bool
    decreases |es|
  {
    if |es| == 0 then start
    else if es[|es| - 1].SetRunning? then es[|es| - 1].on
    else RunningAfter(start, es[..|es| - 1])
  }

  /** `getParamsForTest`: one view per parameter the engine reports, view i for index i. */
  method GetParamsForTest(a: App, testId: int) returns (views: seq<ParamView.View>)
    ensures |views| == NativeLib.GetParamCount(a.handle, testId)
    ensures forall i :: 0 <= i < |views| ==>
              views[i].testId == testId && views[i].paramId == i
              && views[i] == ParamView.NewView(a.handle, a.ls, testId, i)
  {
    var paramCount := NativeLib.GetParamCount(a.handle, testId);
    views := [];
    var i := 0;
    while i < paramCount
      invariant 0 <= i && (paramCount >= 0 ==> i <= paramCount)
      invariant |views| == i
      invariant forall k :: 0 <= k < i ==> views[k] == ParamView.NewView(a.handle, a.ls, testId, k)
    {
      views := views + [ParamView.NewView(a.handle, a.ls, testId, i)];
      i := i + 1;
    }
  }

  /**
   * `resetSettings`: `resetParamValue(testId, i)` for i = 0, 1, ... up to the
   * reported count, in order, ignoring the codes. Every call addresses an
   * existing parameter, so every code is SUCCESS.
   */
  method ResetSettings(a: App, testId: int) returns (calls: seq<int>, codes: seq<int>)
    ensures |calls| == |codes| == NativeLib.GetParamCount(a.handle, testId)
    ensures forall i :: 0 <= i < |calls| ==> calls[i] == i
    ensures forall i :: 0 <= i < |codes| ==> codes[i] == NativeTest.SUCCESS
  {
    var paramCount := NativeLib.GetParamCount(a.handle, testId);
    calls, codes := [], [];
    var i := 0;
    while i < paramCount
      invariant 0 <= i && (paramCount >= 0 ==> i <= paramCount)
      invariant |calls| == |codes| == i
      invariant forall k :: 0 <= k < i ==> calls[k] == k && codes[k] == NativeTest.SUCCESS
    {
      NativeLib.ParamAtIffBelowCount(a.handle, testId, i);
      calls := calls + [i];
      codes := codes + [NativeLib.ResetParamValue(a.handle, testId, i)];
      i := i + 1;
    }
  }

  /**
   * `startTest` with `postTestUpdate`: when a test is already running, one
   * Update with the busy message is posted. Both tasks are launched either way.
   */
  function StartTest(running: bool, testId: int): (r: (seq<Notification>, seq<Task>))
    ensures r.1 == [LaunchRun(testId), LaunchProgress(testId)]
    ensures running ==> r.0 == [TestUpdate(testId, BUSY_MESSAGE)]
    ensures !running ==> r.0 == []
  {
    (if running then [TestUpdate(testId, BUSY_MESSAGE)] else [],
     [LaunchRun(testId), LaunchProgress(testId)])
  }

  /** The body of the run task followed by its `onPostExecute`. */
  function RunTaskTrace(testId: int, result: string): seq<Event> {
    [SetRunning(true), Post(TestStarted(testId)), NativeInit(testId),
     Post(TestUpdate(testId, "Test inited")), NativeRun, Post(TestUpdate(testId, result)),
     SetRunning(false),
     Post(TestCompleted(testId)), SetRunning(false)]
  }

  /**
   * The run task: its trace, and the engine after `testInit` then `testRun`.
   * The result text comes from a `testResult` entry point that the native
   * library does not define, so it is an input.
   */
  function RunTask(h: NativeLib.Handle, testId: int, result: string): (r: (NativeLib.Handle, seq<Event>))
    ensures r.1 == RunTaskTrace(testId, result)
    ensures h.Some? ==> r.0.Some? && r.0.value.status == NativeTest.STATUS_COMPLETED
                        && r.0.value.current == testId
    ensures h.None? ==> r.0.None?
  {
    var h1 := NativeLib.TestInit(h, testId).0;
    (NativeLib.TestRun(h1).0, RunTaskTrace(testId, result))
  }

  /**
   * The run task raises the `running` flag before anything else and holds it
   * up to its result Update; once the task and `onPostExecute` are done it is
   * down, whatever it was before.
   */
  lemma RunTaskFlag(start: bool, testId: int, result: string)
    ensures var t := RunTaskTrace(testId, result);
            RunningAfter(start, t) == false
            && (forall k :: 1 <= k <= 6 ==> RunningAfter(start, t[..k]))
            && t[0] == SetRunning(true) && t[|t| - 2] == Post(TestCompleted(testId))
  {
    var t := RunTaskTrace(testId, result);
    forall k | 1 <= k <= 6
      ensures RunningAfter(start, t[..k])
    {
      RaisedUntilLowered(start, t, k);
    }
  }

  /**
   * A trace that starts by raising the flag keeps it up over every prefix in
   * which no later event sets it.
   */
  lemma {:induction false} RaisedUntilLowered(start: bool, es: seq<Event>, k: int)
    requires 1 <= k <= |es| && es[0] == SetRunning(true)
    requires forall j :: 1 <= j < k ==> !es[j].SetRunning?
    ensures RunningAfter(start, es[..k])
    decreases k
  {
    if k > 1 {
      assert es[..k][..k - 1] == es[..k - 1];
      RaisedUntilLowered(start, es, k - 1);
    }
  }

  /** Index of the first poll that no longer reports RUNNING, or the number of polls. */
  function FirstStop(polls: seq<Poll>): (k: nat)
    ensures k <= |polls|
    ensures k < |polls| ==> polls[k].status != NATIVETEST_STATUS_RUNNING
    ensures forall j :: 0 <= j < k ==> polls[j].status == NATIVETEST_STATUS_RUNNING
  {
    if |polls| == 0 then 0
    else if polls[0].status != NATIVETEST_STATUS_RUNNING then 0
    else 1 + FirstStop(polls[1..])
  }

  /**
   * The progress task over the engine answers `polls`: the wake lock is taken,
   * then each poll posts the decimal progress as a ShortUpdate, until the first
   * poll whose status is not RUNNING (included); a null handle ends the loop at
   * once. `finished` is false when the polls run out first, the task then still
   * polling; a finished task releases the wake lock and posts "Done".
   */
  method ProgressTask(h: NativeLib.Handle, testId: int, polls: seq<Poll>)
    returns (events: seq<Event>, finished: bool)
    ensures finished <==> h.None? || FirstStop(polls) < |polls|
    ensures |events| >= 1 && events[0] == WakeLockAcquire
    ensures h.None? ==> events == [WakeLockAcquire, WakeLockRelease, Post(TestShortUpdate(testId, "Done"))]
    ensures h.Some? ==>
              var n := if finished then FirstStop(polls) + 1 else |polls|;
              |events| == 1 + n + (if finished then 2 else 0)
              && (forall k :: 0 <= k < n ==>
                    events[1 + k] == Post(TestShortUpdate(testId, IntToString(polls[k].progress))))
    ensures finished ==> events[|events| - 2] == WakeLockRelease
                         && events[|events| - 1] == Post(TestShortUpdate(testId, "Done"))
  {
    events := [WakeLockAcquire];
    var running := true;
    var i := 0;
    ghost var stop := FirstStop(polls);
    while running && (h.None? || i < |polls|)
      invariant 0 <= i <= |polls|
      invariant h.None? ==> events == [WakeLockAcquire] && i == 0
      invariant h.Some? ==> i <= stop + 1
      invariant h.Some? ==> (running <==> i <= stop)
      invariant |events| == 1 + i && events[0] == WakeLockAcquire
      invariant forall k :: 0 <= k < i ==>
                  events[1 + k] == Post(TestShortUpdate(testId, IntToString(polls[k].progress)))
      invariant !running ==> h.None? || stop < |polls|
      decreases |polls| - i, running
    {
      if h.Some? {
        var p := polls[i];
        ghost var before := events;
        events := events + [Post(TestShortUpdate(testId, IntToString(p.progress)))];
        assert forall k :: 0 <= k < |before| ==> events[k] == before[k];
        if p.status != NATIVETEST_STATUS_RUNNING {
          assert i == stop;
          running := false;
        } else {
          assert i != stop;
        }
        i := i + 1;
      } else {
        running := false;
      }
    }
    finished := !running;
    if finished {
      events := events + [WakeLockRelease, Post(TestShortUpdate(testId, "Done"))];
    }
  }
}

=== FILE: app_record_one.dfy ===
/**
 * `sm_record_one` (`apps/sm_record_one.cpp`): render one synthesizer setting
 * to a WAV file. The synthesizer's output samples and the WAV writer are
 * left out; what is modelled is the argument loop, the checks, the float to
 * `int16_t` conversion and the frame loop with its single notes-off.
 */
module RecordOneApp {
  import opened Common
  import opened CommandLine
  import AudioSink
  import TestHarness
  import Cmd = SynthMarkCommand

  const MAX_SECONDS := 60
  const DEFAULT_SECONDS := 2
  const DEFAULT_FILENAME := "synthmark_voice.wav"
  /** The frame after which the notes are switched off. */
  const NOTES_OFF_AFTER_FRAME := 30000
  const MIN_SAMPLE := -32768
  const MAX_SAMPLE := 32767

  datatype Options = Options(filename: string, numSeconds: int, sampleRate: int, numVoices: int)

  const DEFAULT_OPTIONS := Options(DEFAULT_FILENAME, DEFAULT_SECONDS, AudioSink.SYNTH_SAMPLE_RATE, 1)

  /**
   * One argument: `-n`, `-r` and `-s` store their `atoi` reading, a help
   * switch exits with 0 and any other switch with 1; an argument that is not
   * a switch becomes the file name.
   */
  function ApplyArg(o: Options, arg: string): (s: Step<Options>)
    ensures !IsSwitch(arg) ==> s == Next(o.(filename := arg))
    ensures s.Exit? ==> s.code == Cmd.EXIT_OK || s.code == Cmd.EXIT_ERROR
    ensures s == Exit(Cmd.EXIT_OK) <==> IsSwitch(arg) && (CharAt(arg, 1) == 'h' || CharAt(arg, 1) == '?')
    ensures s.Next? ==> s.o.filename == (if IsSwitch(arg) then o.filename else arg)
  {
    if !IsSwitch(arg) then Next(o.(filename := arg))
    else
      match CharAt(arg, 1)
      case 'n' => Next(o.(numVoices := Atoi(From(arg, 2))))
      case 'r' => Next(o.(sampleRate := Atoi(From(arg, 2))))
      case 's' => Next(o.(numSeconds := Atoi(From(arg, 2))))
      case 'h' => Exit(Cmd.EXIT_OK)
      case '?' => Exit(Cmd.EXIT_OK)
      case _ => Exit(Cmd.EXIT_ERROR)
  }

  function Stepper(): (Options, string) -> Step<Options> {
    (p, arg) => ApplyArg(p, arg)
  }

  function ParseCommand(args: seq<string>): Step<Options> {
    Parse(DEFAULT_OPTIONS, args, Stepper())
  }

  /** The last argument that is not a switch, or `name` if there is none. */
  function LastName(args: seq<string>, name: string): string
    decreases |args|
  {
    if |args| == 0 then name
    else LastName(args[1..], if IsSwitch(args[0]) then name else args[0])
  }

  /** When the loop runs to the end, the file name is the last non-switch argument: the last one wins. */
  lemma {:induction false} LastNameWins(o: Options, args: seq<string>)
    ensures Parse(o, args, Stepper()).Next? ==> Parse(o, args, Stepper()).o.filename == LastName(args, o.filename)
    decreases |args|
  {
    if |args| > 0 {
      var s := Stepper()(o, args[0]);
      if s.Next? {
        LastNameWins(s.o, args[1..]);
      }
    }
  }

  /** 1 to 512 voices and 1 to 60 seconds. */
  predicate ValidOptions(o: Options) {
    1 <= o.numVoices <= TestHarness.MAX_VOICES && 1 <= o.numSeconds <= MAX_SECONDS
  }

  /** How a run ends before the WAV file: an exit code, or the settings it records with. */
  datatype Outcome = Exited(code: int) | Recording(o: Options)

  /** `main` up to the recording: the argument loop, then the voice and duration checks. */
  function Command(args: seq<string>): (r: Outcome)
    ensures r.Exited? ==> r.code == Cmd.EXIT_OK || r.code == Cmd.EXIT_ERROR
    ensures r.Recording? <==> ParseCommand(args).Next? && ValidOptions(ParseCommand(args).o)
    ensures r.Recording? ==> r.o == ParseCommand(args).o && r.o.filename == LastName(args, DEFAULT_FILENAME)
  {
    ParseExitCodes(DEFAULT_OPTIONS, args, Stepper(), {Cmd.EXIT_OK, Cmd.EXIT_ERROR});
    LastNameWins(DEFAULT_OPTIONS, args);
    match ParseCommand(args)
    case Exit(c) => Exited(c)
    case Next(o) => if ValidOptions(o) then Recording(o) else Exited(Cmd.EXIT_ERROR)
  }

  /**
   * One output sample: the float times 32767, truncated to an integer, then
   * clipped to the `int16_t` range, so the final cast never wraps.
   */
  function ConvertSample(x: real): (s: int)
    ensures MIN_SAMPLE <= s <= MAX_SAMPLE
    ensures WrapInt16(s) == s
    ensures MIN_SAMPLE <= TruncReal(x * 32767.0) <= MAX_SAMPLE ==> s == TruncReal(x * 32767.0)
    ensures TruncReal(x * 32767.0) > MAX_SAMPLE ==> s == MAX_SAMPLE
    ensures TruncReal(x * 32767.0) < MIN_SAMPLE ==> s == MIN_SAMPLE
  {
    var sample := TruncReal(x * MAX_SAMPLE as real);
    var clipped := if sample > MAX_SAMPLE then MAX_SAMPLE else if sample < MIN_SAMPLE then MIN_SAMPLE else sample;
    WrapInt16(clipped)
  }

  /** A sample in [-1, 1], which the synthesizer produces, is scaled without clipping. */
  lemma InRangeNotClipped(x: real)
    requires -1.0 <= x <= 1.0
    ensures ConvertSample(x) == TruncReal(x * 32767.0)
  {
    assert -32767.0 <= x * 32767.0 <= 32767.0;
  }

  /**
   * The frame loop: blocks of 8 frames until the counter reaches
   * rate x seconds (an `int32_t` product). Before advancing past a block
   * whose start frame is over 30000, the notes are switched off, once.
   * Returns the frames rendered, how often the notes were switched off, and
   * the frame at which that happened (-1 if never).
   */
  method RenderLoop(sampleRate: int, numSeconds: int) returns (frames: int, notesOffCount: nat, notesOffFrame: int)
    ensures frames % TestHarness.FRAMES_PER_RENDER == 0 && frames >= 0
    ensures frames >= WrapInt32(sampleRate * numSeconds)
    ensures frames > 0 ==> frames - TestHarness.FRAMES_PER_RENDER < WrapInt32(sampleRate * numSeconds)
    ensures notesOffCount <= 1
    ensures notesOffCount == 1 <==> WrapInt32(sampleRate * numSeconds) > NOTES_OFF_AFTER_FRAME + TestHarness.FRAMES_PER_RENDER
    ensures notesOffCount == 1 ==> notesOffFrame == NOTES_OFF_AFTER_FRAME + TestHarness.FRAMES_PER_RENDER
    ensures notesOffCount == 0 ==> notesOffFrame == -1
  {
    var framesNeeded := WrapInt32(sampleRate * numSeconds);
    var frameCounter := 0;
    var on := true;
    notesOffCount := 0;
    notesOffFrame := -1;
    while frameCounter < framesNeeded
      invariant frameCounter >= 0 && frameCounter % TestHarness.FRAMES_PER_RENDER == 0
      invariant frameCounter > 0 ==> frameCounter - TestHarness.FRAMES_PER_RENDER < framesNeeded
      invariant on <==> frameCounter <= NOTES_OFF_AFTER_FRAME + TestHarness.FRAMES_PER_RENDER
      invariant notesOffCount == (if on then 0 else 1)
      invariant !on ==> notesOffFrame == NOTES_OFF_AFTER_FRAME + TestHarness.FRAMES_PER_RENDER
      invariant on ==> notesOffFrame == -1
      decreases framesNeeded - frameCounter
    {
      if on && frameCounter > NOTES_OFF_AFTER_FRAME {
        notesOffCount := notesOffCount + 1;
        notesOffFrame := frameCounter;
        on := false;
      }
      frameCounter := frameCounter + TestHarness.FRAMES_PER_RENDER;
    }
    frames := frameCounter;
  }
}

=== FILE: app_synthmark.dfy ===
/**
 * The older stand-alone `synthmark` tool (`apps/synthmark.cpp`): the same
 * shape as the `synthmark` command, but numbers are read with `atoi`, which
 * never reports an error, fewer switches and tests exist, and only
 * LatencyMark takes a high voice count.
 */
module SynthMarkApp {
  import opened Common
  import opened CommandLine
  import AudioSink
  import ChangingVoice
  import TestHarness
  import Cmd = SynthMarkCommand

  /** The switches whose text `atoi` reads; `-a` reads one into a flag. */
  predicate IsNumericSwitch(c: char) {
    c == 'a' || c == 'c' || c == 'p' || c == 'n' || c == 'N' || c == 'd' || c == 'r' || c == 's' || c == 'b'
  }

  /** The test codes with a harness. */
  predicate IsTestCode(c: char) {
    c == 'v' || c == 'l' || c == 'j' || c == 'u' || c == 'a'
  }

  datatype Options = Options(
    percentCpu: int, sampleRate: int, framesPerBurst: int, numSeconds: int, numVoices: int,
    numVoicesHigh: int, noteOnDelay: int, cpuAffinity: int, useAudioThread: bool,
    voicesMode: ChangingVoice.VoicesMode, testCode: char)

  /** The settings before any argument is read. */
  const DEFAULT_OPTIONS := Options(
    Cmd.DEFAULT_PERCENT_CPU, AudioSink.SYNTH_SAMPLE_RATE, Cmd.DEFAULT_FRAMES_PER_BURST, Cmd.DEFAULT_SECONDS,
    Cmd.DEFAULT_NUM_VOICES, 0, Cmd.DEFAULT_NOTE_ON_DELAY, AudioSink.CPU_UNSPECIFIED, true,
    ChangingVoice.Undefined, Cmd.DEFAULT_TEST_CODE)

  /** Store the `atoi` reading of a numeric switch; `-a` turns the audio thread on for any nonzero value. */
  function SetNumber(o: Options, c: char, v: int): Options
    requires IsNumericSwitch(c)
  {
    match c
    case 'a' => o.(useAudioThread := v != 0)
    case 'c' => o.(cpuAffinity := v)
    case 'p' => o.(percentCpu := v)
    case 'n' => o.(numVoices := v)
    case 'N' => o.(numVoicesHigh := v)
    case 'd' => o.(noteOnDelay := v)
    case 'r' => o.(sampleRate := v)
    case 's' => o.(numSeconds := v)
    case 'b' => o.(framesPerBurst := v)
  }

  predicate KnownSwitch(c: char) {
    IsNumericSwitch(c) || c == 'm' || c == 't' || c == 'h' || c == '?'
  }

  /**
   * One argument: a help switch exits with 0, a non-switch or an unknown
   * switch with 1; a numeric switch is never rejected, whatever its text.
   */
  function ApplyArg(o: Options, arg: string): (s: Step<Options>)
    ensures s.Exit? ==> s.code == Cmd.EXIT_OK || s.code == Cmd.EXIT_ERROR
    ensures s == Exit(Cmd.EXIT_OK) <==> IsSwitch(arg) && (CharAt(arg, 1) == 'h' || CharAt(arg, 1) == '?')
  {
    if !IsSwitch(arg) then Exit(Cmd.EXIT_ERROR)
    else
      var c := CharAt(arg, 1);
      if c == 'h' || c == '?' then Exit(Cmd.EXIT_OK)
      else if c == 'm' then Next(o.(voicesMode := Cmd.ModeOf(CharAt(arg, 2))))
      else if c == 't' then Next(o.(testCode := CharAt(arg, 2)))
      else if IsNumericSwitch(c) then Next(SetNumber(o, c, Atoi(From(arg, 2))))
      else Exit(Cmd.EXIT_ERROR)
  }

  /**
   * Every known switch other than help is accepted, and a numeric switch
   * stores whatever `atoi` makes of the rest of the argument.
   */
  lemma ApplyArgAccepts(o: Options, arg: string)
    ensures ApplyArg(o, arg).Next? <==>
              IsSwitch(arg) && KnownSwitch(CharAt(arg, 1)) && CharAt(arg, 1) != 'h' && CharAt(arg, 1) != '?'
    ensures IsSwitch(arg) && IsNumericSwitch(CharAt(arg, 1)) ==>
              ApplyArg(o, arg) == Next(SetNumber(o, CharAt(arg, 1), Atoi(From(arg, 2))))
  {
    if IsSwitch(arg) {
      var c := CharAt(arg, 1);
      if IsNumericSwitch(c) {
        assert c != 'h' && c != '?' && c != 'm' && c != 't';
      } else if c != 'h' && c != '?' && c != 'm' && c != 't' {
        assert ApplyArg(o, arg) == Exit(Cmd.EXIT_ERROR);
      }
    }
  }

  function Stepper(): (Options, string) -> Step<Options> {
    (p, arg) => ApplyArg(p, arg)
  }

  function ParseCommand(args: seq<string>): Step<Options> {
    Parse(DEFAULT_OPTIONS, args, Stepper())
  }

  /** `-n` stores whatever `atoi` makes of the rest of the argument, and never fails. */
  lemma NumVoicesSwitch(o: Options, t: string)
    ensures ApplyArg(o, "-n" + t) == Next(o.(numVoices := Atoi(t)))
  {
    var arg := "-n" + t;
    assert arg[0] == '-' && arg[1] == 'n' && arg[2..] == t;
    ApplyArgAccepts(o, arg);
    assert SetNumber(o, 'n', Atoi(t)) == o.(numVoices := Atoi(t));
  }

  /**
   * Text after the digits is ignored: `-n12abc` plays 12 voices, where the
   * `synthmark` command, which checks where `strtol` stopped, would exit.
   */
  lemma TrailingTextIgnored(digits: string, rest: string)
    requires |digits| > 0 && AllDigits(digits)
    requires |rest| == 0 || !IsDigit(rest[0])
    ensures ParseCommand(["-n" + digits + rest]) == Next(DEFAULT_OPTIONS.(numVoices := DigitsValue(digits)))
  {
    var t := digits + rest;
    assert "-n" + digits + rest == "-n" + t;
    AtoiLeadingDigits(digits, rest);
    NumVoicesSwitch(DEFAULT_OPTIONS, t);
    assert ["-n" + t][1..] == [];
  }

  /** Why the checks after the loop reject the settings, in the order they are made. */
  datatype Problem =
    | BadPercentCpu | BadNumVoices | BadNumVoicesHigh | HighNotForThisTest | ModeWithoutHigh
    | BadSeconds | BadNoteOnDelay | BurstTooSmall

  function FirstProblem(o: Options): Option<Problem> {
    if o.percentCpu < 1 || o.percentCpu > 100 then Some(BadPercentCpu)
    else if (o.numVoices < 1 && o.numVoicesHigh <= 0) || o.numVoices < 0
            || o.numVoices > TestHarness.MAX_VOICES then Some(BadNumVoices)
    else if o.numVoicesHigh != 0 && o.numVoicesHigh < o.numVoices then Some(BadNumVoicesHigh)
    else if o.numVoicesHigh != 0 && o.testCode != 'l' then Some(HighNotForThisTest)
    else if o.voicesMode != ChangingVoice.Undefined && o.numVoicesHigh == 0 then Some(ModeWithoutHigh)
    else if o.numSeconds < 1 then Some(BadSeconds)
    else if o.noteOnDelay < 0 || o.noteOnDelay > o.numSeconds then Some(BadNoteOnDelay)
    else if o.framesPerBurst < 4 then Some(BurstTooSmall)
    else None
  }

  /**
   * The accepted settings: a CPU target of 1 to 100 percent; 0 to 512
   * voices, at least one unless a high count is given; a high count of 0 or,
   * for LatencyMark only, at least the low count; a voices mode only with a
   * high count; at least one second with the delay inside it; bursts of at
   * least 4 frames.
   */
  predicate ValidOptions(o: Options) {
    1 <= o.percentCpu <= 100
    && 0 <= o.numVoices <= TestHarness.MAX_VOICES && (o.numVoices >= 1 || o.numVoicesHigh > 0)
    && (o.numVoicesHigh == 0 || (o.numVoicesHigh >= o.numVoices && o.testCode == 'l'))
    && (o.voicesMode == ChangingVoice.Undefined || o.numVoicesHigh != 0)
    && o.numSeconds >= 1 && 0 <= o.noteOnDelay <= o.numSeconds
    && o.framesPerBurst >= 4
  }

  /** The chain of checks rejects exactly the settings the rules exclude. */
  lemma NoProblemIffValid(o: Options)
    ensures FirstProblem(o) == None <==> ValidOptions(o)
  {
  }

  /** The harness a test code selects: the command's, for the five codes this tool knows. */
  function TestFor(code: char): (k: Option<Cmd.TestKind>)
    ensures k.Some? <==> IsTestCode(code)
    ensures k.Some? ==> k == Cmd.TestFor(code)
  {
    if IsTestCode(code) then Cmd.TestFor(code) else None
  }

  function CommonSettings(o: Options): seq<Cmd.Setting> {
    [Cmd.NumVoices(o.numVoices), Cmd.DelayNoteOnSeconds(o.noteOnDelay), Cmd.AudioThread(o.useAudioThread)]
  }

  /** The setter calls for a test, in order: the test's own, then the common ones. */
  function Setup(k: Cmd.TestKind, o: Options): (s: seq<Cmd.Setting>)
    ensures |s| >= 3 && s[|s| - 3..] == CommonSettings(o)
  {
    var own :=
      match k
      case Voice => [Cmd.TargetCpuLoad(o.percentCpu as real * 0.01), Cmd.InitialVoiceCount(o.numVoices)]
      case Latency => [Cmd.NumVoicesHigh(o.numVoicesHigh), Cmd.VoicesModeSetting(o.voicesMode)]
      case Utilization => [Cmd.NumVoices(o.numVoices)]
      case Jitter => []
      case Automated => []
      case ClockRampTest => []
      case Series => [];
    own + CommonSettings(o)
  }

  /** Only LatencyMark is given the high voice count and the voices mode. */
  lemma SetupSelects(k: Cmd.TestKind, o: Options)
    ensures Cmd.NumVoicesHigh(o.numVoicesHigh) in Setup(k, o) <==> k == Cmd.Latency
    ensures Cmd.VoicesModeSetting(o.voicesMode) in Setup(k, o) <==> k == Cmd.Latency
  {
    var s := Setup(k, o);
    if k == Cmd.Latency {
      assert s[0] == Cmd.NumVoicesHigh(o.numVoicesHigh) && s[1] == Cmd.VoicesModeSetting(o.voicesMode);
    }
  }

  datatype Outcome = Exited(code: int) | Launched(o: Options, kind: Cmd.TestKind, settings: seq<Cmd.Setting>)

  /** `main` up to the run: the argument loop, the checks, then the harness for the test code. */
  function Command(args: seq<string>): (r: Outcome)
    ensures r.Exited? ==> r.code == Cmd.EXIT_OK || r.code == Cmd.EXIT_ERROR
    ensures r.Launched? <==>
              ParseCommand(args).Next? && ValidOptions(ParseCommand(args).o)
              && IsTestCode(ParseCommand(args).o.testCode)
    ensures r.Launched? ==>
              r.o == ParseCommand(args).o && Cmd.CodeOf(r.kind) == r.o.testCode && r.settings == Setup(r.kind, r.o)
    ensures r.Launched? && r.o.numVoicesHigh != 0 ==> r.kind == Cmd.Latency
  {
    ParseExitCodes(DEFAULT_OPTIONS, args, Stepper(), {Cmd.EXIT_OK, Cmd.EXIT_ERROR});
    match ParseCommand(args)
    case Exit(c) => Exited(c)
    case Next(o) =>
      NoProblemIffValid(o);
      if FirstProblem(o).Some? then Exited(Cmd.EXIT_ERROR)
      else
        match TestFor(o.testCode)
        case None => Exited(Cmd.EXIT_ERROR)
        case Some(k) =>
          Cmd.TestCodesRoundTrip(k, o.testCode);
          Launched(o, k, Setup(k, o))
  }
}

=== FILE: audio_sink.dfy ===
/**
 * The audio output device (`AudioSinkBase.h`) and its real-time simulator
 * (`VirtualAudioSink.h`). The simulator pretends a hardware reader consumes
 * one burst every `nanosPerBurst`. The nanosecond clock it reads is passed in
 * as parameters, and the CPU manager's sleeping is left to the caller.
 *
 * The frames-written counter is 64-bit in the source but its accessors pass
 * it as `int32_t`; the model's arithmetic is unbounded (see README).
 */
module AudioSink {
  import opened Common

  const UTIL_CLAMP_OFF := 0
  const UTIL_CLAMP_ON := 1
  const UTIL_CLAMP_ON_LOGGED := 2

  /** How the benchmark thread is run: a plain thread, an audio callback, or real audio output. */
  const AUDIO_LEVEL_NORMAL := 0
  const AUDIO_LEVEL_CALLBACK := 1
  const AUDIO_LEVEL_OUTPUT := 2

  const CPU_UNSPECIFIED := -1
  const BUFFER_SIZE_IN_BURSTS := 8
  const MAX_BUFFER_CAPACITY_IN_BURSTS := 512
  const NANOS_PER_SECOND := 1_000_000_000
  /** The engine's default sample rate. */
  const SYNTH_SAMPLE_RATE := 48000

  /** Linux scheduling policies, as `sched.h` defines them. */
  const SCHED_OTHER := 0
  const SCHED_FIFO := 1
  const SCHED_RR := 2
  const SCHED_DEADLINE := 6
  /** A high flag `schedulerToString` ignores. */
  const SCHED_RESET_ON_FORK := 0x4000_0000

  /** Result codes of `start`. */
  const THREAD_FAILURE := -5

  datatype Sink = Sink(
    sampleRate: int, samplesPerFrame: int, framesPerBurst: int, underrunCount: int,
    schedulerUsed: int, bufferSizeInFrames: int, defaultBufferSizeInBursts: int,
    bufferCapacityInFrames: int, framesWritten: int,
    requestedCpu: int, actualCpu: int, schedFifoEnabled: bool, adpfEnabled: bool, utilClampLevel: int,
    // the simulator's own state
    startTimeNanos: int, nanosPerBurst: int, nextHardwareReadTimeNanos: int, framesConsumed: int,
    callbackLoopResult: int)

  /** A sink as constructed: the field initialisers of both classes. */
  function NewSink(): (s: Sink)
    ensures s.requestedCpu == CPU_UNSPECIFIED && s.actualCpu == CPU_UNSPECIFIED
    ensures s.bufferCapacityInFrames == 4096 && s.defaultBufferSizeInBursts == 8
    ensures s.bufferSizeInFrames == 0 && s.framesPerBurst == 0 && s.samplesPerFrame == 1
    ensures s.sampleRate == SYNTH_SAMPLE_RATE && s.schedulerUsed == -1
    ensures s.schedFifoEnabled && !s.adpfEnabled && s.utilClampLevel == UTIL_CLAMP_OFF
    ensures s.underrunCount == 0 && s.framesWritten == 0 && s.nanosPerBurst == 1
  {
    Sink(SYNTH_SAMPLE_RATE, 1, 0, 0, -1, 0, BUFFER_SIZE_IN_BURSTS, 4 * 1024, 0,
         CPU_UNSPECIFIED, CPU_UNSPECIFIED, true, false, UTIL_CLAMP_OFF,
         0, 1, 0, 0, 0)
  }

  /** `AudioSinkBase::open`: records the format; always succeeds. */
  function BaseOpen(s: Sink, sampleRate: int, samplesPerFrame: int, framesPerBurst: int): (r: (Sink, int))
    ensures r.1 == 0
    ensures r.0.sampleRate == sampleRate && r.0.samplesPerFrame == samplesPerFrame
    ensures r.0.framesPerBurst == framesPerBurst
    ensures r.0 == s.(sampleRate := r.0.sampleRate, samplesPerFrame := r.0.samplesPerFrame,
                      framesPerBurst := r.0.framesPerBurst)
  {
    (s.(sampleRate := sampleRate, samplesPerFrame := samplesPerFrame, framesPerBurst := framesPerBurst), 0)
  }

  /**
   * `setBufferSizeInFrames`: below 1 becomes 1, above the capacity becomes the
   * capacity; the stored size is returned.
   */
  function SetBufferSizeInFrames(s: Sink, numFrames: int): (r: (Sink, int))
    ensures r.1 == r.0.bufferSizeInFrames
    ensures r.0 == s.(bufferSizeInFrames := r.1)
    ensures s.bufferCapacityInFrames >= 1 ==> r.1 == Clamp(numFrames, 1, s.bufferCapacityInFrames)
    ensures numFrames < 1 ==> r.1 == 1
    ensures 1 <= numFrames <= s.bufferCapacityInFrames ==> r.1 == numFrames
  {
    var n := if numFrames < 1 then 1 else if numFrames > s.bufferCapacityInFrames then s.bufferCapacityInFrames else numFrames;
    (s.(bufferSizeInFrames := n), n)
  }

  /** Asking for the size a sink already has changes nothing. */
  lemma SetBufferSizeIdempotent(s: Sink, numFrames: int)
    requires s.bufferCapacityInFrames >= 1
    ensures var (t, n) := SetBufferSizeInFrames(s, numFrames);
            SetBufferSizeInFrames(t, n) == (t, n)
  {
  }

  predicate IsUtilClampEnabled(s: Sink) {
    s.utilClampLevel > 0
  }

  predicate IsUtilClampDynamic(s: Sink) {
    s.utilClampLevel == UTIL_CLAMP_ON || s.utilClampLevel == UTIL_CLAMP_ON_LOGGED
  }

  predicate IsUtilClampLoggingEnabled(s: Sink) {
    s.utilClampLevel == UTIL_CLAMP_ON_LOGGED
  }

  /** Logging implies dynamic, dynamic implies enabled; enabled but not dynamic is a fixed level above 2. */
  lemma UtilClampLevels(s: Sink)
    ensures IsUtilClampLoggingEnabled(s) ==> IsUtilClampDynamic(s)
    ensures IsUtilClampDynamic(s) ==> IsUtilClampEnabled(s)
    ensures IsUtilClampDynamic(s) <==> s.utilClampLevel in {1, 2}
    ensures IsUtilClampEnabled(s) && !IsUtilClampDynamic(s) <==> s.utilClampLevel > 2
  {
  }

  /** `x & 0xFFFF` on a two's-complement `int`. */
  function Low16(x: int): (r: int)
    ensures 0 <= r < 0x1_0000
    ensures 0 <= x < 0x1_0000 ==> r == x
  {
    x % 0x1_0000
  }

  /** `schedulerToString`: names the policy in the low 16 bits, or "unknown". */
  function SchedulerToString(scheduler: int): (name: string)
    ensures Low16(scheduler) == SCHED_FIFO <==> name == "SCHED_FIFO"
    ensures Low16(scheduler) == SCHED_OTHER <==> name == "SCHED_OTHER"
    ensures Low16(scheduler) == SCHED_DEADLINE <==> name == "SCHED_DEADLINE"
    ensures Low16(scheduler) == SCHED_RR <==> name == "SCHED_RR"
    ensures Low16(scheduler) !in {SCHED_FIFO, SCHED_OTHER, SCHED_DEADLINE, SCHED_RR} <==> name == "unknown"
  {
    var p := Low16(scheduler);
    if p == SCHED_FIFO then "SCHED_FIFO"
    else if p == SCHED_OTHER then "SCHED_OTHER"
    else if p == SCHED_DEADLINE then "SCHED_DEADLINE"
    else if p == SCHED_RR then "SCHED_RR"
    else "unknown"
  }

  /** Flags above the low 16 bits do not change the name. */
  lemma SchedulerIgnoresHighFlags(scheduler: int, k: int)
    ensures SchedulerToString(scheduler + k * 0x1_0000) == SchedulerToString(scheduler)
  {
    assert Low16(scheduler + k * 0x1_0000) == Low16(scheduler);
  }

  /** FIFO with the reset-on-fork flag is still FIFO; the unset scheduler (-1) is unknown. */
  lemma SchedulerExamples()
    ensures SchedulerToString(SCHED_FIFO + SCHED_RESET_ON_FORK) == "SCHED_FIFO"
    ensures SchedulerToString(-1) == "unknown"
  {
    SchedulerIgnoresHighFlags(SCHED_FIFO, 0x4000);
    assert Low16(-1) == 0xFFFF;
  }

  /** `buffer.size.bursts` in `dump`: whole bursts in the buffer, by C division. */
  function BufferSizeInBursts(s: Sink): (b: int)
    requires s.framesPerBurst > 0
    ensures s.bufferSizeInFrames >= 0 ==>
              b * s.framesPerBurst <= s.bufferSizeInFrames < (b + 1) * s.framesPerBurst
  {
    CDiv(s.bufferSizeInFrames, s.framesPerBurst)
  }

  // ----- the simulator -----

  /**
   * `VirtualAudioSink::open`: the capacity becomes 512 bursts; an unset buffer
   * size becomes the default number of bursts, through the clamp; the time
   * per burst is computed; the clock state starts over.
   */
  function Open(s: Sink, sampleRate: int, samplesPerFrame: int, framesPerBurst: int): (r: (Sink, int))
    requires sampleRate > 0
    ensures r.1 == 0
    ensures r.0.sampleRate == sampleRate && r.0.samplesPerFrame == samplesPerFrame
    ensures r.0.framesPerBurst == framesPerBurst
    ensures r.0.bufferCapacityInFrames == MAX_BUFFER_CAPACITY_IN_BURSTS * framesPerBurst
    ensures s.bufferSizeInFrames != 0 ==> r.0.bufferSizeInFrames == s.bufferSizeInFrames
    ensures s.bufferSizeInFrames == 0 && framesPerBurst >= 1 ==>
              r.0.bufferSizeInFrames
              == Clamp(s.defaultBufferSizeInBursts * framesPerBurst, 1, MAX_BUFFER_CAPACITY_IN_BURSTS * framesPerBurst)
    ensures r.0.nanosPerBurst == WrapInt32(CDiv(framesPerBurst * NANOS_PER_SECOND, sampleRate))
    ensures r.0.nextHardwareReadTimeNanos == 0 && r.0.framesConsumed == 0 && r.0.startTimeNanos == 0
    ensures r.0.underrunCount == s.underrunCount && r.0.framesWritten == s.framesWritten
  {
    var (s1, result) := BaseOpen(s, sampleRate, samplesPerFrame, framesPerBurst);
    var s2 := s1.(bufferCapacityInFrames := MAX_BUFFER_CAPACITY_IN_BURSTS * framesPerBurst);
    var s3 := if s2.bufferSizeInFrames == 0
              then SetBufferSizeInFrames(s2, s2.defaultBufferSizeInBursts * framesPerBurst).0
              else s2;
    var nanosPerBurst := CDiv(framesPerBurst * NANOS_PER_SECOND, sampleRate);
    (s3.(nanosPerBurst := WrapInt32(nanosPerBurst),
         nextHardwareReadTimeNanos := 0, framesConsumed := 0, startTimeNanos := 0), result)
  }

  /** `convertFrameToTime`: the start time plus the frames' share of burst time. */
  function ConvertFrameToTime(s: Sink, framePosition: int): (t: int)
    requires s.framesPerBurst > 0
    ensures framePosition >= 0 && s.nanosPerBurst >= 0 ==>
              (t - s.startTimeNanos) * s.framesPerBurst <= framePosition * s.nanosPerBurst
              < (t - s.startTimeNanos + 1) * s.framesPerBurst
  {
    s.startTimeNanos + CDiv(framePosition * s.nanosPerBurst, s.framesPerBurst)
  }

  /** Frames written but not yet consumed by the simulated hardware (negative after an underflow). */
  function FullFramesAvailable(s: Sink): int {
    s.framesWritten - s.framesConsumed
  }

  /** Room left in the buffer. */
  function EmptyFramesAvailable(s: Sink): (n: int)
    ensures n + FullFramesAvailable(s) == s.bufferSizeInFrames
  {
    s.bufferSizeInFrames - FullFramesAvailable(s)
  }

  /** How many burst read times, `next`, `next + step`, ..., have come by `now`. */
  function DueBursts(now: int, next: int, step: int): (n: nat)
    requires step > 0
    ensures n == 0 <==> now < next
    ensures n > 0 ==> next + (n - 1) * step <= now < next + n * step
  {
    if now < next then 0
    else
      var q := (now - next) / step;
      assert q * step <= now - next < (q + 1) * step;
      q + 1
  }

  /**
   * The loop of `updateHardwareSimulator`: how many passes it makes with
   * `countdown` passes left, the read time at `next` and moving on by `step`
   * per consumed burst.
   */
  function ConsumedBursts(now: int, next: int, step: int, countdown: int): (k: nat)
    ensures k <= Max(countdown, 0)
    decreases countdown
  {
    if now >= next && countdown > 0 then 1 + ConsumedBursts(now, next + step, step, countdown - 1) else 0
  }

  /** With a positive step, the loop consumes the due bursts, but at most `countdown`. */
  lemma {:induction false} ConsumedIsDue(now: int, next: int, step: int, countdown: nat)
    requires step > 0
    ensures ConsumedBursts(now, next, step, countdown) == Min(countdown, DueBursts(now, next, step))
    decreases countdown
  {
    if now >= next && countdown > 0 {
      ConsumedIsDue(now, next + step, step, countdown - 1);
      DueShift(now, next, step);
    }
  }

  /** Moving the first read time on by one step leaves one burst fewer due. */
  lemma DueShift(now: int, next: int, step: int)
    requires step > 0 && now >= next
    ensures DueBursts(now, next + step, step) == DueBursts(now, next, step) - 1
  {
    var d1 := DueBursts(now, next + step, step);
    if d1 > 0 {
      assert next + d1 * step <= now < next + (d1 + 1) * step;
      DueUnique(now, next, step, d1 + 1);
    } else {
      DueUnique(now, next, step, 1);
    }
  }

  /** The due count is the one `n` that brackets `now`. */
  lemma DueUnique(now: int, next: int, step: int, n: nat)
    requires step > 0 && n > 0 && next + (n - 1) * step <= now < next + n * step
    ensures DueBursts(now, next, step) == n
  {
  }

  /**
   * `updateHardwareSimulator`: each pass consumes one burst and moves the read
   * time on by one burst; at most 32 passes per call, so a sink that fell far
   * behind catches up over several calls.
   */
  function UpdateHardwareSimulator(s: Sink, now: int): (r: Sink)
    ensures var k := ConsumedBursts(now, s.nextHardwareReadTimeNanos, s.nanosPerBurst, 32);
            k <= 32
            && r.framesConsumed == s.framesConsumed + k * s.framesPerBurst
            && r.nextHardwareReadTimeNanos == s.nextHardwareReadTimeNanos + k * s.nanosPerBurst
    ensures r == s.(framesConsumed := r.framesConsumed, nextHardwareReadTimeNanos := r.nextHardwareReadTimeNanos)
  {
    var k := ConsumedBursts(now, s.nextHardwareReadTimeNanos, s.nanosPerBurst, 32);
    s.(framesConsumed := s.framesConsumed + k * s.framesPerBurst,
       nextHardwareReadTimeNanos := s.nextHardwareReadTimeNanos + k * s.nanosPerBurst)
  }

  /**
   * With a positive burst time, an update consumes exactly the bursts due by
   * `now`, capped at 32; when no more than 32 were due, the next read time
   * is then in the future.
   */
  lemma UpdateConsumesDue(s: Sink, now: int)
    requires s.nanosPerBurst > 0
    ensures var d := DueBursts(now, s.nextHardwareReadTimeNanos, s.nanosPerBurst);
            var r := UpdateHardwareSimulator(s, now);
            r.framesConsumed == s.framesConsumed + Min(32, d) * s.framesPerBurst
            && (d <= 32 ==> now < r.nextHardwareReadTimeNanos)
  {
    ConsumedIsDue(now, s.nextHardwareReadTimeNanos, s.nanosPerBurst, 32);
  }

  /**
   * `writeBurst`, with the clock read as `start` on the first write, `now`
   * at the first hardware update and `later` after waiting for room. An
   * underflow found on entry is counted; the burst is always written.
   */
  function WriteBurst(s: Sink, start: int, now: int, later: int): (r: Sink)
    ensures r.underrunCount == s.underrunCount + (if FullFramesAvailable(s) < 0 then 1 else 0)
    ensures r.framesWritten == s.framesWritten + s.framesPerBurst
    ensures r.startTimeNanos == (if s.startTimeNanos == 0 then start else s.startTimeNanos)
    ensures r.bufferSizeInFrames == s.bufferSizeInFrames && r.framesPerBurst == s.framesPerBurst
    ensures r.nanosPerBurst == s.nanosPerBurst
  {
    var s1 := if s.startTimeNanos == 0 then s.(startTimeNanos := start, nextHardwareReadTimeNanos := start) else s;
    var s2 := if FullFramesAvailable(s1) < 0 then s1.(underrunCount := s1.underrunCount + 1) else s1;
    var s3 := UpdateHardwareSimulator(s2, now);
    var s4 := if EmptyFramesAvailable(s3) < s3.framesPerBurst then UpdateHardwareSimulator(s3, later) else s3;
    s4.(framesWritten := s4.framesWritten + s4.framesPerBurst)
  }

  /**
   * `start`: the buffer starts full. The callback thread's start result is a
   * parameter; a failure is reported as THREAD_FAILURE.
   */
  function Start(s: Sink, threadStartError: int): (r: (Sink, int))
    ensures r.0.framesWritten == s.bufferSizeInFrames
    ensures r.1 == (if threadStartError != 0 then THREAD_FAILURE else 0)
    ensures r.0.callbackLoopResult == THREAD_FAILURE
  {
    (s.(framesWritten := s.bufferSizeInFrames, callbackLoopResult := THREAD_FAILURE),
     if threadStartError != 0 then THREAD_FAILURE else 0)
  }

  /** The clock readings of one `writeBurst`. */
  datatype Clock = Clock(start: int, now: int, later: int)

  function WriteBursts(s: Sink, clocks: seq<Clock>): (r: Sink)
    ensures r.nanosPerBurst == s.nanosPerBurst && r.framesPerBurst == s.framesPerBurst
    ensures r.bufferSizeInFrames == s.bufferSizeInFrames
    decreases |clocks|
  {
    if |clocks| == 0 then s
    else WriteBursts(WriteBurst(s, clocks[0].start, clocks[0].now, clocks[0].later), clocks[1..])
  }

  /**
   * Frame accounting: after `start` and n bursts, the frames written are the
   * primed buffer plus n bursts, and the underruns never go down.
   */
  lemma {:induction false} WrittenAfterBursts(s: Sink, clocks: seq<Clock>)
    ensures WriteBursts(s, clocks).framesWritten == s.framesWritten + |clocks| * s.framesPerBurst
    ensures WriteBursts(s, clocks).underrunCount >= s.underrunCount
    decreases |clocks|
  {
    if |clocks| > 0 {
      var s1 := WriteBurst(s, clocks[0].start, clocks[0].now, clocks[0].later);
      WrittenAfterBursts(s1, clocks[1..]);
      assert |clocks| * s.framesPerBurst == s.framesPerBurst + (|clocks| - 1) * s.framesPerBurst;
    }
  }

  lemma StartedThenBursts(s: Sink, threadStartError: int, clocks: seq<Clock>)
    ensures WriteBursts(Start(s, threadStartError).0, clocks).framesWritten
            == s.bufferSizeInFrames + |clocks| * s.framesPerBurst
  {
    WrittenAfterBursts(Start(s, threadStartError).0, clocks);
  }
}

=== FILE: automated_suite.dfy ===
/**
 * The automated suite (`AutomatedTestSuite.h`): VoiceMark on a CPU from the
 * low quarter and one from the high quarter of the CPU indices decides
 * whether the device is big/little; LatencyMark then runs at a light, a heavy
 * and an alternating load on the CPU (or the two CPUs) chosen. The CPU count
 * and the outcomes of the harness runs are parameters.
 */
module AutomatedSuite {
  import opened Common

  /** The relative difference in VoiceMark between the two CPUs that counts as big/little. */
  const HIGH_LOW_THRESHOLD := 0.1

  datatype Suite = Suite(bigCpu: int, voiceMarkMaxBig: real, littleCpu: int, voiceMarkMaxLittle: real,
                         haveBigLittle: bool)

  /** The suite's initial fields: both CPUs 0, both maxima 0, not big/little. */
  const NEW_SUITE := Suite(0, 0.0, 0, 0.0, false)

  /** The two CPUs measured: `n/4` and `3n/4` with C division (a failed count of -1 gives 0 and 0). */
  function LowCpu(numCpus: int): int { CDiv(numCpus, 4) }
  function HighCpu(numCpus: int): int { CDiv(3 * numCpus, 4) }

  /** Both CPUs are valid indices, and they differ exactly when there are at least two CPUs. */
  lemma CpuChoice(numCpus: int)
    requires numCpus >= 1
    ensures 0 <= LowCpu(numCpus) <= HighCpu(numCpus) < numCpus
    ensures LowCpu(numCpus) != HighCpu(numCpus) <==> numCpus >= 2
  {
  }

  /** The big/little test: the two maxima differ by more than 10% of their mean. */
  predicate Differ(voiceMarkMaxLow: real, voiceMarkMaxHigh: real) {
    var average := 0.5 * (voiceMarkMaxHigh + voiceMarkMaxLow);
    RealAbs(voiceMarkMaxHigh - voiceMarkMaxLow) > HIGH_LOW_THRESHOLD * average
  }

  function RealAbs(x: real): real {
    if x < 0.0 then -x else x
  }

  /**
   * The assignment at the end of `measureLowHighCpuPerformance`, given whether
   * the low CPU is the little one: with big/little the CPUs take the two
   * roles; otherwise both roles go to the high CPU.
   */
  function Assign(s: Suite, lowCpu: int, highCpu: int, voiceMarkMaxLow: real, voiceMarkMaxHigh: real,
                  lowIsLittle: bool): (r: Suite)
    ensures r.haveBigLittle == s.haveBigLittle
    ensures !s.haveBigLittle ==> r == Suite(highCpu, voiceMarkMaxHigh, highCpu, voiceMarkMaxHigh, false)
    ensures s.haveBigLittle && lowIsLittle ==>
              r == Suite(highCpu, voiceMarkMaxHigh, lowCpu, voiceMarkMaxLow, true)
    ensures s.haveBigLittle && !lowIsLittle ==>
              r == Suite(lowCpu, voiceMarkMaxLow, highCpu, voiceMarkMaxHigh, true)
  {
    if s.haveBigLittle then
      if lowIsLittle then s.(littleCpu := lowCpu, voiceMarkMaxLittle := voiceMarkMaxLow,
                             bigCpu := highCpu, voiceMarkMaxBig := voiceMarkMaxHigh)
      else s.(littleCpu := highCpu, voiceMarkMaxLittle := voiceMarkMaxHigh,
              bigCpu := lowCpu, voiceMarkMaxBig := voiceMarkMaxLow)
    else s.(littleCpu := highCpu, voiceMarkMaxLittle := voiceMarkMaxHigh,
            bigCpu := highCpu, voiceMarkMaxBig := voiceMarkMaxHigh)
  }

  /**
   * The big/little decision of `measureLowHighCpuPerformance`: made only when
   * the two CPUs differ; otherwise the flag keeps its value.
   */
  function Decide(s: Suite, lowCpu: int, highCpu: int, voiceMarkMaxLow: real, voiceMarkMaxHigh: real): (r: Suite)
    ensures r.haveBigLittle == (if lowCpu != highCpu then Differ(voiceMarkMaxLow, voiceMarkMaxHigh)
                                else s.haveBigLittle)
    ensures r == s.(haveBigLittle := r.haveBigLittle)
  {
    if lowCpu != highCpu then s.(haveBigLittle := Differ(voiceMarkMaxLow, voiceMarkMaxHigh)) else s
  }

  /**
   * `measureLowHighCpuPerformance` as written: VoiceMark on the low CPU (an
   * error returns at once, nothing changed); when the CPUs differ, VoiceMark on
   * the high CPU, whose error is ignored and whose measurement is the one
   * the result holds afterwards (`voiceMarkMaxHigh`); then the roles. The
   * roles test `voiceMarkMaxLittle > voiceMarkMaxLow` compares the member,
   * which no measurement has set yet, not the high CPU's measurement.
   */
  function MeasureLowHighAsWritten(s: Suite, numCpus: int, lowErr: int, voiceMarkMaxLow: real,
                                   voiceMarkMaxHigh: real): (r: (Suite, int))
    ensures lowErr != 0 ==> r == (s, lowErr)
    ensures lowErr == 0 ==> r.1 == 0
  {
    if lowErr != 0 then (s, lowErr)
    else
      var lowCpu := LowCpu(numCpus);
      var highCpu := HighCpu(numCpus);
      var high := if lowCpu != highCpu then voiceMarkMaxHigh else voiceMarkMaxLow;
      var d := Decide(s, lowCpu, highCpu, voiceMarkMaxLow, high);
      (Assign(d, lowCpu, highCpu, voiceMarkMaxLow, high, s.voiceMarkMaxLittle > voiceMarkMaxLow), 0)
  }

  /**
   * On a fresh suite the role test as written never picks the low CPU as
   * little, since VoiceMark measurements are not negative: with big/little the
   * high CPU is always called little, whatever the two CPUs measured.
   */
  lemma AsWrittenIgnoresMeasurements(numCpus: int, voiceMarkMaxLow: real, voiceMarkMaxHigh: real)
    requires voiceMarkMaxLow >= 0.0
    ensures var (r, _) := MeasureLowHighAsWritten(NEW_SUITE, numCpus, 0, voiceMarkMaxLow, voiceMarkMaxHigh);
            r.haveBigLittle ==> r.littleCpu == HighCpu(numCpus) && r.bigCpu == LowCpu(numCpus)
  {
  }

  /**
   * On eight CPUs, with CPU 2 at 100 voices and CPU 6 at 200, the code as
   * written calls CPU 6 little although it sustains twice the voices.
   */
  lemma AsWrittenSwapsRoles()
    ensures var (r, _) := MeasureLowHighAsWritten(NEW_SUITE, 8, 0, 100.0, 200.0);
            r.haveBigLittle && r.littleCpu == 6 && r.bigCpu == 2
            && r.voiceMarkMaxLittle == 200.0 && r.voiceMarkMaxBig == 100.0
  {
  }

  /**
   * `measureLowHighCpuPerformance` with the roles decided by the two
   * measurements: the CPU with fewer voices is little.
   */
  function MeasureLowHigh(s: Suite, numCpus: int, lowErr: int, voiceMarkMaxLow: real,
                          voiceMarkMaxHigh: real): (r: (Suite, int))
    ensures lowErr != 0 ==> r == (s, lowErr)
    ensures lowErr == 0 ==> r.1 == 0
    ensures lowErr == 0 && r.0.haveBigLittle && LowCpu(numCpus) != HighCpu(numCpus) ==>
              r.0.voiceMarkMaxLittle <= r.0.voiceMarkMaxBig
              && {r.0.littleCpu, r.0.bigCpu} == {LowCpu(numCpus), HighCpu(numCpus)}
  {
    if lowErr != 0 then (s, lowErr)
    else
      var lowCpu := LowCpu(numCpus);
      var highCpu := HighCpu(numCpus);
      var high := if lowCpu != highCpu then voiceMarkMaxHigh else voiceMarkMaxLow;
      var d := Decide(s, lowCpu, highCpu, voiceMarkMaxLow, high);
      (Assign(d, lowCpu, highCpu, voiceMarkMaxLow, high, high > voiceMarkMaxLow), 0)
  }

  /**
   * From a fresh suite, with the non-negative maxima VoiceMark measures:
   * big/little needs two distinct CPUs whose maxima differ
   * by more than 10%, and then the big CPU sustains the most voices; otherwise
   * both roles are the high CPU with its (or, on one CPU, the low) maximum.
   */
  lemma LowHighRoles(numCpus: int, voiceMarkMaxLow: real, voiceMarkMaxHigh: real)
    requires voiceMarkMaxLow >= 0.0 && voiceMarkMaxHigh >= 0.0
    ensures var (r, _) := MeasureLowHigh(NEW_SUITE, numCpus, 0, voiceMarkMaxLow, voiceMarkMaxHigh);
            (r.haveBigLittle <==> LowCpu(numCpus) != HighCpu(numCpus) && Differ(voiceMarkMaxLow, voiceMarkMaxHigh))
            && (r.haveBigLittle ==> r.littleCpu != r.bigCpu && r.voiceMarkMaxLittle < r.voiceMarkMaxBig)
            && (!r.haveBigLittle ==> r.littleCpu == r.bigCpu == HighCpu(numCpus)
                                     && r.voiceMarkMaxBig == r.voiceMarkMaxLittle)
  {
  }

  datatype Role = Big | Little | OtherCpu

  /** `cpuToBigLittle`: big is checked first, then little. */
  function CpuToBigLittle(s: Suite, cpu: int): (r: Role)
    ensures r == Big <==> cpu == s.bigCpu
    ensures r == Little <==> cpu != s.bigCpu && cpu == s.littleCpu
  {
    if cpu == s.bigCpu then Big else if cpu == s.littleCpu then Little else OtherCpu
  }

  /** The name printed for a role. */
  function RoleName(r: Role): string {
    match r
    case Big => "big"
    case Little => "little"
    case OtherCpu => "cpux"
  }

  /** On a homogeneous device the single CPU measured is reported as big, never little. */
  lemma HomogeneousIsBig(numCpus: int, voiceMarkMaxLow: real, voiceMarkMaxHigh: real)
    ensures var (r, _) := MeasureLowHigh(NEW_SUITE, numCpus, 0, voiceMarkMaxLow, voiceMarkMaxHigh);
            !r.haveBigLittle ==> CpuToBigLittle(r, HighCpu(numCpus)) == Big
  {
  }

  /** The light and heavy voice counts of `measureLatency`: a quarter and three quarters of the maximum. */
  function LatencyLevels(numVoicesMax: int): (r: (int, int))
    ensures r == (CDiv(numVoicesMax, 4), CDiv(3 * numVoicesMax, 4))
    ensures numVoicesMax >= 0 ==> 0 <= r.0 <= r.1 <= numVoicesMax
    ensures numVoicesMax >= 4 ==> 1 <= r.0 < r.1
  {
    (CDiv(numVoicesMax, 4), CDiv(3 * numVoicesMax, 4))
  }

  /** One LatencyMark run: the CPU, the low and the high voice counts. */
  datatype LatencyRun = LatencyRun(cpu: int, numVoices: int, numVoicesHigh: int)

  /**
   * `measureLatency`: light (low, low), heavy (high, high) and mixed (low,
   * high) runs, in that order, stopping after the first that fails. The
   * answer is the runs made and the error.
   */
  function MeasureLatency(cpu: int, numVoicesMax: int, errs: seq<int>): (r: (seq<LatencyRun>, int))
    requires |errs| == 3
    ensures 1 <= |r.0| <= 3 && r.1 == errs[|r.0| - 1]
    ensures forall k :: 0 <= k < |r.0| - 1 ==> errs[k] == 0
    ensures |r.0| < 3 ==> r.1 != 0
    ensures var (low, high) := LatencyLevels(numVoicesMax);
            r.0 == [LatencyRun(cpu, low, low), LatencyRun(cpu, high, high), LatencyRun(cpu, low, high)][..|r.0|]
  {
    var (low, high) := LatencyLevels(numVoicesMax);
    var runs := [LatencyRun(cpu, low, low), LatencyRun(cpu, high, high), LatencyRun(cpu, low, high)];
    if errs[0] != 0 then (runs[..1], errs[0])
    else if errs[1] != 0 then (runs[..2], errs[1])
    else (runs, errs[2])
  }

  /**
   * The CPUs `runTest` measures latency on, with the maximum each is measured
   * against (the double maximum converted to `int32_t`): the little CPU first
   * when big/little, then the big CPU.
   */
  function LatencyPlan(s: Suite): (plan: seq<(int, int)>)
    ensures |plan| == (if s.haveBigLittle then 2 else 1)
    ensures plan[|plan| - 1] == (s.bigCpu, TruncReal(s.voiceMarkMaxBig))
    ensures s.haveBigLittle ==> plan[0] == (s.littleCpu, TruncReal(s.voiceMarkMaxLittle))
  {
    (if s.haveBigLittle then [(s.littleCpu, TruncReal(s.voiceMarkMaxLittle))] else [])
    + [(s.bigCpu, TruncReal(s.voiceMarkMaxBig))]
  }

  /** A homogeneous run measures latency once, on the high CPU. */
  lemma HomogeneousPlan(numCpus: int, voiceMarkMaxLow: real, voiceMarkMaxHigh: real)
    requires LowCpu(numCpus) == HighCpu(numCpus)
    ensures var (r, _) := MeasureLowHigh(NEW_SUITE, numCpus, 0, voiceMarkMaxLow, voiceMarkMaxHigh);
            LatencyPlan(r) == [(HighCpu(numCpus), TruncReal(voiceMarkMaxLow))]
  {
  }

  /**
   * The latency part of `runTest` once the roles are set: on the little CPU
   * first when big/little, stopping at its error, then on the big CPU. The
   * answer is the latency runs made and the error.
   */
  function LatencyRuns(s: Suite, littleErrs: seq<int>, bigErrs: seq<int>): (r: (seq<LatencyRun>, int))
    requires |littleErrs| == 3 && |bigErrs| == 3
    ensures forall k :: 0 <= k < |r.0| ==>
              r.0[k].cpu == (if s.haveBigLittle && k < 3 then s.littleCpu else s.bigCpu)
    ensures r.1 == 0 ==> |r.0| == 3 * |LatencyPlan(s)|
  {
    if s.haveBigLittle then
      var (little, e1) := MeasureLatency(s.littleCpu, TruncReal(s.voiceMarkMaxLittle), littleErrs);
      if e1 != 0 then (little, e1)
      else
        var (big, e2) := MeasureLatency(s.bigCpu, TruncReal(s.voiceMarkMaxBig), bigErrs);
        (little + big, e2)
    else MeasureLatency(s.bigCpu, TruncReal(s.voiceMarkMaxBig), bigErrs)
  }

  /**
   * `runTest` as written: the low/high VoiceMark runs with the role test as
   * written (their error ends the test), then the latency runs.
   */
  function RunTest(numCpus: int, lowErr: int, voiceMarkMaxLow: real, voiceMarkMaxHigh: real,
                   littleErrs: seq<int>, bigErrs: seq<int>): (r: (seq<LatencyRun>, int))
    requires |littleErrs| == 3 && |bigErrs| == 3
    ensures lowErr != 0 ==> r == ([], lowErr)
    ensures lowErr == 0 ==>
              r == LatencyRuns(MeasureLowHighAsWritten(NEW_SUITE, numCpus, 0, voiceMarkMaxLow, voiceMarkMaxHigh).0,
                               littleErrs, bigErrs)
  {
    var (s, err) := MeasureLowHighAsWritten(NEW_SUITE, numCpus, lowErr, voiceMarkMaxLow, voiceMarkMaxHigh);
    if err != 0 then ([], err) else LatencyRuns(s, littleErrs, bigErrs)
  }

  /** `runTest` with the corrected role test. */
  function RunTestCorrected(numCpus: int, lowErr: int, voiceMarkMaxLow: real, voiceMarkMaxHigh: real,
                            littleErrs: seq<int>, bigErrs: seq<int>): (r: (seq<LatencyRun>, int))
    requires |littleErrs| == 3 && |bigErrs| == 3
    ensures lowErr != 0 ==> r == ([], lowErr)
    ensures lowErr == 0 ==>
              r == LatencyRuns(MeasureLowHigh(NEW_SUITE, numCpus, 0, voiceMarkMaxLow, voiceMarkMaxHigh).0,
                               littleErrs, bigErrs)
  {
    var (s, err) := MeasureLowHigh(NEW_SUITE, numCpus, lowErr, voiceMarkMaxLow, voiceMarkMaxHigh);
    if err != 0 then ([], err) else LatencyRuns(s, littleErrs, bigErrs)
  }

  /**
   * On eight CPUs, CPU 2 at 100 voices and CPU 6 at 200, no errors: as
   * written the first latency runs go to CPU 6 at 50 and 150 voices and the
   * last to CPU 2 at 25 and 75; corrected, CPU 2 comes first and CPU 6 last.
   */
  lemma LatencyOrderSwapped()
    ensures |RunTest(8, 0, 100.0, 200.0, [0, 0, 0], [0, 0, 0]).0| == 6
    ensures RunTest(8, 0, 100.0, 200.0, [0, 0, 0], [0, 0, 0]).0[0] == LatencyRun(6, 50, 50)
    ensures RunTest(8, 0, 100.0, 200.0, [0, 0, 0], [0, 0, 0]).0[1] == LatencyRun(6, 150, 150)
    ensures RunTest(8, 0, 100.0, 200.0, [0, 0, 0], [0, 0, 0]).0[3] == LatencyRun(2, 25, 25)
    ensures RunTest(8, 0, 100.0, 200.0, [0, 0, 0], [0, 0, 0]).0[4] == LatencyRun(2, 75, 75)
    ensures RunTestCorrected(8, 0, 100.0, 200.0, [0, 0, 0], [0, 0, 0]).0[0] == LatencyRun(2, 25, 25)
    ensures RunTestCorrected(8, 0, 100.0, 200.0, [0, 0, 0], [0, 0, 0]).0[3] == LatencyRun(6, 50, 50)
  {
    AsWrittenSwapsRoles();
  }
}

=== FILE: bin_counter.dfy ===
/**
 * A histogram of event counts (`BinCounter.h`): each bin counts its events and
 * remembers the running index of the last event it received.
 *
 * The counts are `int32_t` in the source and are far from overflowing in a
 * benchmark run; they are unbounded here.
 */
module BinCounter {

  datatype Bins = Bins(counts: seq<int>, lastMarkers: seq<int>, index: int)

  /** Both arrays hold one entry per bin. */
  predicate Valid(b: Bins) {
    |b.counts| == |b.lastMarkers|
  }

  /** The constructor: `numBins` zeroed counts and markers, event index 0. */
  function NewBins(numBins: nat): (b: Bins)
    ensures Valid(b) && |b.counts| == numBins && b.index == 0
    ensures forall i :: 0 <= i < numBins ==> b.counts[i] == 0 && b.lastMarkers[i] == 0
  {
    Bins(seq(numBins, _ => 0), seq(numBins, _ => 0), 0)
  }

  function NumBins(b: Bins): nat {
    |b.counts|
  }

  /** The bin an index lands in: below range goes to the first bin, above to the last. */
  function ClampIndex(binIndex: int, numBins: int): (k: int)
    requires numBins > 0
    ensures 0 <= k < numBins
    ensures 0 <= binIndex < numBins ==> k == binIndex
    ensures binIndex < 0 ==> k == 0
    ensures binIndex >= numBins ==> k == numBins - 1
  {
    if binIndex < 0 then 0 else if binIndex >= numBins then numBins - 1 else binIndex
  }

  /**
   * `increment`: the clamped bin gains one event and records the current event
   * index as its marker; no other bin changes; the event index moves on.
   */
  function Increment(b: Bins, binIndex: int): (r: Bins)
    requires Valid(b) && NumBins(b) > 0
    ensures Valid(r) && NumBins(r) == NumBins(b)
    ensures var k := ClampIndex(binIndex, NumBins(b));
            r.counts[k] == b.counts[k] + 1 && r.lastMarkers[k] == b.index
            && (forall i :: 0 <= i < NumBins(b) && i != k ==>
                  r.counts[i] == b.counts[i] && r.lastMarkers[i] == b.lastMarkers[i])
    ensures r.index == b.index + 1
  {
    var k := ClampIndex(binIndex, NumBins(b));
    Bins(b.counts[k := b.counts[k] + 1], b.lastMarkers[k := b.index], b.index + 1)
  }

  function Sum(s: seq<int>): int
    decreases |s|
  {
    if |s| == 0 then 0 else Sum(s[..|s| - 1]) + s[|s| - 1]
  }

  /** Bumping one entry by one bumps the sum by one. */
  lemma {:induction false} SumBump(s: seq<int>, k: int)
    requires 0 <= k < |s|
    ensures Sum(s[k := s[k] + 1]) == Sum(s) + 1
    decreases |s|
  {
    var t := s[k := s[k] + 1];
    var n := |s| - 1;
    if k == n {
      assert t[..n] == s[..n];
    } else {
      assert t[..n] == s[..n][k := s[k] + 1];
      SumBump(s[..n], k);
    }
  }

  lemma {:induction false} SumZeros(n: nat)
    ensures Sum(seq(n, _ => 0)) == 0
    decreases n
  {
    if n > 0 {
      assert seq(n, _ => 0)[..n - 1] == seq(n - 1, _ => 0);
      SumZeros(n - 1);
    }
  }

  /** The bins after a run of `increment` calls. */
  function IncrementAll(b: Bins, indices: seq<int>): (r: Bins)
    requires Valid(b) && NumBins(b) > 0
    ensures Valid(r) && NumBins(r) == NumBins(b)
    decreases |indices|
  {
    if |indices| == 0 then b else IncrementAll(Increment(b, indices[0]), indices[1..])
  }

  /** Every call lands in exactly one bin: the counts add up to the number of calls. */
  lemma {:induction false} SumCountsCalls(b: Bins, indices: seq<int>)
    requires Valid(b) && NumBins(b) > 0
    ensures Sum(IncrementAll(b, indices).counts) == Sum(b.counts) + |indices|
    ensures IncrementAll(b, indices).index == b.index + |indices|
    decreases |indices|
  {
    if |indices| > 0 {
      var c := Increment(b, indices[0]);
      SumBump(b.counts, ClampIndex(indices[0], NumBins(b)));
      SumCountsCalls(c, indices[1..]);
    }
  }

  /** From a fresh histogram the counts add up to the number of calls. */
  lemma FreshSumIsCalls(numBins: nat, indices: seq<int>)
    requires numBins > 0
    ensures Sum(IncrementAll(NewBins(numBins), indices).counts) == |indices|
  {
    SumZeros(numBins);
    SumCountsCalls(NewBins(numBins), indices);
  }
}

=== FILE: byte_fifo.dfy ===
/**
 * The byte ring buffer behind the engine's log (`ByteFIFO.h`): a fixed buffer
 * addressed by two ever-growing counters, each mapped to a position modulo the
 * buffer size. Writes and reads are done in contiguous chunks up to the end of
 * the buffer.
 *
 * The counters are 64-bit in the source and unbounded here. The source cuts
 * a counter to 32 bits before taking it modulo the size; positions here use
 * the whole counter, and `WritePositionAsWritten` shows where the two part.
 */
module ByteFifo {
  import opened Common

  datatype Fifo = Fifo(buffer: seq<Byte>, size: int, writeCounter: int, readCounter: int)

  /**
   * What holds for every FIFO the operations build: the buffer has `size > 0`
   * bytes and the writer is never more than `size` bytes ahead of the reader.
   */
  predicate Valid(f: Fifo) {
    |f.buffer| == f.size > 0 && 0 <= f.readCounter <= f.writeCounter <= f.readCounter + f.size
  }

  /**
   * The constructor: both counters at 0. The source leaves the storage
   * uninitialised; the model fills it with zeros, and no byte is read before
   * it has been written.
   */
  function NewFifo(numBytes: int): (f: Fifo)
    requires numBytes > 0
    ensures Valid(f) && f.size == numBytes && Contents(f) == []
  {
    Fifo(seq(numBytes, _ => 0), numBytes, 0, 0)
  }

  function WritePosition(f: Fifo): (p: int)
    requires f.size > 0 && f.writeCounter >= 0
    ensures 0 <= p < f.size
  {
    f.writeCounter % f.size
  }

  function ReadPosition(f: Fifo): (p: int)
    requires f.size > 0 && f.readCounter >= 0
    ensures 0 <= p < f.size
  {
    f.readCounter % f.size
  }

  /** Where the source's `(uint32_t)` cast wraps a counter. */
  const COUNTER_WRAP := 0x1_0000_0000

  /**
   * `getWritePosition` as written: the counter is cut to 32 bits before the
   * modulo. It agrees with `WritePosition` while the counter is below 2^32.
   */
  function WritePositionAsWritten(f: Fifo): (p: int)
    requires f.size > 0 && f.writeCounter >= 0
    ensures 0 <= p < f.size
    ensures f.writeCounter < COUNTER_WRAP ==> p == WritePosition(f)
  {
    (f.writeCounter % COUNTER_WRAP) % f.size
  }

  /** `getReadPosition` as written, with the same 32-bit cut. */
  function ReadPositionAsWritten(f: Fifo): (p: int)
    requires f.size > 0 && f.readCounter >= 0
    ensures 0 <= p < f.size
    ensures f.readCounter < COUNTER_WRAP ==> p == ReadPosition(f)
  {
    (f.readCounter % COUNTER_WRAP) % f.size
  }

  /**
   * With a 3-byte buffer, write counters 2^32 - 1 and 2^32 name consecutive
   * bytes of the stream, yet the cut positions put both at position 0: the
   * second byte lands on the first while it is still unread. The whole-counter
   * positions are 0 and 1.
   */
  lemma TruncatedPositionsCollide()
    ensures Valid(Fifo([0, 0, 0], 3, COUNTER_WRAP - 1, COUNTER_WRAP - 1))
    ensures Valid(Fifo([0, 0, 0], 3, COUNTER_WRAP, COUNTER_WRAP - 1))
    ensures WritePositionAsWritten(Fifo([0, 0, 0], 3, COUNTER_WRAP - 1, COUNTER_WRAP - 1)) == 0
    ensures WritePositionAsWritten(Fifo([0, 0, 0], 3, COUNTER_WRAP, COUNTER_WRAP - 1)) == 0
    ensures WritePosition(Fifo([0, 0, 0], 3, COUNTER_WRAP - 1, COUNTER_WRAP - 1)) == 0
    ensures WritePosition(Fifo([0, 0, 0], 3, COUNTER_WRAP, COUNTER_WRAP - 1)) == 1
  {
  }

  /** The unread bytes, oldest first. */
  ghost function Contents(f: Fifo): (c: seq<Byte>)
    requires Valid(f)
    ensures |c| == f.writeCounter - f.readCounter
  {
    seq(f.writeCounter - f.readCounter, i requires 0 <= i < f.writeCounter - f.readCounter =>
      f.buffer[Slot(f.readCounter, i, f.size)])
  }

  /** `getAvailableToRead`: the unread byte count, capped at the size. */
  function AvailableToRead(f: Fifo): (n: int)
    requires Valid(f)
    ensures 0 <= n <= f.size
    ensures n == |Contents(f)|
  {
    Min(f.size, f.writeCounter - f.readCounter)
  }

  /** `getAvailableToWrite`: the room left, so that both add up to the size. */
  function AvailableToWrite(f: Fifo): (n: int)
    requires Valid(f)
    ensures 0 <= n <= f.size
    ensures n + AvailableToRead(f) == f.size
  {
    f.size - AvailableToRead(f)
  }

  /** `advanceWriteCounter`: a non-positive count is ignored. */
  function AdvanceWriteCounter(f: Fifo, count: int): (g: Fifo)
    ensures g.writeCounter >= f.writeCounter
    ensures g.buffer == f.buffer && g.size == f.size && g.readCounter == f.readCounter
    ensures count <= 0 ==> g == f
    ensures count > 0 ==> g.writeCounter - f.writeCounter == count
  {
    if count > 0 then f.(writeCounter := f.writeCounter + count) else f
  }

  /** `advanceReadCounter`: a non-positive count is ignored. */
  function AdvanceReadCounter(f: Fifo, count: int): (g: Fifo)
    ensures g.readCounter >= f.readCounter
    ensures g.buffer == f.buffer && g.size == f.size && g.writeCounter == f.writeCounter
    ensures count <= 0 ==> g == f
    ensures count > 0 ==> g.readCounter - f.readCounter == count
  {
    if count > 0 then f.(readCounter := f.readCounter + count) else f
  }

  function AvailableToWriteContiguous(f: Fifo): (n: int)
    requires Valid(f)
    ensures 0 <= n <= AvailableToWrite(f)
    ensures n <= f.size - WritePosition(f)
    ensures n == 0 <==> AvailableToWrite(f) == 0
  {
    Min(AvailableToWrite(f), f.size - WritePosition(f))
  }

  function AvailableToReadContiguous(f: Fifo): (n: int)
    requires Valid(f)
    ensures 0 <= n <= AvailableToRead(f)
    ensures n <= f.size - ReadPosition(f)
    ensures n == 0 <==> AvailableToRead(f) == 0
  {
    Min(AvailableToRead(f), f.size - ReadPosition(f))
  }

  /** `memcpy` of `data` into `buf` at `pos`. */
  function CopyAt(buf: seq<Byte>, pos: int, data: seq<Byte>): (r: seq<Byte>)
    requires 0 <= pos && pos + |data| <= |buf|
    ensures |r| == |buf|
    ensures forall k :: 0 <= k < |buf| && !(pos <= k < pos + |data|) ==> r[k] == buf[k]
    ensures forall j :: 0 <= j < |data| ==> r[pos + j] == data[j]
  {
    buf[..pos] + data + buf[pos + |data|..]
  }

  /** The buffer position of the byte `offset` bytes after `counter`. */
  function Slot(counter: int, offset: int, size: int): (p: int)
    requires size > 0
    ensures 0 <= p < size
  {
    (counter + offset) % size
  }

  lemma MulAtLeast(d: int, size: int)
    requires d >= 1 && size > 0
    ensures d * size >= size
  {
  }

  /** Euclidean division has one remainder. */
  lemma ModUnique(c: int, size: int, q: int, r: int)
    requires size > 0 && 0 <= r < size && c == q * size + r
    ensures c % size == r
  {
    var q', r' := c / size, c % size;
    assert c == q' * size + r';
    var d := q - q';
    assert d * size == r' - r by {
      assert q * size - q' * size == d * size;
    }
    if d >= 1 {
      MulAtLeast(d, size);
    } else if d <= -1 {
      MulAtLeast(-d, size);
    }
  }

  /** Adding less than a lap to a counter moves its position by the same amount. */
  lemma ModShift(c: int, size: int, j: int)
    requires size > 0 && c >= 0 && 0 <= j && c % size + j < size
    ensures Slot(c, j, size) == c % size + j
  {
    var q := c / size;
    assert c == q * size + c % size;
    ModUnique(c + j, size, q, c % size + j);
  }

  /** Two counters less than a lap apart, and different, sit at different positions. */
  lemma ModDistinct(a: int, b: int, size: int)
    requires size > 0 && 0 <= a < b < a + size
    ensures a % size != b % size
  {
    var qa, qb := a / size, b / size;
    assert a == qa * size + a % size;
    assert b == qb * size + b % size;
    if a % size == b % size {
      var d := qb - qa;
      assert b - a == d * size by {
        assert qb * size - qa * size == d * size;
      }
      if d >= 1 {
        MulAtLeast(d, size);
      }
    }
  }

  /** One chunk of `write`: copy at the write position, then advance. */
  function WriteChunk(f: Fifo, data: seq<Byte>): (g: Fifo)
    requires Valid(f) && |data| <= AvailableToWriteContiguous(f)
    ensures Valid(g) && g.size == f.size && g.readCounter == f.readCounter
    ensures g.writeCounter == f.writeCounter + |data|
    ensures Contents(g) == Contents(f) + data
    ensures forall j :: 0 <= j < |data| ==> g.buffer[Slot(f.writeCounter, j, f.size)] == data[j]
  {
    var pos := WritePosition(f);
    var g := AdvanceWriteCounter(f.(buffer := CopyAt(f.buffer, pos, data)), |data|);
    assert Valid(g);
    forall j | 0 <= j < |data|
      ensures Slot(f.writeCounter, j, f.size) == pos + j
    {
      ModShift(f.writeCounter, f.size, j);
    }
    ChunkContents(f, g, pos, data);
    g
  }

  /** The facts a chunk write establishes, as the per-byte lemmas below take them. */
  predicate ChunkWritten(f: Fifo, g: Fifo, pos: int, data: seq<Byte>) {
    Valid(f) && Valid(g) && pos == WritePosition(f)
    && |data| <= AvailableToWriteContiguous(f)
    && g.readCounter == f.readCounter && g.writeCounter == f.writeCounter + |data|
    && g.size == f.size && g.buffer == CopyAt(f.buffer, pos, data)
    && (forall j :: 0 <= j < |data| ==> Slot(f.writeCounter, j, f.size) == pos + j)
  }

  /** An unread byte is not overwritten by the chunk. */
  lemma ChunkKeepsUnread(f: Fifo, g: Fifo, pos: int, data: seq<Byte>, i: int)
    requires ChunkWritten(f, g, pos, data)
    requires 0 <= i < f.writeCounter - f.readCounter
    ensures g.buffer[Slot(g.readCounter, i, g.size)] == Contents(f)[i]
  {
    var k := Slot(f.readCounter, i, f.size);
    if pos <= k < pos + |data| {
      var j := k - pos;
      assert Slot(f.writeCounter, j, f.size) == k;
      ModDistinct(f.readCounter + i, f.writeCounter + j, f.size);
      assert false;
    }
    assert g.buffer[k] == f.buffer[k];
  }

  /** A byte past the old unread ones is the chunk's byte at that offset. */
  lemma ChunkAppends(f: Fifo, g: Fifo, pos: int, data: seq<Byte>, i: int)
    requires ChunkWritten(f, g, pos, data)
    requires f.writeCounter - f.readCounter <= i < g.writeCounter - g.readCounter
    ensures g.buffer[Slot(g.readCounter, i, g.size)] == data[i - (f.writeCounter - f.readCounter)]
  {
    var j := i - (f.writeCounter - f.readCounter);
    assert f.readCounter + i == f.writeCounter + j;
    assert Slot(g.readCounter, i, g.size) == Slot(f.writeCounter, j, f.size) == pos + j;
  }

  /** One unread byte after a chunk write: old bytes kept, new bytes appended. */
  lemma ChunkContentsAt(f: Fifo, g: Fifo, pos: int, data: seq<Byte>, i: int)
    requires ChunkWritten(f, g, pos, data)
    requires 0 <= i < g.writeCounter - g.readCounter
    ensures g.buffer[Slot(g.readCounter, i, g.size)] == (Contents(f) + data)[i]
  {
    var n := f.writeCounter - f.readCounter;
    if i < n {
      ChunkKeepsUnread(f, g, pos, data, i);
    } else {
      ChunkAppends(f, g, pos, data, i);
    }
  }

  lemma ChunkContents(f: Fifo, g: Fifo, pos: int, data: seq<Byte>)
    requires ChunkWritten(f, g, pos, data)
    ensures Contents(g) == Contents(f) + data
  {
    forall i | 0 <= i < g.writeCounter - g.readCounter
      ensures Contents(g)[i] == (Contents(f) + data)[i]
    {
      ChunkContentsAt(f, g, pos, data, i);
    }
  }

  /**
   * The loop of `write`, from `done` bytes of `src` already written: keep
   * copying contiguous chunks while bytes are left and there is room.
   */
  function WriteLoop(f: Fifo, src: seq<Byte>, done: int): (r: (Fifo, int))
    requires Valid(f) && 0 <= done <= |src|
    ensures Valid(r.0) && r.0.readCounter == f.readCounter && r.0.size == f.size
    ensures done <= r.1 <= |src|
    ensures r.1 - done == Min(|src| - done, AvailableToWrite(f))
    ensures r.0.writeCounter == f.writeCounter + (r.1 - done)
    decreases |src| - done
  {
    var avail := AvailableToWriteContiguous(f);
    if done < |src| && avail > 0 then
      var toWrite := Min(avail, |src| - done);
      WriteLoop(WriteChunk(f, src[done..done + toWrite]), src, done + toWrite)
    else
      (f, done)
  }

  /** The loop appends exactly the bytes it accepted, in order, after the unread ones. */
  lemma {:induction false} WriteLoopContents(f: Fifo, src: seq<Byte>, done: int)
    requires Valid(f) && 0 <= done <= |src|
    ensures Contents(WriteLoop(f, src, done).0) == Contents(f) + src[done..WriteLoop(f, src, done).1]
    decreases |src| - done
  {
    if done < |src| && AvailableToWriteContiguous(f) > 0 {
      var next := done + Min(AvailableToWriteContiguous(f), |src| - done);
      var g := WriteChunk(f, src[done..next]);
      WriteLoopContents(g, src, next);
      WriteLoopStep(f, g, src, done, next);
    } else {
      WriteLoopStops(f, src, done);
    }
  }

  /** When the loop stops at once, it has appended nothing. */
  lemma WriteLoopStops(f: Fifo, src: seq<Byte>, done: int)
    requires Valid(f) && 0 <= done <= |src|
    requires done == |src| || AvailableToWriteContiguous(f) == 0
    ensures Contents(WriteLoop(f, src, done).0) == Contents(f) + src[done..WriteLoop(f, src, done).1]
  {
    assert WriteLoop(f, src, done) == (f, done);
    AppendNothing(Contents(f), src, done);
  }

  /** The inductive step: what holds for the rest of the loop holds for the whole. */
  lemma WriteLoopStep(f: Fifo, g: Fifo, src: seq<Byte>, done: int, next: int)
    requires Valid(f) && 0 <= done < |src| && AvailableToWriteContiguous(f) > 0
    requires next == done + Min(AvailableToWriteContiguous(f), |src| - done)
    requires g == WriteChunk(f, src[done..next])
    requires Contents(WriteLoop(g, src, next).0) == Contents(g) + src[next..WriteLoop(g, src, next).1]
    ensures Contents(WriteLoop(f, src, done).0) == Contents(f) + src[done..WriteLoop(f, src, done).1]
  {
    WriteLoopUnfold(f, src, done);
    LoopStepContents(f, g, src, done, next, WriteLoop(g, src, next));
  }

  /** One turn of the induction: the chunk's bytes, then the rest of the loop's. */
  lemma LoopStepContents(f: Fifo, g: Fifo, src: seq<Byte>, done: int, next: int, r: (Fifo, int))
    requires Valid(f) && Valid(g) && Valid(r.0) && 0 <= done <= next <= r.1 <= |src|
    requires WriteLoop(f, src, done) == r
    requires Contents(g) == Contents(f) + src[done..next]
    requires Contents(r.0) == Contents(g) + src[next..r.1]
    ensures Contents(WriteLoop(f, src, done).0) == Contents(f) + src[done..WriteLoop(f, src, done).1]
  {
    SliceSplit(src, done, next, r.1);
    AppendChain(Contents(f), Contents(g), Contents(r.0), src[done..next], src[next..r.1], src[done..r.1]);
  }

  lemma AppendNothing<T>(c: seq<T>, s: seq<T>, i: int)
    requires 0 <= i <= |s|
    ensures c + s[i..i] == c
  {
    assert s[i..i] == [];
  }

  /** One turn of the write loop: a chunk, then the rest of the loop. */
  lemma WriteLoopUnfold(f: Fifo, src: seq<Byte>, done: int)
    requires Valid(f) && 0 <= done < |src| && AvailableToWriteContiguous(f) > 0
    ensures var next := done + Min(AvailableToWriteContiguous(f), |src| - done);
            WriteLoop(f, src, done) == WriteLoop(WriteChunk(f, src[done..next]), src, next)
  {
  }

  /** A slice is its two halves, one after the other. */
  lemma SliceSplit<T>(s: seq<T>, i: int, j: int, k: int)
    requires 0 <= i <= j <= k <= |s|
    ensures s[i..k] == s[i..j] + s[j..k]
  {
  }

  /** Two appends in a row are one append of both parts. */
  lemma AppendChain<T>(c0: seq<T>, c1: seq<T>, c2: seq<T>, a: seq<T>, b: seq<T>, ab: seq<T>)
    requires c1 == c0 + a && c2 == c1 + b && ab == a + b
    ensures c2 == c0 + ab
  {
  }


  /**
   * `write`: accepts as many leading bytes of `src` as there is room for and
   * returns that count. The unread bytes are never overwritten: the accepted
   * bytes are appended after them.
   */
  function Write(f: Fifo, src: seq<Byte>): (r: (Fifo, int))
    requires Valid(f)
    ensures Valid(r.0) && r.0.size == f.size && r.0.readCounter == f.readCounter
    ensures r.1 == Min(|src|, AvailableToWrite(f))
    ensures r.0.writeCounter == f.writeCounter + r.1
    ensures Contents(r.0) == Contents(f) + src[..r.1]
  {
    WriteLoopContents(f, src, 0);
    WriteLoop(f, src, 0)
  }

  /** The accepted bytes land at the positions `counter mod size`, in order. */
  lemma WritePositions(f: Fifo, src: seq<Byte>)
    requires Valid(f)
    ensures var (g, n) := Write(f, src);
            forall j :: 0 <= j < n ==> g.buffer[Slot(f.writeCounter, j, f.size)] == src[j]
  {
    var (g, n) := Write(f, src);
    forall j | 0 <= j < n
      ensures g.buffer[Slot(f.writeCounter, j, f.size)] == src[j]
    {
      var i := f.writeCounter - f.readCounter + j;
      assert Contents(g)[i] == src[j];
      assert Contents(g)[i] == g.buffer[Slot(g.readCounter, i, g.size)];
      assert Slot(g.readCounter, i, g.size) == Slot(f.writeCounter, j, f.size);
    }
  }

  /**
   * `readLog`: the unread bytes up to the end of the buffer, oldest first; the
   * read counter moves on by exactly that many.
   */
  function ReadLog(f: Fifo): (r: (Fifo, seq<Byte>))
    requires Valid(f)
    ensures Valid(r.0) && r.0.size == f.size && r.0.writeCounter == f.writeCounter
    ensures r.0.readCounter == f.readCounter + |r.1|
    ensures |r.1| == Min(AvailableToRead(f), f.size - ReadPosition(f))
    ensures AvailableToRead(f) > 0 ==> |r.1| > 0
    ensures Contents(f) == r.1 + Contents(r.0)
  {
    var avail := AvailableToReadContiguous(f);
    var pos := ReadPosition(f);
    var s := f.buffer[pos..pos + avail];
    var g := AdvanceReadCounter(f, avail);
    forall j | 0 <= j < avail
      ensures Slot(f.readCounter, j, f.size) == pos + j
    {
      ModShift(f.readCounter, f.size, j);
    }
    assert Contents(f) == s + Contents(g);
    (g, s)
  }

  /** An operation on the FIFO. */
  datatype Op = WriteOp(src: seq<Byte>) | ReadOp

  /** One operation: the FIFO after it, the bytes it accepted, the bytes it read. */
  function Step(f: Fifo, op: Op): (r: (Fifo, seq<Byte>, seq<Byte>))
    requires Valid(f)
    ensures Valid(r.0) && r.0.size == f.size
    ensures r.0.writeCounter - f.writeCounter == |r.1|
    ensures r.0.readCounter - f.readCounter == |r.2|
    ensures r.2 + Contents(r.0) == Contents(f) + r.1
  {
    match op
    case WriteOp(src) => var (g, n) := Write(f, src); (g, src[..n], [])
    case ReadOp => var (g, s) := ReadLog(f); (g, [], s)
  }

  /** Run a sequence of operations: the final FIFO, the bytes accepted by the writes, the bytes read. */
  function Run(f: Fifo, ops: seq<Op>): (r: (Fifo, seq<Byte>, seq<Byte>))
    requires Valid(f)
    ensures Valid(r.0) && r.0.size == f.size
    ensures r.0.writeCounter - f.writeCounter == |r.1|
    ensures r.0.readCounter - f.readCounter == |r.2|
    decreases |ops|
  {
    if |ops| == 0 then (f, [], [])
    else
      var s := Step(f, ops[0]);
      var t := Run(s.0, ops[1..]);
      (t.0, s.1 + t.1, s.2 + t.2)
  }

  /**
   * FIFO order: the bytes read, followed by what is still unread, are the
   * bytes that were unread at the start followed by every accepted byte.
   */
  lemma {:induction false} RunIsFifo(f: Fifo, ops: seq<Op>)
    requires Valid(f)
    ensures Run(f, ops).2 + Contents(Run(f, ops).0) == Contents(f) + Run(f, ops).1
    decreases |ops|
  {
    if |ops| > 0 {
      var s := Step(f, ops[0]);
      var t := Run(s.0, ops[1..]);
      RunIsFifo(s.0, ops[1..]);
      assert Run(f, ops) == (t.0, s.1 + t.1, s.2 + t.2);
      Chain(s.2, t.2, Contents(f), Contents(s.0), Contents(t.0), s.1, t.1);
    }
  }

  /** Two FIFO steps compose: reads and accepted bytes concatenate. */
  lemma Chain<T>(r1: seq<T>, r2: seq<T>, c0: seq<T>, c1: seq<T>, c2: seq<T>, a1: seq<T>, a2: seq<T>)
    requires r1 + c1 == c0 + a1 && r2 + c2 == c1 + a2
    ensures (r1 + r2) + c2 == c0 + (a1 + a2)
  {
    calc {
      (r1 + r2) + c2;
      r1 + (r2 + c2);
      r1 + (c1 + a2);
      (r1 + c1) + a2;
    }
  }

  /** Starting empty, every byte read was accepted by a write, in the same order. */
  lemma ReadsArePrefixOfWrites(numBytes: int, ops: seq<Op>)
    requires numBytes > 0
    ensures Run(NewFifo(numBytes), ops).2 <= Run(NewFifo(numBytes), ops).1
  {
    var f := NewFifo(numBytes);
    RunIsFifo(f, ops);
    var r := Run(f, ops);
    assert r.2 + Contents(r.0) == r.1;
  }
}

=== FILE: changing_voice.dfy ===
/**
 * Voice scheduling for the changing-voice tests (`ChangingVoiceHarness.h`):
 * with a high voice count set, the count handed to the synthesizer at each
 * note-on changes every five notes, by switching between low and high, by
 * climbing in steps of five, or at random. `rand()` is a parameter; the
 * function-level `static` that remembers the last count is passed in and
 * returned.
 */
module ChangingVoice {
  import opened Common

  const NOTES_PER_STEP := 10

  /** The voice patterns; an undefined mode behaves as SWITCH. */
  datatype VoicesMode = Undefined | Switch | LinearLoop | Random

  /** The `rand() % d` of C for a non-negative `rand`: the remainder takes the dividend's sign. */
  function RandRem(rand: int, d: int): (m: int)
    requires rand >= 0 && d != 0
    ensures 0 <= m < Abs(d)
    ensures d > 0 ==> m == rand % d
  {
    rand % Abs(d)
  }

  /** Whether the count is recomputed at this note: every fifth note, starting with the first. */
  predicate NeedUpdate(noteCounter: nat) {
    noteCounter % (NOTES_PER_STEP / 2) == 0
  }

  /**
   * `getCurrentNumVoices`: `low` is the test's voice count and `high` the
   * high count. The answer is the count and the new remembered count.
   */
  function CurrentNumVoices(low: int, high: int, mode: VoicesMode, noteCounter: nat,
                            lastVoices: int, rand: int): (r: (int, int))
    requires rand >= 0
    requires high > 0 && NeedUpdate(noteCounter) && mode == Random ==> high - low + 1 != 0
    ensures high <= 0 ==> r == (low, lastVoices)
    ensures high > 0 ==> r.0 == r.1
    ensures high > 0 && !NeedUpdate(noteCounter) ==> r.1 == lastVoices
    ensures high > 0 && NeedUpdate(noteCounter) && (mode == Switch || mode == Undefined) ==>
              r.1 == (if noteCounter % NOTES_PER_STEP < NOTES_PER_STEP / 2 then low else high)
    ensures high > 0 && NeedUpdate(noteCounter) && mode == LinearLoop ==>
              (low <= lastVoices + 5 <= high ==> r.1 == lastVoices + 5)
              && (!(low <= lastVoices + 5 <= high) ==> r.1 == low)
    ensures high > 0 && NeedUpdate(noteCounter) && mode == Random ==>
              r.1 == RandRem(rand, high - low + 1) + low
  {
    if high > 0 then
      var v :=
        if NeedUpdate(noteCounter) then
          match mode
          case LinearLoop =>
            var next := lastVoices + NOTES_PER_STEP / 2;
            if next > high || next < low then low else next
          case Random => RandRem(rand, high - low + 1) + low
          case _ =>
            if noteCounter % NOTES_PER_STEP < NOTES_PER_STEP / 2 then low else high
        else lastVoices;
      (v, v)
    else (low, lastVoices)
  }

  /** After a recomputation with `low <= high`, the count lies in [low, high] in every mode. */
  lemma UpdateInRange(low: int, high: int, mode: VoicesMode, noteCounter: nat, lastVoices: int, rand: int)
    requires rand >= 0 && 0 < high && low <= high && NeedUpdate(noteCounter)
    ensures low <= CurrentNumVoices(low, high, mode, noteCounter, lastVoices, rand).0 <= high
  {
  }

  /** The counts handed out at consecutive notes `from`, `from + 1`, … with the given `rand()` values. */
  function VoicesRun(low: int, high: int, mode: VoicesMode, from: nat, lastVoices: int,
                     rands: seq<int>): (vs: seq<int>)
    requires low <= high
    requires forall k :: 0 <= k < |rands| ==> rands[k] >= 0
    ensures |vs| == |rands|
    decreases |rands|
  {
    if |rands| == 0 then []
    else
      var (v, last) := CurrentNumVoices(low, high, mode, from, lastVoices, rands[0]);
      [v] + VoicesRun(low, high, mode, from + 1, last, rands[1..])
  }

  /**
   * Starting at a recomputation point with a remembered count already in
   * range (or at note 0, where the count is recomputed at once), every count
   * handed out lies in [low, high].
   */
  lemma {:induction false} RunInRange(low: int, high: int, mode: VoicesMode, from: nat, lastVoices: int,
                                      rands: seq<int>)
    requires 0 < high && low <= high
    requires forall k :: 0 <= k < |rands| ==> rands[k] >= 0
    requires NeedUpdate(from) || low <= lastVoices <= high
    ensures forall k :: 0 <= k < |rands| ==> low <= VoicesRun(low, high, mode, from, lastVoices, rands)[k] <= high
    decreases |rands|
  {
    if |rands| > 0 {
      var (v, last) := CurrentNumVoices(low, high, mode, from, lastVoices, rands[0]);
      if NeedUpdate(from) {
        UpdateInRange(low, high, mode, from, lastVoices, rands[0]);
      }
      RunInRange(low, high, mode, from + 1, last, rands[1..]);
      var vs := VoicesRun(low, high, mode, from, lastVoices, rands);
      assert vs == [v] + VoicesRun(low, high, mode, from + 1, last, rands[1..]);
      forall k | 0 <= k < |rands|
        ensures low <= vs[k] <= high
      {
        if k > 0 {
          assert vs[k] == VoicesRun(low, high, mode, from + 1, last, rands[1..])[k - 1];
        }
      }
    }
  }

  /** SWITCH starting at note 0 hands out five lows, then five highs, and so on. */
  lemma SwitchPattern(low: int, high: int, lastVoices: int)
    requires 0 < high
    ensures CurrentNumVoices(low, high, Switch, 0, lastVoices, 0).0 == low
    ensures CurrentNumVoices(low, high, Switch, 5, lastVoices, 0).0 == high
    ensures CurrentNumVoices(low, high, Switch, 10, lastVoices, 0).0 == low
    ensures CurrentNumVoices(low, high, Switch, 7, lastVoices, 0).0 == lastVoices
  {
  }
}

=== FILE: clock_ramp.dfy ===
/**
 * The ClockRamp test (`ClockRampHarness.h`): while the voice count switches
 * between low and high, a per-burst state machine watches the render
 * utilisation to time how long the CPU clock takes to catch up with a jump in
 * work. The utilisation of each burst, the synthesizer's active voice count
 * and the timer's last entry time are parameters.
 */
module ClockRamp {
  import opened Common
  import SynthMarkResult
  import TestHarness

  const UTILIZATION_THRESHOLD_LOW := 0.95
  const UTILIZATION_THRESHOLD_HIGH := 1.0
  const NANOS_PER_MILLISECOND := 1_000_000

  datatype State = Low | Saturated | High | Slow | TooLow | TooHigh

  /** The states a run never leaves. */
  predicate IsFailed(s: State) {
    s == Slow || s == TooLow || s == TooHigh
  }

  datatype Ramp = Ramp(state: State, previousVoiceCount: int, previousUtilization: real,
                       jumpTimeNanos: int, rampDurationSum: int, rampDurationCount: int)

  /**
   * A harness at the start of a measurement. `onBeginMeasurement` clears the
   * ramp sums and sets the previous count to the low count; state LOW and a
   * zero previous utilisation come from the member initialisers, which hold
   * here because the test unit builds a fresh harness for every run.
   */
  function BeginMeasurement(numVoices: int): (r: Ramp)
    ensures r.state == Low && r.rampDurationSum == 0 && r.rampDurationCount == 0
    ensures r.previousVoiceCount == numVoices && r.previousUtilization == 0.0
  {
    Ramp(Low, numVoices, 0.0, 0, 0, 0)
  }

  /**
   * Whether the projected utilisation at the higher voice count,
   * `active * previousUtilization / previousVoiceCount`, is below 1.0. With a
   * previous count of zero the double division gives an infinity (or NaN for
   * 0/0), which is below 1.0 only when it is negative infinity.
   */
  predicate ProjectedTooLow(active: int, previousUtilization: real, previousVoiceCount: int) {
    if previousVoiceCount != 0 then
      active as real * previousUtilization / previousVoiceCount as real < UTILIZATION_THRESHOLD_HIGH
    else previousUtilization < 0.0
  }

  /**
   * `onRenderAudio` after the base harness answered `inner` for this block.
   * LOW reacts only to a rise in active voices and then checks, in order,
   * the previous utilisation (TOO_HIGH), the projection (TOO_LOW) and this
   * burst's utilisation (SATURATED, the jump time being the last entry), and
   * otherwise counts an immediate ramp of 0 and goes HIGH. SATURATED fails as
   * SLOW on a drop in voices, and otherwise goes HIGH once utilisation falls
   * below 0.95, counting the ramp since the jump. HIGH goes back to LOW on a
   * drop. The failure states force Finished. The voice count and utilisation
   * are remembered on every call.
   */
  function OnRenderAudio(r: Ramp, inner: TestHarness.CallbackResult, active: int, utilization: real,
                         lastEntryTime: int): (q: (Ramp, TestHarness.CallbackResult))
    ensures q.0.previousVoiceCount == active && q.0.previousUtilization == utilization
    ensures IsFailed(r.state) ==> q.0.state == r.state && q.1 == TestHarness.Finished
    ensures !IsFailed(r.state) ==> q.1 == inner
    ensures r.state == Low && active <= r.previousVoiceCount ==> q.0.state == Low
    ensures r.state == Low && active > r.previousVoiceCount ==>
              (r.previousUtilization > UTILIZATION_THRESHOLD_HIGH ==> q.0.state == TooHigh)
              && ((r.previousUtilization <= UTILIZATION_THRESHOLD_HIGH
                   && ProjectedTooLow(active, r.previousUtilization, r.previousVoiceCount)) ==> q.0.state == TooLow)
              && ((r.previousUtilization <= UTILIZATION_THRESHOLD_HIGH
                   && !ProjectedTooLow(active, r.previousUtilization, r.previousVoiceCount)
                   && utilization > UTILIZATION_THRESHOLD_HIGH) ==>
                    q.0.state == Saturated && q.0.jumpTimeNanos == lastEntryTime)
              && (q.0.state == High ==>
                    q.0.rampDurationCount == r.rampDurationCount + 1 && q.0.rampDurationSum == r.rampDurationSum)
    ensures r.state == Saturated ==>
              (active < r.previousVoiceCount ==> q.0.state == Slow)
              && (active >= r.previousVoiceCount && utilization < UTILIZATION_THRESHOLD_LOW ==>
                    q.0.state == High && q.0.rampDurationCount == r.rampDurationCount + 1
                    && q.0.rampDurationSum == r.rampDurationSum + WrapInt32(lastEntryTime - r.jumpTimeNanos))
              && (active >= r.previousVoiceCount && utilization >= UTILIZATION_THRESHOLD_LOW ==>
                    q.0.state == Saturated)
    ensures r.state == High ==> q.0.state == (if active < r.previousVoiceCount then Low else High)
    ensures q.0.rampDurationCount == r.rampDurationCount + (if EnteredHigh(r.state, q.0.state) then 1 else 0)
  {
    var next :=
      match r.state
      case Low =>
        if active > r.previousVoiceCount then
          if r.previousUtilization > UTILIZATION_THRESHOLD_HIGH then r.(state := TooHigh)
          else if ProjectedTooLow(active, r.previousUtilization, r.previousVoiceCount) then r.(state := TooLow)
          else if utilization > UTILIZATION_THRESHOLD_HIGH then r.(state := Saturated, jumpTimeNanos := lastEntryTime)
          else r.(state := High, rampDurationCount := r.rampDurationCount + 1)
        else r
      case Saturated =>
        if active < r.previousVoiceCount then r.(state := Slow)
        else if utilization < UTILIZATION_THRESHOLD_LOW then
          r.(state := High,
             rampDurationSum := r.rampDurationSum + WrapInt32(lastEntryTime - r.jumpTimeNanos),
             rampDurationCount := r.rampDurationCount + 1)
        else r
      case High => if active < r.previousVoiceCount then r.(state := Low) else r
      case _ => r;
    var result := if IsFailed(r.state) then TestHarness.Finished else inner;
    (next.(previousVoiceCount := active, previousUtilization := utilization), result)
  }

  /** A step that ends in HIGH from another state: one completed ramp. */
  predicate EnteredHigh(before: State, after: State) {
    before != High && after == High
  }

  /** What one burst reports to the state machine. */
  datatype Burst = Burst(inner: TestHarness.CallbackResult, active: int, utilization: real, lastEntryTime: int)

  function Run(r: Ramp, bursts: seq<Burst>): (q: Ramp)
    decreases |bursts|
  {
    if |bursts| == 0 then r
    else
      var b := bursts[0];
      Run(OnRenderAudio(r, b.inner, b.active, b.utilization, b.lastEntryTime).0, bursts[1..])
  }

  /** The number of completed ramps a run of bursts goes through. */
  function RampsIn(r: Ramp, bursts: seq<Burst>): nat
    decreases |bursts|
  {
    if |bursts| == 0 then 0
    else
      var b := bursts[0];
      var next := OnRenderAudio(r, b.inner, b.active, b.utilization, b.lastEntryTime).0;
      (if EnteredHigh(r.state, next.state) then 1 else 0) + RampsIn(next, bursts[1..])
  }

  /**
   * Over any run the ramp count grows by exactly the number of entries into
   * HIGH, and a failed state, once reached, is where the run ends.
   */
  lemma {:induction false} RunCountsRamps(r: Ramp, bursts: seq<Burst>)
    ensures Run(r, bursts).rampDurationCount == r.rampDurationCount + RampsIn(r, bursts)
    ensures IsFailed(r.state) ==> Run(r, bursts).state == r.state && RampsIn(r, bursts) == 0
    decreases |bursts|
  {
    if |bursts| > 0 {
      var b := bursts[0];
      RunCountsRamps(OnRenderAudio(r, b.inner, b.active, b.utilization, b.lastEntryTime).0, bursts[1..]);
    }
  }

  /** The verdict of `onEndMeasurement`. */
  datatype Verdict = FailSlow | FailTooHigh | FailNeverSaturated | Valid

  /**
   * `onEndMeasurement`: SLOW, TOO_HIGH, and TOO_LOW or no completed ramp are
   * failures that leave the measurement alone; otherwise the measurement is
   * the mean ramp in milliseconds.
   */
  function EndMeasurement(r: Ramp, result: SynthMarkResult.Result): (q: (Verdict, SynthMarkResult.Result))
    ensures q.0 == Valid <==> !IsFailed(r.state) && r.rampDurationCount != 0
    ensures q.0 != Valid ==> q.1 == result
    ensures q.0 == Valid ==>
              q.1 == SynthMarkResult.SetMeasurement(result,
                       r.rampDurationSum as real / (r.rampDurationCount * NANOS_PER_MILLISECOND) as real)
    ensures r.state == Slow ==> q.0 == FailSlow
    ensures r.state == TooHigh ==> q.0 == FailTooHigh
  {
    if r.state == Slow then (FailSlow, result)
    else if r.state == TooHigh then (FailTooHigh, result)
    else if r.state == TooLow || r.rampDurationCount == 0 then (FailNeverSaturated, result)
    else
      var averageRampMillis := r.rampDurationSum as real / (r.rampDurationCount * NANOS_PER_MILLISECOND) as real;
      (Valid, SynthMarkResult.SetMeasurement(result, averageRampMillis))
  }

  /** A run that saw a ramp and did not fail is valid, and its measurement is the mean ramp. */
  lemma ValidAfterRamp(numVoices: int, bursts: seq<Burst>, result: SynthMarkResult.Result)
    requires RampsIn(BeginMeasurement(numVoices), bursts) > 0
    requires !IsFailed(Run(BeginMeasurement(numVoices), bursts).state)
    ensures EndMeasurement(Run(BeginMeasurement(numVoices), bursts), result).0 == Valid
  {
    RunCountsRamps(BeginMeasurement(numVoices), bursts);
  }
}

=== FILE: command_line.dfy ===
/**
 * What every command-line front end shares: C-string indexing of an
 * argument, and the `for (iarg = 1; iarg < argc; iarg++)` loop that applies
 * one argument at a time until one of them ends the program with an exit
 * code.
 */
module CommandLine {
  /** `s[i]` of a NUL-terminated C string: the terminating NUL past the end. */
  function CharAt(s: string, i: nat): (c: char)
    ensures i < |s| ==> c == s[i]
    ensures i >= |s| ==> c == 0 as char
  {
    if i < |s| then s[i] else 0 as char
  }

  /** `&s[i]` of a C string: the text from position `i`, empty at or past the end. */
  function From(s: string, i: nat): (t: string)
    ensures i <= |s| ==> t == s[i..]
    ensures i >= |s| ==> t == []
  {
    if i <= |s| then s[i..] else []
  }

  /** A switch argument: it starts with '-'. */
  predicate IsSwitch(arg: string) {
    CharAt(arg, 0) == '-'
  }

  /** After one argument: go on with these settings, or return this exit code from `main`. */
  datatype Step<O> = Next(o: O) | Exit(code: int)

  /** The argument loop: each argument in order until one exits. */
  function Parse<O>(o: O, args: seq<string>, step: (O, string) -> Step<O>): (r: Step<O>)
    ensures |args| == 0 ==> r == Next(o)
    decreases |args|
  {
    if |args| == 0 then Next(o)
    else
      match step(o, args[0])
      case Exit(c) => Exit(c)
      case Next(o1) => Parse(o1, args[1..], step)
  }

  /**
   * The loop over `a + b` is the loop over `a` followed, if nothing exited,
   * by the loop over `b` from where it left off.
   */
  lemma {:induction false} ParseAppend<O>(o: O, a: seq<string>, b: seq<string>, step: (O, string) -> Step<O>)
    ensures Parse(o, a, step).Exit? ==> Parse(o, a + b, step) == Exit(Parse(o, a, step).code)
    ensures Parse(o, a, step).Next? ==> Parse(o, a + b, step) == Parse(Parse(o, a, step).o, b, step)
    decreases |a|
  {
    if |a| == 0 {
      assert a + b == b;
    } else {
      assert (a + b)[0] == a[0];
      assert (a + b)[1..] == a[1..] + b;
      match step(o, a[0])
      case Exit(c) =>
      case Next(o1) => ParseAppend(o1, a[1..], b, step);
    }
  }

  /** A property every accepted argument keeps holds after the whole loop. */
  lemma {:induction false} ParseKeeps<O>(o: O, args: seq<string>, step: (O, string) -> Step<O>, inv: O -> bool)
    requires inv(o)
    requires forall p, arg :: inv(p) && step(p, arg).Next? ==> inv(step(p, arg).o)
    ensures Parse(o, args, step).Next? ==> inv(Parse(o, args, step).o)
    decreases |args|
  {
    if |args| > 0 {
      match step(o, args[0])
      case Exit(c) =>
      case Next(o1) => ParseKeeps(o1, args[1..], step, inv);
    }
  }

  /** When no single argument exits with a code outside `codes`, neither does the loop. */
  lemma {:induction false} ParseExitCodes<O>(o: O, args: seq<string>, step: (O, string) -> Step<O>, codes: set<int>)
    requires forall p, arg :: step(p, arg).Exit? ==> step(p, arg).code in codes
    ensures Parse(o, args, step).Exit? ==> Parse(o, args, step).code in codes
    decreases |args|
  {
    if |args| > 0 {
      match step(o, args[0])
      case Exit(c) =>
      case Next(o1) => ParseExitCodes(o1, args[1..], step, codes);
    }
  }

  /** The loop exits exactly when some argument, reached with the settings before it, exits. */
  lemma {:induction false} ParseExitsAt<O>(o: O, args: seq<string>, step: (O, string) -> Step<O>, i: nat)
    requires i < |args|
    requires Parse(o, args[..i], step).Next?
    requires step(Parse(o, args[..i], step).o, args[i]).Exit?
    ensures Parse(o, args, step) == Exit(step(Parse(o, args[..i], step).o, args[i]).code)
  {
    assert args == args[..i] + args[i..];
    ParseAppend(o, args[..i], args[i..], step);
  }
}

=== FILE: common.dfy ===
/**
 * Small shared vocabulary: optional values, the MIN/MAX clamp idiom used all
 * over the engine, C-style integer arithmetic, and decimal text as produced by
 * `"%d"` / `ostream << int` and read back by `atoi`.
 */
module Common {

  datatype Option<T> = None | Some(value: T)

  /** An unsigned 8-bit value. */
  type Byte = b: int | 0 <= b < 256

  function Min(a: int, b: int): (r: int)
    ensures r <= a && r <= b
    ensures r == a || r == b
  {
    if a < b then a else b
  }

  function Max(a: int, b: int): (r: int)
    ensures r >= a && r >= b
    ensures r == a || r == b
  {
    if a > b then a else b
  }

  /** `MIN(hi, MAX(v, lo))`, the clamp written in that order by the engine. */
  function Clamp(v: int, lo: int, hi: int): (r: int)
    ensures lo <= hi ==> lo <= r <= hi
    ensures lo <= v <= hi ==> r == v
    ensures lo <= hi && v < lo ==> r == lo
    ensures v > hi ==> r == hi
  {
    Min(hi, Max(v, lo))
  }

  lemma ClampIdempotent(v: int, lo: int, hi: int)
    ensures Clamp(Clamp(v, lo, hi), lo, hi) == Clamp(v, lo, hi)
  {
  }

  function RealMin(a: real, b: real): (r: real)
    ensures r <= a && r <= b
    ensures r == a || r == b
  {
    if a < b then a else b
  }

  function RealMax(a: real, b: real): (r: real)
    ensures r >= a && r >= b
    ensures r == a || r == b
  {
    if a > b then a else b
  }

  function RealClamp(v: real, lo: real, hi: real): (r: real)
    ensures lo <= hi ==> lo <= r <= hi
    ensures lo <= v <= hi ==> r == v
    ensures v < lo <= hi ==> r == lo
    ensures v > hi ==> r == hi
  {
    RealMin(hi, RealMax(v, lo))
  }

  /**
   * C `/` by a positive divisor: the quotient is truncated toward zero, so it
   * differs from Dafny's Euclidean `/` for negative dividends.
   */
  function CDiv(a: int, b: int): (q: int)
    requires b > 0
    ensures a >= 0 ==> q == a / b
    ensures a < 0 ==> q == -((-a) / b) && q <= 0
  {
    if a >= 0 then a / b else -((-a) / b)
  }

  /** C `/` by any non-zero divisor: the quotient truncated toward zero. */
  function CDivAny(a: int, b: int): (q: int)
    requires b != 0
    ensures b > 0 ==> q == CDiv(a, b)
    ensures b < 0 ==> q == -CDiv(a, -b)
    ensures (a >= 0) == (b > 0) ==> q >= 0
    ensures (a >= 0) != (b > 0) ==> q <= 0
  {
    if b > 0 then CDiv(a, b) else -CDiv(a, -b)
  }

  function Abs(a: int): (r: nat)
    ensures r == a || r == -a
  {
    if a < 0 then -a else a
  }

  /** `(int) x` for a double: truncation toward zero. */
  function TruncReal(x: real): (r: int)
    ensures x >= 0.0 ==> r as real <= x < r as real + 1.0
    ensures x < 0.0 ==> r as real - 1.0 < x <= r as real
  {
    if x >= 0.0 then x.Floor else -((-x).Floor)
  }

  /** The two's-complement value a 64-bit or wider integer has once stored in an `int32_t`. */
  function WrapInt32(x: int): (r: int)
    ensures -0x8000_0000 <= r < 0x8000_0000
    ensures -0x8000_0000 <= x < 0x8000_0000 ==> r == x
    ensures (r - x) % 0x1_0000_0000 == 0
  {
    (x + 0x8000_0000) % 0x1_0000_0000 - 0x8000_0000
  }

  /** `int16_t` storage of an `int`. */
  function WrapInt16(x: int): (r: int)
    ensures -0x8000 <= r < 0x8000
    ensures -0x8000 <= x < 0x8000 ==> r == x
    ensures (r - x) % 0x1_0000 == 0
  {
    (x + 0x8000) % 0x1_0000 - 0x8000
  }

  // ----- decimal text -----

  predicate IsDigit(c: char) {
    '0' <= c <= '9'
  }

  predicate AllDigits(s: string) {
    forall i :: 0 <= i < |s| ==> IsDigit(s[i])
  }

  function DigitChar(d: int): (c: char)
    requires 0 <= d < 10
    ensures IsDigit(c) && c as int - '0' as int == d
  {
    (d + '0' as int) as char
  }

  function DigitValue(c: char): (d: int)
    requires IsDigit(c)
    ensures 0 <= d < 10
  {
    c as int - '0' as int
  }

  /** Shortest decimal spelling of a natural number, as `"%d"` prints it. */
  function NatToString(n: nat): (s: string)
    ensures 1 <= |s|
    ensures AllDigits(s)
    ensures |s| > 1 ==> s[0] != '0'
    decreases n
  {
    if n < 10 then [DigitChar(n)] else NatToString(n / 10) + [DigitChar(n % 10)]
  }

  /** `"%d"` / `ostream << int`: a leading '-' for negative values. */
  function IntToString(n: int): (s: string)
    ensures 1 <= |s|
    ensures n < 0 <==> s[0] == '-'
    ensures n >= 0 ==> AllDigits(s)
  {
    if n < 0 then "-" + NatToString(-n) else NatToString(n)
  }

  /** Value of a string of decimal digits (most significant first). */
  function DigitsValue(s: string): (v: nat)
    requires AllDigits(s)
    ensures |s| == 0 ==> v == 0
  {
    if |s| == 0 then 0 else DigitsValue(s[..|s| - 1]) * 10 + DigitValue(s[|s| - 1])
  }

  /** The longest prefix made of decimal digits. */
  function DigitPrefix(s: string): (p: string)
    ensures p <= s && AllDigits(p)
    ensures |p| < |s| ==> !IsDigit(s[|p|])
  {
    if |s| == 0 || !IsDigit(s[0]) then [] else [s[0]] + DigitPrefix(s[1..])
  }

  /** The characters C's `isspace` accepts in the "C" locale. */
  predicate IsSpace(c: char) {
    c == ' ' || c == '\t' || c == '\n' || c == '\r' || c == 11 as char || c == 12 as char
  }

  function SkipSpace(s: string): (t: string)
    ensures |t| <= |s| && t == s[|s| - |t|..]
    ensures |t| > 0 ==> !IsSpace(t[0])
    ensures forall i :: 0 <= i < |s| - |t| ==> IsSpace(s[i])
  {
    if |s| > 0 && IsSpace(s[0]) then
      var t := SkipSpace(s[1..]);
      assert s[1..][|s| - 1 - |t|..] == s[|s| - |t|..];
      assert forall i :: 1 <= i < |s| ==> s[i] == s[1..][i - 1];
      t
    else s
  }

  /**
   * C's `atoi`: leading white space, an optional sign, then as many digits as
   * follow; anything else ends the number and an empty number reads as 0.
   */
  function Atoi(s: string): int {
    SignedDigits(SkipSpace(s))
  }

  /** An optional sign, then the leading digits; an empty number is 0. */
  function SignedDigits(t: string): int {
    if |t| > 0 && t[0] == '-' then -(DigitsValue(DigitPrefix(t[1..])) as int)
    else if |t| > 0 && t[0] == '+' then DigitsValue(DigitPrefix(t[1..]))
    else DigitsValue(DigitPrefix(t))
  }

  lemma {:induction false} DigitPrefixOfDigits(s: string)
    requires AllDigits(s)
    ensures DigitPrefix(s) == s
    decreases |s|
  {
    if |s| > 0 {
      DigitPrefixOfDigits(s[1..]);
    }
  }

  lemma {:induction false} DigitsValueOfNatToString(n: nat)
    ensures DigitsValue(NatToString(n)) == n
    decreases n
  {
    if n >= 10 {
      var s := NatToString(n / 10) + [DigitChar(n % 10)];
      assert s[..|s| - 1] == NatToString(n / 10);
      DigitsValueOfNatToString(n / 10);
    }
  }

  /** Reading back what `"%d"` printed gives the number: `atoi(IntToString(n)) == n`. */
  lemma AtoiOfIntToString(n: int)
    ensures Atoi(IntToString(n)) == n
  {
    AtoiOfIntToStringThen(n, []);
    assert IntToString(n) + [] == IntToString(n);
  }

  lemma {:induction false} DigitPrefixStopsAtNonDigit(d: string, t: string)
    requires AllDigits(d)
    requires |t| == 0 || !IsDigit(t[0])
    ensures DigitPrefix(d + t) == d
    decreases |d|
  {
    if |d| > 0 {
      assert (d + t)[1..] == d[1..] + t;
      DigitPrefixStopsAtNonDigit(d[1..], t);
    } else {
      assert d + t == t;
    }
  }

  /** `atoi` of digits followed by a non-digit reads exactly the digits. */
  lemma AtoiLeadingDigits(digits: string, rest: string)
    requires |digits| > 0 && AllDigits(digits)
    requires |rest| == 0 || !IsDigit(rest[0])
    ensures Atoi(digits + rest) == DigitsValue(digits)
  {
    assert (digits + rest)[0] == digits[0];
    AtoiOfDigitStart(digits + rest);
    DigitPrefixStopsAtNonDigit(digits, rest);
  }

  /** Text that starts with a digit is read as its leading digits. */
  lemma AtoiOfDigitStart(s: string)
    requires |s| > 0 && IsDigit(s[0])
    ensures Atoi(s) == DigitsValue(DigitPrefix(s))
  {
    assert !IsSpace(s[0]);
    assert SkipSpace(s) == s;
    assert s[0] != '-' && s[0] != '+';
  }

  /** Text that starts with '-' is read as the negated digits after it. */
  lemma AtoiOfMinusStart(s: string)
    requires |s| > 0 && s[0] == '-'
    ensures Atoi(s) == -(DigitsValue(DigitPrefix(s[1..])) as int)
  {
    assert !IsSpace(s[0]);
    assert SkipSpace(s) == s;
  }

  /**
   * A number printed with `"%d"` and followed by anything that does not start
   * with a digit (a `*` marker, a newline) still reads back as that number.
   */
  lemma AtoiOfIntToStringThen(n: int, t: string)
    requires |t| == 0 || !IsDigit(t[0])
    ensures Atoi(IntToString(n) + t) == n
  {
    if n < 0 {
      AtoiOfNegativeThen(n, t);
    } else {
      AtoiOfNatThen(n, t);
    }
  }

  lemma AtoiOfNatThen(n: nat, t: string)
    requires |t| == 0 || !IsDigit(t[0])
    ensures Atoi(NatToString(n) + t) == n
  {
    var d := NatToString(n);
    assert (d + t)[0] == d[0];
    AtoiOfDigitStart(d + t);
    DigitPrefixStopsAtNonDigit(d, t);
    DigitsValueOfNatToString(n);
  }

  lemma AtoiOfNegativeThen(n: int, t: string)
    requires n < 0 && (|t| == 0 || !IsDigit(t[0]))
    ensures Atoi("-" + NatToString(-n) + t) == n
  {
    var d := NatToString(-n);
    var s := "-" + (d + t);
    assert "-" + d + t == s;
    assert s[1..] == d + t;
    AtoiOfMinusStart(s);
    DigitPrefixStopsAtNonDigit(d, t);
    DigitsValueOfNatToString(-n);
  }

  /** Leading blanks do not change what `atoi` reads. */
  lemma AtoiSkipsLeadingSpace(pad: string, s: string)
    requires forall i :: 0 <= i < |pad| ==> IsSpace(pad[i])
    ensures Atoi(pad + s) == Atoi(s)
    decreases |pad|
  {
    if |pad| > 0 {
      assert (pad + s)[1..] == pad[1..] + s;
      AtoiSkipsLeadingSpace(pad[1..], s);
    } else {
      assert pad + s == s;
    }
  }

  // ----- ASCII text helpers used by the app -----

  function LowerChar(c: char): (r: char)
    ensures 'A' <= c <= 'Z' ==> r as int == c as int + 32
    ensures !('A' <= c <= 'Z') ==> r == c
  {
    if 'A' <= c <= 'Z' then (c as int + 32) as char else c
  }

  function Lower(s: string): (r: string)
    ensures |r| == |s|
    ensures forall i :: 0 <= i < |s| ==> r[i] == LowerChar(s[i])
  {
    if |s| == 0 then [] else [LowerChar(s[0])] + Lower(s[1..])
  }
}

=== FILE: cpu_analyzer.dfy ===
/**
 * CPU-migration statistics (`CpuAnalyzer.h`): a histogram of the CPU each
 * callback ran on, plus how often the CPU changed between callbacks. The CPU
 * index, which the source asks the OS for, is a parameter.
 */
module CpuAnalyzer {
  import opened Common
  import BinCounter

  const MAX_CPUS := 32

  datatype Analyzer = Analyzer(previousCpu: int, migrationCount: int, totalCount: int,
                               cpuBins: BinCounter.Bins)

  /** A fresh analyzer: no previous CPU (-1), no counts, 32 empty bins. */
  function NewAnalyzer(): (a: Analyzer)
    ensures a.previousCpu == -1 && a.migrationCount == 0 && a.totalCount == 0
    ensures BinCounter.Valid(a.cpuBins) && BinCounter.NumBins(a.cpuBins) == MAX_CPUS
  {
    Analyzer(-1, 0, 0, BinCounter.NewBins(MAX_CPUS))
  }

  predicate Valid(a: Analyzer) {
    BinCounter.Valid(a.cpuBins) && BinCounter.NumBins(a.cpuBins) == MAX_CPUS
  }

  predicate ValidCpu(cpu: int) {
    0 <= cpu < MAX_CPUS
  }

  /**
   * `recordCpu`: a valid CPU index is counted in its own bin (an invalid one,
   * such as the -1 of a failed query, in none); a change of CPU counts as a
   * migration; every call counts towards the total.
   */
  function RecordCpu(a: Analyzer, cpu: int): (r: Analyzer)
    requires Valid(a)
    ensures Valid(r)
    ensures ValidCpu(cpu) ==> r.cpuBins == BinCounter.Increment(a.cpuBins, cpu)
    ensures ValidCpu(cpu) ==> r.cpuBins.counts[cpu] == a.cpuBins.counts[cpu] + 1
    ensures !ValidCpu(cpu) ==> r.cpuBins == a.cpuBins
    ensures r.migrationCount == a.migrationCount + (if cpu != a.previousCpu then 1 else 0)
    ensures r.previousCpu == cpu
    ensures r.totalCount == a.totalCount + 1
  {
    var bins := if ValidCpu(cpu) then BinCounter.Increment(a.cpuBins, cpu) else a.cpuBins;
    var migrations := if cpu != a.previousCpu then a.migrationCount + 1 else a.migrationCount;
    Analyzer(cpu, migrations, a.totalCount + 1, bins)
  }

  function RecordAll(a: Analyzer, cpus: seq<int>): (r: Analyzer)
    requires Valid(a)
    ensures Valid(r)
    decreases |cpus|
  {
    if |cpus| == 0 then a else RecordAll(RecordCpu(a, cpus[0]), cpus[1..])
  }

  /** The number of positions where a CPU differs from the one before it, starting from `prev`. */
  function Changes(prev: int, cpus: seq<int>): nat
    decreases |cpus|
  {
    if |cpus| == 0 then 0
    else (if cpus[0] != prev then 1 else 0) + Changes(cpus[0], cpus[1..])
  }

  function CountValid(cpus: seq<int>): nat
    decreases |cpus|
  {
    if |cpus| == 0 then 0 else (if ValidCpu(cpus[0]) then 1 else 0) + CountValid(cpus[1..])
  }

  lemma {:induction false} ChangesAtMostLength(prev: int, cpus: seq<int>)
    ensures Changes(prev, cpus) <= |cpus|
    decreases |cpus|
  {
    if |cpus| > 0 {
      ChangesAtMostLength(cpus[0], cpus[1..]);
    }
  }

  /**
   * After a run of calls: the total is the number of calls, the migrations are
   * the CPU changes (counting a change from the starting previous CPU), and
   * the bins gained one event per valid CPU index.
   */
  lemma {:induction false} RecordAllCounts(a: Analyzer, cpus: seq<int>)
    requires Valid(a)
    ensures var r := RecordAll(a, cpus);
            r.totalCount == a.totalCount + |cpus|
            && r.migrationCount == a.migrationCount + Changes(a.previousCpu, cpus)
            && BinCounter.Sum(r.cpuBins.counts) == BinCounter.Sum(a.cpuBins.counts) + CountValid(cpus)
            && (|cpus| > 0 ==> r.previousCpu == cpus[|cpus| - 1])
    decreases |cpus|
  {
    if |cpus| > 0 {
      var b := RecordCpu(a, cpus[0]);
      if ValidCpu(cpus[0]) {
        BinCounter.SumBump(a.cpuBins.counts, cpus[0]);
      }
      RecordAllCounts(b, cpus[1..]);
      if |cpus| > 1 {
        assert cpus[1..][|cpus[1..]| - 1] == cpus[|cpus| - 1];
      }
    }
  }

  /**
   * From a fresh analyzer: migrations never exceed the total, and a first call
   * with a valid CPU is a migration, since no CPU was recorded before.
   */
  lemma FreshCounts(cpus: seq<int>)
    ensures var r := RecordAll(NewAnalyzer(), cpus);
            r.totalCount == |cpus| && r.migrationCount <= r.totalCount
            && r.migrationCount == Changes(-1, cpus)
            && BinCounter.Sum(r.cpuBins.counts) == CountValid(cpus)
    ensures |cpus| > 0 && ValidCpu(cpus[0]) ==> RecordCpu(NewAnalyzer(), cpus[0]).migrationCount == 1
  {
    RecordAllCounts(NewAnalyzer(), cpus);
    ChangesAtMostLength(-1, cpus);
    BinCounter.SumZeros(MAX_CPUS);
  }

  /**
   * `migrationPerMil` in `dump`: migrations per thousand calls, rounded down
   * by C integer division. The division needs at least one recorded call.
   */
  function MigrationPerMil(a: Analyzer): (m: int)
    requires a.totalCount > 0
    ensures 0 <= a.migrationCount <= a.totalCount ==> 0 <= m <= 1000
    ensures m * a.totalCount <= 1000 * a.migrationCount || a.migrationCount < 0
    ensures a.migrationCount >= 0 ==> (m + 1) * a.totalCount > 1000 * a.migrationCount
  {
    PerMilBounds(a.migrationCount, a.totalCount);
    CDiv(1000 * a.migrationCount, a.totalCount)
  }

  lemma PerMilBounds(mig: int, total: int)
    requires total > 0
    ensures 0 <= mig <= total ==> 0 <= CDiv(1000 * mig, total) <= 1000
    ensures CDiv(1000 * mig, total) * total <= 1000 * mig || mig < 0
    ensures mig >= 0 ==> (CDiv(1000 * mig, total) + 1) * total > 1000 * mig
  {
    if mig >= 0 {
      var x := 1000 * mig;
      var q := x / total;
      assert x == q * total + x % total;
      assert (q + 1) * total == q * total + total;
      assert q >= 0;
      if mig <= total && q > 1000 {
        ScaleUp(1001, q, total);
        assert false;
      }
    }
  }

  lemma ScaleUp(x: int, y: int, c: int)
    requires x <= y && c >= 0
    ensures x * c <= y * c
  {
  }

  /** One reported row of `dump`: a CPU, its count and its last marker. */
  datatype Row = Row(cpu: int, count: int, last: int)

  /** The CPUs that appear in a list of rows. */
  function RowCpus(rows: seq<Row>): set<int> {
    set k | 0 <= k < |rows| :: rows[k].cpu
  }

  /** The rows `dump` reports for the bins below `n`. */
  function RowsBelow(a: Analyzer, n: int): seq<Row>
    requires Valid(a) && 0 <= n <= MAX_CPUS
    decreases n
  {
    if n == 0 then []
    else
      RowsBelow(a, n - 1)
      + (if a.cpuBins.counts[n - 1] > 0 then [Row(n - 1, a.cpuBins.counts[n - 1], a.cpuBins.lastMarkers[n - 1])] else [])
  }

  /** A row that reports a bin below `n` with a positive count and that bin's figures. */
  predicate RowOf(a: Analyzer, r: Row, n: int) {
    0 <= r.cpu < n && r.cpu < |a.cpuBins.counts| && r.cpu < |a.cpuBins.lastMarkers|
    && r.count == a.cpuBins.counts[r.cpu] > 0 && r.last == a.cpuBins.lastMarkers[r.cpu]
  }

  /** Each row below `n` is a bin below `n` with a positive count, with that bin's figures. */
  lemma {:induction false} RowsBelowFigures(a: Analyzer, n: int)
    requires Valid(a) && 0 <= n <= MAX_CPUS
    ensures forall k :: 0 <= k < |RowsBelow(a, n)| ==> RowOf(a, RowsBelow(a, n)[k], n)
    decreases n
  {
    if n > 0 {
      RowsBelowFigures(a, n - 1);
      var before := RowsBelow(a, n - 1);
      var extra := if a.cpuBins.counts[n - 1] > 0 then [Row(n - 1, a.cpuBins.counts[n - 1], a.cpuBins.lastMarkers[n - 1])] else [];
      assert RowsBelow(a, n) == before + extra;
      forall k | 0 <= k < |RowsBelow(a, n)|
        ensures RowOf(a, RowsBelow(a, n)[k], n)
      {
        if k < |before| {
          assert RowsBelow(a, n)[k] == before[k];
          assert RowOf(a, before[k], n - 1);
        } else {
          assert RowsBelow(a, n)[k] == extra[0];
        }
      }
    }
  }

  /** The rows below `n` come in increasing CPU order. */
  lemma {:induction false} RowsBelowOrdered(a: Analyzer, n: int)
    requires Valid(a) && 0 <= n <= MAX_CPUS
    ensures forall k, l :: 0 <= k < l < |RowsBelow(a, n)| ==> RowsBelow(a, n)[k].cpu < RowsBelow(a, n)[l].cpu
    decreases n
  {
    if n > 0 {
      RowsBelowOrdered(a, n - 1);
      RowsBelowFigures(a, n - 1);
      var before := RowsBelow(a, n - 1);
      var extra := if a.cpuBins.counts[n - 1] > 0 then [Row(n - 1, a.cpuBins.counts[n - 1], a.cpuBins.lastMarkers[n - 1])] else [];
      assert RowsBelow(a, n) == before + extra;
      forall k, l | 0 <= k < l < |RowsBelow(a, n)|
        ensures RowsBelow(a, n)[k].cpu < RowsBelow(a, n)[l].cpu
      {
        assert RowsBelow(a, n)[k] == before[k];
        assert RowOf(a, before[k], n - 1);
        if l < |before| {
          assert RowsBelow(a, n)[l] == before[l];
        } else {
          assert RowsBelow(a, n)[l] == extra[0];
        }
      }
    }
  }

  /** A CPU below `n` has a row exactly when its bin count is positive. */
  lemma {:induction false} RowsBelowCpus(a: Analyzer, n: int)
    requires Valid(a) && 0 <= n <= MAX_CPUS
    ensures forall i :: 0 <= i < n ==> (i in RowCpus(RowsBelow(a, n)) <==> a.cpuBins.counts[i] > 0)
    decreases n
  {
    if n > 0 {
      RowsBelowCpus(a, n - 1);
      RowsBelowFigures(a, n - 1);
      var before := RowsBelow(a, n - 1);
      var extra := if a.cpuBins.counts[n - 1] > 0 then [Row(n - 1, a.cpuBins.counts[n - 1], a.cpuBins.lastMarkers[n - 1])] else [];
      assert RowsBelow(a, n) == before + extra;
      assert RowCpus(RowsBelow(a, n)) == RowCpus(before) + RowCpus(extra) by {
        var rows := RowsBelow(a, n);
        forall c | c in RowCpus(rows)
          ensures c in RowCpus(before) + RowCpus(extra)
        {
          var k :| 0 <= k < |rows| && rows[k].cpu == c;
          if k < |before| {
            assert rows[k] == before[k];
          } else {
            assert rows[k] == extra[k - |before|];
          }
        }
        forall c | c in RowCpus(before) + RowCpus(extra)
          ensures c in RowCpus(rows)
        {
          if c in RowCpus(before) {
            var k :| 0 <= k < |before| && before[k].cpu == c;
            assert rows[k] == before[k];
          } else {
            var k :| 0 <= k < |extra| && extra[k].cpu == c;
            assert rows[|before| + k] == extra[k];
          }
        }
      }
      forall k | 0 <= k < |before|
        ensures before[k].cpu != n - 1
      {
        assert RowOf(a, before[k], n - 1);
      }
      assert RowCpus(extra) == (if a.cpuBins.counts[n - 1] > 0 then {n - 1} else {}) by {
        if a.cpuBins.counts[n - 1] > 0 {
          assert extra[0].cpu == n - 1;
        }
      }
    }
  }

  /** The rows below `n` are the bins below `n` with a positive count, in CPU order, with their figures. */
  lemma RowsBelowSpec(a: Analyzer, n: int)
    requires Valid(a) && 0 <= n <= MAX_CPUS
    ensures forall k :: 0 <= k < |RowsBelow(a, n)| ==>
              0 <= RowsBelow(a, n)[k].cpu < n
              && RowsBelow(a, n)[k].count == a.cpuBins.counts[RowsBelow(a, n)[k].cpu] > 0
              && RowsBelow(a, n)[k].last == a.cpuBins.lastMarkers[RowsBelow(a, n)[k].cpu]
    ensures forall k, l :: 0 <= k < l < |RowsBelow(a, n)| ==> RowsBelow(a, n)[k].cpu < RowsBelow(a, n)[l].cpu
    ensures forall i :: 0 <= i < n ==> (i in RowCpus(RowsBelow(a, n)) <==> a.cpuBins.counts[i] > 0)
  {
    RowsBelowFigures(a, n);
    RowsBelowOrdered(a, n);
    RowsBelowCpus(a, n);
  }

  /** The rows of `dump`: one per bin with a positive count, in CPU order. */
  method DumpRows(a: Analyzer) returns (rows: seq<Row>)
    requires Valid(a)
    ensures forall k :: 0 <= k < |rows| ==>
              0 <= rows[k].cpu < MAX_CPUS && rows[k].count == a.cpuBins.counts[rows[k].cpu] > 0
              && rows[k].last == a.cpuBins.lastMarkers[rows[k].cpu]
    ensures forall k, l :: 0 <= k < l < |rows| ==> rows[k].cpu < rows[l].cpu
    ensures forall i :: 0 <= i < MAX_CPUS ==> (i in RowCpus(rows) <==> a.cpuBins.counts[i] > 0)
  {
    rows := [];
    var i := 0;
    while i < MAX_CPUS
      invariant 0 <= i <= MAX_CPUS
      invariant rows == RowsBelow(a, i)
    {
      if a.cpuBins.counts[i] > 0 {
        rows := rows + [Row(i, a.cpuBins.counts[i], a.cpuBins.lastMarkers[i])];
      }
      assert rows == RowsBelow(a, i + 1);
      i := i + 1;
    }
    assert rows == RowsBelow(a, MAX_CPUS);
    RowsBelowSpec(a, MAX_CPUS);
  }
}

=== FILE: host_tools.dfy ===
/**
 * Host services (`HostTools.h`): how a long sleep is cut into `usleep`
 * chunks, the start-once rule of `HostThread`, the work-load record of the
 * CPU manager, the stub's clock-speed request and the workload-hint level.
 * Clock readings and the results of `pthread_create`/`pthread_join` are
 * parameters.
 */
module HostTools {
  import opened Common

  const NANOS_PER_MICROSECOND := 1000
  const MAX_MICROS := 999999

  /**
   * The `usleep` argument for one pass of the sleep loop: the remaining
   * nanoseconds rounded up to whole microseconds, stored in an `int32_t`,
   * then clamped to [1, 999999].
   */
  function SleepChunk(nanosToSleep: int): (micros: int)
    requires nanosToSleep > 0
    ensures 1 <= micros <= MAX_MICROS
    ensures nanosToSleep <= MAX_MICROS * NANOS_PER_MICROSECOND ==>
              (micros - 1) * NANOS_PER_MICROSECOND < nanosToSleep <= micros * NANOS_PER_MICROSECOND
    ensures MAX_MICROS * NANOS_PER_MICROSECOND < nanosToSleep <= 2147483647000 ==> micros == MAX_MICROS
  {
    var ceil := (nanosToSleep + NANOS_PER_MICROSECOND - 1) / NANOS_PER_MICROSECOND;
    assert nanosToSleep <= 2147483647000 ==> ceil < 0x8000_0000;
    var m := WrapInt32(ceil);
    if m < 1 then 1 else if m > MAX_MICROS then MAX_MICROS else m
  }

  /**
   * `sleepUntilNanoTime`: `now` is the first clock reading and `later` the
   * readings taken after each `usleep`. The answer is the reading at which the
   * wake-up time was reached, with the chunks slept on the way, or `None` when
   * the readings end first.
   */
  function SleepUntil(wakeupTime: int, now: int, later: seq<int>): (r: Option<(int, seq<int>)>)
    ensures r.Some? ==> r.value.0 >= wakeupTime || r.value.0 == now
    ensures r.Some? ==> |r.value.1| <= |later|
    ensures r.Some? && |r.value.1| == 0 ==> r.value.0 == now
    ensures r.Some? && |r.value.1| > 0 ==> r.value.0 == later[|r.value.1| - 1] && r.value.0 >= wakeupTime
    ensures r.Some? ==> forall k :: 0 <= k < |r.value.1| ==> 1 <= r.value.1[k] <= MAX_MICROS
    ensures now >= wakeupTime ==> r == Some((now, []))
    ensures now < wakeupTime && |later| == 0 ==> r.None?
    decreases |later|
  {
    if now >= wakeupTime then Some((now, []))
    else if |later| == 0 then None
    else
      var chunk := SleepChunk(wakeupTime - now);
      match SleepUntil(wakeupTime, later[0], later[1..])
      case None => None
      case Some((t, chunks)) => Some((t, [chunk] + chunks))
  }

  /**
   * When each `usleep` lasts at least as long as asked, a wait of at most
   * 999999 microseconds is over after a single chunk.
   */
  lemma ShortSleepTakesOneChunk(wakeupTime: int, now: int, later: seq<int>)
    requires now < wakeupTime <= now + MAX_MICROS * NANOS_PER_MICROSECOND
    requires |later| > 0 && later[0] >= now + SleepChunk(wakeupTime - now) * NANOS_PER_MICROSECOND
    ensures SleepUntil(wakeupTime, now, later) == Some((later[0], [SleepChunk(wakeupTime - now)]))
  {
    assert later[0] >= wakeupTime;
    assert SleepUntil(wakeupTime, later[0], later[1..]) == Some((later[0], []));
    assert [SleepChunk(wakeupTime - now)] + [] == [SleepChunk(wakeupTime - now)];
  }

  // ----- HostThread -----

  datatype Thread = Thread(running: bool, dead: bool)

  const NEW_THREAD := Thread(false, false)

  /**
   * `start`: a thread is created only when the object is neither running nor
   * dead, and it is running iff creation returned 0; otherwise nothing
   * changes and the answer is 1.
   */
  function Start(t: Thread, createError: int): (r: (Thread, int))
    ensures !t.running && !t.dead ==> r == (Thread(createError == 0, false), createError)
    ensures t.running || t.dead ==> r == (t, 1)
  {
    if !t.running && !t.dead then (Thread(createError == 0, false), createError)
    else (t, 1)
  }

  /**
   * `join`: only a running, not yet dead thread is joined, after which it is
   * dead; otherwise nothing changes and the answer is 0.
   */
  function Join(t: Thread, joinError: int): (r: (Thread, int))
    ensures t.running && !t.dead ==> r == (Thread(true, true), joinError)
    ensures !(t.running && !t.dead) ==> r == (t, 0)
  {
    if t.running && !t.dead then (t.(dead := true), joinError) else (t, 0)
  }

  /** The object may be started once: after a start and a join, every later start fails with 1. */
  lemma StartOnlyOnce(createError: int, joinError: int, again: int)
    ensures var (t1, e1) := Start(NEW_THREAD, createError);
            e1 == createError
            && (createError == 0 ==> var (t2, _) := Join(t1, joinError);
                                     t2.dead && Start(t2, again) == (t2, 1))
            && (createError != 0 ==> t1 == NEW_THREAD)
  {
  }

  /** A second start on a running thread fails and a second join does nothing. */
  lemma StartJoinRepeat(t: Thread, e: int, f: int)
    ensures Start(Start(Thread(true, false), e).0, f).1 == 1
    ensures Join(Join(Thread(true, false), e).0, f) == (Thread(true, true), 0)
  {
  }

  // ----- HostCpuManagerBase / HostCpuManagerStub -----

  datatype Load = Load(currentWorkUnits: int, maxWorkUnits: int)

  /** The base manager's initial load: no current work and a maximum of one unit. */
  const INITIAL_LOAD := Load(0, 1)

  /** `HostCpuManagerBase::setApplicationLoad` stores both values as given. */
  function SetApplicationLoad(l: Load, currentWorkUnits: int, maxWorkUnits: int): (r: Load)
    ensures r.currentWorkUnits == currentWorkUnits && r.maxWorkUnits == maxWorkUnits
  {
    Load(currentWorkUnits, maxWorkUnits)
  }

  const MIN_CPU_SPEED_MHZ := 300
  const FAKE_MAX_CPU_SPEED_MHZ := 2000
  const FAKE_INITIAL_CPU_SPEED_MHZ := 600

  /** `requestCpuSpeedMHz` in the stub: the request clamped to [300, 2000]. */
  function RequestCpuSpeed(cpuSpeedMHz: int): (s: int)
    ensures MIN_CPU_SPEED_MHZ <= s <= FAKE_MAX_CPU_SPEED_MHZ
    ensures MIN_CPU_SPEED_MHZ <= cpuSpeedMHz <= FAKE_MAX_CPU_SPEED_MHZ ==> s == cpuSpeedMHz
    ensures cpuSpeedMHz < MIN_CPU_SPEED_MHZ ==> s == MIN_CPU_SPEED_MHZ
    ensures cpuSpeedMHz > FAKE_MAX_CPU_SPEED_MHZ ==> s == FAKE_MAX_CPU_SPEED_MHZ
  {
    if cpuSpeedMHz < MIN_CPU_SPEED_MHZ then MIN_CPU_SPEED_MHZ
    else if cpuSpeedMHz > FAKE_MAX_CPU_SPEED_MHZ then FAKE_MAX_CPU_SPEED_MHZ
    else cpuSpeedMHz
  }

  /** A clamped request is a fixed point: asking again for the granted speed changes nothing. */
  lemma RequestCpuSpeedIdempotent(cpuSpeedMHz: int)
    ensures RequestCpuSpeed(RequestCpuSpeed(cpuSpeedMHz)) == RequestCpuSpeed(cpuSpeedMHz)
    ensures RequestCpuSpeed(cpuSpeedMHz) == Clamp(cpuSpeedMHz, MIN_CPU_SPEED_MHZ, FAKE_MAX_CPU_SPEED_MHZ)
  {
  }

  /** The stub manager: the stored load and the fake clock speed it last granted. */
  datatype Stub = Stub(load: Load, cpuSpeedMHz: int)

  const NEW_STUB := Stub(INITIAL_LOAD, FAKE_INITIAL_CPU_SPEED_MHZ)

  const TARGET_UTILIZATION := 0.8

  /**
   * `HostCpuManagerStub::setApplicationLoad`: when either value changed, the
   * speed needed for the load at 80% utilisation (from the previously
   * measured per-unit utilisation, a parameter) is requested; the load is
   * stored in every case.
   */
  function StubSetApplicationLoad(m: Stub, currentWorkUnits: int, maxWorkUnits: int,
                                  unitUtilization: real): (r: Stub)
    ensures r.load == Load(currentWorkUnits, maxWorkUnits)
    ensures m.load == Load(currentWorkUnits, maxWorkUnits) ==> r.cpuSpeedMHz == m.cpuSpeedMHz
    ensures m.load != Load(currentWorkUnits, maxWorkUnits) ==>
              r.cpuSpeedMHz == RequestCpuSpeed(TruncReal(currentWorkUnits as real * unitUtilization
                                                         * FAKE_MAX_CPU_SPEED_MHZ as real / TARGET_UTILIZATION))
    ensures MIN_CPU_SPEED_MHZ <= m.cpuSpeedMHz <= FAKE_MAX_CPU_SPEED_MHZ ==>
              MIN_CPU_SPEED_MHZ <= r.cpuSpeedMHz <= FAKE_MAX_CPU_SPEED_MHZ
  {
    var speed :=
      if currentWorkUnits != m.load.currentWorkUnits || maxWorkUnits != m.load.maxWorkUnits then
        var required := currentWorkUnits as real * unitUtilization * FAKE_MAX_CPU_SPEED_MHZ as real
                        / TARGET_UTILIZATION;
        RequestCpuSpeed(TruncReal(required))
      else m.cpuSpeedMHz;
    Stub(SetApplicationLoad(m.load, currentWorkUnits, maxWorkUnits), speed)
  }

  /** Setting the same load twice requests a speed at most once. */
  lemma SameLoadTwice(m: Stub, c: int, x: int, u: real, v: real)
    ensures StubSetApplicationLoad(StubSetApplicationLoad(m, c, x, u), c, x, v)
            == StubSetApplicationLoad(m, c, x, u)
  {
  }

  // ----- HostCpuManager -----

  const WORKLOAD_HINTS_OFF := 0
  const WORKLOAD_HINTS_ON := 1
  const WORKLOAD_HINTS_ON_LOGGED := 2

  /** `areWorkloadHintsEnabled`: the level is ON or ON_LOGGED. */
  predicate AreWorkloadHintsEnabled(level: int) {
    level == WORKLOAD_HINTS_ON || level == WORKLOAD_HINTS_ON_LOGGED
  }

  datatype ManagerKind = CustomManager | StubManager

  /**
   * `getInstance`: the singleton is created on first use, as the custom
   * manager when hints are enabled at that moment and as the stub otherwise;
   * later calls return it whatever the level has become.
   */
  function GetInstance(instance: Option<ManagerKind>, level: int): (r: ManagerKind)
    ensures instance.Some? ==> r == instance.value
    ensures instance.None? ==> (r == CustomManager <==> level in {1, 2})
  {
    if instance.Some? then instance.value
    else if AreWorkloadHintsEnabled(level) then CustomManager
    else StubManager
  }
}

=== FILE: latency_search.dfy ===
/**
 * LatencyMark's search for the smallest glitch-free buffer size, in bursts
 * (`LatencyMarkHarness.h`).
 *
 * The search ramps up through powers of two until a size does not glitch,
 * then closes in from the highest bad size in steps of an eighth of the gap,
 * and finally verifies the lowest good size, stepping up one burst at a time
 * while it still glitches. Whether a size glitches is the caller's input.
 */
module LatencySearch {
  import opened Common

  datatype Phase = RampUp | Bounded | Verify | Done

  /**
   * The search state. `delta` is left uninitialised by the constructor and is
   * only read after BOUNDED has set it; the model starts it at 0.
   */
  datatype Search = Search(phase: Phase, current: int, highestBad: int, lowestGood: int,
                           delta: int, powerOf2: int)

  /** `resetBinarySearch`. */
  function ResetBinarySearch(): (s: Search)
    ensures s.phase == RampUp && s.current == 0 && s.highestBad == 0 && s.lowestGood == 0
    ensures s.powerOf2 == 1
  {
    Search(RampUp, 0, 0, 0, 0, 1)
  }

  /** `resetLinearSearch`: verify from the initial burst count on. */
  function ResetLinearSearch(s: Search, initialBursts: int): (r: Search)
    ensures r.phase == Verify && r.current == initialBursts
    ensures r.highestBad == s.highestBad && r.lowestGood == s.lowestGood && r.powerOf2 == s.powerOf2
  {
    s.(current := initialBursts, phase := Verify)
  }

  /** The phase after the outcome of trying `s.current`. */
  function NextPhase(s: Search, glitched: bool): Search {
    match s.phase
    case RampUp | Bounded =>
      if glitched then s.(highestBad := s.current)
      else if s.current == s.highestBad + 1 then s.(lowestGood := s.current, phase := Verify)
      else s.(lowestGood := s.current, delta := Max(1, CDiv(s.current - s.highestBad, 8)), phase := Bounded)
    case Verify =>
      if glitched then s.(highestBad := s.current, lowestGood := s.current + 1)
      else s.(phase := Done)
    case Done => s
  }

  /**
   * `getNextBurstsToTry`: records whether the last size glitched, moves to the
   * next phase and returns the next size to try (0 once done).
   */
  function NextBurstsToTry(s: Search, glitched: bool): (r: (Search, int))
    ensures r.1 == r.0.current
    ensures s.phase == RampUp && glitched ==>
              r.0.phase == RampUp && r.1 == s.powerOf2 && r.0.powerOf2 == 2 * s.powerOf2
              && r.0.highestBad == s.current
    ensures (s.phase == RampUp || s.phase == Bounded) && !glitched ==>
              r.0.lowestGood == s.current && r.0.highestBad == s.highestBad
              && (r.0.phase == Verify <==> s.current == s.highestBad + 1)
              && (r.0.phase == Verify ==> r.1 == r.0.lowestGood)
              && (r.0.phase != Verify ==> r.0.phase == Bounded && r.0.delta == Max(1, CDiv(s.current - s.highestBad, 8)))
    ensures r.0.phase == Bounded && r.0.lowestGood - r.0.highestBad >= 2 && r.0.delta == Max(1, CDiv(r.0.lowestGood - r.0.highestBad, 8)) ==>
              r.0.highestBad < r.1 < r.0.lowestGood
    ensures s.phase == Verify && glitched ==>
              r.0.phase == Verify && r.0.highestBad == s.current && r.0.lowestGood == s.current + 1
              && r.1 == s.current + 1
    ensures s.phase == Verify && !glitched ==> r.0.phase == Done && r.1 == 0
    ensures s.phase == Done ==> r.0.phase == Done && r.1 == 0 && r.0.lowestGood == s.lowestGood
  {
    var n := NextPhase(s, glitched);
    var candidate :=
      match n.phase
      case RampUp => n.powerOf2
      case Bounded => n.highestBad + n.delta
      case Verify => n.lowestGood
      case Done => 0;
    var n2 := if n.phase == RampUp then n.(powerOf2 := n.powerOf2 * 2) else n;
    (n2.(current := candidate), candidate)
  }

  /** The state after feeding a sequence of outcomes to the search. */
  function Feed(s: Search, outcomes: seq<bool>): Search
    decreases |outcomes|
  {
    if |outcomes| == 0 then s else Feed(NextBurstsToTry(s, outcomes[0]).0, outcomes[1..])
  }

  function Pow2(k: nat): (p: nat)
    ensures p >= 1
  {
    if k == 0 then 1 else 2 * Pow2(k - 1)
  }

  /** While everything glitches, the binary search tries 1, 2, 4, 8, ... */
  lemma {:induction false} RampUpTriesPowersOfTwo(k: nat)
    ensures var s := Feed(ResetBinarySearch(), seq(k + 1, _ => true));
            s.phase == RampUp && s.current == Pow2(k) && s.powerOf2 == 2 * Pow2(k)
    decreases k
  {
    if k == 0 {
      assert Feed(ResetBinarySearch(), seq(1, _ => true)) == NextBurstsToTry(ResetBinarySearch(), true).0;
    } else {
      RampUpTriesPowersOfTwo(k - 1);
      FeedSnoc(ResetBinarySearch(), seq(k, _ => true), true);
      assert seq(k, _ => true) + [true] == seq(k + 1, _ => true);
    }
  }

  lemma {:induction false} FeedSnoc(s: Search, outcomes: seq<bool>, last: bool)
    ensures Feed(s, outcomes + [last]) == NextBurstsToTry(Feed(s, outcomes), last).0
    decreases |outcomes|
  {
    if |outcomes| == 0 {
      assert outcomes + [last] == [last];
    } else {
      assert (outcomes + [last])[1..] == outcomes[1..] + [last];
      FeedSnoc(NextBurstsToTry(s, outcomes[0]).0, outcomes[1..], last);
    }
  }

  /** After a linear reset, each glitch moves on by exactly one burst. */
  lemma {:induction false} LinearSearchSteps(s: Search, initialBursts: int, k: nat)
    ensures var r := Feed(ResetLinearSearch(s, initialBursts), seq(k, _ => true));
            r.phase == Verify && r.current == initialBursts + k
            && (k > 0 ==> r.highestBad == initialBursts + k - 1 && r.lowestGood == initialBursts + k)
    decreases k
  {
    if k > 0 {
      LinearSearchSteps(s, initialBursts, k - 1);
      FeedSnoc(ResetLinearSearch(s, initialBursts), seq(k - 1, _ => true), true);
      assert seq(k - 1, _ => true) + [true] == seq(k, _ => true);
    }
  }

  /** Rank of a phase: the search only ever moves to a lower rank. */
  function Rank(p: Phase): nat {
    match p
    case RampUp => 3
    case Bounded => 2
    case Verify => 1
    case Done => 0
  }

  /** What holds between the steps of `testSearch(target)` with `target >= 1`. */
  ghost predicate SearchInv(s: Search, target: int) {
    && target >= 1
    && 0 <= s.highestBad < target
    && (s.phase == RampUp ==>
          1 <= s.current && s.highestBad < s.current && s.powerOf2 == 2 * s.current
          && s.current < 2 * target)
    && (s.phase == Bounded ==>
          target <= s.lowestGood < 2 * target && 1 <= s.delta <= target
          && s.current == s.highestBad + s.delta)
    && (s.phase == Verify ==> s.lowestGood == s.highestBad + 1 && target <= s.lowestGood
                              && s.current == s.lowestGood)
    && (s.phase == Done ==> s.current == 0 && s.lowestGood == target)
  }

  lemma StepKeepsInv(s: Search, target: int)
    requires SearchInv(s, target) && s.phase != Done
    ensures var r := NextBurstsToTry(s, s.current < target).0;
            SearchInv(r, target)
            && (Rank(r.phase) < Rank(s.phase)
                || (Rank(r.phase) == Rank(s.phase) && r.highestBad > s.highestBad)
                || (Rank(r.phase) == Rank(s.phase) && r.highestBad == s.highestBad
                    && r.current - r.highestBad < s.current - s.highestBad))
  {
    var glitched := s.current < target;
    if s.phase == Bounded && !glitched && s.current != s.highestBad + 1 {
      var gap := s.current - s.highestBad;
      assert gap >= 2;
      var d := Max(1, CDiv(gap, 8));
      assert d < gap;
      assert d <= target;
    }
    if s.phase == RampUp && !glitched && s.current != s.highestBad + 1 {
      var gap := s.current - s.highestBad;
      assert gap >= 2;
      var d := Max(1, CDiv(gap, 8));
      assert d < gap;
    }
  }

  /**
   * `testSearch(target)`: the search driven by "a size glitches exactly when it
   * is below the target". It ends with the lowest good size equal to the
   * target (1 for a target below 1), and every size tried lies in
   * `[1, 2 * target)`.
   */
  method TestSearch(target: int) returns (lowestGood: int, tried: seq<int>)
    ensures lowestGood == Max(target, 1)
    ensures forall k :: 0 <= k < |tried| ==> 1 <= tried[k] < 2 * Max(target, 1)
  {
    var t := Max(target, 1);
    var s := ResetBinarySearch();
    var r := NextBurstsToTry(s, true);
    s := r.0;
    var bursts := r.1;
    tried := [];
    while bursts > 0
      invariant SearchInv(s, t) && bursts == s.current
      invariant forall k :: 0 <= k < |tried| ==> 1 <= tried[k] < 2 * t
      decreases Rank(s.phase), t - s.highestBad, s.current - s.highestBad
    {
      tried := tried + [bursts];
      var glitched := bursts < target;
      assert glitched == (bursts < t);
      StepKeepsInv(s, t);
      r := NextBurstsToTry(s, glitched);
      s := r.0;
      bursts := r.1;
    }
    lowestGood := s.lowestGood;
  }

  /** `testSearchSeries`: the search finds every target from 1 to 199; returns 0. */
  method TestSearchSeries() returns (code: int)
    ensures code == 0
  {
    var i := 1;
    while i < 200
      invariant 1 <= i <= 200
    {
      var latency, _ := TestSearch(i);
      if latency != i {
        return 1;
      }
      i := i + 1;
    }
    return 0;
  }

  // ----- the start of `runTest` -----

  /**
   * As written, `runTest` resets to a linear search when an initial burst count
   * is set, but `searchForLowestLatency` then resets to a binary search before
   * its first step.
   */
  function RunTestStartAsWritten(s: Search, initialBursts: int): (r: (Search, int))
    ensures r.1 == 1 && r.0.current == 1 && r.0.phase == RampUp
    ensures r.0.highestBad == 0 && r.0.powerOf2 == 2
    ensures initialBursts > 0 ==> r != RunTestStart(s, initialBursts)
  {
    var s1 := if initialBursts > 0 then ResetLinearSearch(s, initialBursts) else ResetBinarySearch();
    var s2 := ResetBinarySearch();
    NextBurstsToTry(s2, true)
  }

  /** The initial burst count has no effect: the first size tried is always 1. */
  lemma InitialBurstsIgnored(s: Search, initialBursts: int)
    ensures RunTestStartAsWritten(s, initialBursts) == RunTestStartAsWritten(s, 0)
    ensures RunTestStartAsWritten(s, initialBursts).1 == 1
    ensures RunTestStartAsWritten(s, initialBursts).0.phase == RampUp
  {
  }

  /** Corrected: the search keeps the reset `runTest` chose. */
  function RunTestStart(s: Search, initialBursts: int): (r: (Search, int))
    ensures initialBursts > 0 ==> r.0.phase == Verify && r.1 == initialBursts + 1
    ensures initialBursts <= 0 ==> r.0.phase == RampUp && r.1 == 1
  {
    var s1 := if initialBursts > 0 then ResetLinearSearch(s, initialBursts) else ResetBinarySearch();
    NextBurstsToTry(s1, true)
  }

  /** With the correction, a positive initial count gives a linear search above it. */
  lemma RunTestStartHonoursInitialBursts(s: Search, initialBursts: int, k: nat)
    requires initialBursts > 0
    ensures Feed(RunTestStart(s, initialBursts).0, seq(k, _ => true)).current == initialBursts + 1 + k
  {
    LinearSearchSteps(s, initialBursts, k + 1);
    assert seq(k + 1, _ => true) == [true] + seq(k, _ => true);
  }
}

=== FILE: main_activity.dfy ===
/**
 * The main screen's intent-driven flow (`MainActivity.java`): an intent's
 * extras name a test (by a prefix of its title) and parameter values; the test
 * is started with them and, when it completes, the output is written to the
 * file the intent named. The Run button starts the selected test.
 */
module MainActivity {
  import opened Common
  import NativeTest
  import NativeLib
  import ParamView
  import AppObject

  const KEY_TEST_NAME := "test"
  const KEY_FILE_NAME := "file"

  /** An intent's extras. */
  datatype Bundle = Bundle(entries: map<string, ParamView.Obj>)

  /** `Bundle.getString`: null when the key is absent or holds something other than a string. */
  function GetString(b: Bundle, key: string): (s: Option<string>)
    ensures s.Some? <==> key in b.entries && b.entries[key].StringObj?
    ensures s.Some? ==> s.value == b.entries[key].s
  {
    if key in b.entries && b.entries[key].StringObj? then Some(b.entries[key].s) else None
  }

  /** The activity's intent bookkeeping. */
  datatype Main = Main(bundle: Option<Bundle>, runningByIntent: bool, resultFileName: Option<string>)

  /** A test title matches a query when the lower-cased query starts the lower-cased title. */
  predicate Matches(title: string, query: string) {
    Lower(query) <= Lower(title)
  }

  /** The engine's test titles for ids `[0, count)`, in id order. */
  function Titles(count: nat): (t: seq<string>)
    ensures |t| == count
    ensures forall i :: 0 <= i < count ==> t[i] == NativeTest.TestName(i)
  {
    seq(count, i requires 0 <= i < count => NativeTest.TestName(i))
  }

  /** Reference: the first index at or after `from` whose title the query matches, else -1. */
  function FirstMatch(titles: seq<string>, query: string, from: nat): (r: int)
    ensures r == -1 || from <= r < |titles|
    ensures r >= 0 ==> Matches(titles[r], query)
    decreases |titles| - from
  {
    if from >= |titles| then -1
    else if Matches(titles[from], query) then from
    else FirstMatch(titles, query, from + 1)
  }

  /** The match found is the first one, and -1 means no title from `from` on matches. */
  lemma {:induction false} FirstMatchSpec(titles: seq<string>, query: string, from: nat)
    ensures FirstMatch(titles, query, from) >= 0 ==>
              forall j :: from <= j < FirstMatch(titles, query, from) ==> !Matches(titles[j], query)
    ensures FirstMatch(titles, query, from) == -1 <==>
              forall j :: from <= j < |titles| ==> !Matches(titles[j], query)
    decreases |titles| - from
  {
    if from < |titles| && !Matches(titles[from], query) {
      FirstMatchSpec(titles, query, from + 1);
    }
  }

  /**
   * `extractTestId`: scans the engine's tests in id order and returns the first
   * whose lower-cased name starts with the lower-cased query, or -1.
   */
  method ExtractTestId(h: NativeLib.Handle, query: string) returns (testId: int)
    ensures testId == FirstMatch(Titles(NativeLib.GetTestCount(h)), query, 0)
    ensures testId == -1 || 0 <= testId < NativeLib.GetTestCount(h)
  {
    var q := Lower(query);
    testId := -1;
    var testCount := NativeLib.GetTestCount(h);
    ghost var titles := Titles(testCount);
    var i := 0;
    while i < testCount
      invariant 0 <= i <= testCount
      invariant testCount > 0 ==> h.Some?
      invariant FirstMatch(titles, query, 0) == FirstMatch(titles, query, i)
    {
      var name := NativeLib.GetTestName(h, i);
      NameIsTitle(h, i);
      if q <= Lower(name.value) {
        testId := i;
        return;
      }
      i := i + 1;
    }
  }

  /** The engine hands out the titles in id order. */
  lemma NameIsTitle(h: NativeLib.Handle, i: int)
    requires 0 <= i < NativeLib.GetTestCount(h)
    ensures NativeLib.GetTestName(h, i) == Some(Titles(NativeLib.GetTestCount(h))[i])
  {
  }

  /** Skipping titles that do not match leaves the first match unchanged. */
  lemma {:induction false} FirstMatchFrom(titles: seq<string>, query: string, from: nat, i: nat)
    requires from <= i <= |titles|
    requires forall j :: from <= j < i ==> !Matches(titles[j], query)
    ensures FirstMatch(titles, query, from) == FirstMatch(titles, query, i)
    decreases i - from
  {
    if from < i {
      FirstMatchFrom(titles, query, from + 1, i);
    }
  }

  /** Matching compares lower-cased characters position by position. */
  lemma MatchesIff(title: string, query: string)
    ensures Matches(title, query) <==>
              |query| <= |title| && forall i :: 0 <= i < |query| ==> LowerChar(query[i]) == LowerChar(title[i])
  {
    var lq, lt := Lower(query), Lower(title);
    if |query| <= |title| && forall i :: 0 <= i < |query| ==> LowerChar(query[i]) == LowerChar(title[i]) {
      assert lq == lt[..|lq|];
    }
  }

  /** A title whose first letter differs from the query's, ignoring case, is not matched. */
  lemma FirstLetterDiffers(title: string, query: string)
    requires |query| > 0 && |title| > 0 && LowerChar(query[0]) != LowerChar(title[0])
    ensures !Matches(title, query)
  {
    assert Lower(query)[0] != Lower(title)[0];
  }

  /** The first title the query starts, ignoring case, when every earlier title has another first letter. */
  lemma FirstMatchIs(titles: seq<string>, query: string, id: nat)
    requires id < |titles| && |query| > 0
    requires |query| <= |titles[id]|
    requires forall i :: 0 <= i < |query| ==> LowerChar(query[i]) == LowerChar(titles[id][i])
    requires forall j :: 0 <= j < id ==> |titles[j]| > 0 && LowerChar(query[0]) != LowerChar(titles[j][0])
    ensures FirstMatch(titles, query, 0) == id
  {
    forall j | 0 <= j < id
      ensures !Matches(titles[j], query)
    {
      FirstLetterDiffers(titles[j], query);
    }
    MatchesIff(titles[id], query);
    FirstMatchFrom(titles, query, 0, id);
  }

  /** A query whose first letter starts no title, ignoring case, matches nothing. */
  lemma NoTitleStartsWith(titles: seq<string>, query: string)
    requires |query| > 0
    requires forall j :: 0 <= j < |titles| ==> |titles[j]| > 0 && LowerChar(query[0]) != LowerChar(titles[j][0])
    ensures FirstMatch(titles, query, 0) == -1
  {
    forall j | 0 <= j < |titles|
      ensures !Matches(titles[j], query)
    {
      FirstLetterDiffers(titles[j], query);
    }
    FirstMatchSpec(titles, query, 0);
  }

  /** The engine's titles, in id order. */
  const TITLES: seq<string> := ["AutomatedSuite", "ClockRamp", "JitterMark", "LatencyMark", "UtilizationMark", "VoiceMark"]

  lemma TitlesAre()
    ensures Titles(NativeTest.ID_COUNT) == TITLES
  {
    var t := Titles(NativeTest.ID_COUNT);
    assert t[0] == NativeTest.TestName(0) == TITLES[0];
    assert t[1] == NativeTest.TestName(1) == TITLES[1];
    assert t[2] == NativeTest.TestName(2) == TITLES[2];
    assert t[3] == NativeTest.TestName(3) == TITLES[3];
    assert t[4] == NativeTest.TestName(4) == TITLES[4];
    assert t[5] == NativeTest.TestName(5) == TITLES[5];
  }

  /** The queries the app's documentation lists select the expected tests, in any case. */
  lemma DocumentedQueries()
    ensures FirstMatch(Titles(NativeTest.ID_COUNT), "auto", 0) == NativeTest.ID_AUTOMATED
    ensures FirstMatch(Titles(NativeTest.ID_COUNT), "jitter", 0) == NativeTest.ID_JITTERMARK
    ensures FirstMatch(Titles(NativeTest.ID_COUNT), "Latency", 0) == NativeTest.ID_LATENCYMARK
    ensures FirstMatch(Titles(NativeTest.ID_COUNT), "util", 0) == NativeTest.ID_UTILIZATIONMARK
    ensures FirstMatch(Titles(NativeTest.ID_COUNT), "VOICE", 0) == NativeTest.ID_VOICEMARK
  {
    TitlesAre();
    QueryAt("auto", 0);
    QueryAt("jitter", 2);
    QueryAt("Latency", 3);
    QueryAt("util", 4);
    QueryAt("VOICE", 5);
  }

  /** One documented query against the literal title list. */
  lemma QueryAt(query: string, id: nat)
    requires (query, id) in {("auto", 0), ("jitter", 2), ("Latency", 3), ("util", 4), ("VOICE", 5)}
    ensures FirstMatch(TITLES, query, 0) == id
  {
    if id == 0 {
      FirstMatchIs(TITLES, "auto", 0);
    } else if id == 2 {
      FirstMatchIs(TITLES, "jitter", 2);
    } else if id == 3 {
      FirstMatchIs(TITLES, "Latency", 3);
    } else if id == 4 {
      FirstMatchIs(TITLES, "util", 4);
    } else {
      FirstMatchIs(TITLES, "VOICE", 5);
    }
  }

  /** A query that starts no title, such as "mark", selects nothing. */
  lemma UnknownQuery()
    ensures FirstMatch(Titles(NativeTest.ID_COUNT), "mark", 0) == -1
  {
    TitlesAre();
    NoTitleStartsWith(TITLES, "mark");
  }

  /**
   * `extractParametersFromBundle`: for each parameter of the current test, in
   * index order, whose name is a key of the bundle, `setValueByObject` with the
   * key's value. An exception ends the walk (and, uncaught, the app).
   */
  method ExtractParametersFromBundle(a: AppObject.App, b: Bundle)
    returns (h: NativeLib.Handle, written: seq<int>, thrown: Option<ParamView.Exception>)
    ensures NativeLib.SameShape(a.handle, h)
    ensures forall k :: 0 <= k < |written| ==>
              0 <= written[k] < NativeLib.GetParamCount(a.handle, a.currentTestId)
              && NativeLib.GetParamName(a.handle, a.currentTestId, written[k]).Some?
              && NativeLib.GetParamName(a.handle, a.currentTestId, written[k]).value in b.entries
    ensures forall k, l :: 0 <= k < l < |written| ==> written[k] < written[l]
    ensures thrown.None? ==>
              forall i :: (0 <= i < NativeLib.GetParamCount(a.handle, a.currentTestId)
                           && NativeLib.GetParamName(a.handle, a.currentTestId, i).Some?
                           && NativeLib.GetParamName(a.handle, a.currentTestId, i).value in b.entries)
                          ==> i in written
  {
    var views := AppObject.GetParamsForTest(a, a.currentTestId);
    var t := a.currentTestId;
    h, written, thrown := a.handle, [], None;
    var i := 0;
    while i < |views|
      invariant 0 <= i <= |views|
      invariant NativeLib.SameShape(a.handle, h)
      invariant forall k :: 0 <= k < |written| ==>
                  0 <= written[k] < i
                  && NativeLib.GetParamName(a.handle, t, written[k]).Some?
                  && NativeLib.GetParamName(a.handle, t, written[k]).value in b.entries
      invariant forall k, l :: 0 <= k < l < |written| ==> written[k] < written[l]
      invariant forall j :: (0 <= j < i && NativeLib.GetParamName(a.handle, t, j).Some?
                             && NativeLib.GetParamName(a.handle, t, j).value in b.entries) ==> j in written
    {
      var name := NativeLib.GetParamName(h, t, views[i].paramId);
      assert name == NativeLib.GetParamName(a.handle, t, i);
      if name.Some? && name.value in b.entries {
        var r := ParamView.SetValueByObject(views[i], h, b.entries[name.value]);
        ParamView.SetValueByObjectKeepsShape(views[i], h, b.entries[name.value]);
        if r.Thrown? {
          thrown := Some(r.e);
          return;
        }
        h := r.h;
        written := written + [i];
      }
      i := i + 1;
    }
  }

  /** What one pass of `processBundleFromIntent` did. */
  datatype Processed = Processed(main: Main, app: AppObject.App,
                                 posted: seq<AppObject.Notification>, launched: seq<AppObject.Task>,
                                 thrown: Option<ParamView.Exception>)

  /**
   * `processBundleFromIntent`, run on resume. Without a bundle, or while an
   * intent-started test is still running, nothing happens. Otherwise the bundle
   * is consumed whether or not its test matched; a matching test becomes the
   * current test, takes the bundle's parameter values and the result file name,
   * and is started.
   */
  method ProcessBundleFromIntent(m: Main, a: AppObject.App) returns (r: Processed)
    ensures m.bundle.None? || m.runningByIntent ==> r == Processed(m, a, [], [], None)
    ensures m.bundle.Some? && !m.runningByIntent && r.thrown.None? ==> r.main.bundle.None?
    ensures |r.launched| > 0 ==>
              m.bundle.Some? && !m.runningByIntent && r.main.runningByIntent
              && KEY_TEST_NAME in m.bundle.value.entries
              && r.app.currentTestId >= 0
              && r.launched == [AppObject.LaunchRun(r.app.currentTestId), AppObject.LaunchProgress(r.app.currentTestId)]
    ensures m.bundle.Some? && !m.runningByIntent && r.thrown.None? ==>
              var b := m.bundle.value;
              var id := if GetString(b, KEY_TEST_NAME).Some?
                        then FirstMatch(Titles(NativeLib.GetTestCount(a.handle)), GetString(b, KEY_TEST_NAME).value, 0)
                        else -1;
              (|r.launched| > 0 <==> id >= 0)
              && (id >= 0 ==> r.main.resultFileName == GetString(b, KEY_FILE_NAME)
                              && r.app.currentTestId == id)
              && (id < 0 ==> r.main == Main(None, false, None) && r.app == a)
  {
    if m.bundle.None? || m.runningByIntent {
      return Processed(m, a, [], [], None);
    }
    var b := m.bundle.value;
    var main := m.(resultFileName := None);
    var app := a;
    var posted: seq<AppObject.Notification> := [];
    var launched: seq<AppObject.Task> := [];
    if KEY_TEST_NAME in b.entries {
      var testName := GetString(b, KEY_TEST_NAME);
      if testName.None? {
        // A non-string value reads as null, and `toLowerCase()` on it throws.
        return Processed(main, app, [], [], Some(ParamView.NullPointer));
      }
      var testId := ExtractTestId(app.handle, testName.value);
      if testId >= 0 {
        app := app.(currentTestId := testId);
        var h, written, thrown := ExtractParametersFromBundle(app, b);
        app := app.(handle := h);
        if thrown.Some? {
          return Processed(main, app, [], [], thrown);
        }
        main := main.(resultFileName := GetString(b, KEY_FILE_NAME), runningByIntent := true);
        var started := AppObject.StartTest(app.running, testId);
        posted, launched := started.0, started.1;
      }
    }
    main := main.(bundle := None);
    return Processed(main, app, posted, launched, None);
  }

  /** What the activity does with the result file when a test completes. */
  datatype WriteAction = NoWrite | RequestPermission | WriteFile(path: string)

  /** `writeTestResult`: writes the output text, then clears both intent fields. */
  function WriteTestResult(m: Main): (r: (Main, WriteAction))
    requires m.resultFileName.Some?
    ensures r.1 == WriteFile(m.resultFileName.value)
    ensures !r.0.runningByIntent && r.0.resultFileName.None? && r.0.bundle == m.bundle
  {
    (m.(runningByIntent := false, resultFileName := None), WriteFile(m.resultFileName.value))
  }

  /**
   * `maybeWriteTestResult` via `writeTestResultIfPermitted`: nothing unless the
   * test was started by an intent and named a file; then the file is written
   * when storage permission is held, and permission is requested otherwise.
   */
  function MaybeWriteTestResult(m: Main, permitted: bool): (r: (Main, WriteAction))
    ensures r.1.WriteFile? <==> m.runningByIntent && m.resultFileName.Some? && permitted
    ensures r.1.RequestPermission? <==> m.runningByIntent && m.resultFileName.Some? && !permitted
    ensures !r.1.WriteFile? ==> r.0 == m
    ensures r.1.WriteFile? ==> r.1.path == m.resultFileName.value
                               && !r.0.runningByIntent && r.0.resultFileName.None?
  {
    if !m.runningByIntent || m.resultFileName.None? then (m, NoWrite)
    else if permitted then WriteTestResult(m)
    else (m, RequestPermission)
  }

  /** `onRequestPermissionsResult` for the storage request: write when granted. */
  function OnPermissionResult(m: Main, granted: bool): (r: (Main, WriteAction))
    requires m.resultFileName.Some?
    ensures granted ==> r == WriteTestResult(m)
    ensures !granted ==> r == (m, NoWrite)
  {
    if granted then WriteTestResult(m) else (m, NoWrite)
  }

  /** A result is written at most once per intent-started test. */
  lemma WriteAtMostOnce(m: Main, permitted: bool, permittedLater: bool)
    ensures var r := MaybeWriteTestResult(m, permitted);
            r.1.WriteFile? ==> MaybeWriteTestResult(r.0, permittedLater).1 == NoWrite
  {
  }

  /** `onRunTest`: starts the selected test when one is selected (id above -1). */
  function OnRunTest(a: AppObject.App): (r: (seq<AppObject.Notification>, seq<AppObject.Task>))
    ensures a.currentTestId > -1 <==> |r.1| == 2
    ensures a.currentTestId <= -1 ==> r == ([], [])
    ensures a.currentTestId > -1 ==> r == AppObject.StartTest(a.running, a.currentTestId)
  {
    if a.currentTestId > -1 then AppObject.StartTest(a.running, a.currentTestId) else ([], [])
  }
}

=== FILE: monsoon.dfy ===
/**
 * The Monsoon power monitor's serial protocol and sampling loop
 * (`scripts/android/autopower/monsoon.py`): length-and-checksum framing of
 * every command and reply, the USB passthrough setting, the data-packet
 * filter with its sequence check, and the Bresenham-style resampler of the
 * command-line tool. The serial port is a parameter: the bytes it delivers
 * before a read times out.
 */
module Monsoon {
  import opened Common

  const USB_OFF := 0
  const USB_ON := 1
  const USB_AUTO := 2

  /** The largest value a length byte can hold. */
  const MAX_LENGTH_BYTE := 255
  /** A data packet has at least a 4-byte header, one 8-byte sample group and a trailing byte. */
  const MIN_DATA_PACKET := 4 + 8 + 1
  const FIRST_DATA_TYPE := 0x20
  const LAST_DATA_TYPE := 0x2F

  function Sum(s: seq<Byte>): nat
    decreases |s|
  {
    if |s| == 0 then 0 else Sum(s[..|s| - 1]) + s[|s| - 1]
  }

  /** The checksum byte: the length byte plus every body byte, modulo 256. */
  function Checksum(dataLen: nat, body: seq<Byte>): Byte {
    (dataLen + Sum(body)) % 256
  }

  /**
   * `_SendStruct`: the length byte (body length plus one, for the checksum),
   * the body, then the checksum. `struct.pack("B", ...)` raises for a length
   * over 255; that is `None` here.
   */
  function Frame(data: seq<Byte>): (f: Option<seq<Byte>>)
    ensures f.Some? <==> |data| + 1 <= MAX_LENGTH_BYTE
    ensures f.Some? ==>
              |f.value| == |data| + 2 && f.value[0] == |data| + 1 && f.value[1..|data| + 1] == data
              && f.value[|data| + 1] == Checksum(|data| + 1, data)
  {
    if |data| + 1 > MAX_LENGTH_BYTE then None
    else Some([(|data| + 1) as Byte] + data + [Checksum(|data| + 1, data)])
  }

  /** What `_ReadPacket` returned, and the bytes the port still holds after it. */
  datatype Read = Read(packet: Option<seq<Byte>>, rest: seq<Byte>)

  /**
   * `_ReadPacket` on a port that delivers `input`: nothing is a timeout
   * (`None`); a zero length byte is the empty packet; otherwise the length
   * byte says how many bytes follow, and a short read or a wrong checksum is
   * `None`, while a good frame gives its body without the checksum.
   */
  function ReadPacket(input: seq<Byte>): (r: Read)
    ensures |r.rest| <= |input| && r.rest == input[|input| - |r.rest|..]
    ensures |input| == 0 ==> r == Read(None, [])
    ensures |input| > 0 && input[0] == 0 ==> r == Read(Some([]), input[1..])
    ensures |input| > 0 && input[0] > 0 && |input| < input[0] as int + 1 ==> r == Read(None, [])
    ensures |input| > 0 && input[0] > 0 && r.packet.Some? ==>
              |input| >= input[0] as int + 1 && r.packet.value == input[1..input[0]]
              && input[input[0]] == Checksum(input[0], r.packet.value) && r.rest == input[input[0] + 1..]
  {
    if |input| == 0 then Read(None, [])
    else
      var n := input[0] as int;
      if n == 0 then Read(Some([]), input[1..])
      else
        var avail := input[1..];
        if |avail| < n then Read(None, [])
        else
          var result := avail[..n];
          var body := result[..n - 1];
          if result[n - 1] != Checksum(n, body) then Read(None, avail[n..])
          else Read(Some(body), avail[n..])
  }

  /** Reading back a frame gives the body that was sent and leaves what followed it. */
  lemma ReadFrame(data: seq<Byte>, more: seq<Byte>)
    requires |data| + 1 <= MAX_LENGTH_BYTE
    ensures ReadPacket(Frame(data).value + more) == Read(Some(data), more)
  {
    var f := Frame(data).value;
    var input := f + more;
    var n := |data| + 1;
    assert input[0] == n;
    assert input[1..][..n] == data + [Checksum(n, data)];
    assert input[1..][..n][..n - 1] == data;
    assert input[1..][n..] == more;
  }

  /** A frame whose checksum byte is wrong is refused. */
  lemma BadChecksumRefused(data: seq<Byte>, c: Byte, more: seq<Byte>)
    requires |data| + 1 <= MAX_LENGTH_BYTE && c != Checksum(|data| + 1, data)
    ensures ReadPacket([(|data| + 1) as Byte] + data + [c] + more).packet == None
  {
    var input := [(|data| + 1) as Byte] + data + [c] + more;
    var n := |data| + 1;
    assert input[1..][..n] == data + [c];
    assert input[1..][..n][..n - 1] == data;
  }

  /** The device state the script keeps: the passthrough mode and the last data sequence number. */
  datatype Device = Device(usbPassthrough: int, lastSeq: Byte)

  /** The constructor: passthrough on auto, no sequence number seen. */
  const NEW_DEVICE := Device(USB_AUTO, 0)

  predicate ValidPassthrough(val: int) {
    val == USB_OFF || val == USB_ON || val == USB_AUTO
  }

  /**
   * `SetUsbPassthrough`: a mode other than off, on or auto raises and
   * changes nothing; an accepted one is remembered and sent as command
   * `01 10 val`.
   */
  function SetUsbPassthrough(d: Device, val: int): (r: (Option<Device>, seq<seq<Byte>>))
    ensures r.0.Some? <==> ValidPassthrough(val)
    ensures r.0.Some? ==> r.0.value == d.(usbPassthrough := val) && r.1 == [Frame([0x01, 0x10, val]).value]
    ensures r.0.None? ==> r.1 == []
  {
    if !ValidPassthrough(val) then (None, [])
    else (Some(d.(usbPassthrough := val)), [Frame([0x01, 0x10, val]).value])
  }

  function GetUsbPassthrough(d: Device): int {
    d.usbPassthrough
  }

  /** A series of `SetUsbPassthrough` calls whose raised errors are caught by the caller. */
  function SetAll(d: Device, vals: seq<int>): Device
    decreases |vals|
  {
    if |vals| == 0 then d
    else
      var next := SetUsbPassthrough(d, vals[0]).0;
      SetAll(if next.Some? then next.value else d, vals[1..])
  }

  /** The last accepted mode in a series of requests, or `current` if none was. */
  function LastAccepted(current: int, vals: seq<int>): int
    decreases |vals|
  {
    if |vals| == 0 then current
    else LastAccepted(if ValidPassthrough(vals[0]) then vals[0] else current, vals[1..])
  }

  /** `GetUsbPassthrough` gives the last accepted mode, so it is always off, on or auto. */
  lemma {:induction false} PassthroughIsLastAccepted(d: Device, vals: seq<int>)
    ensures GetUsbPassthrough(SetAll(d, vals)) == LastAccepted(d.usbPassthrough, vals)
    ensures ValidPassthrough(d.usbPassthrough) ==> ValidPassthrough(GetUsbPassthrough(SetAll(d, vals)))
    decreases |vals|
  {
    if |vals| > 0 {
      var next := SetUsbPassthrough(d, vals[0]).0;
      PassthroughIsLastAccepted(if next.Some? then next.value else d, vals[1..]);
    }
  }

  /** `CollectData` keeps a packet only if it is long enough and its first byte is a data type. */
  predicate IsDataPacket(bytes: seq<Byte>) {
    |bytes| >= MIN_DATA_PACKET && FIRST_DATA_TYPE <= bytes[0] <= LAST_DATA_TYPE
  }

  /** A lost packet: a sequence number was seen before and this one's low nibble does not follow it. */
  predicate SequenceGap(lastSeq: Byte, seqNo: Byte) {
    lastSeq != 0 && seqNo % 16 != (lastSeq + 1) % 16
  }

  /** The offset of the i-th 8-byte sample group, after the 4-byte header. */
  function GroupOffset(i: nat): int {
    4 + 8 * i
  }

  /** An element of `range(4, len - 8, 8)`. */
  predicate InGroupRange(len: int, x: int) {
    4 <= x < len - 8 && (x - 4) % 8 == 0
  }

  /** The number of sample groups: the length of `range(4, len - 8, 8)`. */
  function GroupCount(len: int): (n: nat)
    ensures forall i: nat :: i < n <==> InGroupRange(len, GroupOffset(i))
    ensures forall x :: InGroupRange(len, x) ==> x == GroupOffset((x - 4) / 8) && (x - 4) / 8 < n
  {
    if len - 12 > 0 then (len - 12 + 7) / 8 else 0
  }

  /** A packet of a header, n groups and a trailing byte yields exactly its n groups. */
  lemma WholeGroups(n: nat)
    ensures GroupCount(4 + 8 * n + 1) == n
  {
  }

  /** What one packet read in `CollectData` amounts to. */
  datatype Packet =
    | Timeout
    | Dropped
    | Data(seqNo: Byte, kind: Byte, gap: bool, groups: seq<seq<Byte>>)

  /**
   * One pass of the `CollectData` loop: no packet or an empty one ends the
   * call; a packet that is not a data packet is dropped; otherwise the
   * sequence number is checked against the last one and remembered, and the
   * body is cut into its 8-byte groups.
   */
  function Receive(d: Device, bytes: Option<seq<Byte>>): (r: (Device, Packet))
    ensures bytes.None? || |bytes.value| == 0 ==> r == (d, Timeout)
    ensures bytes.Some? && |bytes.value| > 0 && !IsDataPacket(bytes.value) ==> r == (d, Dropped)
    ensures bytes.Some? && IsDataPacket(bytes.value) ==>
              r.1.Data? && r.1.seqNo == bytes.value[0] && r.1.kind == bytes.value[1]
              && r.0 == d.(lastSeq := bytes.value[0]) && r.0.lastSeq != 0
              && (r.1.gap <==> SequenceGap(d.lastSeq, bytes.value[0]))
              && |r.1.groups| == GroupCount(|bytes.value|)
              && forall i :: 0 <= i < |r.1.groups| ==> r.1.groups[i] == bytes.value[4 + 8 * i..12 + 8 * i]
  {
    if bytes.None? || |bytes.value| == 0 then (d, Timeout)
    else
      var b := bytes.value;
      if !IsDataPacket(b) then (d, Dropped)
      else
        var groups := seq(GroupCount(|b|), i requires 0 <= i < GroupCount(|b|) => b[4 + 8 * i..12 + 8 * i]);
        (d.(lastSeq := b[0]), Data(b[0], b[1], SequenceGap(d.lastSeq, b[0]), groups))
  }

  /** Sequence numbers that follow on from one another, modulo 16. */
  predicate Consecutive(last: Byte, seqs: seq<Byte>) {
    (|seqs| > 0 ==> last == 0 || seqs[0] % 16 == (last + 1) % 16)
    && forall i :: 0 <= i < |seqs| - 1 ==> seqs[i + 1] % 16 == (seqs[i] as int + 1) % 16
  }

  /** The gaps reported while data packets with these sequence numbers arrive. */
  function GapsReported(last: Byte, seqs: seq<Byte>): nat
    decreases |seqs|
  {
    if |seqs| == 0 then 0
    else (if SequenceGap(last, seqs[0]) then 1 else 0) + GapsReported(seqs[0], seqs[1..])
  }

  /** Packets that arrive in order report no gap. */
  lemma {:induction false} InOrderNoGaps(last: Byte, seqs: seq<Byte>)
    requires Consecutive(last, seqs)
    ensures GapsReported(last, seqs) == 0
    decreases |seqs|
  {
    if |seqs| > 0 {
      assert Consecutive(seqs[0], seqs[1..]) by {
        forall i | 0 <= i < |seqs[1..]| - 1
          ensures seqs[1..][i + 1] % 16 == (seqs[1..][i] as int + 1) % 16
        {
          assert seqs[1..][i] == seqs[i + 1] && seqs[1..][i + 1] == seqs[i + 2];
        }
      }
      InOrderNoGaps(seqs[0], seqs[1..]);
    }
  }

  /** Once a number has been seen, a single lost packet is always reported. */
  lemma LostPacketReported(last: Byte, seqNo: Byte)
    requires last != 0 && seqNo % 16 == (last + 2) % 16
    ensures SequenceGap(last, seqNo)
  {
  }

  /**
   * One output step of the resampler: consume the fewest input samples that
   * bring the error accumulator to at least `nativeHz`, then emit one output
   * per `nativeHz` of it.
   */
  method ConsumeStep(nativeHz: int, hz: int, offset: int) returns (need: int, count: int, newOffset: int)
    requires nativeHz > 0 && hz > 0 && 0 <= offset < nativeHz
    ensures need == (nativeHz - offset + hz - 1) / hz
    ensures need >= 1 && offset + need * hz >= nativeHz && offset + (need - 1) * hz < nativeHz
    ensures count >= 1 && newOffset == offset + need * hz - count * nativeHz
    ensures 0 <= newOffset < nativeHz
    ensures count * nativeHz < nativeHz + hz
  {
    need := (nativeHz - offset + hz - 1) / hz;
    NeedIsMinimal(nativeHz - offset, hz);
    newOffset := offset + need * hz;
    count := 0;
    while newOffset >= nativeHz
      invariant newOffset == offset + need * hz - count * nativeHz
      invariant newOffset >= 0
      invariant count == 0 ==> newOffset >= nativeHz
      decreases newOffset
    {
      newOffset := newOffset - nativeHz;
      count := count + 1;
    }
  }

  /** `(a + h - 1) / h` is the least k with k * h >= a. */
  lemma NeedIsMinimal(a: int, h: int)
    requires a > 0 && h > 0
    ensures (a + h - 1) / h >= 1
    ensures (a + h - 1) / h * h >= a
    ensures ((a + h - 1) / h - 1) * h < a
  {
    var k := (a + h - 1) / h;
    var r := (a + h - 1) % h;
    assert a + h - 1 == k * h + r;
    assert k * h >= a by {
      assert r <= h - 1;
    }
    assert (k - 1) * h == k * h - h;
  }

  function SumCounts(s: seq<nat>): nat
    decreases |s|
  {
    if |s| == 0 then 0 else SumCounts(s[..|s| - 1]) + s[|s| - 1]
  }

  /**
   * The `--samples` loop of `main`. `chunks` are the sizes of the sample
   * lists `CollectData` returns, a 0 standing for a read that gave nothing;
   * `samples` is the requested count, -1 meaning no limit. The error
   * accumulator always equals consumed x hz - emitted x nativeHz and stays in
   * [0, nativeHz); the loop stops when enough outputs were emitted or the
   * data runs out, and may overshoot the request by the outputs of one step.
   */
  method Resample(nativeHz: int, hz: int, chunks: seq<nat>, samples: int)
    returns (emitted: int, consumed: int, offset: int, leftover: int, chunksUsed: nat)
    requires nativeHz > 0 && hz > 0
    ensures offset == consumed * hz - emitted * nativeHz
    ensures 0 <= offset < nativeHz
    ensures emitted >= 0 && consumed >= 0 && leftover >= 0
    ensures chunksUsed <= |chunks| && consumed + leftover == SumCounts(chunks[..chunksUsed])
    ensures (samples != -1 && emitted >= samples) || chunksUsed == |chunks| || chunks[chunksUsed] == 0
    ensures samples >= 0 ==> emitted * nativeHz < samples * nativeHz + hz
    ensures samples >= 0 && hz <= nativeHz ==> emitted <= samples
  {
    emitted, consumed, offset, leftover, chunksUsed := 0, 0, 0, 0, 0;
    while emitted < samples || samples == -1
      invariant offset == consumed * hz - emitted * nativeHz
      invariant 0 <= offset < nativeHz
      invariant emitted >= 0 && consumed >= 0 && leftover >= 0
      invariant chunksUsed <= |chunks| && consumed + leftover == SumCounts(chunks[..chunksUsed])
      invariant samples >= 0 ==> emitted * nativeHz < samples * nativeHz + hz
      invariant samples >= 0 && hz <= nativeHz ==> emitted <= samples
      decreases |chunks| - chunksUsed, leftover
    {
      var need, count, newOffset := ConsumeStep(nativeHz, hz, offset);
      if need > leftover {
        if chunksUsed == |chunks| || chunks[chunksUsed] == 0 {
          break;
        }
        assert chunks[..chunksUsed + 1] == chunks[..chunksUsed] + [chunks[chunksUsed]];
        leftover := leftover + chunks[chunksUsed];
        chunksUsed := chunksUsed + 1;
      } else {
        ghost var before := emitted;
        Accumulate(nativeHz, hz, consumed, emitted, need, count);
        offset := newOffset;
        emitted := emitted + count;
        consumed := consumed + need;
        leftover := leftover - need;
        if samples >= 0 {
          OvershootBound(nativeHz, hz, samples, before, count);
        }
      }
    }
  }

  /** A step taken with fewer outputs than requested ends at most one step's worth past the request. */
  lemma OvershootBound(nativeHz: int, hz: int, samples: int, before: int, count: int)
    requires nativeHz > 0 && hz > 0 && samples >= 0 && before < samples
    requires count * nativeHz < nativeHz + hz
    ensures (before + count) * nativeHz < samples * nativeHz + hz
    ensures hz <= nativeHz ==> before + count <= samples
  {
    assert before * nativeHz <= (samples - 1) * nativeHz by {
      MulMono(before, samples - 1, nativeHz);
    }
    if hz <= nativeHz {
      assert count * nativeHz < 2 * nativeHz;
      assert count < 2 by {
        if count >= 2 {
          MulMono(2, count, nativeHz);
        }
      }
    }
  }

  /** Consuming n more and emitting count more moves the accumulator by n x hz - count x nativeHz. */
  lemma Accumulate(nativeHz: int, hz: int, consumed: int, emitted: int, n: int, count: int)
    ensures (consumed + n) * hz - (emitted + count) * nativeHz
            == (consumed * hz - emitted * nativeHz) + n * hz - count * nativeHz
  {
  }

  lemma MulMono(a: int, b: int, c: int)
    requires a <= b && c >= 0
    ensures a * c <= b * c
  {
  }
}

=== FILE: native_lib.dfy ===
/**
 * The JNI boundary (`native-lib.cpp`): every entry point the app calls,
 * over a handle that is either the one native test manager or null.
 *
 * Each entry point answers with a fixed sentinel when the handle is null or
 * the addressed parameter does not exist, and asks the engine otherwise. The
 * list-held parameter accessors (`getHoldType`, `getListSize`, ...) belong to
 * parameter code that is not part of this model, so what the engine answers
 * there is supplied as a `ListSide`.
 */
module NativeLib {
  import opened Common
  import Params
  import NativeTest

  type Handle = Option<NativeTest.Engine>

  /**
   * The engine's answers to the list-parameter questions, for the parameter
   * at a (test id, index) position.
   */
  datatype ListSide = ListSide(holdType: (int, int) -> int,
                               listSize: (int, int) -> int,
                               currentIndex: (int, int) -> int,
                               defaultIndex: (int, int) -> int,
                               nameFromList: (int, int, int) -> string)

  /** `native_create`: a fresh manager; the handle is never null. */
  function Create(apple: bool, listParam: NativeTest.Decl -> Params.Param, current: int): (h: Handle)
    ensures h.Some? && h.value.status == NativeTest.STATUS_UNDEFINED
  {
    Some(NativeTest.NewEngine(apple, listParam, current))
  }

  /** `testInit`. */
  function TestInit(h: Handle, testId: int): (r: (Handle, int))
    ensures h.None? ==> r == (h, NativeTest.ERROR)
    ensures h.Some? ==> r.1 == NativeTest.SUCCESS && r.0.Some?
                        && r.0.value.status == NativeTest.STATUS_READY && r.0.value.current == testId
  {
    match h
    case None => (h, NativeTest.ERROR)
    case Some(e) => var (e2, code) := NativeTest.Init(e, testId); (Some(e2), code)
  }

  /** `testClose`: the manager's `closeTest()` status, after which the manager is deleted. */
  function TestClose(h: Handle): (r: (Handle, int))
    ensures r.0.None?
    ensures h.None? ==> r.1 == NativeTest.ERROR
    ensures h.Some? ==> r.1 == NativeTest.CloseTest(h.value) == NativeTest.SUCCESS
  {
    match h
    case None => (None, NativeTest.ERROR)
    case Some(e) => (None, NativeTest.CloseTest(e))
  }

  /** `testRun`. */
  function TestRun(h: Handle): (r: (Handle, int))
    ensures h.None? ==> r == (h, NativeTest.ERROR)
    ensures h.Some? ==> r.1 == NativeTest.SUCCESS && r.0.Some?
                        && r.0.value.status == NativeTest.STATUS_COMPLETED
  {
    match h
    case None => (h, NativeTest.ERROR)
    case Some(e) => var o := NativeTest.Run(e); (Some(o.engine), o.code)
  }

  /** `testProgress`: -1 for a null handle. */
  function TestProgress(h: Handle): (p: int)
    ensures h.None? ==> p == -1
    ensures h.Some? ==> p == h.value.progress
  {
    match h
    case None => -1
    case Some(e) => e.progress
  }

  /** `testStatus`: NATIVETEST_STATUS_ERROR for a null handle. */
  function TestStatus(h: Handle): (s: int)
    ensures h.None? ==> s == NativeTest.STATUS_ERROR
    ensures h.Some? ==> s == h.value.status
  {
    match h
    case None => NativeTest.STATUS_ERROR
    case Some(e) => NativeTest.Status(e)
  }

  /** `testHasLogs`: false for a null handle. */
  function TestHasLogs(h: Handle): (b: bool)
    ensures h.None? ==> !b
    ensures h.Some? ==> b == NativeTest.HasLogs(h.value)
  {
    match h
    case None => false
    case Some(e) => NativeTest.HasLogs(e)
  }

  /** `testReadLog`: "[native closed]" for a null handle. */
  function TestReadLog(h: Handle): (s: string)
    ensures h.None? ==> s == "[native closed]"
    ensures h.Some? ==> s == NativeTest.ReadLog(h.value)
  {
    match h
    case None => "[native closed]"
    case Some(e) => NativeTest.ReadLog(e)
  }

  /** `getTestCount`: 0 for a null handle. */
  function GetTestCount(h: Handle): (n: int)
    ensures h.None? ==> n == 0
    ensures h.Some? ==> n == NativeTest.ID_COUNT
  {
    if h.None? then 0 else NativeTest.TestCount()
  }

  /** `getTestName`: null (None) for a null handle. */
  function GetTestName(h: Handle, testId: int): (s: Option<string>)
    ensures h.None? <==> s.None?
    ensures h.Some? ==> s == Some(NativeTest.TestName(testId))
  {
    if h.None? then None else Some(NativeTest.TestName(testId))
  }

  /** `getParamCount`: 0 for a null handle or an id without a unit. */
  function GetParamCount(h: Handle, testId: int): (n: int)
    ensures h.None? ==> n == 0
    ensures h.Some? ==> n == NativeTest.ParamCount(h.value, testId)
  {
    match h
    case None => 0
    case Some(e) => NativeTest.ParamCount(e, testId)
  }

  /** `helperGetParamBase`: group of the test, then the parameter at the index. */
  function ParamAt(h: Handle, testId: int, index: int): (p: Option<Params.Param>)
    ensures h.None? ==> p.None?
    ensures p.Some? ==> h.Some? && 0 <= testId < NativeTest.ID_COUNT
                        && 0 <= index < |h.value.groups[testId].params|
                        && p.value == h.value.groups[testId].params[index]
  {
    match h
    case None => None
    case Some(e) =>
      match NativeTest.ParamGroup(e, testId)
      case None => None
      case Some(g) => Params.ParamByIndex(g, index)
  }

  /** A parameter is addressable exactly when its index is below the reported count. */
  lemma ParamAtIffBelowCount(h: Handle, testId: int, index: int)
    ensures ParamAt(h, testId, index).Some? <==> 0 <= index < GetParamCount(h, testId)
  {
  }

  /** `getParamType`: -1 for a missing parameter. */
  function GetParamType(h: Handle, testId: int, index: int): (t: int)
    ensures ParamAt(h, testId, index).None? ==> t == -1
    ensures ParamAt(h, testId, index).Some? ==> t == Params.TypeCode(ParamAt(h, testId, index).value)
  {
    match ParamAt(h, testId, index)
    case None => -1
    case Some(p) => Params.TypeCode(p)
  }

  /** `getParamHoldType`: -1 for a missing parameter. */
  function GetParamHoldType(h: Handle, testId: int, index: int, ls: ListSide): (t: int)
    ensures ParamAt(h, testId, index).None? ==> t == -1
    ensures ParamAt(h, testId, index).Some? ==> t == ls.holdType(testId, index)
  {
    match ParamAt(h, testId, index)
    case None => -1
    case Some(_) => ls.holdType(testId, index)
  }

  /** `getParamListSize`: 0 for a missing parameter. */
  function GetParamListSize(h: Handle, testId: int, index: int, ls: ListSide): (n: int)
    ensures ParamAt(h, testId, index).None? ==> n == 0
    ensures ParamAt(h, testId, index).Some? ==> n == ls.listSize(testId, index)
  {
    match ParamAt(h, testId, index)
    case None => 0
    case Some(_) => ls.listSize(testId, index)
  }

  /** `getParamListCurrentIndex`: -1 for a missing parameter. */
  function GetParamListCurrentIndex(h: Handle, testId: int, index: int, ls: ListSide): (i: int)
    ensures ParamAt(h, testId, index).None? ==> i == -1
    ensures ParamAt(h, testId, index).Some? ==> i == ls.currentIndex(testId, index)
  {
    match ParamAt(h, testId, index)
    case None => -1
    case Some(_) => ls.currentIndex(testId, index)
  }

  /** `getParamListDefaultIndex`: -1 for a missing parameter. */
  function GetParamListDefaultIndex(h: Handle, testId: int, index: int, ls: ListSide): (i: int)
    ensures ParamAt(h, testId, index).None? ==> i == -1
    ensures ParamAt(h, testId, index).Some? ==> i == ls.defaultIndex(testId, index)
  {
    match ParamAt(h, testId, index)
    case None => -1
    case Some(_) => ls.defaultIndex(testId, index)
  }

  /**
   * `setParamListCurrentIndex`: SUCCESS exactly when the parameter exists. The
   * effect on the list lives in the parameter code and is not modelled.
   */
  function SetParamListCurrentIndex(h: Handle, testId: int, index: int, listIndex: int): (code: int)
    ensures code == NativeTest.SUCCESS <==> ParamAt(h, testId, index).Some?
    ensures code == NativeTest.ERROR <==> ParamAt(h, testId, index).None?
  {
    if ParamAt(h, testId, index).Some? then NativeTest.SUCCESS else NativeTest.ERROR
  }

  /**
   * The engine's list answers after `setParamListCurrentIndex(listIndex)`: for
   * an existing parameter that entry becomes the current one, as
   * `getParamListCurrentIndex` then reports; a missing parameter changes
   * nothing. The list code that stores the index is not part of this model,
   * so the index is taken as stored without a range check of its own.
   */
  function SelectListIndex(h: Handle, testId: int, index: int, listIndex: int, ls: ListSide): (ls2: ListSide)
    ensures ParamAt(h, testId, index).Some? ==> GetParamListCurrentIndex(h, testId, index, ls2) == listIndex
    ensures ParamAt(h, testId, index).None? ==> ls2 == ls
    ensures ls2.holdType == ls.holdType && ls2.listSize == ls.listSize
            && ls2.defaultIndex == ls.defaultIndex && ls2.nameFromList == ls.nameFromList
    ensures forall t, p :: t != testId || p != index ==> ls2.currentIndex(t, p) == ls.currentIndex(t, p)
  {
    if ParamAt(h, testId, index).None? then ls
    else ls.(currentIndex := (t, p) => if t == testId && p == index then listIndex else ls.currentIndex(t, p))
  }

  /**
   * `getParamListNameFromIndex`: null for a missing parameter; the list entry's
   * name for an integer or float one; the empty string for any other type.
   */
  function GetParamListNameFromIndex(h: Handle, testId: int, index: int, listIndex: int,
                                     ls: ListSide): (s: Option<string>)
    ensures ParamAt(h, testId, index).None? <==> s.None?
    ensures ParamAt(h, testId, index).Some? && Params.Typed(ParamAt(h, testId, index).value) ==>
              s == Some(ls.nameFromList(testId, index, listIndex))
    ensures ParamAt(h, testId, index).Some? && !Params.Typed(ParamAt(h, testId, index).value) ==>
              s == Some("")
  {
    match ParamAt(h, testId, index)
    case None => None
    case Some(p) =>
      if Params.TypeCode(p) == Params.PARAM_INTEGER || Params.TypeCode(p) == Params.PARAM_FLOAT
      then Some(ls.nameFromList(testId, index, listIndex))
      else Some("")
  }

  /** `getParamName`: null for a missing parameter. */
  function GetParamName(h: Handle, testId: int, index: int): (s: Option<string>)
    ensures ParamAt(h, testId, index).None? <==> s.None?
    ensures s.Some? ==> s.value == ParamAt(h, testId, index).value.name
  {
    match ParamAt(h, testId, index)
    case None => None
    case Some(p) => Some(p.name)
  }

  /** `getparamDesc`: null for a missing parameter. */
  function GetParamDesc(h: Handle, testId: int, index: int): (s: Option<string>)
    ensures ParamAt(h, testId, index).None? <==> s.None?
    ensures s.Some? ==> s.value == ParamAt(h, testId, index).value.description
  {
    match ParamAt(h, testId, index)
    case None => None
    case Some(p) => Some(p.description)
  }

  /**
   * `resetParamValue`: SUCCESS exactly when the parameter exists. The reset
   * itself (`setDefaultValue`) is parameter code not part of this model.
   */
  function ResetParamValue(h: Handle, testId: int, index: int): (code: int)
    ensures code == NativeTest.SUCCESS <==> ParamAt(h, testId, index).Some?
    ensures code == NativeTest.ERROR <==> ParamAt(h, testId, index).None?
  {
    if ParamAt(h, testId, index).Some? then NativeTest.SUCCESS else NativeTest.ERROR
  }

  /**
   * Two engine states agree on everything but parameter values: the same
   * parameters, at the same positions, with the same names, descriptions
   * and types.
   */
  ghost predicate SameShape(h1: Handle, h2: Handle) {
    (forall t :: GetParamCount(h1, t) == GetParamCount(h2, t))
    && (forall t, j :: GetParamName(h1, t, j) == GetParamName(h2, t, j))
    && (forall t, j :: GetParamDesc(h1, t, j) == GetParamDesc(h2, t, j))
    && (forall t, j :: GetParamType(h1, t, j) == GetParamType(h2, t, j))
  }

  /** Replacing one parameter by one with the same name, description and type keeps the shape. */
  lemma ReplaceKeepsShape(h: Handle, testId: int, index: int, q: Params.Param)
    requires ParamAt(h, testId, index).Some?
    requires q.name == ParamAt(h, testId, index).value.name
    requires q.description == ParamAt(h, testId, index).value.description
    requires Params.TypeCode(q) == Params.TypeCode(ParamAt(h, testId, index).value)
    ensures SameShape(h, Some(NativeTest.WithGroup(h.value, testId,
                                Params.WithParam(h.value.groups[testId], index, q))))
  {
    var h2 := Some(NativeTest.WithGroup(h.value, testId, Params.WithParam(h.value.groups[testId], index, q)));
    forall t, j
      ensures ParamAt(h2, t, j).Some? == ParamAt(h, t, j).Some?
      ensures ParamAt(h, t, j).Some? ==>
                ParamAt(h2, t, j).value.name == ParamAt(h, t, j).value.name
                && ParamAt(h2, t, j).value.description == ParamAt(h, t, j).value.description
                && Params.TypeCode(ParamAt(h2, t, j).value) == Params.TypeCode(ParamAt(h, t, j).value)
    {
    }
  }

  // ----- integer accessors -----

  /** `getParamIntMin`: 0 for a missing parameter. */
  function GetParamIntMin(h: Handle, testId: int, index: int): (v: int)
    ensures ParamAt(h, testId, index).None? ==> v == 0
    ensures ParamAt(h, testId, index).Some? && ParamAt(h, testId, index).value.body.IntBody? ==>
              v == ParamAt(h, testId, index).value.body.min
  {
    var p := ParamAt(h, testId, index);
    if p.Some? && p.value.body.IntBody? then p.value.body.min else 0
  }

  /** `getParamIntMax`: 0 for a missing parameter. */
  function GetParamIntMax(h: Handle, testId: int, index: int): (v: int)
    ensures ParamAt(h, testId, index).None? ==> v == 0
    ensures ParamAt(h, testId, index).Some? && ParamAt(h, testId, index).value.body.IntBody? ==>
              v == ParamAt(h, testId, index).value.body.max
  {
    var p := ParamAt(h, testId, index);
    if p.Some? && p.value.body.IntBody? then p.value.body.max else 0
  }

  /** `getParamIntValue`: 0 for a missing parameter. */
  function GetParamIntValue(h: Handle, testId: int, index: int): (v: int)
    ensures ParamAt(h, testId, index).None? ==> v == 0
    ensures ParamAt(h, testId, index).Some? && ParamAt(h, testId, index).value.body.IntBody? ==>
              v == ParamAt(h, testId, index).value.body.value
  {
    var p := ParamAt(h, testId, index);
    if p.Some? && p.value.body.IntBody? then p.value.body.value else 0
  }

  /** `getParamIntDefault`: 0 for a missing parameter. */
  function GetParamIntDefault(h: Handle, testId: int, index: int): (v: int)
    ensures ParamAt(h, testId, index).None? ==> v == 0
    ensures ParamAt(h, testId, index).Some? && ParamAt(h, testId, index).value.body.IntBody? ==>
              v == ParamAt(h, testId, index).value.body.default
  {
    var p := ParamAt(h, testId, index);
    if p.Some? && p.value.body.IntBody? then p.value.body.default else 0
  }

  /**
   * `setParamIntValue`: SUCCESS exactly when the parameter exists; an integer
   * parameter takes the clamped value and nothing else in the engine changes.
   * The source casts the parameter unchecked; on a float parameter its
   * integer `setValue` would act on the float's storage, which the model
   * replaces by leaving the engine unchanged.
   */
  function SetParamIntValue(h: Handle, testId: int, index: int, v: int): (r: (Handle, int))
    ensures r.1 == NativeTest.SUCCESS <==> ParamAt(h, testId, index).Some?
    ensures r.1 == NativeTest.ERROR <==> ParamAt(h, testId, index).None?
    ensures ParamAt(h, testId, index).None? ==> r.0 == h
    ensures ParamAt(h, testId, index).Some? && ParamAt(h, testId, index).value.body.IntBody? ==>
              ParamAt(r.0, testId, index) == Some(Params.SetIntValue(ParamAt(h, testId, index).value, v))
    ensures ParamAt(h, testId, index).Some? && !ParamAt(h, testId, index).value.body.IntBody? ==> r.0 == h
  {
    match ParamAt(h, testId, index)
    case None => (h, NativeTest.ERROR)
    case Some(p) =>
      if p.body.IntBody? then
        var g := h.value.groups[testId];
        (Some(NativeTest.WithGroup(h.value, testId, Params.WithParam(g, index, Params.SetIntValue(p, v)))),
         NativeTest.SUCCESS)
      else (h, NativeTest.SUCCESS)
  }
  /** `setParamIntValue` keeps the shape of every test's parameter list. */
  lemma SetIntKeepsShape(h: Handle, testId: int, index: int, v: int)
    ensures SameShape(h, SetParamIntValue(h, testId, index, v).0)
  {
    match ParamAt(h, testId, index)
    case None =>
    case Some(p) =>
      if p.body.IntBody? {
        ReplaceKeepsShape(h, testId, index, Params.SetIntValue(p, v));
      }
  }


  // ----- float accessors -----

  /** `getParamFloatMin`: 0 for a missing parameter. */
  function GetParamFloatMin(h: Handle, testId: int, index: int): (v: real)
    ensures ParamAt(h, testId, index).None? ==> v == 0.0
    ensures ParamAt(h, testId, index).Some? && ParamAt(h, testId, index).value.body.FloatBody? ==>
              v == ParamAt(h, testId, index).value.body.fmin
  {
    var p := ParamAt(h, testId, index);
    if p.Some? && p.value.body.FloatBody? then p.value.body.fmin else 0.0
  }

  /** `getParamFloatMax`: 0 for a missing parameter. */
  function GetParamFloatMax(h: Handle, testId: int, index: int): (v: real)
    ensures ParamAt(h, testId, index).None? ==> v == 0.0
    ensures ParamAt(h, testId, index).Some? && ParamAt(h, testId, index).value.body.FloatBody? ==>
              v == ParamAt(h, testId, index).value.body.fmax
  {
    var p := ParamAt(h, testId, index);
    if p.Some? && p.value.body.FloatBody? then p.value.body.fmax else 0.0
  }

  /** `getParamFloatValue`: 0 for a missing parameter. */
  function GetParamFloatValue(h: Handle, testId: int, index: int): (v: real)
    ensures ParamAt(h, testId, index).None? ==> v == 0.0
    ensures ParamAt(h, testId, index).Some? && ParamAt(h, testId, index).value.body.FloatBody? ==>
              v == ParamAt(h, testId, index).value.body.fvalue
  {
    var p := ParamAt(h, testId, index);
    if p.Some? && p.value.body.FloatBody? then p.value.body.fvalue else 0.0
  }

  /** `getParamFloatDefault`: 0 for a missing parameter. */
  function GetParamFloatDefault(h: Handle, testId: int, index: int): (v: real)
    ensures ParamAt(h, testId, index).None? ==> v == 0.0
    ensures ParamAt(h, testId, index).Some? && ParamAt(h, testId, index).value.body.FloatBody? ==>
              v == ParamAt(h, testId, index).value.body.fdefault
  {
    var p := ParamAt(h, testId, index);
    if p.Some? && p.value.body.FloatBody? then p.value.body.fdefault else 0.0
  }

  /**
   * `setParamFloatValue`: SUCCESS exactly when the parameter exists; a float
   * parameter takes the clamped value. On an integer parameter the model
   * leaves the engine unchanged where the source's unchecked cast would act on
   * the integer's storage.
   */
  function SetParamFloatValue(h: Handle, testId: int, index: int, v: real): (r: (Handle, int))
    ensures r.1 == NativeTest.SUCCESS <==> ParamAt(h, testId, index).Some?
    ensures r.1 == NativeTest.ERROR <==> ParamAt(h, testId, index).None?
    ensures ParamAt(h, testId, index).None? ==> r.0 == h
    ensures ParamAt(h, testId, index).Some? && ParamAt(h, testId, index).value.body.FloatBody? ==>
              ParamAt(r.0, testId, index) == Some(Params.SetFloatValue(ParamAt(h, testId, index).value, v))
    ensures ParamAt(h, testId, index).Some? && !ParamAt(h, testId, index).value.body.FloatBody? ==> r.0 == h
  {
    match ParamAt(h, testId, index)
    case None => (h, NativeTest.ERROR)
    case Some(p) =>
      if p.body.FloatBody? then
        var g := h.value.groups[testId];
        (Some(NativeTest.WithGroup(h.value, testId, Params.WithParam(g, index, Params.SetFloatValue(p, v)))),
         NativeTest.SUCCESS)
      else (h, NativeTest.SUCCESS)
  }
  /** `setParamFloatValue` keeps the shape of every test's parameter list. */
  lemma SetFloatKeepsShape(h: Handle, testId: int, index: int, v: real)
    ensures SameShape(h, SetParamFloatValue(h, testId, index, v).0)
  {
    match ParamAt(h, testId, index)
    case None =>
    case Some(p) =>
      if p.body.FloatBody? {
        ReplaceKeepsShape(h, testId, index, Params.SetFloatValue(p, v));
      }
  }


  // ----- properties across entry points -----

  /** With a null handle every entry point answers its sentinel. */
  lemma NullHandleSentinels(testId: int, index: int, v: int, ls: ListSide)
    ensures TestInit(None, testId).1 == NativeTest.ERROR
    ensures TestRun(None).1 == NativeTest.ERROR
    ensures TestClose(None).1 == NativeTest.ERROR
    ensures TestProgress(None) == -1
    ensures TestStatus(None) == NativeTest.STATUS_ERROR
    ensures !TestHasLogs(None) && TestReadLog(None) == "[native closed]"
    ensures GetTestCount(None) == 0 && GetParamCount(None, testId) == 0
    ensures GetTestName(None, testId).None?
    ensures GetParamType(None, testId, index) == -1
    ensures GetParamHoldType(None, testId, index, ls) == -1
    ensures GetParamListSize(None, testId, index, ls) == 0
    ensures GetParamIntValue(None, testId, index) == 0
    ensures SetParamIntValue(None, testId, index, v).1 == NativeTest.ERROR
  {
  }

  /**
   * Writing an in-range value to an integer parameter and reading it back
   * gives that value; the other parameters of every test are untouched.
   */
  lemma SetThenGetInt(h: Handle, testId: int, index: int, v: int)
    requires ParamAt(h, testId, index).Some?
    requires ParamAt(h, testId, index).value.body.IntBody?
    requires ParamAt(h, testId, index).value.body.min <= v <= ParamAt(h, testId, index).value.body.max
    ensures var h2 := SetParamIntValue(h, testId, index, v).0;
            GetParamIntValue(h2, testId, index) == v
            && GetParamIntMin(h2, testId, index) == GetParamIntMin(h, testId, index)
            && GetParamIntMax(h2, testId, index) == GetParamIntMax(h, testId, index)
            && GetParamIntDefault(h2, testId, index) == GetParamIntDefault(h, testId, index)
            && GetParamCount(h2, testId) == GetParamCount(h, testId)
            && (forall t, j :: (t != testId || j != index) ==> ParamAt(h2, t, j) == ParamAt(h, t, j))
  {
    var h2 := SetParamIntValue(h, testId, index, v).0;
    assert ParamAt(h2, testId, index) == Some(Params.SetIntValue(ParamAt(h, testId, index).value, v));
  }
}

=== FILE: native_test.dfy ===
/**
 * The native test manager (`NativeTest`): six test units addressed by id, the
 * parameters each unit registers at start-up, and the status the app polls.
 *
 * The units' benchmark runs and the shared log are outside this model: a run is
 * a status transition, and the log is state the engine carries.
 */
module NativeTest {
  import opened Common
  import Params

  const SUCCESS := 0
  const ERROR := -1

  const STATUS_ERROR := -1
  const STATUS_UNDEFINED := 0
  const STATUS_READY := 1
  const STATUS_RUNNING := 2
  const STATUS_COMPLETED := 3

  const ID_AUTOMATED := 0
  const ID_CLOCKRAMP := 1
  const ID_JITTERMARK := 2
  const ID_LATENCYMARK := 3
  const ID_UTILIZATIONMARK := 4
  const ID_VOICEMARK := 5
  const ID_COUNT := 6

  /** The engine's fixed frames-per-render and stereo frame width. */
  const FRAMES_PER_RENDER := 8
  const SAMPLES_PER_FRAME := 2

  datatype Kind = AutomatedSuite | ClockRamp | JitterMark | LatencyMark | UtilizationMark | VoiceMark

  /** `getNativeTestUnit`: the switch over test ids; any other id has no unit. */
  function UnitFor(id: int): (k: Option<Kind>)
    ensures k.Some? <==> 0 <= id < ID_COUNT
    ensures id == ID_AUTOMATED ==> k == Some(AutomatedSuite)
    ensures id == ID_CLOCKRAMP ==> k == Some(ClockRamp)
    ensures id == ID_JITTERMARK ==> k == Some(JitterMark)
    ensures id == ID_LATENCYMARK ==> k == Some(LatencyMark)
    ensures id == ID_UTILIZATIONMARK ==> k == Some(UtilizationMark)
    ensures id == ID_VOICEMARK ==> k == Some(VoiceMark)
  {
    if id == ID_VOICEMARK then Some(VoiceMark)
    else if id == ID_LATENCYMARK then Some(LatencyMark)
    else if id == ID_JITTERMARK then Some(JitterMark)
    else if id == ID_UTILIZATIONMARK then Some(UtilizationMark)
    else if id == ID_CLOCKRAMP then Some(ClockRamp)
    else if id == ID_AUTOMATED then Some(AutomatedSuite)
    else None
  }

  function IdOf(k: Kind): (id: int)
    ensures 0 <= id < ID_COUNT
  {
    match k
    case AutomatedSuite => ID_AUTOMATED
    case ClockRamp => ID_CLOCKRAMP
    case JitterMark => ID_JITTERMARK
    case LatencyMark => ID_LATENCYMARK
    case UtilizationMark => ID_UTILIZATIONMARK
    case VoiceMark => ID_VOICEMARK
  }

  /** The dispatch is a bijection between the ids 0..5 and the six units. */
  lemma UnitForIsBijective(id: int, k: Kind)
    ensures UnitFor(IdOf(k)) == Some(k)
    ensures 0 <= id < ID_COUNT ==> IdOf(UnitFor(id).value) == id
  {
  }

  /** The title each unit is constructed with. */
  function Title(k: Kind): string {
    match k
    case AutomatedSuite => "AutomatedSuite"
    case ClockRamp => "ClockRamp"
    case JitterMark => "JitterMark"
    case LatencyMark => "LatencyMark"
    case UtilizationMark => "UtilizationMark"
    case VoiceMark => "VoiceMark"
  }

  /** `getTestName`: the unit's title, or "--" for an id without a unit. */
  function TestName(id: int): (s: string)
    ensures UnitFor(id).None? <==> s == "--"
    ensures UnitFor(id).Some? ==> s == Title(UnitFor(id).value)
  {
    match UnitFor(id)
    case None => "--"
    case Some(k) => Title(k)
  }

  /** `getTestCount`. */
  function TestCount(): (n: int)
    ensures n == ID_COUNT
    ensures forall id :: 0 <= id < n <==> UnitFor(id).Some?
  {
    ID_COUNT
  }

  // ----- parameter registration -----

  /**
   * What a unit's `init` passes to `addParam`: a range integer with its
   * default and bounds, or a list-held parameter built from a table of
   * choices (the list constructors are not part of this model).
   */
  datatype Decl =
    | RangeInt(name: string, description: string, default: int, min: int, max: int)
    | ListInt(name: string, description: string, defaultIndex: int)
    | ListFloat(name: string, description: string, defaultIndex: int)

  /** `CommonNativeTestUnit::init`: shared parameters; core affinity only off Apple hosts. */
  function CommonDecls(apple: bool): (ds: seq<Decl>)
    ensures |ds| == if apple then 9 else 10
  {
    [ ListInt("sample_rate", "Sample Rate", 5),
      RangeInt("samples_per_frame", "Samples per Frame", SAMPLES_PER_FRAME, 1, 8),
      RangeInt("frames_per_render", "Frames per Render", FRAMES_PER_RENDER, 1, 8),
      ListInt("frames_per_burst", "Frames per Burst", 5),
      RangeInt("audio_level", "Audio Level: 1=callback, 2=audible", 1, 1, 2),
      RangeInt("adpf_enabled", "ADPF: 0=off, 1=on", 0, 0, 1),
      RangeInt("note_on_delay", "Note On Delay Seconds", 0, 0, 300),
      RangeInt("test_start_delay", "Test Start Delay Seconds", 4, 0, 20),
      ListFloat("num_seconds", "Number of Seconds", 3) ]
    + (if apple then [] else [ListInt("core_affinity", "Core Affinity", 0)])
  }

  /** What each unit's `init` override appends after the shared parameters. */
  function ExtraDecls(k: Kind): seq<Decl> {
    match k
    case VoiceMark => [ListFloat("target_cpu_load", "Target CPU Load", 9)]
    case UtilizationMark => [ListInt("num_voices", "Number of Voices", 2)]
    case LatencyMark => ChangingVoiceDecls()
    case JitterMark => ChangingVoiceDecls()
    case ClockRamp => ChangingVoiceDecls()
    case AutomatedSuite => []
  }

  function ChangingVoiceDecls(): seq<Decl> {
    [ListInt("num_voices", "Number of Voices", 2),
     ListInt("num_voices_high", "Number of Voices High", 0)]
  }

  function Declarations(k: Kind, apple: bool): (ds: seq<Decl>)
    ensures CommonDecls(apple) <= ds
  {
    CommonDecls(apple) + ExtraDecls(k)
  }

  function Names(ds: seq<Decl>): (ns: seq<string>)
    ensures |ns| == |ds|
    ensures forall i :: 0 <= i < |ds| ==> ns[i] == ds[i].name
  {
    if |ds| == 0 then [] else [ds[0].name] + Names(ds[1..])
  }

  /**
   * Every unit registers the shared parameters first, from sample_rate through
   * num_seconds in a fixed order, then core_affinity off Apple hosts.
   */
  lemma RegistrationOrder(k: Kind, apple: bool)
    ensures Names(Declarations(k, apple))[..9]
         == ["sample_rate", "samples_per_frame", "frames_per_render", "frames_per_burst",
             "audio_level", "adpf_enabled", "note_on_delay", "test_start_delay", "num_seconds"]
    ensures !apple ==> Names(Declarations(k, apple))[9] == "core_affinity"
  {
    var ds := Declarations(k, apple);
    var cd := CommonDecls(apple);
    var ns := Names(ds);
    forall i | 0 <= i < |cd|
      ensures ns[i] == cd[i].name
    {
      assert ds[i] == cd[i];
    }
    assert ns[..9] == [cd[0].name, cd[1].name, cd[2].name, cd[3].name, cd[4].name,
                       cd[5].name, cd[6].name, cd[7].name, cd[8].name];
  }

  /** A unit's own parameters come right after the shared ones. */
  lemma OwnParamsAfterShared(k: Kind, apple: bool)
    ensures k == VoiceMark ==> Names(Declarations(k, apple))[|CommonDecls(apple)|..] == ["target_cpu_load"]
    ensures k == UtilizationMark ==> Names(Declarations(k, apple))[|CommonDecls(apple)|..] == ["num_voices"]
    ensures k == LatencyMark || k == JitterMark || k == ClockRamp ==>
              Names(Declarations(k, apple))[|CommonDecls(apple)|..] == ["num_voices", "num_voices_high"]
    ensures k == AutomatedSuite ==> Declarations(k, apple) == CommonDecls(apple)
  {
    var ds := Declarations(k, apple);
    var ns := Names(ds);
    var c := |CommonDecls(apple)|;
    if k == VoiceMark {
      assert ns[c..] == [ds[c].name];
    } else if k == UtilizationMark {
      assert ns[c..] == [ds[c].name];
    } else if k == LatencyMark || k == JitterMark || k == ClockRamp {
      assert ns[c..] == [ds[c].name, ds[c + 1].name];
    } else {
      assert ExtraDecls(k) == [];
    }
  }

  /**
   * The `addParam` arguments: a range declaration is a `ParamInteger` built by
   * its constructor; a list one is whatever the list constructor builds.
   */
  function Materialize(d: Decl, listParam: Decl -> Params.Param): (p: Params.Param)
    ensures d.RangeInt? ==> p == Params.NewInteger(d.name, d.description, d.default, d.min, d.max)
    ensures !d.RangeInt? ==> p == listParam(d)
  {
    match d
    case RangeInt(n, desc, dflt, lo, hi) => Params.NewInteger(n, desc, dflt, lo, hi)
    case _ => listParam(d)
  }

  function MaterializeAll(ds: seq<Decl>, listParam: Decl -> Params.Param): (ps: seq<Option<Params.Param>>)
    ensures |ps| == |ds|
    ensures forall i :: 0 <= i < |ds| ==> ps[i] == Some(Materialize(ds[i], listParam))
  {
    if |ds| == 0 then [] else [Some(Materialize(ds[0], listParam))] + MaterializeAll(ds[1..], listParam)
  }

  /** A list constructor that keeps the name and builds a parameter of the declared kind. */
  ghost predicate ListCtorOk(listParam: Decl -> Params.Param) {
    forall d: Decl :: !d.RangeInt? ==>
      listParam(d).name == d.name
      && (d.ListInt? ==> listParam(d).body.IntBody?)
      && (d.ListFloat? ==> listParam(d).body.FloatBody?)
  }

  /** The parameter group a unit's `init` leaves behind. */
  function UnitGroup(k: Kind, apple: bool, listParam: Decl -> Params.Param): Params.Group {
    Params.AddAll(Params.NewGroup(Title(k)), MaterializeAll(Declarations(k, apple), listParam))
  }

  lemma {:induction false} AcceptedAllTyped(ps: seq<Option<Params.Param>>)
    requires forall i :: 0 <= i < |ps| ==> ps[i].Some? && Params.Typed(ps[i].value)
    ensures |Params.Accepted(ps)| == |ps|
    ensures forall i :: 0 <= i < |ps| ==> Params.Accepted(ps)[i] == ps[i].value
    decreases |ps|
  {
    if |ps| > 0 {
      AcceptedAllTyped(ps[..|ps| - 1]);
    }
  }

  /**
   * With a well-behaved list constructor, registering a list of declarations
   * yields one parameter per declaration, in declaration order, and each range
   * parameter starts at its clamped default.
   */
  lemma {:induction false} RegisteredFollowsDeclarations(name: string, ds: seq<Decl>,
                                                         listParam: Decl -> Params.Param)
    requires ListCtorOk(listParam)
    ensures var g := Params.AddAll(Params.NewGroup(name), MaterializeAll(ds, listParam));
            g.name == name && |g.params| == |ds|
            && (forall i :: 0 <= i < |ds| ==> g.params[i] == Materialize(ds[i], listParam))
            && (forall i :: 0 <= i < |ds| ==> g.params[i].name == ds[i].name)
  {
    var ps := MaterializeAll(ds, listParam);
    forall i | 0 <= i < |ps|
      ensures ps[i].Some? && Params.Typed(ps[i].value)
    {
      assert ps[i] == Some(Materialize(ds[i], listParam));
    }
    AcceptedAllTyped(ps);
    Params.AddAllAppendsAccepted(Params.NewGroup(name), ps);
  }

  /** Each unit's group lists its declarations' parameters in registration order. */
  lemma UnitGroupFollowsDeclarations(k: Kind, apple: bool, listParam: Decl -> Params.Param)
    requires ListCtorOk(listParam)
    ensures var g := UnitGroup(k, apple, listParam);
            var ds := Declarations(k, apple);
            g.name == Title(k) && |g.params| == |ds|
            && (forall i :: 0 <= i < |ds| ==> g.params[i].name == ds[i].name)
  {
    RegisteredFollowsDeclarations(Title(k), Declarations(k, apple), listParam);
  }

  // ----- the manager -----

  type Groups = gs: seq<Params.Group> | |gs| == ID_COUNT
    witness [Params.Group("", []), Params.Group("", []), Params.Group("", []),
             Params.Group("", []), Params.Group("", []), Params.Group("", [])]

  /**
   * The manager's state: status, the id last passed to `init`, each unit's
   * parameter group (indexed by id), the shared log's progress variable and
   * whatever the log holds for `hasLogs`/`readLog`.
   */
  datatype Engine = Engine(status: int, current: int, groups: Groups,
                           progress: int, logPending: bool, logText: string)

  /**
   * `NativeTest()`: status UNDEFINED and every unit initialised. The current
   * test id is left unset by the constructor; `current` is that unset value.
   */
  function NewEngine(apple: bool, listParam: Decl -> Params.Param, current: int): (e: Engine)
    ensures e.status == STATUS_UNDEFINED && e.current == current && e.progress == 0
    ensures forall id :: 0 <= id < ID_COUNT ==>
              e.groups[id] == UnitGroup(UnitFor(id).value, apple, listParam)
  {
    var gs := seq(ID_COUNT, id requires 0 <= id < ID_COUNT => UnitGroup(UnitFor(id).value, apple, listParam));
    Engine(STATUS_UNDEFINED, current, gs, 0, false, "")
  }

  /** `init(testId)`: READY with that test current, SUCCESS whatever the id. */
  function Init(e: Engine, testId: int): (r: (Engine, int))
    ensures r.0.status == STATUS_READY && r.0.current == testId && r.1 == SUCCESS
    ensures r.0.groups == e.groups && r.0.progress == e.progress
  {
    (e.(status := STATUS_READY, current := testId), SUCCESS)
  }

  datatype RunOutcome = RunOutcome(engine: Engine, code: int, statuses: seq<int>, ran: Option<Kind>)

  /**
   * `run()`: RUNNING while the current unit (if any) runs, then COMPLETED, and
   * SUCCESS even when the current id has no unit.
   */
  function Run(e: Engine): (r: RunOutcome)
    ensures r.code == SUCCESS && r.engine.status == STATUS_COMPLETED
    ensures r.statuses == [STATUS_RUNNING, STATUS_COMPLETED]
    ensures r.ran == UnitFor(e.current)
    ensures r.engine.current == e.current && r.engine.groups == e.groups
  {
    RunOutcome(e.(status := STATUS_COMPLETED), SUCCESS, [STATUS_RUNNING, STATUS_COMPLETED], UnitFor(e.current))
  }

  /** `finish()`: every unit's `finish` succeeds; an unmapped current test is an error. */
  function Finish(e: Engine): (code: int)
    ensures code == SUCCESS <==> UnitFor(e.current).Some?
    ensures code == ERROR <==> UnitFor(e.current).None?
  {
    if UnitFor(e.current).Some? then SUCCESS else ERROR
  }

  /** `closeTest()`. */
  function CloseTest(e: Engine): (code: int)
    ensures code == SUCCESS
  {
    SUCCESS
  }

  function Status(e: Engine): int {
    e.status
  }

  /** `getParamGroup`: the unit's group, or null for an id without a unit. */
  function ParamGroup(e: Engine, testId: int): (g: Option<Params.Group>)
    ensures g.Some? <==> UnitFor(testId).Some?
    ensures g.Some? ==> g.value == e.groups[testId]
  {
    if UnitFor(testId).Some? then Some(e.groups[testId]) else None
  }

  /** `getParamCount`: 0 for an id without a unit. */
  function ParamCount(e: Engine, testId: int): (n: int)
    ensures UnitFor(testId).None? ==> n == 0
    ensures UnitFor(testId).Some? ==> n == |e.groups[testId].params|
  {
    match ParamGroup(e, testId)
    case None => 0
    case Some(g) => Params.ParamCount(g)
  }

  /** `hasLogs`: false when the current id has no unit. */
  function HasLogs(e: Engine): (b: bool)
    ensures UnitFor(e.current).None? ==> !b
    ensures UnitFor(e.current).Some? ==> b == e.logPending
  {
    UnitFor(e.current).Some? && e.logPending
  }

  /** `readLog`: "[nolog]" when the current id has no unit. */
  function ReadLog(e: Engine): (s: string)
    ensures UnitFor(e.current).None? ==> s == "[nolog]"
    ensures UnitFor(e.current).Some? ==> s == e.logText
  {
    if UnitFor(e.current).Some? then e.logText else "[nolog]"
  }

  /** Replace one unit's group (what the JNI setters do through a pointer). */
  function WithGroup(e: Engine, testId: int, g: Params.Group): (r: Engine)
    requires 0 <= testId < ID_COUNT
    ensures r.groups[testId] == g && r.status == e.status && r.current == e.current
    ensures forall id :: 0 <= id < ID_COUNT && id != testId ==> r.groups[id] == e.groups[id]
  {
    e.(groups := e.groups[testId := g])
  }

  /**
   * The status sequence across init and run: whatever came before, `init`
   * makes the engine READY and `run` leaves it COMPLETED with the same test.
   */
  lemma InitThenRun(e: Engine, testId: int)
    ensures var r := Run(Init(e, testId).0);
            r.engine.status == STATUS_COMPLETED && r.ran == UnitFor(testId)
            && Finish(r.engine) == (if 0 <= testId < ID_COUNT then SUCCESS else ERROR)
  {
  }
}

=== FILE: param_view.dfy ===
/**
 * The app's view of one engine parameter (`Param.java`).
 *
 * A view remembers only its test id, its index, and the description, type and
 * hold type read when it was built; every value, bound and list entry is asked
 * of the engine again on each read, through the JNI entry points.
 */
module ParamView {
  import opened Common
  import Params
  import NativeLib

  /** How a parameter holds its values: a numeric range or a list of entries. */
  const PARAM_HOLD_RANGE := 0
  const PARAM_HOLD_LIST := 1

  datatype View = View(testId: int, paramId: int, kind: int, holdType: int,
                       description: Option<string>)

  /** A boxed Java `Integer` or `Float`. */
  datatype Number = IntNumber(i: int) | FloatNumber(f: real)

  /** What a Java `Object` handed to `setValueByObject` can be. */
  datatype Obj = IntObj(i: int) | FloatObj(f: real) | StringObj(s: string) | NullObj

  datatype Exception = NullPointer | ClassCast

  /** The outcome of a call that may throw: the engine afterwards, or the exception. */
  datatype SetResult = Written(h: NativeLib.Handle) | Thrown(e: Exception)

  /** `Param(context, testId, paramId)`: caches description, type and hold type. */
  function NewView(h: NativeLib.Handle, ls: NativeLib.ListSide, testId: int, paramId: int): (v: View)
    ensures v.testId == testId && v.paramId == paramId
    ensures v.kind == NativeLib.GetParamType(h, testId, paramId)
    ensures v.holdType == NativeLib.GetParamHoldType(h, testId, paramId, ls)
    ensures v.description == NativeLib.GetParamDesc(h, testId, paramId)
  {
    View(testId, paramId,
         NativeLib.GetParamType(h, testId, paramId),
         NativeLib.GetParamHoldType(h, testId, paramId, ls),
         NativeLib.GetParamDesc(h, testId, paramId))
  }

  /** Java's `Number.intValue()`: a `Float` is truncated toward zero. */
  function IntValue(n: Number): (i: int)
    ensures n.IntNumber? ==> i == n.i
    ensures n.FloatNumber? ==> Abs(i) as real <= if n.f < 0.0 then -n.f else n.f
  {
    match n
    case IntNumber(i) => i
    case FloatNumber(f) => TruncReal(f)
  }

  /** Java's `Number.floatValue()`. */
  function FloatValue(n: Number): (f: real)
    ensures n.FloatNumber? ==> f == n.f
    ensures n.IntNumber? ==> f == n.i as real
  {
    match n
    case IntNumber(i) => i as real
    case FloatNumber(f) => f
  }

  /** `getMin`: null unless the cached type is integer or float. */
  function GetMin(v: View, h: NativeLib.Handle): (r: Option<Number>)
    ensures r.None? <==> v.kind != Params.PARAM_INTEGER && v.kind != Params.PARAM_FLOAT
    ensures v.kind == Params.PARAM_INTEGER ==>
              r == Some(IntNumber(NativeLib.GetParamIntMin(h, v.testId, v.paramId)))
    ensures v.kind == Params.PARAM_FLOAT ==>
              r == Some(FloatNumber(NativeLib.GetParamFloatMin(h, v.testId, v.paramId)))
  {
    if v.kind == Params.PARAM_INTEGER then Some(IntNumber(NativeLib.GetParamIntMin(h, v.testId, v.paramId)))
    else if v.kind == Params.PARAM_FLOAT then Some(FloatNumber(NativeLib.GetParamFloatMin(h, v.testId, v.paramId)))
    else None
  }

  /** `getMax`: null unless the cached type is integer or float. */
  function GetMax(v: View, h: NativeLib.Handle): (r: Option<Number>)
    ensures r.None? <==> v.kind != Params.PARAM_INTEGER && v.kind != Params.PARAM_FLOAT
    ensures v.kind == Params.PARAM_INTEGER ==>
              r == Some(IntNumber(NativeLib.GetParamIntMax(h, v.testId, v.paramId)))
    ensures v.kind == Params.PARAM_FLOAT ==>
              r == Some(FloatNumber(NativeLib.GetParamFloatMax(h, v.testId, v.paramId)))
  {
    if v.kind == Params.PARAM_INTEGER then Some(IntNumber(NativeLib.GetParamIntMax(h, v.testId, v.paramId)))
    else if v.kind == Params.PARAM_FLOAT then Some(FloatNumber(NativeLib.GetParamFloatMax(h, v.testId, v.paramId)))
    else None
  }

  /** `getValue`: null unless the cached type is integer or float. */
  function GetValue(v: View, h: NativeLib.Handle): (r: Option<Number>)
    ensures r.None? <==> v.kind != Params.PARAM_INTEGER && v.kind != Params.PARAM_FLOAT
    ensures v.kind == Params.PARAM_INTEGER ==>
              r == Some(IntNumber(NativeLib.GetParamIntValue(h, v.testId, v.paramId)))
    ensures v.kind == Params.PARAM_FLOAT ==>
              r == Some(FloatNumber(NativeLib.GetParamFloatValue(h, v.testId, v.paramId)))
  {
    if v.kind == Params.PARAM_INTEGER then Some(IntNumber(NativeLib.GetParamIntValue(h, v.testId, v.paramId)))
    else if v.kind == Params.PARAM_FLOAT then Some(FloatNumber(NativeLib.GetParamFloatValue(h, v.testId, v.paramId)))
    else None
  }

  /** The default marker appended by `getValueAsString`. */
  function Marker(isDefault: bool): (m: string)
    ensures isDefault <==> m == "*"
    ensures !isDefault <==> m == ""
  {
    if isDefault then "*" else ""
  }

  /** Java's `"%s"` of a possibly null string. */
  function Shown(s: Option<string>): string {
    if s.Some? then s.value else "null"
  }

  /**
   * `getValueAsString`: for a range integer, `"%d"` of the engine's current
   * value; for a range float, `"%.3f"` (supplied as `floatText`); for a list,
   * the name of the current entry; each followed by `*` exactly when the
   * current value (or entry) is the default. Any other hold type renders "".
   */
  function ValueAsString(v: View, h: NativeLib.Handle, ls: NativeLib.ListSide,
                         floatText: real -> string): (s: string)
    ensures v.holdType == PARAM_HOLD_RANGE && v.kind == Params.PARAM_INTEGER ==>
              var value := NativeLib.GetParamIntValue(h, v.testId, v.paramId);
              Atoi(s) == value
              && |s| > 0 && (s[|s| - 1] == '*' <==> value == NativeLib.GetParamIntDefault(h, v.testId, v.paramId))
    ensures v.holdType == PARAM_HOLD_LIST ==>
              var index := NativeLib.GetParamListCurrentIndex(h, v.testId, v.paramId, ls);
              var name := Shown(NativeLib.GetParamListNameFromIndex(h, v.testId, v.paramId, index, ls));
              s == name + Marker(index == NativeLib.GetParamListDefaultIndex(h, v.testId, v.paramId, ls))
    ensures v.holdType == PARAM_HOLD_RANGE && v.kind == Params.PARAM_FLOAT ==>
              var value := NativeLib.GetParamFloatValue(h, v.testId, v.paramId);
              s == floatText(value) + Marker(value == NativeLib.GetParamFloatDefault(h, v.testId, v.paramId))
    ensures v.holdType != PARAM_HOLD_RANGE && v.holdType != PARAM_HOLD_LIST ==> s == ""
    ensures v.holdType == PARAM_HOLD_RANGE && v.kind != Params.PARAM_INTEGER && v.kind != Params.PARAM_FLOAT ==> s == ""
  {
    if v.holdType == PARAM_HOLD_RANGE then
      if v.kind == Params.PARAM_INTEGER then
        var value := NativeLib.GetParamIntValue(h, v.testId, v.paramId);
        var dflt := NativeLib.GetParamIntDefault(h, v.testId, v.paramId);
        AtoiOfIntToStringThen(value, Marker(value == dflt));
        IntToString(value) + Marker(value == dflt)
      else if v.kind == Params.PARAM_FLOAT then
        var value := NativeLib.GetParamFloatValue(h, v.testId, v.paramId);
        var dflt := NativeLib.GetParamFloatDefault(h, v.testId, v.paramId);
        floatText(value) + Marker(value == dflt)
      else ""
    else if v.holdType == PARAM_HOLD_LIST then
      var index := NativeLib.GetParamListCurrentIndex(h, v.testId, v.paramId, ls);
      var dflt := NativeLib.GetParamListDefaultIndex(h, v.testId, v.paramId, ls);
      Shown(NativeLib.GetParamListNameFromIndex(h, v.testId, v.paramId, index, ls)) + Marker(index == dflt)
    else ""
  }

  /**
   * `setValue`: the integer setter for an integer view, the float setter for a
   * float view, nothing for any other type. The engine's status code is dropped.
   */
  function SetValue(v: View, h: NativeLib.Handle, n: Number): (r: NativeLib.Handle)
    ensures v.kind != Params.PARAM_INTEGER && v.kind != Params.PARAM_FLOAT ==> r == h
    ensures v.kind == Params.PARAM_INTEGER ==>
              r == NativeLib.SetParamIntValue(h, v.testId, v.paramId, IntValue(n)).0
    ensures v.kind == Params.PARAM_FLOAT ==>
              r == NativeLib.SetParamFloatValue(h, v.testId, v.paramId, FloatValue(n)).0
  {
    if v.kind == Params.PARAM_INTEGER then NativeLib.SetParamIntValue(h, v.testId, v.paramId, IntValue(n)).0
    else if v.kind == Params.PARAM_FLOAT then NativeLib.SetParamFloatValue(h, v.testId, v.paramId, FloatValue(n)).0
    else h
  }

  /**
   * `setValueByObject`: casts the object to the boxed class the cached type
   * names. A boxed value of the other class or a string throws
   * `ClassCastException`; a null one throws `NullPointerException` on unboxing.
   */
  function SetValueByObject(v: View, h: NativeLib.Handle, o: Obj): (r: SetResult)
    ensures v.kind != Params.PARAM_INTEGER && v.kind != Params.PARAM_FLOAT ==> r == Written(h)
    ensures (v.kind == Params.PARAM_INTEGER || v.kind == Params.PARAM_FLOAT) && o.NullObj? ==>
              r == Thrown(NullPointer)
    ensures v.kind == Params.PARAM_INTEGER && !o.IntObj? && !o.NullObj? ==> r == Thrown(ClassCast)
    ensures v.kind == Params.PARAM_FLOAT && !o.FloatObj? && !o.NullObj? ==> r == Thrown(ClassCast)
    ensures r.Written? && v.kind == Params.PARAM_INTEGER ==> o.IntObj?
    ensures r.Written? && v.kind == Params.PARAM_FLOAT ==> o.FloatObj?
  {
    if v.kind == Params.PARAM_INTEGER then
      match o
      case IntObj(i) => Written(NativeLib.SetParamIntValue(h, v.testId, v.paramId, i).0)
      case NullObj => Thrown(NullPointer)
      case _ => Thrown(ClassCast)
    else if v.kind == Params.PARAM_FLOAT then
      match o
      case FloatObj(f) => Written(NativeLib.SetParamFloatValue(h, v.testId, v.paramId, f).0)
      case NullObj => Thrown(NullPointer)
      case _ => Thrown(ClassCast)
    else Written(h)
  }

  /** An object of the matching boxed class is written exactly as `setValue` writes it. */
  lemma SetValueByObjectAgreesWithSetValue(v: View, h: NativeLib.Handle, x: int, y: real)
    ensures v.kind == Params.PARAM_INTEGER ==>
              SetValueByObject(v, h, IntObj(x)) == Written(SetValue(v, h, IntNumber(x)))
    ensures v.kind == Params.PARAM_FLOAT ==>
              SetValueByObject(v, h, FloatObj(y)) == Written(SetValue(v, h, FloatNumber(y)))
  {
  }

  /** A written object leaves the shape of every test's parameter list as it was. */
  lemma SetValueByObjectKeepsShape(v: View, h: NativeLib.Handle, o: Obj)
    ensures SetValueByObject(v, h, o).Written? ==> NativeLib.SameShape(h, SetValueByObject(v, h, o).h)
  {
    if v.kind == Params.PARAM_INTEGER && o.IntObj? {
      NativeLib.SetIntKeepsShape(h, v.testId, v.paramId, o.i);
    } else if v.kind == Params.PARAM_FLOAT && o.FloatObj? {
      NativeLib.SetFloatKeepsShape(h, v.testId, v.paramId, o.f);
    }
  }

  /** The view's cached type agrees with the parameter the engine holds. */
  predicate Describes(v: View, h: NativeLib.Handle, ls: NativeLib.ListSide) {
    v == NewView(h, ls, v.testId, v.paramId)
  }

  /**
   * Writing an in-range integer through a view and reading it back through
   * the same view gives the integer, both as a number and as text: the view
   * caches none of the value.
   */
  lemma SetValueThenGetValue(v: View, h: NativeLib.Handle, ls: NativeLib.ListSide,
                             x: int, floatText: real -> string)
    requires Describes(v, h, ls)
    requires NativeLib.ParamAt(h, v.testId, v.paramId).Some?
    requires NativeLib.ParamAt(h, v.testId, v.paramId).value.body.IntBody?
    requires NativeLib.GetParamIntMin(h, v.testId, v.paramId) <= x <= NativeLib.GetParamIntMax(h, v.testId, v.paramId)
    requires ls.holdType(v.testId, v.paramId) == PARAM_HOLD_RANGE
    ensures GetValue(v, SetValue(v, h, IntNumber(x))) == Some(IntNumber(x))
    ensures Atoi(ValueAsString(v, SetValue(v, h, IntNumber(x)), ls, floatText)) == x
  {
    NativeLib.SetThenGetInt(h, v.testId, v.paramId, x);
  }
}

=== FILE: params.dfy ===
/**
 * The engine's typed, clamped test parameters and the group that owns them
 * (`ParamInteger`, `ParamFloat`, `ParamGroup`).
 *
 * A parameter object is a value here; `ParamGroup::addParam` stores a copy, so
 * a group is simply the sequence of the copies it accepted, in order.
 */
module Params {
  import opened Common

  const PARAM_UNDEF := -1
  const PARAM_INTEGER := 0
  const PARAM_FLOAT := 1

  const PRINT_ALL := 0
  const PRINT_COMPACT := 1

  /**
   * What a parameter holds. `Untyped` stands for any other `ParamBase`
   * object, whose type code is `PARAM_UNDEF`; the group refuses those.
   */
  datatype Body =
    | IntBody(value: int, default: int, min: int, max: int)
    | FloatBody(fvalue: real, fdefault: real, fmin: real, fmax: real)
    | Untyped

  datatype Param = Param(name: string, description: string, body: Body)

  /** `getType()`. */
  function TypeCode(p: Param): (t: int)
    ensures t == PARAM_INTEGER <==> p.body.IntBody?
    ensures t == PARAM_FLOAT <==> p.body.FloatBody?
    ensures t == PARAM_UNDEF <==> p.body.Untyped?
  {
    match p.body
    case IntBody(_, _, _, _) => PARAM_INTEGER
    case FloatBody(_, _, _, _) => PARAM_FLOAT
    case Untyped => PARAM_UNDEF
  }

  /** `typeToString`: the two known codes by name, every other code "Undefined". */
  function TypeToString(t: int): (s: string)
    ensures t == PARAM_INTEGER <==> s == "Integer"
    ensures t == PARAM_FLOAT <==> s == "Float"
    ensures t != PARAM_INTEGER && t != PARAM_FLOAT <==> s == "Undefined"
  {
    if t == PARAM_INTEGER then "Integer" else if t == PARAM_FLOAT then "Float" else "Undefined"
  }

  /**
   * `ParamInteger(name, description, default = 0, min = 0, max = 100)`: the
   * constructor routes the default through `setValue`, so the initial value is
   * the clamped default, not the raw one.
   */
  function NewInteger(name: string, description: string, default: int := 0,
                      min: int := 0, max: int := 100): (p: Param)
    ensures p.name == name && p.description == description && p.body.IntBody?
    ensures p.body.default == default && p.body.min == min && p.body.max == max
    ensures min <= max ==> min <= p.body.value <= max
    ensures min <= default <= max ==> p.body.value == default
    ensures default < min <= max ==> p.body.value == min
    ensures default > max ==> p.body.value == max
  {
    SetIntValue(Param(name, description, IntBody(default, default, min, max)), default)
  }

  /** `ParamFloat(name, description, default = 0, min = 0, max = 100)`. */
  function NewFloat(name: string, description: string, default: real := 0.0,
                    min: real := 0.0, max: real := 100.0): (p: Param)
    ensures p.name == name && p.description == description && p.body.FloatBody?
    ensures p.body.fdefault == default && p.body.fmin == min && p.body.fmax == max
    ensures min <= max ==> min <= p.body.fvalue <= max
    ensures min <= default <= max ==> p.body.fvalue == default
    ensures default < min <= max ==> p.body.fvalue == min
    ensures default > max ==> p.body.fvalue == max
  {
    SetFloatValue(Param(name, description, FloatBody(default, default, min, max)), default)
  }

  /** `ParamInteger::setValue`: every write is clamped into [min, max]. */
  function SetIntValue(p: Param, v: int): (r: Param)
    requires p.body.IntBody?
    ensures r.name == p.name && r.description == p.description && r.body.IntBody?
    ensures r.body.default == p.body.default && r.body.min == p.body.min && r.body.max == p.body.max
    ensures p.body.min <= p.body.max ==> p.body.min <= r.body.value <= p.body.max
    ensures p.body.min <= v <= p.body.max ==> r.body.value == v
    ensures v < p.body.min <= p.body.max ==> r.body.value == p.body.min
    ensures v > p.body.max ==> r.body.value == p.body.max
  {
    p.(body := p.body.(value := Clamp(v, p.body.min, p.body.max)))
  }

  /** `ParamFloat::setValue`. */
  function SetFloatValue(p: Param, v: real): (r: Param)
    requires p.body.FloatBody?
    ensures r.name == p.name && r.description == p.description && r.body.FloatBody?
    ensures r.body.fdefault == p.body.fdefault && r.body.fmin == p.body.fmin
    ensures r.body.fmax == p.body.fmax
    ensures p.body.fmin <= p.body.fmax ==> p.body.fmin <= r.body.fvalue <= p.body.fmax
    ensures p.body.fmin <= v <= p.body.fmax ==> r.body.fvalue == v
    ensures v < p.body.fmin <= p.body.fmax ==> r.body.fvalue == p.body.fmin
    ensures v > p.body.fmax ==> r.body.fvalue == p.body.fmax
  {
    p.(body := p.body.(fvalue := RealClamp(v, p.body.fmin, p.body.fmax)))
  }

  /** Writing the same value twice is the same as writing it once. */
  lemma SetIntValueIdempotent(p: Param, v: int)
    requires p.body.IntBody?
    ensures SetIntValue(SetIntValue(p, v), v) == SetIntValue(p, v)
  {
  }

  /** A value already in range reads back unchanged after a write of itself. */
  lemma SetIntValueReadBack(p: Param, v: int)
    requires p.body.IntBody? && p.body.min <= v <= p.body.max
    ensures SetIntValue(p, v).body.value == v
    ensures SetIntValue(SetIntValue(p, v), SetIntValue(p, v).body.value) == SetIntValue(p, v)
  {
  }

  /** Writing the same float twice is the same as writing it once. */
  lemma SetFloatValueIdempotent(p: Param, v: real)
    requires p.body.FloatBody?
    ensures SetFloatValue(SetFloatValue(p, v), v) == SetFloatValue(p, v)
  {
  }

  /** A float already in range reads back unchanged after a write of itself. */
  lemma SetFloatValueReadBack(p: Param, v: real)
    requires p.body.FloatBody? && p.body.fmin <= v <= p.body.fmax
    ensures SetFloatValue(p, v).body.fvalue == v
    ensures SetFloatValue(SetFloatValue(p, v), SetFloatValue(p, v).body.fvalue) == SetFloatValue(p, v)
  {
  }

  /**
   * `getValueAsString`: the integer in decimal, which `atoi` reads back as the
   * value; a float's text comes from the stream formatting, which `floatText`
   * stands for.
   */
  function ValueAsString(p: Param, floatText: real -> string): (s: string)
    ensures p.body.IntBody? ==> |s| > 0 && Atoi(s) == p.body.value
    ensures p.body.FloatBody? ==> s == floatText(p.body.fvalue)
  {
    match p.body
    case IntBody(v, _, _, _) => AtoiOfIntToString(v); IntToString(v)
    case FloatBody(v, _, _, _) => floatText(v)
    case Untyped => ""
  }

  /**
   * `setValueFromString`: an integer parameter takes `atoi` of the text and a
   * float `atof` of it (a parameter here), each through the clamping
   * `setValue`; nothing but the value changes.
   */
  function SetValueFromString(p: Param, text: string, atof: string -> real): (r: Param)
    ensures r.name == p.name && r.description == p.description
    ensures p.body.IntBody? ==>
              r.body.IntBody? && r.body.default == p.body.default
              && r.body.min == p.body.min && r.body.max == p.body.max
    ensures p.body.IntBody? && p.body.min <= p.body.max ==> p.body.min <= r.body.value <= p.body.max
    ensures p.body.IntBody? && p.body.min <= Atoi(text) <= p.body.max ==> r.body.value == Atoi(text)
    ensures p.body.FloatBody? ==>
              r.body.FloatBody? && r.body.fdefault == p.body.fdefault
              && r.body.fmin == p.body.fmin && r.body.fmax == p.body.fmax
    ensures p.body.FloatBody? && p.body.fmin <= atof(text) <= p.body.fmax ==> r.body.fvalue == atof(text)
    ensures p.body.Untyped? ==> r == p
  {
    match p.body
    case IntBody(_, _, _, _) => SetIntValue(p, Atoi(text))
    case FloatBody(_, _, _, _) => SetFloatValue(p, atof(text))
    case Untyped => p
  }

  /**
   * An integer parameter whose value lies in its range survives the round
   * trip through its own text: `setValueFromString(getValueAsString())`
   * changes nothing.
   */
  lemma IntTextRoundTrip(p: Param, floatText: real -> string, atof: string -> real)
    requires p.body.IntBody? && p.body.min <= p.body.value <= p.body.max
    ensures SetValueFromString(p, ValueAsString(p, floatText), atof) == p
  {
  }

  predicate AtDefault(p: Param) {
    match p.body
    case IntBody(v, d, _, _) => v == d
    case FloatBody(v, d, _, _) => v == d
    case Untyped => false
  }

  /** Text of `ostream << int` for the full listing. */
  function FieldLines(p: Param, floatText: real -> string): string {
    match p.body
    case IntBody(v, d, lo, hi) =>
      "Value: " + IntToString(v) + "\n" + "Default Value: " + IntToString(d) + "\n"
      + "Min: " + IntToString(lo) + "\n" + "Max: " + IntToString(hi) + "\n"
    case FloatBody(v, d, lo, hi) =>
      "Value: " + floatText(v) + "\n" + "Default Value: " + floatText(d) + "\n"
      + "Min: " + floatText(lo) + "\n" + "Max: " + floatText(hi) + "\n"
    case Untyped => ""
  }

  /**
   * `toString(level)`. PRINT_ALL lists name, description, type and the four
   * numbers one per line; PRINT_COMPACT is `description : value`, with a `*`
   * appended when the value equals the default; any other level prints nothing.
   */
  function ParamToString(p: Param, level: int, floatText: real -> string): (s: string)
    ensures level == PRINT_COMPACT && p.body.IntBody? ==>
      s == p.description + " : " + IntToString(p.body.value)
           + (if p.body.value == p.body.default then "*" else "")
    ensures level == PRINT_COMPACT && p.body.FloatBody? ==>
      s == p.description + " : " + floatText(p.body.fvalue)
           + (if p.body.fvalue == p.body.fdefault then "*" else "")
    ensures level == PRINT_COMPACT && p.body.Untyped? ==> s == ""
    ensures level != PRINT_ALL && level != PRINT_COMPACT ==> s == ""
    ensures level == PRINT_ALL ==>
      "Name: " + p.name + "\n" + "Description: " + p.description + "\n" <= s
  {
    if level == PRINT_ALL then
      "Name: " + p.name + "\n" + "Description: " + p.description + "\n"
      + "Type: " + TypeToString(TypeCode(p)) + "\n" + FieldLines(p, floatText)
    else if level == PRINT_COMPACT then
      if p.body.Untyped? then ""
      else p.description + " : " + ValueAsString(p, floatText) + (if AtDefault(p) then "*" else "")
    else ""
  }

  /**
   * The compact form of an integer parameter ends in the `*` default marker
   * exactly when its value is its default (the digits never end in `*`).
   */
  lemma CompactMarkerIffDefault(p: Param, floatText: real -> string)
    requires p.body.IntBody?
    ensures var s := ParamToString(p, PRINT_COMPACT, floatText);
            |s| > 0 && (s[|s| - 1] == '*' <==> p.body.value == p.body.default)
  {
    var digits := IntToString(p.body.value);
    var s := ParamToString(p, PRINT_COMPACT, floatText);
    if p.body.value != p.body.default {
      assert s == p.description + " : " + digits;
      assert s[|s| - 1] == digits[|digits| - 1];
      if p.body.value < 0 {
        assert digits == "-" + NatToString(-p.body.value);
        assert digits[|digits| - 1] == NatToString(-p.body.value)[|NatToString(-p.body.value)| - 1];
      }
    }
  }

  // ----- ParamGroup -----

  datatype Group = Group(name: string, params: seq<Param>)

  /** Only integer and float parameters can live in a group. */
  predicate Typed(p: Param) {
    p.body.IntBody? || p.body.FloatBody?
  }

  predicate WellFormed(g: Group) {
    forall i :: 0 <= i < |g.params| ==> Typed(g.params[i])
  }

  function NewGroup(name: string): (g: Group)
    ensures g.name == name && |g.params| == 0 && WellFormed(g)
  {
    Group(name, [])
  }

  /**
   * `addParam`: a null pointer or a parameter of any other type is ignored;
   * an integer or float parameter is copied onto the end.
   */
  function AddParam(g: Group, p: Option<Param>): (r: Group)
    ensures r.name == g.name
    ensures p.Some? && Typed(p.value) ==> r.params == g.params + [p.value]
    ensures !(p.Some? && Typed(p.value)) ==> r == g
    ensures WellFormed(g) ==> WellFormed(r)
  {
    if p.Some? && (TypeCode(p.value) == PARAM_INTEGER || TypeCode(p.value) == PARAM_FLOAT) then
      g.(params := g.params + [p.value])
    else
      g
  }

  /** Reference for a run of `addParam` calls: the accepted parameters, in call order. */
  function Accepted(ps: seq<Option<Param>>): (r: seq<Param>)
    ensures forall i :: 0 <= i < |r| ==> Typed(r[i])
    ensures |r| <= |ps|
  {
    if |ps| == 0 then []
    else Accepted(ps[..|ps| - 1])
         + (if ps[|ps| - 1].Some? && Typed(ps[|ps| - 1].value) then [ps[|ps| - 1].value] else [])
  }

  function AddAll(g: Group, ps: seq<Option<Param>>): Group {
    if |ps| == 0 then g else AddParam(AddAll(g, ps[..|ps| - 1]), ps[|ps| - 1])
  }

  /** Successive `addParam` calls keep the accepted parameters in call order and drop the rest. */
  lemma {:induction false} AddAllAppendsAccepted(g: Group, ps: seq<Option<Param>>)
    ensures AddAll(g, ps) == g.(params := g.params + Accepted(ps))
    decreases |ps|
  {
    if |ps| > 0 {
      AddAllAppendsAccepted(g, ps[..|ps| - 1]);
      var last := ps[|ps| - 1];
      if last.Some? && Typed(last.value) {
        assert g.params + Accepted(ps[..|ps| - 1]) + [last.value]
            == g.params + (Accepted(ps[..|ps| - 1]) + [last.value]);
      }
    }
  }

  /** `getParamCount`. */
  function ParamCount(g: Group): (n: nat)
    ensures n == |g.params|
  {
    |g.params|
  }

  /** `getParamByIndex`: present exactly for `0 <= index < count`. */
  function ParamByIndex(g: Group, index: int): (r: Option<Param>)
    ensures r.Some? <==> 0 <= index < ParamCount(g)
    ensures r.Some? ==> r.value == g.params[index]
  {
    if 0 <= index < |g.params| then Some(g.params[index]) else None
  }

  /** Position of the first parameter with this name, or -1. */
  function FirstNamed(ps: seq<Param>, name: string): (r: int)
    ensures -1 <= r < |ps|
    ensures r >= 0 ==> ps[r].name == name
    ensures r >= 0 ==> forall j :: 0 <= j < r ==> ps[j].name != name
    ensures r == -1 <==> forall j :: 0 <= j < |ps| ==> ps[j].name != name
  {
    if |ps| == 0 then -1
    else if ps[0].name == name then 0
    else
      var k := FirstNamed(ps[1..], name);
      if k == -1 then -1 else k + 1
  }

  /** `getParamByName`: the first parameter whose name matches, or null. */
  function ParamByName(g: Group, name: string): (r: Option<Param>)
    ensures r.None? <==> forall j :: 0 <= j < |g.params| ==> g.params[j].name != name
    ensures r.Some? ==> exists j :: 0 <= j < |g.params| && g.params[j] == r.value
                          && r.value.name == name
                          && forall k :: 0 <= k < j ==> g.params[k].name != name
  {
    var i := FirstNamed(g.params, name);
    if i < 0 then None else Some(g.params[i])
  }

  /**
   * `getValueFromInt`: 0 when no parameter has the name, the value of the
   * first one that does otherwise. The source casts whatever it finds to an
   * integer parameter unchecked; on a float parameter that reads the float's
   * storage as an integer, which this model replaces by 0.
   */
  function GetValueFromInt(g: Group, name: string): (r: int)
    ensures ParamByName(g, name).None? ==> r == 0
    ensures ParamByName(g, name).Some? && ParamByName(g, name).value.body.IntBody? ==>
              r == ParamByName(g, name).value.body.value
    ensures ParamByName(g, name).Some? && !ParamByName(g, name).value.body.IntBody? ==> r == 0
  {
    match ParamByName(g, name)
    case None => 0
    case Some(p) => if p.body.IntBody? then p.body.value else 0
  }

  /** `getValueFromFloat`, with the same unchecked cast, here 0.0 for an integer parameter. */
  function GetValueFromFloat(g: Group, name: string): (r: real)
    ensures ParamByName(g, name).None? ==> r == 0.0
    ensures ParamByName(g, name).Some? && ParamByName(g, name).value.body.FloatBody? ==>
              r == ParamByName(g, name).value.body.fvalue
    ensures ParamByName(g, name).Some? && !ParamByName(g, name).value.body.FloatBody? ==> r == 0.0
  {
    match ParamByName(g, name)
    case None => 0.0
    case Some(p) => if p.body.FloatBody? then p.body.fvalue else 0.0
  }

  /** A group with a parameter replaced at one position (what the setters act on). */
  function WithParam(g: Group, index: int, p: Param): (r: Group)
    requires 0 <= index < |g.params|
    ensures r.name == g.name && |r.params| == |g.params| && r.params[index] == p
    ensures forall j :: 0 <= j < |g.params| && j != index ==> r.params[j] == g.params[j]
  {
    g.(params := g.params[index := p])
  }

  // ----- group rendering -----

  function AllEntries(ps: seq<Param>, floatText: real -> string): string {
    if |ps| == 0 then ""
    else AllEntries(ps[..|ps| - 1], floatText)
         + "-- Param " + IntToString(|ps| - 1) + " ---\n"
         + ParamToString(ps[|ps| - 1], PRINT_ALL, floatText)
  }

  /** One compact line: ` [i] <param compact>\n`. */
  function CompactLine(i: int, p: Param, floatText: real -> string): string {
    " [" + IntToString(i) + "] " + ParamToString(p, PRINT_COMPACT, floatText) + "\n"
  }

  function CompactEntries(ps: seq<Param>, floatText: real -> string): string {
    if |ps| == 0 then ""
    else CompactEntries(ps[..|ps| - 1], floatText) + CompactLine(|ps| - 1, ps[|ps| - 1], floatText)
  }

  /**
   * `ParamGroup::toString(level)`: a header, then one entry per parameter in
   * index order; any other level prints nothing.
   */
  function GroupToString(g: Group, level: int, floatText: real -> string): (s: string)
    ensures level == PRINT_COMPACT ==> s == " Group : " + g.name + "\n" + CompactEntries(g.params, floatText)
    ensures level != PRINT_ALL && level != PRINT_COMPACT ==> s == ""
  {
    if level == PRINT_ALL then
      "Group Name: " + g.name + "\n" + "Param Count: " + IntToString(|g.params|) + "\n"
      + AllEntries(g.params, floatText)
    else if level == PRINT_COMPACT then
      " Group : " + g.name + "\n" + CompactEntries(g.params, floatText)
    else ""
  }

  /**
   * The compact group listing of `ps + [p]` is the listing of `ps` followed by
   * one line for `p` numbered `|ps|`: entries appear in index order.
   */
  lemma CompactListingAppends(name: string, ps: seq<Param>, p: Param, floatText: real -> string)
    ensures GroupToString(Group(name, ps + [p]), PRINT_COMPACT, floatText)
         == GroupToString(Group(name, ps), PRINT_COMPACT, floatText) + CompactLine(|ps|, p, floatText)
  {
    assert (ps + [p])[..|ps + [p]| - 1] == ps;
  }

  /** Adding a parameter to a group appends exactly its line to the compact listing. */
  lemma AddParamExtendsListing(g: Group, p: Param, floatText: real -> string)
    requires Typed(p)
    ensures GroupToString(AddParam(g, Some(p)), PRINT_COMPACT, floatText)
         == GroupToString(g, PRINT_COMPACT, floatText) + CompactLine(|g.params|, p, floatText)
  {
    CompactListingAppends(g.name, g.params, p, floatText);
  }
}

=== FILE: settings.dfy ===
/**
 * The settings screen (`SettingsActivity.java`): one seek bar per parameter of
 * the selected test, mapping between the parameter's value and the bar's
 * progress, a value label, and the Defaults button.
 */
module Settings {
  import opened Common
  import Params
  import NativeLib
  import ParamView
  import AppObject

  /** Seek-bar resolution for a float range. */
  const FLOAT_POINTS := 10000

  /** What a seek bar was set up with: its maximum and its progress. */
  datatype Slider =
    | IntRangeSlider(barMax: int, progress: int)
    | FloatRangeSlider(barMax: int)
    | ListSlider(barMax: int, progress: int)
    | Inert

  /** A `ParamSeekBar`: the view, the bounds it captured, and its set-up. */
  datatype SeekBar = SeekBar(view: ParamView.View, nMin: Option<ParamView.Number>,
                             nMax: Option<ParamView.Number>, slider: Slider)

  /**
   * The `ParamSeekBar` constructor. An integer range spans `max - min` with
   * progress `value - min`; a list spans `listSize - 1` with progress at the
   * current index; a float range has `FLOAT_POINTS` steps.
   */
  function NewSeekBar(v: ParamView.View, h: NativeLib.Handle, ls: NativeLib.ListSide): (sb: SeekBar)
    ensures sb.view == v && sb.nMin == ParamView.GetMin(v, h) && sb.nMax == ParamView.GetMax(v, h)
    ensures v.holdType == ParamView.PARAM_HOLD_RANGE && v.kind == Params.PARAM_INTEGER ==>
              var min := NativeLib.GetParamIntMin(h, v.testId, v.paramId);
              var max := NativeLib.GetParamIntMax(h, v.testId, v.paramId);
              var value := NativeLib.GetParamIntValue(h, v.testId, v.paramId);
              sb.slider.IntRangeSlider?
              && sb.slider.barMax == max - min
              && (min <= value <= max ==> 0 <= sb.slider.progress <= sb.slider.barMax)
              && sb.slider.progress + min == value
    ensures v.holdType == ParamView.PARAM_HOLD_LIST ==>
              sb.slider == ListSlider(NativeLib.GetParamListSize(h, v.testId, v.paramId, ls) - 1,
                                      NativeLib.GetParamListCurrentIndex(h, v.testId, v.paramId, ls))
    ensures v.holdType != ParamView.PARAM_HOLD_RANGE && v.holdType != ParamView.PARAM_HOLD_LIST ==>
              sb.slider == Inert
  {
    var nMin := ParamView.GetMin(v, h);
    var nMax := ParamView.GetMax(v, h);
    var nValue := ParamView.GetValue(v, h);
    var slider :=
      if v.holdType == ParamView.PARAM_HOLD_RANGE then
        if v.kind == Params.PARAM_INTEGER then
          var min := ParamView.IntValue(nMin.value);
          var max := ParamView.IntValue(nMax.value);
          var value := ParamView.IntValue(nValue.value);
          IntRangeSlider(max - min, value - min)
        else if v.kind == Params.PARAM_FLOAT then FloatRangeSlider(FLOAT_POINTS)
        else Inert
      else if v.holdType == ParamView.PARAM_HOLD_LIST then
        ListSlider(NativeLib.GetParamListSize(h, v.testId, v.paramId, ls) - 1,
                   NativeLib.GetParamListCurrentIndex(h, v.testId, v.paramId, ls))
      else Inert;
    SeekBar(v, nMin, nMax, slider)
  }

  /** The value label beside a bar. */
  function Label(v: ParamView.View, h: NativeLib.Handle, ls: NativeLib.ListSide,
                 floatText: real -> string): (l: string)
    ensures Atoi(l) == Atoi(ParamView.ValueAsString(v, h, ls, floatText))
  {
    Padded(ParamView.ValueAsString(v, h, ls, floatText))
  }

  /** The label text: two blanks, then the value text, which `atoi` skips over. */
  function Padded(text: string): (l: string)
    ensures Atoi(l) == Atoi(text)
  {
    var pad := "  ";
    assert IsSpace(pad[0]) && IsSpace(pad[1]);
    AtoiSkipsLeadingSpace(pad, text);
    pad + text
  }

  /** The float a float-range bar at position i stands for: `(max - min) * i / points`. */
  function FloatPosition(nMin: ParamView.Number, nMax: ParamView.Number, i: int): real {
    (ParamView.FloatValue(nMax) - ParamView.FloatValue(nMin)) * i as real / FLOAT_POINTS as real
  }

  /**
   * `onProgressChanged(i)`: an integer range writes `i + min` (min as captured
   * when the bar was built), a float range writes `(max - min) * i / points`,
   * a list asks the engine to make entry i current; the label is then redrawn
   * from the engine's new state.
   */
  function OnProgressChanged(sb: SeekBar, h: NativeLib.Handle, ls: NativeLib.ListSide, i: int,
                             floatText: real -> string): (r: (NativeLib.Handle, NativeLib.ListSide, string))
    ensures sb.view.holdType == ParamView.PARAM_HOLD_RANGE && sb.view.kind == Params.PARAM_INTEGER
            && sb.nMin.Some? ==>
              r.0 == ParamView.SetValue(sb.view, h, ParamView.IntNumber(i + ParamView.IntValue(sb.nMin.value)))
    ensures sb.view.holdType != ParamView.PARAM_HOLD_RANGE ==> r.0 == h
    ensures sb.view.holdType == ParamView.PARAM_HOLD_LIST
            && NativeLib.ParamAt(h, sb.view.testId, sb.view.paramId).Some? ==>
              NativeLib.GetParamListCurrentIndex(h, sb.view.testId, sb.view.paramId, r.1) == i
    ensures sb.view.holdType != ParamView.PARAM_HOLD_LIST ==> r.1 == ls
    ensures r.2 == Label(sb.view, r.0, r.1, floatText)
  {
    var v := sb.view;
    var h2 :=
      if v.holdType == ParamView.PARAM_HOLD_RANGE then
        if v.kind == Params.PARAM_INTEGER && sb.nMin.Some? then
          ParamView.SetValue(v, h, ParamView.IntNumber(i + ParamView.IntValue(sb.nMin.value)))
        else if v.kind == Params.PARAM_FLOAT && sb.nMin.Some? && sb.nMax.Some? then
          ParamView.SetValue(v, h, ParamView.FloatNumber(FloatPosition(sb.nMin.value, sb.nMax.value, i)))
        else h
      else h;
    var ls2 :=
      if v.holdType == ParamView.PARAM_HOLD_LIST then NativeLib.SelectListIndex(h, v.testId, v.paramId, i, ls)
      else ls;
    (h2, ls2, Label(v, h2, ls2, floatText))
  }

  /**
   * For a list-held parameter, moving the bar to position i makes entry i the
   * current one: the engine's values are untouched, the label shows entry i's
   * name with `*` exactly when i is the default entry, and a bar rebuilt on
   * the new state sits at position i of the same span.
   */
  lemma ListSeekRoundTrip(v: ParamView.View, h: NativeLib.Handle, ls: NativeLib.ListSide, i: int,
                          floatText: real -> string)
    requires ParamView.Describes(v, h, ls)
    requires NativeLib.ParamAt(h, v.testId, v.paramId).Some?
    requires ls.holdType(v.testId, v.paramId) == ParamView.PARAM_HOLD_LIST
    ensures var r := OnProgressChanged(NewSeekBar(v, h, ls), h, ls, i, floatText);
            r.0 == h
            && r.2 == "  " + ParamView.Shown(NativeLib.GetParamListNameFromIndex(h, v.testId, v.paramId, i, ls))
                      + ParamView.Marker(i == NativeLib.GetParamListDefaultIndex(h, v.testId, v.paramId, ls))
            && ParamView.Describes(v, h, r.1)
            && NewSeekBar(v, h, r.1).slider
               == ListSlider(NativeLib.GetParamListSize(h, v.testId, v.paramId, ls) - 1, i)
  {
    var ls2 := NativeLib.SelectListIndex(h, v.testId, v.paramId, i, ls);
    ListMoveSelects(v, h, ls, i, floatText);
    SelectedListLabel(v, h, ls, i, floatText);
    SelectedListRebuilds(v, h, ls, i);
  }

  /** A list bar's move leaves the engine's values and asks for entry i. */
  lemma ListMoveSelects(v: ParamView.View, h: NativeLib.Handle, ls: NativeLib.ListSide, i: int,
                        floatText: real -> string)
    requires v.holdType == ParamView.PARAM_HOLD_LIST
    ensures var ls2 := NativeLib.SelectListIndex(h, v.testId, v.paramId, i, ls);
            OnProgressChanged(NewSeekBar(v, h, ls), h, ls, i, floatText) == (h, ls2, Label(v, h, ls2, floatText))
  {
  }

  /** Once entry i is current, the label names entry i and marks it iff it is the default. */
  lemma SelectedListLabel(v: ParamView.View, h: NativeLib.Handle, ls: NativeLib.ListSide, i: int,
                          floatText: real -> string)
    requires v.holdType == ParamView.PARAM_HOLD_LIST
    requires NativeLib.ParamAt(h, v.testId, v.paramId).Some?
    ensures Label(v, h, NativeLib.SelectListIndex(h, v.testId, v.paramId, i, ls), floatText)
            == "  " + ParamView.Shown(NativeLib.GetParamListNameFromIndex(h, v.testId, v.paramId, i, ls))
               + ParamView.Marker(i == NativeLib.GetParamListDefaultIndex(h, v.testId, v.paramId, ls))
  {
    var ls2 := NativeLib.SelectListIndex(h, v.testId, v.paramId, i, ls);
    assert NativeLib.GetParamListCurrentIndex(h, v.testId, v.paramId, ls2) == i;
    assert NativeLib.GetParamListNameFromIndex(h, v.testId, v.paramId, i, ls2)
           == NativeLib.GetParamListNameFromIndex(h, v.testId, v.paramId, i, ls);
    assert NativeLib.GetParamListDefaultIndex(h, v.testId, v.paramId, ls2)
           == NativeLib.GetParamListDefaultIndex(h, v.testId, v.paramId, ls);
  }

  /** Once entry i is current, the view still describes the parameter and a rebuilt bar sits at i. */
  lemma SelectedListRebuilds(v: ParamView.View, h: NativeLib.Handle, ls: NativeLib.ListSide, i: int)
    requires ParamView.Describes(v, h, ls)
    requires v.holdType == ParamView.PARAM_HOLD_LIST
    requires NativeLib.ParamAt(h, v.testId, v.paramId).Some?
    ensures var ls2 := NativeLib.SelectListIndex(h, v.testId, v.paramId, i, ls);
            ParamView.Describes(v, h, ls2)
            && NewSeekBar(v, h, ls2).slider == ListSlider(NativeLib.GetParamListSize(h, v.testId, v.paramId, ls) - 1, i)
  {
    var ls2 := NativeLib.SelectListIndex(h, v.testId, v.paramId, i, ls);
    assert NativeLib.GetParamHoldType(h, v.testId, v.paramId, ls2)
           == NativeLib.GetParamHoldType(h, v.testId, v.paramId, ls);
    assert NativeLib.GetParamListCurrentIndex(h, v.testId, v.paramId, ls2) == i;
  }

  /**
   * For an integer range with `min <= max`, moving the bar to any position i
   * in `[0, max - min]` stores `i + min`, shows it in the label, and a bar
   * rebuilt on the new state sits at position i again.
   */
  lemma SeekRoundTrip(v: ParamView.View, h: NativeLib.Handle, ls: NativeLib.ListSide, i: int,
                      floatText: real -> string)
    requires ParamView.Describes(v, h, ls)
    requires NativeLib.ParamAt(h, v.testId, v.paramId).Some?
    requires NativeLib.ParamAt(h, v.testId, v.paramId).value.body.IntBody?
    requires ls.holdType(v.testId, v.paramId) == ParamView.PARAM_HOLD_RANGE
    requires 0 <= i <= NativeLib.GetParamIntMax(h, v.testId, v.paramId) - NativeLib.GetParamIntMin(h, v.testId, v.paramId)
    ensures var min := NativeLib.GetParamIntMin(h, v.testId, v.paramId);
            var r := OnProgressChanged(NewSeekBar(v, h, ls), h, ls, i, floatText);
            NativeLib.GetParamIntValue(r.0, v.testId, v.paramId) == i + min
            && Atoi(r.2) == i + min
            && NewSeekBar(v, r.0, ls).slider
               == IntRangeSlider(NativeLib.GetParamIntMax(h, v.testId, v.paramId) - min, i)
  {
    IntRangeView(v, h, ls);
    SeekStores(v, h, ls, i, floatText);
    SeekLabel(v, h, ls, i, floatText);
    SeekRebuilds(v, h, ls, i, floatText);
  }

  /** An integer parameter shown on a range bar, as the view describes it. */
  predicate IntRangeBar(v: ParamView.View, h: NativeLib.Handle, ls: NativeLib.ListSide, i: int) {
    v.kind == Params.PARAM_INTEGER && v.holdType == ParamView.PARAM_HOLD_RANGE
    && NativeLib.ParamAt(h, v.testId, v.paramId).Some?
    && NativeLib.ParamAt(h, v.testId, v.paramId).value.body.IntBody?
    && 0 <= i <= NativeLib.GetParamIntMax(h, v.testId, v.paramId) - NativeLib.GetParamIntMin(h, v.testId, v.paramId)
  }

  /** Moving the bar stores `i + min` and keeps the bounds. */
  lemma SeekStores(v: ParamView.View, h: NativeLib.Handle, ls: NativeLib.ListSide, i: int,
                   floatText: real -> string)
    requires IntRangeBar(v, h, ls, i)
    ensures var h2 := OnProgressChanged(NewSeekBar(v, h, ls), h, ls, i, floatText).0;
            var min := NativeLib.GetParamIntMin(h, v.testId, v.paramId);
            NativeLib.GetParamIntValue(h2, v.testId, v.paramId) == i + min
            && NativeLib.GetParamIntMin(h2, v.testId, v.paramId) == min
            && NativeLib.GetParamIntMax(h2, v.testId, v.paramId) == NativeLib.GetParamIntMax(h, v.testId, v.paramId)
  {
    var min := NativeLib.GetParamIntMin(h, v.testId, v.paramId);
    IntSeekWrites(v, h, ls, i, floatText);
    NativeLib.SetThenGetInt(h, v.testId, v.paramId, i + min);
  }

  /** The label redrawn after moving the bar reads back as `i + min`. */
  lemma SeekLabel(v: ParamView.View, h: NativeLib.Handle, ls: NativeLib.ListSide, i: int,
                  floatText: real -> string)
    requires ParamView.Describes(v, h, ls)
    requires IntRangeBar(v, h, ls, i) && ls.holdType(v.testId, v.paramId) == ParamView.PARAM_HOLD_RANGE
    ensures Atoi(OnProgressChanged(NewSeekBar(v, h, ls), h, ls, i, floatText).2)
            == i + NativeLib.GetParamIntMin(h, v.testId, v.paramId)
  {
    var min := NativeLib.GetParamIntMin(h, v.testId, v.paramId);
    var h2 := ParamView.SetValue(v, h, ParamView.IntNumber(i + min));
    IntSeekWrites(v, h, ls, i, floatText);
    ParamView.SetValueThenGetValue(v, h, ls, i + min, floatText);
  }

  /** A bar rebuilt after the move sits at position i of the same span. */
  lemma SeekRebuilds(v: ParamView.View, h: NativeLib.Handle, ls: NativeLib.ListSide, i: int,
                     floatText: real -> string)
    requires IntRangeBar(v, h, ls, i)
    ensures var h2 := OnProgressChanged(NewSeekBar(v, h, ls), h, ls, i, floatText).0;
            NewSeekBar(v, h2, ls).slider
            == IntRangeSlider(NativeLib.GetParamIntMax(h, v.testId, v.paramId)
                              - NativeLib.GetParamIntMin(h, v.testId, v.paramId), i)
  {
    var h2 := OnProgressChanged(NewSeekBar(v, h, ls), h, ls, i, floatText).0;
    SeekStores(v, h, ls, i, floatText);
    var sb2 := NewSeekBar(v, h2, ls);
    assert sb2.slider.IntRangeSlider?;
  }

  /** A view that describes an integer parameter held as a range has the integer type and range hold. */
  lemma IntRangeView(v: ParamView.View, h: NativeLib.Handle, ls: NativeLib.ListSide)
    requires ParamView.Describes(v, h, ls)
    requires NativeLib.ParamAt(h, v.testId, v.paramId).Some?
    requires NativeLib.ParamAt(h, v.testId, v.paramId).value.body.IntBody?
    requires ls.holdType(v.testId, v.paramId) == ParamView.PARAM_HOLD_RANGE
    ensures v.kind == Params.PARAM_INTEGER && v.holdType == ParamView.PARAM_HOLD_RANGE
  {
  }

  /** An integer range bar moved to position i writes `i + min` and redraws the label from the new state. */
  lemma IntSeekWrites(v: ParamView.View, h: NativeLib.Handle, ls: NativeLib.ListSide, i: int,
                      floatText: real -> string)
    requires v.kind == Params.PARAM_INTEGER && v.holdType == ParamView.PARAM_HOLD_RANGE
    ensures OnProgressChanged(NewSeekBar(v, h, ls), h, ls, i, floatText).0
            == ParamView.SetValue(v, h, ParamView.IntNumber(i + NativeLib.GetParamIntMin(h, v.testId, v.paramId)))
    ensures OnProgressChanged(NewSeekBar(v, h, ls), h, ls, i, floatText).1 == ls
    ensures OnProgressChanged(NewSeekBar(v, h, ls), h, ls, i, floatText).2
            == Label(v, OnProgressChanged(NewSeekBar(v, h, ls), h, ls, i, floatText).0, ls, floatText)
  {
    var sb := NewSeekBar(v, h, ls);
    assert sb.nMin == Some(ParamView.IntNumber(NativeLib.GetParamIntMin(h, v.testId, v.paramId)));
  }

  /**
   * The other direction: a bar built on a parameter whose value lies in its
   * range and moved to its own progress leaves the value as it was.
   */
  lemma ProgressOfValueRoundTrip(v: ParamView.View, h: NativeLib.Handle, ls: NativeLib.ListSide,
                                 floatText: real -> string)
    requires ParamView.Describes(v, h, ls)
    requires NativeLib.ParamAt(h, v.testId, v.paramId).Some?
    requires NativeLib.ParamAt(h, v.testId, v.paramId).value.body.IntBody?
    requires ls.holdType(v.testId, v.paramId) == ParamView.PARAM_HOLD_RANGE
    requires NativeLib.GetParamIntMin(h, v.testId, v.paramId) <= NativeLib.GetParamIntValue(h, v.testId, v.paramId)
             <= NativeLib.GetParamIntMax(h, v.testId, v.paramId)
    ensures var sb := NewSeekBar(v, h, ls);
            NativeLib.GetParamIntValue(OnProgressChanged(sb, h, ls, sb.slider.progress, floatText).0, v.testId, v.paramId)
            == NativeLib.GetParamIntValue(h, v.testId, v.paramId)
  {
    var sb := NewSeekBar(v, h, ls);
    var min := NativeLib.GetParamIntMin(h, v.testId, v.paramId);
    SeekRoundTrip(v, h, ls, sb.slider.progress, floatText);
  }

  /**
   * The Defaults button: `resetSettings` for the selected test, then the
   * screen is rebuilt from a fresh list of views.
   */
  method OnDefaults(a: AppObject.App) returns (resetCalls: seq<int>, views: seq<ParamView.View>)
    ensures |resetCalls| == |views| == NativeLib.GetParamCount(a.handle, a.currentTestId)
    ensures forall i :: 0 <= i < |resetCalls| ==> resetCalls[i] == i
    ensures forall i :: 0 <= i < |views| ==>
              views[i] == ParamView.NewView(a.handle, a.ls, a.currentTestId, i)
  {
    var codes;
    resetCalls, codes := AppObject.ResetSettings(a, a.currentTestId);
    views := AppObject.GetParamsForTest(a, a.currentTestId);
  }
}

=== FILE: synthmark_command.dfy ===
/**
 * The `synthmark` command (`SynthMarkCommand.cpp`): parse the switches, check
 * the combination, pick the test harness from the test code and hand it its
 * settings. `strtol` is a parameter: for each argument text it gives the
 * `errno` it leaves, the value it returns and the text after the number.
 * Printing, the harness run and the log polling are left out; a launched
 * command is described by what it hands to the sink and the harness.
 */
module SynthMarkCommand {
  import opened Common
  import opened CommandLine
  import AudioSink
  import HostTools
  import ChangingVoice
  import TestHarness

  const DEFAULT_TEST_CODE := 'v'
  const DEFAULT_SECONDS := 10
  const DEFAULT_FRAMES_PER_BURST := 96
  const DEFAULT_BUFFER_SIZE_BURSTS := 1
  const DEFAULT_NUM_VOICES := 8
  const DEFAULT_NOTE_ON_DELAY := 0
  const DEFAULT_PERCENT_CPU := 50

  const EXIT_OK := 0
  const EXIT_ERROR := 1

  /** The switches whose text is read as a number; `-f` and `-z` read one into a flag. */
  predicate IsNumericSwitch(c: char) {
    c == 'a' || c == 'b' || c == 'B' || c == 'c' || c == 'd' || c == 'f' || c == 'p'
    || c == 'n' || c == 'N' || c == 'r' || c == 's' || c == 'u' || c == 'w' || c == 'z'
  }

  /** The tests that take a high voice count. */
  predicate TakesHighVoices(c: char) {
    c == 'l' || c == 'j' || c == 's' || c == 'c'
  }

  /** The test codes with a harness. */
  predicate IsTestCode(c: char) {
    c == 'v' || c == 'l' || c == 'j' || c == 'c' || c == 'u' || c == 'a' || c == 's'
  }

  /** What `strtol(text, &end, 10)` did: the `errno` it left, its result, and the text at `end`. */
  datatype Strtol = Strtol(errno: int, value: int, end: string)

  /** C's `isgraph` in the "C" locale: printable and not a space. */
  predicate IsGraph(c: char) {
    '!' <= c <= '~'
  }

  /**
   * `stringToPositiveInteger`: -1 when `strtol` set `errno` or stopped at a
   * printable character; otherwise whatever it returned, which may itself be
   * negative, since the function does not reject a leading minus sign.
   */
  function StringToPositiveInteger(p: Strtol): (r: int)
    ensures p.errno != 0 || (|p.end| > 0 && IsGraph(p.end[0])) ==> r == -1
    ensures r >= 0 ==> r == p.value && p.errno == 0
    ensures r < 0 <==> p.errno != 0 || (|p.end| > 0 && IsGraph(p.end[0])) || p.value < 0
  {
    if p.errno != 0 || (|p.end| > 0 && IsGraph(p.end[0])) then -1 else p.value
  }

  datatype Options = Options(
    percentCpu: int, sampleRate: int, framesPerBurst: int, numSeconds: int, numVoices: int,
    numVoicesHigh: int, noteOnDelay: int, cpuAffinity: int, audioLevel: int,
    useAudioThread: bool, useSchedFifo: bool, useAdpf: bool, utilClampLevel: int,
    workloadHintsLevel: int, bufferSizeBursts: int, voicesMode: ChangingVoice.VoicesMode, testCode: char)

  /** The settings before any argument is read. */
  const DEFAULT_OPTIONS := Options(
    DEFAULT_PERCENT_CPU, AudioSink.SYNTH_SAMPLE_RATE, DEFAULT_FRAMES_PER_BURST, DEFAULT_SECONDS,
    DEFAULT_NUM_VOICES, 0, DEFAULT_NOTE_ON_DELAY, AudioSink.CPU_UNSPECIFIED, AudioSink.AUDIO_LEVEL_CALLBACK,
    true, true, false, AudioSink.UTIL_CLAMP_OFF, HostTools.WORKLOAD_HINTS_OFF, DEFAULT_BUFFER_SIZE_BURSTS,
    ChangingVoice.Undefined, DEFAULT_TEST_CODE)

  /** `-m`: 'r' is random, 'l' is linear, anything else switches. */
  function ModeOf(c: char): (m: ChangingVoice.VoicesMode)
    ensures m != ChangingVoice.Undefined
    ensures m == ChangingVoice.Random <==> c == 'r'
    ensures m == ChangingVoice.LinearLoop <==> c == 'l'
  {
    if c == 'r' then ChangingVoice.Random
    else if c == 'l' then ChangingVoice.LinearLoop
    else ChangingVoice.Switch
  }

  /** A numeric switch's reading, stored into an `int32_t`. */
  function ReadNumber(p: Strtol): int {
    WrapInt32(StringToPositiveInteger(p))
  }

  /** Store the reading of a numeric switch; `-a`, `-f` and `-z` also set their flag to "positive". */
  function SetNumber(o: Options, c: char, v: int): (r: Options)
    requires IsNumericSwitch(c)
    ensures Sane(o) && v >= 0 ==> Sane(r)
  {
    match c
    case 'a' => o.(audioLevel := v, useAudioThread := v > 0)
    case 'b' => o.(framesPerBurst := v)
    case 'B' => o.(bufferSizeBursts := v)
    case 'c' => o.(cpuAffinity := v)
    case 'd' => o.(noteOnDelay := v)
    case 'f' => o.(useSchedFifo := v > 0)
    case 'p' => o.(percentCpu := v)
    case 'n' => o.(numVoices := v)
    case 'N' => o.(numVoicesHigh := v)
    case 'r' => o.(sampleRate := v)
    case 's' => o.(numSeconds := v)
    case 'u' => o.(utilClampLevel := v)
    case 'w' => o.(workloadHintsLevel := v)
    case 'z' => o.(useAdpf := v > 0)
  }

  /** Is `c` one of the switches the parser knows? */
  predicate KnownSwitch(c: char) {
    IsNumericSwitch(c) || c == 'm' || c == 't' || c == 'h' || c == '?'
  }

  /**
   * One argument of the loop: a help switch exits with 0; a non-switch, an
   * unknown switch or a negative numeric reading exits with 1; `-m` and `-t`
   * read the character after the switch.
   */
  function ApplyArg(o: Options, arg: string, strtol: string -> Strtol): (s: Step<Options>)
    ensures s.Exit? ==> s.code == EXIT_OK || s.code == EXIT_ERROR
    ensures s == Exit(EXIT_OK) <==> IsSwitch(arg) && (CharAt(arg, 1) == 'h' || CharAt(arg, 1) == '?')
    ensures s.Next? ==> IsSwitch(arg) && KnownSwitch(CharAt(arg, 1))
    ensures !IsSwitch(arg) || !KnownSwitch(CharAt(arg, 1)) ==> s == Exit(EXIT_ERROR)
    ensures IsSwitch(arg) && IsNumericSwitch(CharAt(arg, 1)) ==>
              (s.Next? <==> ReadNumber(strtol(From(arg, 2))) >= 0)
    ensures s.Next? && CharAt(arg, 1) == 'm' ==> s.o == o.(voicesMode := ModeOf(CharAt(arg, 2)))
    ensures s.Next? && CharAt(arg, 1) == 't' ==> s.o == o.(testCode := CharAt(arg, 2))
  {
    if !IsSwitch(arg) then Exit(EXIT_ERROR)
    else
      var c := CharAt(arg, 1);
      if c == 'h' || c == '?' then Exit(EXIT_OK)
      else if c == 'm' then Next(o.(voicesMode := ModeOf(CharAt(arg, 2))))
      else if c == 't' then Next(o.(testCode := CharAt(arg, 2)))
      else if IsNumericSwitch(c) then
        var v := ReadNumber(strtol(From(arg, 2)));
        if v < 0 then Exit(EXIT_ERROR) else Next(SetNumber(o, c, v))
      else Exit(EXIT_ERROR)
  }

  function Stepper(strtol: string -> Strtol): (Options, string) -> Step<Options> {
    (p, arg) => ApplyArg(p, arg, strtol)
  }

  /** The whole argument loop, from the defaults. */
  function ParseCommand(args: seq<string>, strtol: string -> Strtol): Step<Options> {
    Parse(DEFAULT_OPTIONS, args, Stepper(strtol))
  }

  /**
   * What the parser guarantees of the settings it lets through: every number
   * read is non-negative (the CPU may also still be unspecified), and the
   * audio thread is used exactly when the audio level is positive.
   */
  predicate Sane(o: Options) {
    o.percentCpu >= 0 && o.sampleRate >= 0 && o.framesPerBurst >= 0 && o.numSeconds >= 0
    && o.numVoices >= 0 && o.numVoicesHigh >= 0 && o.noteOnDelay >= 0
    && (o.cpuAffinity >= 0 || o.cpuAffinity == AudioSink.CPU_UNSPECIFIED)
    && o.audioLevel >= 0 && o.useAudioThread == (o.audioLevel > 0)
    && o.utilClampLevel >= 0 && o.workloadHintsLevel >= 0 && o.bufferSizeBursts >= 0
  }

  lemma ApplyArgKeepsSane(o: Options, arg: string, strtol: string -> Strtol)
    requires Sane(o)
    ensures ApplyArg(o, arg, strtol).Next? ==> Sane(ApplyArg(o, arg, strtol).o)
  {
  }

  /** Any settings the argument loop finishes with are sane: a negative number never gets through. */
  lemma ParsedSane(args: seq<string>, strtol: string -> Strtol)
    ensures ParseCommand(args, strtol).Next? ==> Sane(ParseCommand(args, strtol).o)
  {
    forall p, arg | Sane(p) && Stepper(strtol)(p, arg).Next?
      ensures Sane(Stepper(strtol)(p, arg).o)
    {
      ApplyArgKeepsSane(p, arg, strtol);
    }
    ParseKeeps(DEFAULT_OPTIONS, args, Stepper(strtol), Sane);
  }

  /** The loop exits only with 0 or 1. */
  lemma ParseExitsOkOrError(args: seq<string>, strtol: string -> Strtol)
    ensures ParseCommand(args, strtol).Exit? ==>
              ParseCommand(args, strtol).code == EXIT_OK || ParseCommand(args, strtol).code == EXIT_ERROR
  {
    ParseExitCodes(DEFAULT_OPTIONS, args, Stepper(strtol), {EXIT_OK, EXIT_ERROR});
  }

  /** Why the checks after the loop reject the settings, in the order they are made. */
  datatype Problem =
    | BadPercentCpu | BadNumVoices | BadNumVoicesHigh | HighNotForThisTest | ModeWithoutHigh
    | BadSeconds | BadNoteOnDelay | BurstTooSmall | AudioThreadWithoutFifo | UtilClampWithoutFifo

  /** The first check the settings fail, if any. */
  function FirstProblem(o: Options): (p: Option<Problem>)
    ensures p == Some(BadPercentCpu) <==> !(1 <= o.percentCpu <= 100)
    ensures p == Some(BurstTooSmall) ==> o.framesPerBurst < 4
  {
    if o.percentCpu < 1 || o.percentCpu > 100 then Some(BadPercentCpu)
    else if (o.numVoices < 1 && o.numVoicesHigh <= 0) || o.numVoices < 0
            || o.numVoices > TestHarness.MAX_VOICES then Some(BadNumVoices)
    else if o.numVoicesHigh != 0 && o.numVoicesHigh < o.numVoices then Some(BadNumVoicesHigh)
    else if o.numVoicesHigh != 0 && !TakesHighVoices(o.testCode) then Some(HighNotForThisTest)
    else if o.voicesMode != ChangingVoice.Undefined && o.numVoicesHigh == 0 then Some(ModeWithoutHigh)
    else if o.numSeconds < 1 then Some(BadSeconds)
    else if o.noteOnDelay < 0 || o.noteOnDelay > o.numSeconds then Some(BadNoteOnDelay)
    else if o.framesPerBurst < 4 then Some(BurstTooSmall)
    else if !o.useSchedFifo && o.useAudioThread then Some(AudioThreadWithoutFifo)
    else if !o.useSchedFifo && o.utilClampLevel > 0 then Some(UtilClampWithoutFifo)
    else None
  }

  /**
   * The accepted settings, rule by rule: a CPU target of 1 to 100 percent;
   * 0 to 512 voices, and at least one unless a high count is given; a high
   * count of 0 or at least the low count, only for the LatencyMark,
   * JitterMark, utilisation-series and ClockRamp tests; a voices mode only
   * with a high count; at least one second, with the note-on delay inside
   * it; bursts of at least 4 frames; and without SCHED_FIFO neither the
   * audio thread nor util clamp.
   */
  predicate ValidOptions(o: Options) {
    1 <= o.percentCpu <= 100
    && 0 <= o.numVoices <= TestHarness.MAX_VOICES && (o.numVoices >= 1 || o.numVoicesHigh > 0)
    && (o.numVoicesHigh == 0 || (o.numVoicesHigh >= o.numVoices && TakesHighVoices(o.testCode)))
    && (o.voicesMode == ChangingVoice.Undefined || o.numVoicesHigh != 0)
    && o.numSeconds >= 1 && 0 <= o.noteOnDelay <= o.numSeconds
    && o.framesPerBurst >= 4
    && (o.useSchedFifo || (!o.useAudioThread && o.utilClampLevel <= 0))
  }

  /** The chain of checks rejects exactly the settings the rules above exclude. */
  lemma NoProblemIffValid(o: Options)
    ensures FirstProblem(o) == None <==> ValidOptions(o)
  {
  }

  datatype TestKind = Voice | Latency | Jitter | ClockRampTest | Utilization | Automated | Series

  /** The harness a test code selects. */
  function TestFor(code: char): (k: Option<TestKind>)
    ensures k.Some? <==> IsTestCode(code)
  {
    match code
    case 'v' => Some(Voice)
    case 'l' => Some(Latency)
    case 'j' => Some(Jitter)
    case 'c' => Some(ClockRampTest)
    case 'u' => Some(Utilization)
    case 'a' => Some(Automated)
    case 's' => Some(Series)
    case _ => None
  }

  /** The test code of each harness, as the usage text lists them. */
  function CodeOf(k: TestKind): (c: char)
    ensures IsTestCode(c)
  {
    match k
    case Voice => 'v'
    case Latency => 'l'
    case Jitter => 'j'
    case ClockRampTest => 'c'
    case Utilization => 'u'
    case Automated => 'a'
    case Series => 's'
  }

  /** Test codes and harnesses correspond one to one. */
  lemma TestCodesRoundTrip(k: TestKind, c: char)
    ensures TestFor(CodeOf(k)) == Some(k)
    ensures TestFor(c) == Some(k) ==> CodeOf(k) == c
  {
  }

  /** One setter call on the chosen harness. */
  datatype Setting =
    | TargetCpuLoad(load: real) | InitialVoiceCount(count: int) | NumVoicesHigh(high: int)
    | VoicesModeSetting(mode: ChangingVoice.VoicesMode) | InitialBursts(bursts: int)
    | NumVoices(voices: int) | DelayNoteOnSeconds(seconds: int) | AudioThread(audio: bool)

  /** The settings every harness gets after its own: voices, note-on delay and thread type. */
  function CommonSettings(o: Options): seq<Setting> {
    [NumVoices(o.numVoices), DelayNoteOnSeconds(o.noteOnDelay), AudioThread(o.useAudioThread)]
  }

  /** The setter calls for a test, in order: the test's own, then the common ones. */
  function Setup(k: TestKind, o: Options): (s: seq<Setting>)
    ensures |s| >= 3 && s[|s| - 3..] == CommonSettings(o)
  {
    OwnSettings(k, o) + CommonSettings(o)
  }

  /** The setter calls a test makes before the common ones. */
  function OwnSettings(k: TestKind, o: Options): seq<Setting> {
    match k
    case Voice => [TargetCpuLoad(o.percentCpu as real * 0.01), InitialVoiceCount(o.numVoices)]
    case Latency => [NumVoicesHigh(o.numVoicesHigh), VoicesModeSetting(o.voicesMode), InitialBursts(o.bufferSizeBursts)]
    case Jitter => [NumVoicesHigh(o.numVoicesHigh), VoicesModeSetting(o.voicesMode)]
    case ClockRampTest => [NumVoicesHigh(o.numVoicesHigh), VoicesModeSetting(o.voicesMode)]
    case Utilization => []
    case Automated => []
    case Series => [NumVoicesHigh(o.numVoicesHigh)]
  }

  /**
   * Which harnesses get which settings: the high voice count goes to
   * LatencyMark, JitterMark, ClockRamp and the utilisation series; the voices
   * mode to the first three; the CPU target only to VoiceMark; the initial
   * burst count only to LatencyMark.
   */
  lemma SetupSelects(k: TestKind, o: Options)
    ensures NumVoicesHigh(o.numVoicesHigh) in Setup(k, o) <==>
              k == Latency || k == Jitter || k == ClockRampTest || k == Series
    ensures VoicesModeSetting(o.voicesMode) in Setup(k, o) <==> k == Latency || k == Jitter || k == ClockRampTest
    ensures TargetCpuLoad(o.percentCpu as real * 0.01) in Setup(k, o) <==> k == Voice
    ensures InitialBursts(o.bufferSizeBursts) in Setup(k, o) <==> k == Latency
  {
    SetupHigh(k, o);
    SetupMode(k, o);
    SetupTarget(k, o);
    SetupBursts(k, o);
  }

  lemma SetupHigh(k: TestKind, o: Options)
    ensures NumVoicesHigh(o.numVoicesHigh) in Setup(k, o) <==>
              k == Latency || k == Jitter || k == ClockRampTest || k == Series
  {
    assert NumVoicesHigh(o.numVoicesHigh) !in CommonSettings(o);
  }

  lemma SetupMode(k: TestKind, o: Options)
    ensures VoicesModeSetting(o.voicesMode) in Setup(k, o) <==> k == Latency || k == Jitter || k == ClockRampTest
  {
    assert VoicesModeSetting(o.voicesMode) !in CommonSettings(o);
    match k
    case Latency => assert OwnSettings(k, o)[1] == VoicesModeSetting(o.voicesMode);
    case Jitter => assert OwnSettings(k, o)[1] == VoicesModeSetting(o.voicesMode);
    case ClockRampTest => assert OwnSettings(k, o)[1] == VoicesModeSetting(o.voicesMode);
    case Voice => assert !OwnSettings(k, o)[0].VoicesModeSetting? && !OwnSettings(k, o)[1].VoicesModeSetting?;
    case Series => assert !OwnSettings(k, o)[0].VoicesModeSetting?;
    case Utilization =>
    case Automated =>
  }

  lemma SetupTarget(k: TestKind, o: Options)
    ensures TargetCpuLoad(o.percentCpu as real * 0.01) in Setup(k, o) <==> k == Voice
  {
    assert TargetCpuLoad(o.percentCpu as real * 0.01) !in CommonSettings(o);
  }

  lemma SetupBursts(k: TestKind, o: Options)
    ensures InitialBursts(o.bufferSizeBursts) in Setup(k, o) <==> k == Latency
  {
    assert InitialBursts(o.bufferSizeBursts) !in CommonSettings(o);
  }

  /** How a run of the command ends: with an exit code before any test, or with a harness launched. */
  datatype Outcome =
    | Exited(code: int)
    | Launched(o: Options, kind: TestKind, realSink: bool, settings: seq<Setting>)

  /**
   * `synthmark_command_main` up to the launch: the argument loop, the checks,
   * then the harness for the test code; the real audio sink is used only at
   * the output audio level.
   */
  function Command(args: seq<string>, strtol: string -> Strtol): (r: Outcome)
    ensures r.Exited? ==> r.code == EXIT_OK || r.code == EXIT_ERROR
    ensures r.Exited? && r.code == EXIT_OK <==> ParseCommand(args, strtol) == Exit(EXIT_OK)
    ensures r.Launched? <==>
              ParseCommand(args, strtol).Next? && ValidOptions(ParseCommand(args, strtol).o)
              && TestFor(ParseCommand(args, strtol).o.testCode).Some?
    ensures r.Launched? ==>
              r.o == ParseCommand(args, strtol).o && Sane(r.o) && CodeOf(r.kind) == r.o.testCode
              && (r.realSink <==> r.o.audioLevel == AudioSink.AUDIO_LEVEL_OUTPUT)
              && r.settings == Setup(r.kind, r.o)
    ensures r.Launched? && r.o.numVoicesHigh != 0 ==> NumVoicesHigh(r.o.numVoicesHigh) in r.settings
  {
    ParseExitsOkOrError(args, strtol);
    ParsedSane(args, strtol);
    match ParseCommand(args, strtol)
    case Exit(c) => Exited(c)
    case Next(o) =>
      NoProblemIffValid(o);
      if FirstProblem(o).Some? then Exited(EXIT_ERROR)
      else
        match TestFor(o.testCode)
        case None => Exited(EXIT_ERROR)
        case Some(k) =>
          TestCodesRoundTrip(k, o.testCode);
          SetupSelects(k, o);
          Launched(o, k, o.audioLevel == AudioSink.AUDIO_LEVEL_OUTPUT, Setup(k, o))
  }

  /** A help switch reached by the loop ends the command with 0, whatever follows it. */
  lemma HelpExitsZero(args: seq<string>, strtol: string -> Strtol, i: nat)
    requires i < |args| && IsSwitch(args[i]) && (CharAt(args[i], 1) == 'h' || CharAt(args[i], 1) == '?')
    requires Parse(DEFAULT_OPTIONS, args[..i], Stepper(strtol)).Next?
    ensures Command(args, strtol) == Exited(EXIT_OK)
  {
    ParseExitsAt(DEFAULT_OPTIONS, args, Stepper(strtol), i);
  }

  /** A numeric switch that reads negative, once reached, ends the command with 1. */
  lemma NegativeExitsOne(args: seq<string>, strtol: string -> Strtol, i: nat)
    requires i < |args| && IsSwitch(args[i]) && IsNumericSwitch(CharAt(args[i], 1))
    requires ReadNumber(strtol(From(args[i], 2))) < 0
    requires Parse(DEFAULT_OPTIONS, args[..i], Stepper(strtol)).Next?
    ensures Command(args, strtol) == Exited(EXIT_ERROR)
  {
    ParseExitsAt(DEFAULT_OPTIONS, args, Stepper(strtol), i);
  }
}

=== FILE: synthmark_result.dfy ===
/**
 * The outcome of one benchmark run (`SynthMarkResult.h`): a test name, a
 * text report, a result code and one numeric measurement.
 */
module SynthMarkResult {

  const SUCCESS := 0
  const TOO_FEW_MEASUREMENTS := -1
  const UNINITIALIZED := -2
  const AUDIO_SINK_START_FAILURE := -3
  const AUDIO_SINK_WRITE_FAILURE := -4
  const THREAD_FAILURE := -5
  const UNRECOVERABLE_ERROR := -6
  const GLITCH_DETECTED := -7
  const OUT_OF_RANGE := -8

  datatype Result = Result(testName: string, resultMessage: string, resultCode: int, measurement: real)

  /** A fresh result: no name, no message, code UNINITIALIZED, measurement 0. */
  function NewResult(): (r: Result)
    ensures r.resultCode == UNINITIALIZED && r.measurement == 0.0
    ensures r.testName == [] && r.resultMessage == []
    ensures !IsSuccessful(r)
  {
    Result([], [], UNINITIALIZED, 0.0)
  }

  /** `reset`: clears the measurement and the message; the code and the name stay. */
  function Reset(r: Result): (q: Result)
    ensures q.measurement == 0.0 && q.resultMessage == []
    ensures q.resultCode == r.resultCode && q.testName == r.testName
    ensures IsSuccessful(q) == IsSuccessful(r)
  {
    r.(measurement := 0.0, resultMessage := [])
  }

  /** `appendMessage`: the report grows at its end; nothing else changes. */
  function AppendMessage(r: Result, message: string): (q: Result)
    ensures |q.resultMessage| == |r.resultMessage| + |message|
    ensures q.resultMessage[..|r.resultMessage|] == r.resultMessage
    ensures q.resultMessage[|r.resultMessage|..] == message
    ensures q.testName == r.testName && q.resultCode == r.resultCode && q.measurement == r.measurement
  {
    r.(resultMessage := r.resultMessage + message)
  }

  function SetTestName(r: Result, name: string): (q: Result)
    ensures q.testName == name
    ensures q.resultMessage == r.resultMessage && q.resultCode == r.resultCode && q.measurement == r.measurement
  {
    r.(testName := name)
  }

  function SetResultCode(r: Result, code: int): (q: Result)
    ensures q.resultCode == code
    ensures IsSuccessful(q) <==> code == SUCCESS
    ensures q.testName == r.testName && q.resultMessage == r.resultMessage && q.measurement == r.measurement
  {
    r.(resultCode := code)
  }

  function SetMeasurement(r: Result, m: real): (q: Result)
    ensures q.measurement == m
    ensures q.testName == r.testName && q.resultMessage == r.resultMessage && q.resultCode == r.resultCode
  {
    r.(measurement := m)
  }

  /** `isSuccessful`. */
  predicate IsSuccessful(r: Result) {
    r.resultCode == SUCCESS
  }

  /** Appending twice is appending the concatenation. */
  lemma AppendTwice(r: Result, a: string, b: string)
    ensures AppendMessage(AppendMessage(r, a), b) == AppendMessage(r, a + b)
  {
    assert r.resultMessage + a + b == r.resultMessage + (a + b);
  }

  /**
   * A reset result with messages appended reports exactly those messages:
   * nothing written before the reset survives it.
   */
  lemma ResetThenAppend(r: Result, a: string)
    ensures AppendMessage(Reset(r), a).resultMessage == a
  {
  }
}

=== FILE: test_harness.dfy ===
/**
 * The benchmark driver every test shares (`TestHarnessBase.h`): `open`
 * validates the stream format, `measure` sizes the run, and `renderAudio`,
 * called by the sink once per render block, turns notes on and off in bursts
 * until enough frames have been rendered. The synthesizer, the sink, the
 * timer and the test-specific hooks are abstract: their answers are
 * parameters.
 */
module TestHarness {
  import opened Common
  import SynthMarkResult

  /** The maximum voices of the synthesizer, `SYNTHMARK_MAX_VOICES`. */
  const MAX_VOICES := 512
  /** `SYNTHMARK_FRAMES_PER_RENDER`: frames synthesised at one time. */
  const FRAMES_PER_RENDER := 8
  const MIN_SAMPLE_RATE := 8000
  const MIN_FRAMES_PER_BURST := 8
  const OPEN_ERROR := -1

  datatype CallbackResult = Continue | Finished

  datatype Harness = Harness(
    sampleRate: int, samplesPerFrame: int, framesPerBurst: int,
    frameCounter: int, framesNeeded: int, delayNotesOnUntilFrame: int,
    noteCounter: int, numVoices: int,
    areNotesOn: bool, burstCountdown: int, burstsOn: int, burstsOff: int,
    result: SynthMarkResult.Result)

  /** The constructor: the synthesizer's rate, stereo, no frames, no delay, 8 voices. */
  function NewHarness(synthSampleRate: int): (h: Harness)
    ensures h.sampleRate == synthSampleRate && h.samplesPerFrame == 2 && h.framesPerBurst == 0
    ensures h.frameCounter == 0 && h.delayNotesOnUntilFrame == 0 && h.noteCounter == 0
    ensures h.numVoices == 8 && !h.areNotesOn && h.burstCountdown == 0
  {
    Harness(synthSampleRate, 2, 0, 0, 0, 0, 0, 8, false, 0, 0, 0, SynthMarkResult.NewResult())
  }

  /** The format `open` accepts. */
  predicate ValidFormat(sampleRate: int, samplesPerFrame: int, framesPerRender: int, framesPerBurst: int) {
    sampleRate >= MIN_SAMPLE_RATE && samplesPerFrame == 2
    && 1 <= framesPerRender <= FRAMES_PER_RENDER && framesPerBurst >= MIN_FRAMES_PER_BURST
  }

  /**
   * `open`: a rejected format returns -1 and changes nothing; an accepted one
   * stores the rate, the samples per frame and the burst size and returns
   * what the sink's own `open` returned.
   */
  function Open(h: Harness, sampleRate: int, samplesPerFrame: int, framesPerRender: int,
                framesPerBurst: int, sinkOpenResult: int): (r: (Harness, int))
    ensures !ValidFormat(sampleRate, samplesPerFrame, framesPerRender, framesPerBurst) ==>
              r == (h, OPEN_ERROR)
    ensures ValidFormat(sampleRate, samplesPerFrame, framesPerRender, framesPerBurst) ==>
              r.1 == sinkOpenResult
              && r.0 == h.(sampleRate := sampleRate, samplesPerFrame := samplesPerFrame,
                           framesPerBurst := framesPerBurst)
  {
    if sampleRate < MIN_SAMPLE_RATE then (h, OPEN_ERROR)
    else if samplesPerFrame != 2 then (h, OPEN_ERROR)
    else if framesPerRender < 1 then (h, OPEN_ERROR)
    else if framesPerRender > FRAMES_PER_RENDER then (h, OPEN_ERROR)
    else if framesPerBurst < MIN_FRAMES_PER_BURST then (h, OPEN_ERROR)
    else (h.(sampleRate := sampleRate, samplesPerFrame := samplesPerFrame,
             framesPerBurst := framesPerBurst), sinkOpenResult)
  }

  /** `setDelayNoteOnSeconds`: the delay in frames at the current rate, stored in an `int32_t`. */
  function SetDelayNoteOnSeconds(h: Harness, delayInSeconds: int): (r: Harness)
    ensures r.delayNotesOnUntilFrame == WrapInt32(delayInSeconds * h.sampleRate)
    ensures r == h.(delayNotesOnUntilFrame := r.delayNotesOnUntilFrame)
    ensures 0 <= delayInSeconds * h.sampleRate < 0x8000_0000 ==>
              r.delayNotesOnUntilFrame == delayInSeconds * h.sampleRate
  {
    h.(delayNotesOnUntilFrame := WrapInt32(delayInSeconds * h.sampleRate))
  }

  /**
   * The set-up part of `measure`: the frames needed for the duration, no
   * frames yet, notes off, and the burst counts for 0.2 s of notes on and
   * 0.3 s off.
   */
  function BeginMeasure(h: Harness, seconds: real): (r: Harness)
    requires h.framesPerBurst > 0
    ensures r.framesNeeded == TruncReal(h.sampleRate as real * seconds)
    ensures r.frameCounter == 0 && !r.areNotesOn && r.burstCountdown == 0
    ensures r.burstsOn == TruncReal(0.2 * h.sampleRate as real / h.framesPerBurst as real)
    ensures r.burstsOff == TruncReal(0.3 * h.sampleRate as real / h.framesPerBurst as real)
    ensures h.sampleRate >= 0 ==> 0 <= r.burstsOn <= r.burstsOff
  {
    var on := 0.2 * h.sampleRate as real / h.framesPerBurst as real;
    var off := 0.3 * h.sampleRate as real / h.framesPerBurst as real;
    assert h.sampleRate >= 0 ==> 0.0 <= on <= off;
    h.(framesNeeded := TruncReal(h.sampleRate as real * seconds), frameCounter := 0,
       areNotesOn := false, burstCountdown := 0,
       burstsOn := TruncReal(on), burstsOff := TruncReal(off))
  }

  /**
   * The rest of `measure`: a sink that fails to start records
   * AUDIO_SINK_START_FAILURE and returns its error; a failing callback loop
   * records and returns its error; otherwise the loop's result is recorded and
   * returned.
   */
  function FinishMeasure(h: Harness, startResult: int, loopResult: int): (r: (Harness, int))
    ensures startResult < 0 ==>
              r.1 == startResult && r.0.result.resultCode == SynthMarkResult.AUDIO_SINK_START_FAILURE
    ensures startResult >= 0 ==> r.1 == loopResult && r.0.result.resultCode == loopResult
    ensures SynthMarkResult.IsSuccessful(r.0.result) <==> startResult >= 0 && loopResult == 0
  {
    if startResult < 0 then
      (h.(result := SynthMarkResult.SetResultCode(h.result, SynthMarkResult.AUDIO_SINK_START_FAILURE)),
       startResult)
    else (h.(result := SynthMarkResult.SetResultCode(h.result, loopResult)), loopResult)
  }

  /**
   * `renderAudio`. Once enough frames are rendered it returns Finished and
   * changes nothing. Otherwise, from the delay frame on, an expired countdown
   * toggles the notes: off restarts the countdown at `burstsOff` and counts a
   * note; on first asks the test's `onBeforeNoteOn` and the synthesizer's
   * `notesOn` (their answers are parameters), and either error is recorded as
   * the result code and ends the run; then the countdown restarts at
   * `burstsOn`. The countdown then drops by one. A block that goes on is
   * counted in `frameCounter`.
   */
  function RenderAudio(h: Harness, numFrames: int, beforeNoteOn: int, notesOn: int): (r: (Harness, CallbackResult))
    ensures h.frameCounter >= h.framesNeeded ==> r == (h, Finished)
    ensures r.1 == Continue ==> r.0.frameCounter == h.frameCounter + numFrames
    ensures r.1 == Continue && h.frameCounter < h.delayNotesOnUntilFrame ==>
              r.0 == h.(frameCounter := h.frameCounter + numFrames)
    ensures r.1 == Finished && h.frameCounter < h.framesNeeded ==>
              var code := r.0.result.resultCode;
              code < 0 && (code == beforeNoteOn || code == notesOn)
              && r.0 == h.(result := SynthMarkResult.SetResultCode(h.result, code))
    ensures r.0.noteCounter == h.noteCounter || r.0.noteCounter == h.noteCounter + 1
    ensures r.0.noteCounter == h.noteCounter + 1 <==>
              h.frameCounter < h.framesNeeded && h.frameCounter >= h.delayNotesOnUntilFrame
              && h.burstCountdown <= 0 && h.areNotesOn
  {
    if h.frameCounter >= h.framesNeeded then (h, Finished)
    else if h.frameCounter >= h.delayNotesOnUntilFrame then
      if h.burstCountdown <= 0 then
        if h.areNotesOn then
          var g := h.(burstCountdown := h.burstsOff, areNotesOn := false, noteCounter := h.noteCounter + 1);
          (Advance(g, numFrames), Continue)
        else if beforeNoteOn < 0 then
          (h.(result := SynthMarkResult.SetResultCode(h.result, beforeNoteOn)), Finished)
        else if notesOn < 0 then
          (h.(result := SynthMarkResult.SetResultCode(h.result, notesOn)), Finished)
        else
          var g := h.(burstCountdown := h.burstsOn, areNotesOn := true);
          (Advance(g, numFrames), Continue)
      else (Advance(h, numFrames), Continue)
    else (h.(frameCounter := h.frameCounter + numFrames), Continue)
  }

  /** The tail of a block that goes on: one burst less to wait, and the frames counted. */
  function Advance(h: Harness, numFrames: int): Harness {
    h.(burstCountdown := h.burstCountdown - 1, frameCounter := h.frameCounter + numFrames)
  }

  /** A run of `renderAudio` calls of `numFrames` frames, every hook succeeding. */
  function RenderRun(h: Harness, numFrames: int, calls: nat): (r: (Harness, CallbackResult))
    decreases calls
  {
    if calls == 0 then (h, Continue)
    else
      var (g, res) := RenderAudio(h, numFrames, 0, 0);
      if res == Finished then (g, Finished) else RenderRun(g, numFrames, calls - 1)
  }

  /**
   * Notes keep their state while the countdown runs: from a countdown of `k`
   * after the delay, `k` blocks later the notes are as they were, no note was
   * counted, and the countdown has run out.
   */
  lemma {:induction false} CountdownHolds(h: Harness, numFrames: int, k: nat)
    requires numFrames > 0 && h.frameCounter >= h.delayNotesOnUntilFrame
    requires h.burstCountdown == k && h.frameCounter + k * numFrames <= h.framesNeeded
    ensures var (g, res) := RenderRun(h, numFrames, k);
            res == Continue && g.areNotesOn == h.areNotesOn && g.noteCounter == h.noteCounter
            && g.burstCountdown == 0 && g.frameCounter == h.frameCounter + k * numFrames
            && g.result == h.result
    decreases k
  {
    if k > 0 {
      var (g, res) := RenderAudio(h, numFrames, 0, 0);
      assert res == Continue && g == Advance(h, numFrames);
      CountdownHolds(g, numFrames, k - 1);
    }
  }

  /**
   * An expired countdown toggles the notes: on turns off for `burstsOff`
   * blocks and counts one note; off turns on for `burstsOn` blocks.
   */
  lemma Toggle(h: Harness, numFrames: int)
    requires h.frameCounter < h.framesNeeded && h.frameCounter >= h.delayNotesOnUntilFrame
    requires h.burstCountdown <= 0
    ensures var (g, res) := RenderAudio(h, numFrames, 0, 0);
            res == Continue && g.areNotesOn == !h.areNotesOn
            && g.burstCountdown == (if h.areNotesOn then h.burstsOff else h.burstsOn) - 1
            && g.noteCounter == h.noteCounter + (if h.areNotesOn then 1 else 0)
  {
  }

  /** A run never renders past the first block that reaches the frames needed. */
  lemma {:induction false} RunStopsWhenDone(h: Harness, numFrames: int, calls: nat)
    requires numFrames > 0 && h.frameCounter <= h.framesNeeded
    ensures var (g, res) := RenderRun(h, numFrames, calls);
            g.frameCounter <= Max(h.framesNeeded, h.frameCounter) + numFrames - 1
            && (res == Finished ==> g.frameCounter >= g.framesNeeded || g.result.resultCode < 0)
            && g.framesNeeded == h.framesNeeded
    decreases calls
  {
    if calls > 0 {
      var (g, res) := RenderAudio(h, numFrames, 0, 0);
      if res == Continue && g.frameCounter <= g.framesNeeded {
        RunStopsWhenDone(g, numFrames, calls - 1);
      } else if res == Continue {
        var (g2, res2) := RenderRun(g, numFrames, calls - 1);
        FinishedStaysPut(g, numFrames, calls - 1);
      }
    }
  }

  /** Past the frames needed every call answers Finished and changes nothing. */
  lemma {:induction false} FinishedStaysPut(h: Harness, numFrames: int, calls: nat)
    requires h.frameCounter >= h.framesNeeded
    ensures calls > 0 ==> RenderRun(h, numFrames, calls) == (h, Finished)
    ensures calls == 0 ==> RenderRun(h, numFrames, calls) == (h, Continue)
  {
  }
}

=== FILE: timing_analyzer.dfy ===
/**
 * Callback timing bookkeeping (`TimingAnalyzer.h`): when each audio callback
 * should have woken, when it did, and how long it rendered, with optional
 * wakeup, render and delivery histograms. The nanosecond clock the source
 * reads is the `now` parameter.
 */
module TimingAnalyzer {
  import opened Common
  import BinCounter

  /**
   * The analyzer state. The three histograms exist only after
   * `setupHistograms`; `reset` deletes them.
   */
  datatype Timing = Timing(
    baseTime: int, idealTime: int, entryTime: int, exitTime: int,
    activeTime: int, callCount: int, totalWakeupDelay: int, lastRenderDuration: int,
    nanosPerBin: int,
    wakeupBins: Option<BinCounter.Bins>, renderBins: Option<BinCounter.Bins>,
    deliveryBins: Option<BinCounter.Bins>)

  predicate ValidBins(o: Option<BinCounter.Bins>) {
    o.Some? ==> BinCounter.Valid(o.value) && BinCounter.NumBins(o.value) > 0
  }

  /** The call count never goes negative; a histogram, once set up, has bins and a positive bin width. */
  predicate Valid(t: Timing) {
    && t.callCount >= 0
    && ValidBins(t.wakeupBins) && ValidBins(t.renderBins) && ValidBins(t.deliveryBins)
    && ((t.wakeupBins.Some? || t.renderBins.Some? || t.deliveryBins.Some?) ==> t.nanosPerBin > 0)
  }

  /** `reset`: the times, active time, call count and wakeup total go back to 0; the histograms go away. */
  function Reset(t: Timing): (r: Timing)
    ensures Valid(r)
    ensures r.baseTime == r.idealTime == r.entryTime == r.exitTime == 0
    ensures r.activeTime == 0 && r.callCount == 0 && r.totalWakeupDelay == 0
    ensures r.lastRenderDuration == t.lastRenderDuration && r.nanosPerBin == t.nanosPerBin
    ensures r.wakeupBins.None? && r.renderBins.None? && r.deliveryBins.None?
  {
    t.(baseTime := 0, idealTime := 0, entryTime := 0, exitTime := 0, activeTime := 0,
       callCount := 0, totalWakeupDelay := 0,
       wakeupBins := None, renderBins := None, deliveryBins := None)
  }

  /** The constructor: a reset analyzer without histograms. */
  function NewTiming(): (t: Timing)
    ensures Valid(t) && t.callCount == 0 && t.baseTime == 0 && t.activeTime == 0
    ensures t.wakeupBins.None? && t.renderBins.None? && t.deliveryBins.None?
  {
    Reset(Timing(0, 0, 0, 0, 0, 0, 0, 0, 0, None, None, None))
  }

  /** `setupHistograms`: three fresh histograms of `numBins` bins of `nanosPerBin` each. */
  function SetupHistograms(t: Timing, nanosPerBin: int, numBins: int): (r: Timing)
    requires Valid(t) && nanosPerBin > 0 && numBins > 0
    ensures Valid(r) && r.nanosPerBin == nanosPerBin
    ensures r.wakeupBins == r.renderBins == r.deliveryBins == Some(BinCounter.NewBins(numBins))
    ensures r.callCount == t.callCount && r.activeTime == t.activeTime && r.baseTime == t.baseTime
  {
    var b := BinCounter.NewBins(numBins);
    t.(wakeupBins := Some(b), renderBins := Some(b), deliveryBins := Some(b), nanosPerBin := nanosPerBin)
  }

  /** The bin of a duration: C division of 64-bit nanoseconds, stored in an `int32_t`. */
  function BinOf(nanos: int, nanosPerBin: int): int
    requires nanosPerBin > 0
  {
    WrapInt32(CDiv(nanos, nanosPerBin))
  }

  function Bump(o: Option<BinCounter.Bins>, binIndex: int): (r: Option<BinCounter.Bins>)
    requires ValidBins(o)
    ensures ValidBins(r) && r.Some? == o.Some?
  {
    if o.Some? then Some(BinCounter.Increment(o.value, binIndex)) else None
  }

  /**
   * `markEntry` at time `now` for a callback due at `idealTime`. The first
   * call with a zero base time takes `now` as the base. From the second
   * callback on, with histograms, the wakeup delay is measured from the later
   * of the last exit and the ideal time, added to the total and binned.
   */
  function MarkEntry(t: Timing, now: int, idealTime: int): (r: Timing)
    requires Valid(t)
    ensures Valid(r)
    ensures r.baseTime == (if t.baseTime == 0 then now else t.baseTime)
    ensures r.idealTime == idealTime && r.entryTime == now
    ensures r.callCount == t.callCount && r.activeTime == t.activeTime && r.exitTime == t.exitTime
    ensures r.renderBins == t.renderBins && r.deliveryBins == t.deliveryBins
    ensures t.callCount > 0 && t.wakeupBins.Some? ==>
              var delay := now - Max(t.exitTime, idealTime);
              r.totalWakeupDelay == t.totalWakeupDelay + delay
              && r.wakeupBins == Some(BinCounter.Increment(t.wakeupBins.value, BinOf(delay, t.nanosPerBin)))
    ensures !(t.callCount > 0 && t.wakeupBins.Some?) ==>
              r.totalWakeupDelay == t.totalWakeupDelay && r.wakeupBins == t.wakeupBins
  {
    var base := if t.baseTime == 0 then now else t.baseTime;
    var t1 := t.(baseTime := base, idealTime := idealTime, entryTime := now);
    if t.callCount > 0 && t.wakeupBins.Some? then
      var delay := now - Max(t.exitTime, idealTime);
      t1.(totalWakeupDelay := t.totalWakeupDelay + delay,
          wakeupBins := Bump(t.wakeupBins, BinOf(delay, t.nanosPerBin)))
    else
      t1
  }

  /**
   * `markExit` at time `now`: the render took `now - entry`, which is added
   * to the active time. The render and delivery histograms are not fed on the
   * first callback. Every call counts.
   */
  function MarkExit(t: Timing, now: int): (r: Timing)
    requires Valid(t)
    ensures Valid(r)
    ensures r.lastRenderDuration == now - t.entryTime
    ensures r.activeTime == t.activeTime + (now - t.entryTime)
    ensures r.exitTime == now && r.callCount == t.callCount + 1
    ensures r.baseTime == t.baseTime && r.entryTime == t.entryTime && r.idealTime == t.idealTime
    ensures r.wakeupBins == t.wakeupBins && r.totalWakeupDelay == t.totalWakeupDelay
    ensures t.callCount == 0 ==> r.renderBins == t.renderBins && r.deliveryBins == t.deliveryBins
    ensures r.renderBins.Some? == t.renderBins.Some? && r.deliveryBins.Some? == t.deliveryBins.Some?
    ensures t.callCount > 0 && t.renderBins.Some? ==>
              r.renderBins == Some(BinCounter.Increment(t.renderBins.value, BinOf(now - t.entryTime, t.nanosPerBin)))
    ensures t.callCount > 0 && t.deliveryBins.Some? ==>
              r.deliveryBins == Some(BinCounter.Increment(t.deliveryBins.value, BinOf(now - t.idealTime, t.nanosPerBin)))
  {
    var duration := now - t.entryTime;
    var t1 := t.(lastRenderDuration := duration, activeTime := t.activeTime + duration, exitTime := now);
    var t2 :=
      if t.callCount > 0 then
        var render := if t.renderBins.Some? then BinOf(duration, t.nanosPerBin) else 0;
        var delivery := if t.deliveryBins.Some? then BinOf(now - t.idealTime, t.nanosPerBin) else 0;
        t1.(renderBins := Bump(t.renderBins, render), deliveryBins := Bump(t.deliveryBins, delivery))
      else t1;
    t2.(callCount := t.callCount + 1)
  }

  /** `getTotalTime`: from the first entry to the last exit. */
  function TotalTime(t: Timing): (d: int)
    ensures d + t.baseTime == t.exitTime
  {
    t.exitTime - t.baseTime
  }

  /**
   * `getDutyCycle`: the active time before the current callback, over the time
   * from the first entry to the current entry; 0 when that span is not positive.
   */
  function DutyCycle(t: Timing): (d: real)
    ensures t.entryTime - t.baseTime <= 0 ==> d == 0.0
    ensures t.entryTime - t.baseTime > 0 ==>
              d * (t.entryTime - t.baseTime) as real == (t.activeTime - (t.exitTime - t.entryTime)) as real
  {
    var lastActivePeriod := t.exitTime - t.entryTime;
    var totalTime := t.entryTime - t.baseTime;
    if totalTime <= 0 then 0.0 else (t.activeTime - lastActivePeriod) as real / totalTime as real
  }

  /** One audio callback: entry at `entry` for a callback due at `ideal`, exit at `exit`. */
  datatype Callback = Callback(ideal: int, entry: int, exit: int)

  function RunCallbacks(t: Timing, cbs: seq<Callback>): (r: Timing)
    requires Valid(t)
    ensures Valid(r)
    ensures r.callCount == t.callCount + |cbs|
    decreases |cbs|
  {
    if |cbs| == 0 then t
    else RunCallbacks(MarkExit(MarkEntry(t, cbs[0].entry, cbs[0].ideal), cbs[0].exit), cbs[1..])
  }

  /** A clock that never runs backwards, read after a clock start at 0. */
  predicate Monotone(cbs: seq<Callback>) {
    && (forall k :: 0 <= k < |cbs| ==> 0 < cbs[k].entry <= cbs[k].exit)
    && (forall k :: 0 < k < |cbs| ==> cbs[k - 1].exit <= cbs[k].entry)
  }

  /** What a run of callbacks keeps, once the first has been recorded. */
  predicate Running(t: Timing) {
    0 < t.baseTime <= t.entryTime <= t.exitTime && 0 <= t.activeTime - (t.exitTime - t.entryTime)
    && t.activeTime <= t.exitTime - t.baseTime
  }

  lemma {:induction false} RunKeepsRunning(t: Timing, cbs: seq<Callback>)
    requires Valid(t) && Monotone(cbs)
    requires Running(t) && (|cbs| > 0 ==> t.exitTime <= cbs[0].entry)
    ensures Running(RunCallbacks(t, cbs))
    decreases |cbs|
  {
    if |cbs| > 0 {
      var t1 := MarkExit(MarkEntry(t, cbs[0].entry, cbs[0].ideal), cbs[0].exit);
      assert Running(t1);
      RunKeepsRunning(t1, cbs[1..]);
    }
  }

  /** Once running, the duty cycle is a fraction. */
  lemma RunningDutyCycle(r: Timing)
    requires Running(r)
    ensures 0.0 <= DutyCycle(r) <= 1.0
  {
    var span := r.entryTime - r.baseTime;
    var before := r.activeTime - (r.exitTime - r.entryTime);
    if span > 0 {
      assert 0 <= before <= span;
      FractionBound(DutyCycle(r), before as real, span as real);
    }
  }

  /**
   * Over callbacks on a monotone clock from a reset analyzer, the duty cycle is
   * a fraction: the time spent rendering before the current callback fits in
   * the time since the first entry, which is the base time.
   */
  lemma DutyCycleIsFraction(t: Timing, cbs: seq<Callback>)
    requires Valid(t) && t.baseTime == 0 && t.activeTime == 0
    requires |cbs| > 0 && Monotone(cbs)
    ensures 0.0 <= DutyCycle(RunCallbacks(t, cbs)) <= 1.0
    ensures RunCallbacks(t, cbs).baseTime == cbs[0].entry
  {
    var t1 := MarkExit(MarkEntry(t, cbs[0].entry, cbs[0].ideal), cbs[0].exit);
    assert RunCallbacks(t, cbs) == RunCallbacks(t1, cbs[1..]);
    assert Running(t1);
    RunKeepsRunning(t1, cbs[1..]);
    BaseFixed(t1, cbs[1..]);
    RunningDutyCycle(RunCallbacks(t1, cbs[1..]));
  }

  lemma FractionBound(d: real, num: real, den: real)
    requires den > 0.0 && 0.0 <= num <= den && d * den == num
    ensures 0.0 <= d <= 1.0
  {
  }

  /** Once set to a non-zero time, the base time stays put. */
  lemma {:induction false} BaseFixed(t: Timing, cbs: seq<Callback>)
    requires Valid(t) && t.baseTime != 0
    ensures RunCallbacks(t, cbs).baseTime == t.baseTime
    decreases |cbs|
  {
    if |cbs| > 0 {
      BaseFixed(MarkExit(MarkEntry(t, cbs[0].entry, cbs[0].ideal), cbs[0].exit), cbs[1..]);
    }
  }

  /** The active time is the sum of the render durations. */
  function SumDurations(cbs: seq<Callback>): int
    decreases |cbs|
  {
    if |cbs| == 0 then 0 else (cbs[0].exit - cbs[0].entry) + SumDurations(cbs[1..])
  }

  lemma {:induction false} ActiveTimeIsSum(t: Timing, cbs: seq<Callback>)
    requires Valid(t)
    ensures RunCallbacks(t, cbs).activeTime == t.activeTime + SumDurations(cbs)
    decreases |cbs|
  {
    if |cbs| > 0 {
      ActiveTimeIsSum(MarkExit(MarkEntry(t, cbs[0].entry, cbs[0].ideal), cbs[0].exit), cbs[1..]);
    }
  }

  function WakeupSum(t: Timing): int
    requires t.wakeupBins.Some?
  {
    BinCounter.Sum(t.wakeupBins.value.counts)
  }

  function RenderSum(t: Timing): int
    requires t.renderBins.Some?
  {
    BinCounter.Sum(t.renderBins.value.counts)
  }

  /** One callback bins one wakeup delay and one render time, except the first callback. */
  lemma CallbackBins(t: Timing, cb: Callback)
    requires Valid(t) && t.wakeupBins.Some? && t.renderBins.Some?
    ensures var x := MarkExit(MarkEntry(t, cb.entry, cb.ideal), cb.exit);
            x.wakeupBins.Some? && x.renderBins.Some?
            && WakeupSum(x) == WakeupSum(t) + (if t.callCount > 0 then 1 else 0)
            && RenderSum(x) == RenderSum(t) + (if t.callCount > 0 then 1 else 0)
  {
    var e := MarkEntry(t, cb.entry, cb.ideal);
    if t.callCount > 0 {
      var w := t.wakeupBins.value;
      BinCounter.SumBump(w.counts,
        BinCounter.ClampIndex(BinOf(cb.entry - Max(t.exitTime, cb.ideal), t.nanosPerBin), BinCounter.NumBins(w)));
      var rb := e.renderBins.value;
      BinCounter.SumBump(rb.counts,
        BinCounter.ClampIndex(BinOf(cb.exit - e.entryTime, e.nanosPerBin), BinCounter.NumBins(rb)));
    }
  }

  /**
   * With histograms set up, every callback but the very first one lands in
   * the wakeup and render histograms exactly once.
   */
  lemma {:induction false} HistogramsSkipFirst(t: Timing, cbs: seq<Callback>)
    requires Valid(t) && t.wakeupBins.Some? && t.renderBins.Some?
    ensures var r := RunCallbacks(t, cbs);
            r.wakeupBins.Some? && r.renderBins.Some?
            && WakeupSum(r) == WakeupSum(t) + Skipped(t.callCount, |cbs|)
            && RenderSum(r) == RenderSum(t) + Skipped(t.callCount, |cbs|)
    decreases |cbs|
  {
    if |cbs| > 0 {
      var x := MarkExit(MarkEntry(t, cbs[0].entry, cbs[0].ideal), cbs[0].exit);
      CallbackBins(t, cbs[0]);
      HistogramsSkipFirst(x, cbs[1..]);
      assert RunCallbacks(t, cbs) == RunCallbacks(x, cbs[1..]);
    }
  }

  /** How many of `n` further callbacks are binned when `calls` were made before: all but a first one. */
  function Skipped(calls: int, n: nat): nat {
    if n == 0 then 0 else if calls > 0 then n else n - 1
  }
}

=== FILE: util_clamp.dfy ===
/**
 * The simple util-clamp controller (`UtilClampAudioBehaviorSimple.h`): after
 * a 300 ms start interval, each callback's share of its audio duration moves
 * the clamp down by 30 when below half and straight up to the maximum when
 * above 95%. The clamp is an `int16_t`; callback times are parameters.
 */
module UtilClamp {
  import opened Common

  const SECONDS_TO_NANOS := 1_000_000_000
  const MAX_UCLAMP := 1024
  const MIN_UCLAMP := 0
  const INCREASE_STEP_UCLAMP := MAX_UCLAMP
  const DECREASE_STEP_UCLAMP := 30
  const START_INTERVAL_NANOS := 300_000_000
  const LOW_UTILIZATION := 0.5
  const HIGH_UTILIZATION := 0.95

  datatype Behavior = Behavior(sampleRate: int, currUtilClamp: int, startTimeNanos: int)

  predicate InRange(v: int) {
    MIN_UCLAMP <= v <= MAX_UCLAMP
  }

  /** The constructor; the start value is stored in an `int16_t`. */
  function NewBehavior(sampleRate: int, startUclampNanos: int, startUclampValue: int): (b: Behavior)
    ensures b.sampleRate == sampleRate && b.startTimeNanos == startUclampNanos
    ensures b.currUtilClamp == WrapInt16(startUclampValue)
    ensures InRange(startUclampValue) ==> b.currUtilClamp == startUclampValue
  {
    Behavior(sampleRate, WrapInt16(startUclampValue), startUclampNanos)
  }

  /** `decreaseUtilClamp`: 30 lower, the `int16_t` difference floored at 0. */
  function Decrease(cur: int): (r: int)
    ensures -0x8000 + DECREASE_STEP_UCLAMP <= cur < 0x8000 + DECREASE_STEP_UCLAMP ==> r == Max(cur - DECREASE_STEP_UCLAMP, MIN_UCLAMP)
    ensures r >= MIN_UCLAMP
  {
    Max(WrapInt16(cur - DECREASE_STEP_UCLAMP), MIN_UCLAMP)
  }

  /** `increaseUtilClamp`: 1024 higher, the `int16_t` sum capped at 1024. */
  function Increase(cur: int): (r: int)
    ensures -0x8000 - INCREASE_STEP_UCLAMP <= cur < 0x8000 - INCREASE_STEP_UCLAMP ==>
              r == Min(cur + INCREASE_STEP_UCLAMP, MAX_UCLAMP)
    ensures r <= MAX_UCLAMP
    ensures MIN_UCLAMP <= cur <= MAX_UCLAMP ==> r == MAX_UCLAMP
  {
    Min(WrapInt16(cur + INCREASE_STEP_UCLAMP), MAX_UCLAMP)
  }

  /** The audio duration of `numFrames` frames in nanoseconds, with C integer division. */
  function AudioDurationNanos(b: Behavior, numFrames: int): int
    requires b.sampleRate != 0
  {
    CDivAny(numFrames * SECONDS_TO_NANOS, b.sampleRate)
  }

  /** The callback took under half of its audio duration. */
  predicate Light(b: Behavior, begin: int, finish: int, numFrames: int)
    requires b.sampleRate != 0
  {
    finish - begin < TruncReal(AudioDurationNanos(b, numFrames) as real * LOW_UTILIZATION)
  }

  /** The callback took over 95% of its audio duration. */
  predicate Heavy(b: Behavior, begin: int, finish: int, numFrames: int)
    requires b.sampleRate != 0
  {
    finish - begin > TruncReal(AudioDurationNanos(b, numFrames) as real * HIGH_UTILIZATION)
  }

  /**
   * `processTiming`: within 300 ms of the start the clamp is returned
   * unchanged; afterwards a light callback decreases it, a heavy one
   * increases it, and any other leaves it. The answer is the new clamp.
   */
  function ProcessTiming(b: Behavior, begin: int, finish: int, numFrames: int): (r: (Behavior, int))
    requires b.sampleRate != 0
    ensures r.1 == r.0.currUtilClamp
    ensures r.0 == b.(currUtilClamp := r.1)
    ensures finish - b.startTimeNanos < START_INTERVAL_NANOS ==> r.1 == b.currUtilClamp
    ensures finish - b.startTimeNanos >= START_INTERVAL_NANOS ==>
              (Light(b, begin, finish, numFrames) ==> r.1 == Decrease(b.currUtilClamp))
              && (!Light(b, begin, finish, numFrames) && Heavy(b, begin, finish, numFrames) ==>
                    r.1 == Increase(b.currUtilClamp))
              && (!Light(b, begin, finish, numFrames) && !Heavy(b, begin, finish, numFrames) ==>
                    r.1 == b.currUtilClamp)
    ensures InRange(b.currUtilClamp) ==> InRange(r.1)
  {
    if finish - b.startTimeNanos < START_INTERVAL_NANOS then (b, b.currUtilClamp)
    else
      var next :=
        if Light(b, begin, finish, numFrames) then Decrease(b.currUtilClamp)
        else if Heavy(b, begin, finish, numFrames) then Increase(b.currUtilClamp)
        else b.currUtilClamp;
      (b.(currUtilClamp := next), next)
  }

  /** One callback's timing. */
  datatype Timing = Timing(begin: int, finish: int, numFrames: int)

  function ProcessAll(b: Behavior, ts: seq<Timing>): (r: Behavior)
    requires b.sampleRate != 0
    ensures r.sampleRate == b.sampleRate && r.startTimeNanos == b.startTimeNanos
    decreases |ts|
  {
    if |ts| == 0 then b
    else ProcessAll(ProcessTiming(b, ts[0].begin, ts[0].finish, ts[0].numFrames).0, ts[1..])
  }

  /** A clamp that starts in [0, 1024] stays there whatever the callbacks do. */
  lemma {:induction false} StaysInRange(b: Behavior, ts: seq<Timing>)
    requires b.sampleRate != 0 && InRange(b.currUtilClamp)
    ensures InRange(ProcessAll(b, ts).currUtilClamp)
    decreases |ts|
  {
    if |ts| > 0 {
      StaysInRange(ProcessTiming(b, ts[0].begin, ts[0].finish, ts[0].numFrames).0, ts[1..]);
    }
  }

  /** After `k` light callbacks past the start interval an in-range clamp is `max(cur - 30k, 0)`. */
  lemma {:induction false} LightRunsDown(b: Behavior, ts: seq<Timing>)
    requires b.sampleRate != 0 && InRange(b.currUtilClamp)
    requires forall i :: 0 <= i < |ts| ==>
               ts[i].finish - b.startTimeNanos >= START_INTERVAL_NANOS
               && Light(b, ts[i].begin, ts[i].finish, ts[i].numFrames)
    ensures ProcessAll(b, ts).currUtilClamp == Max(b.currUtilClamp - DECREASE_STEP_UCLAMP * |ts|, MIN_UCLAMP)
    decreases |ts|
  {
    if |ts| > 0 {
      var c := ProcessTiming(b, ts[0].begin, ts[0].finish, ts[0].numFrames).0;
      assert forall i :: 0 <= i < |ts[1..]| ==> ts[1..][i] == ts[i + 1];
      LightRunsDown(c, ts[1..]);
    }
  }
}

=== FILE: util_series.dfy ===
/**
 * The utilisation series (`UtilizationSeriesHarness.h`): measure CPU
 * utilisation at twenty voice counts spread evenly from the low count to the
 * high one, stopping once the CPU is maxed out. The outcomes of the VoiceMark
 * and UtilizationMark runs it starts are parameters.
 */
module UtilSeries {
  import opened Common
  import SynthMarkResult

  const NUM_STEPS := 20
  const MAX_UTILIZATION := 0.96
  /** The CPU fraction of the VoiceMark run that picks a missing high count. */
  const VOICEMARK_FRACTION := 0.95

  /** The voice count of step `i`: `begin + (i * range) / 19` with C division. */
  function StepVoices(begin: int, range: int, i: int): int {
    begin + CDiv(i * range, NUM_STEPS - 1)
  }

  /** The voice counts of all twenty steps. */
  function Steps(begin: int, end: int): (s: seq<int>)
    ensures |s| == NUM_STEPS
    ensures forall i :: 0 <= i < NUM_STEPS ==> s[i] == StepVoices(begin, end - begin, i)
  {
    seq(NUM_STEPS, i => StepVoices(begin, end - begin, i))
  }

  /** C division by the step count is monotone in the dividend. */
  lemma CDivMonotone(a: int, b: int)
    requires a <= b
    ensures CDiv(a, NUM_STEPS - 1) <= CDiv(b, NUM_STEPS - 1)
  {
  }

  /** A later step is at least as far from the low count as an earlier one. */
  lemma StepPair(begin: int, range: int, i: int, j: int)
    requires 0 <= i <= j
    ensures range >= 0 ==> StepVoices(begin, range, i) <= StepVoices(begin, range, j)
    ensures range < 0 ==> StepVoices(begin, range, i) >= StepVoices(begin, range, j)
  {
    if range >= 0 {
      MulLe(i, j, range);
      CDivMonotone(i * range, j * range);
    } else {
      MulLe(i, j, -range);
      assert j * range <= i * range;
      CDivMonotone(j * range, i * range);
    }
  }

  /**
   * The series starts at the low count, ends at the high count, and moves
   * monotonically between them: up when high >= low, down otherwise.
   */
  lemma StepsSpan(begin: int, end: int)
    ensures Steps(begin, end)[0] == begin
    ensures Steps(begin, end)[NUM_STEPS - 1] == end
    ensures end >= begin ==> forall i, j :: 0 <= i <= j < NUM_STEPS ==> Steps(begin, end)[i] <= Steps(begin, end)[j]
    ensures end < begin ==> forall i, j :: 0 <= i <= j < NUM_STEPS ==> Steps(begin, end)[i] >= Steps(begin, end)[j]
    ensures forall i :: 0 <= i < NUM_STEPS ==> Min(begin, end) <= Steps(begin, end)[i] <= Max(begin, end)
  {
    var s := Steps(begin, end);
    var range := end - begin;
    assert s[NUM_STEPS - 1] == end;
    forall i, j | 0 <= i <= j < NUM_STEPS
      ensures range >= 0 ==> s[i] <= s[j]
      ensures range < 0 ==> s[i] >= s[j]
    {
      StepPair(begin, range, i, j);
    }
    forall i | 0 <= i < NUM_STEPS
      ensures Min(begin, end) <= s[i] <= Max(begin, end)
    {
      StepPair(begin, range, 0, i);
      StepPair(begin, range, i, NUM_STEPS - 1);
    }
  }

  lemma MulLe(i: int, j: int, r: int)
    requires i <= j && r >= 0
    ensures i * r <= j * r
    ensures -(j * r) <= -(i * r)
  {
  }

  /** What one UtilizationMark run reports: its error code and the utilisation measured. */
  datatype Outcome = Outcome(err: int, utilization: real)

  /**
   * The measuring loop of `runTest`: step i runs at `Steps(begin, end)[i]`
   * voices; an error returns at once; a utilisation above 0.96 ends the
   * series successfully.
   */
  method RunSeries(begin: int, end: int, outcomes: seq<Outcome>) returns (err: int, tried: seq<int>)
    requires |outcomes| == NUM_STEPS
    ensures 0 < |tried| <= NUM_STEPS && tried == Steps(begin, end)[..|tried|]
    ensures forall k :: 0 <= k < |tried| - 1 ==>
              outcomes[k].err == SynthMarkResult.SUCCESS && outcomes[k].utilization <= MAX_UTILIZATION
    ensures err == outcomes[|tried| - 1].err
    ensures err == SynthMarkResult.SUCCESS && |tried| < NUM_STEPS ==>
              outcomes[|tried| - 1].utilization > MAX_UTILIZATION
    ensures err != SynthMarkResult.SUCCESS || |tried| == NUM_STEPS
            || outcomes[|tried| - 1].utilization > MAX_UTILIZATION
  {
    var steps := Steps(begin, end);
    var range := end - begin;
    err := SynthMarkResult.SUCCESS;
    tried := [];
    var i := 0;
    while i < NUM_STEPS
      invariant 0 <= i <= NUM_STEPS && tried == steps[..i]
      invariant forall k :: 0 <= k < i ==>
                  outcomes[k].err == SynthMarkResult.SUCCESS && outcomes[k].utilization <= MAX_UTILIZATION
      invariant i > 0 ==> err == outcomes[i - 1].err
    {
      var numVoices := begin + CDiv(i * range, NUM_STEPS - 1);
      tried := tried + [numVoices];
      err := outcomes[i].err;
      if err != SynthMarkResult.SUCCESS {
        return;
      }
      if outcomes[i].utilization > MAX_UTILIZATION {
        return;
      }
      i := i + 1;
    }
  }

  /**
   * `runTest`: with no high count set, a VoiceMark run at 95% first picks it
   * (its error, if any, is returned before anything is measured); then the
   * series runs from the low count to the high one.
   */
  method RunTest(numVoices: int, numVoicesHigh: int, voiceMark: Outcome, voiceMarkMeasurement: real,
                 outcomes: seq<Outcome>) returns (err: int, high: int, tried: seq<int>)
    requires |outcomes| == NUM_STEPS
    ensures numVoicesHigh != 0 ==> high == numVoicesHigh
    ensures numVoicesHigh == 0 && voiceMark.err != SynthMarkResult.SUCCESS ==>
              err == voiceMark.err && tried == [] && high == 0
    ensures numVoicesHigh == 0 && voiceMark.err == SynthMarkResult.SUCCESS ==>
              high == TruncReal(voiceMarkMeasurement)
    ensures |tried| <= NUM_STEPS
    ensures tried != [] ==> tried[0] == numVoices && tried == Steps(numVoices, high)[..|tried|]
    ensures tried != [] ==> err == outcomes[|tried| - 1].err
    ensures tried == [] ==> numVoicesHigh == 0 && err == voiceMark.err != SynthMarkResult.SUCCESS
  {
    high := numVoicesHigh;
    if high == 0 {
      if voiceMark.err != SynthMarkResult.SUCCESS {
        return voiceMark.err, high, [];
      }
      high := TruncReal(voiceMarkMeasurement);
    }
    StepsSpan(numVoices, high);
    err, tried := RunSeries(numVoices, high, outcomes);
  }
}

=== FILE: voice_mark.dfy ===
/**
 * The VoiceMark test (`VoiceMarkHarness.h`): before each note-on it
 * estimates, from the CPU load of the last beat, how many voices would use the
 * target fraction of the CPU, plays that many next, and averages the
 * estimates once they stop rising. The load of each beat (the timer's duty
 * cycle) is a parameter.
 */
module VoiceMark {
  import opened Common
  import SynthMarkResult
  import TestHarness

  const MINIMUM_VOICE_COUNT := 4
  const MINIMUM_NOTE_ON_COUNT := 1

  datatype Mark = Mark(fractionOfCpu: real, initialVoiceCount: int, numVoices: int,
                       sumVoicesOn: real, sumVoicesCount: int, beatCount: int, stable: bool)

  /** The constructor's defaults: no target load and 10 initial voices. */
  function NewMark(): (m: Mark)
    ensures m.fractionOfCpu == 0.0 && m.initialVoiceCount == 10
  {
    Mark(0.0, 10, 8, 0.0, 0, 0, false)
  }

  /** `onBeginMeasurement`: start at the initial voice count with nothing summed and not stable. */
  function BeginMeasurement(m: Mark): (r: Mark)
    ensures r.numVoices == m.initialVoiceCount
    ensures r.sumVoicesOn == 0.0 && r.sumVoicesCount == 0 && r.beatCount == 0 && !r.stable
    ensures r.fractionOfCpu == m.fractionOfCpu && r.initialVoiceCount == m.initialVoiceCount
  {
    m.(numVoices := m.initialVoiceCount, sumVoicesOn := 0.0, sumVoicesCount := 0, beatCount := 0,
       stable := false)
  }

  /** The voices that would use the target fraction of the CPU at this load. */
  function VoicesFraction(m: Mark, cpuLoad: real): real
    requires cpuLoad != 0.0
  {
    m.fractionOfCpu * m.numVoices as real / cpuLoad
  }

  /** The estimate rounded to the nearest voice (by truncating x + 0.5) and clipped to the synthesizer's maximum. */
  function NewNumVoices(m: Mark, cpuLoad: real): (n: int)
    requires cpuLoad != 0.0
    ensures n <= TestHarness.MAX_VOICES
    ensures n == Min(TruncReal(VoicesFraction(m, cpuLoad) + 0.5), TestHarness.MAX_VOICES)
  {
    var n := TruncReal(VoicesFraction(m, cpuLoad) + 0.5);
    if n > TestHarness.MAX_VOICES then TestHarness.MAX_VOICES else n
  }

  /** The accepted band of loads around the target: [f/2, 1 - (1-f)/2]. */
  predicate InWindow(fractionOfCpu: real, cpuLoad: real) {
    fractionOfCpu * 0.5 <= cpuLoad <= 1.0 - (1.0 - fractionOfCpu) * 0.5
  }

  /** Whether a beat's estimate is summed: in the window, and stable either before or by this beat. */
  predicate Accepted(m: Mark, cpuLoad: real)
    requires cpuLoad != 0.0
  {
    m.beatCount >= MINIMUM_NOTE_ON_COUNT && InWindow(m.fractionOfCpu, cpuLoad)
    && (m.stable || NewNumVoices(m, cpuLoad) <= m.numVoices)
  }

  /**
   * `onBeforeNoteOn`: from the second beat on, the estimate becomes the next
   * voice count; inside the window the first estimate that does not exceed
   * the current count latches `stable`, and while stable the estimate is
   * summed. Every beat is counted and the hook always answers 0.
   */
  function BeforeNoteOn(m: Mark, cpuLoad: real): (r: (Mark, int))
    requires m.beatCount >= MINIMUM_NOTE_ON_COUNT ==> cpuLoad != 0.0
    ensures r.1 == 0
    ensures r.0.beatCount == m.beatCount + 1
    ensures r.0.fractionOfCpu == m.fractionOfCpu && r.0.initialVoiceCount == m.initialVoiceCount
    ensures m.beatCount < MINIMUM_NOTE_ON_COUNT ==> r.0 == m.(beatCount := m.beatCount + 1)
    ensures m.beatCount >= MINIMUM_NOTE_ON_COUNT ==> r.0.numVoices == NewNumVoices(m, cpuLoad)
    ensures m.stable ==> r.0.stable
    ensures m.beatCount >= MINIMUM_NOTE_ON_COUNT ==>
              (r.0.stable <==> m.stable || (InWindow(m.fractionOfCpu, cpuLoad) && NewNumVoices(m, cpuLoad) <= m.numVoices))
    ensures m.beatCount >= MINIMUM_NOTE_ON_COUNT && Accepted(m, cpuLoad) ==>
              r.0.sumVoicesCount == m.sumVoicesCount + 1
              && r.0.sumVoicesOn == m.sumVoicesOn + VoicesFraction(m, cpuLoad)
    ensures !(m.beatCount >= MINIMUM_NOTE_ON_COUNT && Accepted(m, cpuLoad)) ==>
              r.0.sumVoicesCount == m.sumVoicesCount && r.0.sumVoicesOn == m.sumVoicesOn
  {
    if m.beatCount >= MINIMUM_NOTE_ON_COUNT then
      var fraction := VoicesFraction(m, cpuLoad);
      var newNumVoices := NewNumVoices(m, cpuLoad);
      var inWindow := InWindow(m.fractionOfCpu, cpuLoad);
      var stable := m.stable || (inWindow && newNumVoices <= m.numVoices);
      var (sum, count) := if inWindow && stable then (m.sumVoicesOn + fraction, m.sumVoicesCount + 1)
                          else (m.sumVoicesOn, m.sumVoicesCount);
      (m.(numVoices := newNumVoices, stable := stable, sumVoicesOn := sum, sumVoicesCount := count,
          beatCount := m.beatCount + 1), 0)
    else (m.(beatCount := m.beatCount + 1), 0)
  }

  /** The hook over a run of beats with the given loads. */
  function Beats(m: Mark, loads: seq<real>): (r: Mark)
    requires forall k :: 0 <= k < |loads| ==> loads[k] != 0.0
    decreases |loads|
  {
    if |loads| == 0 then m else Beats(BeforeNoteOn(m, loads[0]).0, loads[1..])
  }

  /** The number of beats of a run whose estimate is summed. */
  function AcceptedCount(m: Mark, loads: seq<real>): nat
    requires forall k :: 0 <= k < |loads| ==> loads[k] != 0.0
    decreases |loads|
  {
    if |loads| == 0 then 0
    else (if Accepted(m, loads[0]) then 1 else 0) + AcceptedCount(BeforeNoteOn(m, loads[0]).0, loads[1..])
  }

  /**
   * Over a measurement: every beat is counted, the summed count is the number
   * of accepted beats, and the first beat, which has no load to go by, is
   * never one of them.
   */
  lemma {:induction false} BeatsCount(m: Mark, loads: seq<real>)
    requires forall k :: 0 <= k < |loads| ==> loads[k] != 0.0
    ensures Beats(m, loads).beatCount == m.beatCount + |loads|
    ensures Beats(m, loads).sumVoicesCount == m.sumVoicesCount + AcceptedCount(m, loads)
    ensures m.beatCount < MINIMUM_NOTE_ON_COUNT && |loads| > 0 ==> AcceptedCount(m, loads) <= |loads| - 1
    ensures AcceptedCount(m, loads) <= |loads|
    decreases |loads|
  {
    if |loads| > 0 {
      BeatsCount(BeforeNoteOn(m, loads[0]).0, loads[1..]);
    }
  }

  /**
   * `onEndMeasurement`: fewer than four summed estimates is
   * TOO_FEW_MEASUREMENTS with measurement 0; otherwise SUCCESS with the mean
   * estimate.
   */
  function EndMeasurement(m: Mark, result: SynthMarkResult.Result): (r: SynthMarkResult.Result)
    ensures m.sumVoicesCount < MINIMUM_VOICE_COUNT ==>
              r.resultCode == SynthMarkResult.TOO_FEW_MEASUREMENTS && r.measurement == 0.0
    ensures m.sumVoicesCount >= MINIMUM_VOICE_COUNT ==>
              r.resultCode == SynthMarkResult.SUCCESS
              && r.measurement * m.sumVoicesCount as real == m.sumVoicesOn
    ensures SynthMarkResult.IsSuccessful(r) <==> m.sumVoicesCount >= MINIMUM_VOICE_COUNT
    ensures r.testName == result.testName
  {
    if m.sumVoicesCount < MINIMUM_VOICE_COUNT then
      SynthMarkResult.SetMeasurement(SynthMarkResult.SetResultCode(result, SynthMarkResult.TOO_FEW_MEASUREMENTS), 0.0)
    else
      SynthMarkResult.SetMeasurement(SynthMarkResult.SetResultCode(result, SynthMarkResult.SUCCESS),
                                     m.sumVoicesOn / m.sumVoicesCount as real)
  }

  /**
   * `onEndMeasurement` marks a measurement of at most four beats as failed:
   * the first beat is not summed, so fewer than four estimates are.
   */
  lemma ShortRunFails(m: Mark, loads: seq<real>, result: SynthMarkResult.Result)
    requires forall k :: 0 <= k < |loads| ==> loads[k] != 0.0
    requires 0 < |loads| <= MINIMUM_VOICE_COUNT
    ensures !SynthMarkResult.IsSuccessful(EndMeasurement(Beats(BeginMeasurement(m), loads), result))
  {
    BeatsCount(BeginMeasurement(m), loads);
  }

  /**
   * The end of `measure` for a VoiceMark run, as written: once the sink has
   * started and the callback loop has not failed, `onEndMeasurement` records
   * its code, and the harness then records the loop's result over it and
   * returns that result.
   */
  function MeasureEndAsWritten(h: TestHarness.Harness, m: Mark, startResult: int, loopResult: int)
    : (r: (TestHarness.Harness, int))
    ensures startResult >= 0 && loopResult >= 0 ==>
              r.1 == loopResult && r.0.result.resultCode == loopResult
              && r.0.result.measurement == EndMeasurement(m, h.result).measurement
    ensures startResult < 0 || loopResult < 0 ==> r == TestHarness.FinishMeasure(h, startResult, loopResult)
  {
    if startResult >= 0 && loopResult >= 0 then
      TestHarness.FinishMeasure(h.(result := EndMeasurement(m, h.result)), startResult, loopResult)
    else TestHarness.FinishMeasure(h, startResult, loopResult)
  }

  /**
   * As written, a run of at most four beats whose loop ends normally is
   * reported as a success, although `onEndMeasurement` found too few
   * measurements: its code is overwritten.
   */
  lemma ShortRunReportedAsSuccess(h: TestHarness.Harness, m: Mark, loads: seq<real>)
    requires forall k :: 0 <= k < |loads| ==> loads[k] != 0.0
    requires 0 < |loads| <= MINIMUM_VOICE_COUNT
    ensures !SynthMarkResult.IsSuccessful(EndMeasurement(Beats(BeginMeasurement(m), loads), h.result))
    ensures MeasureEndAsWritten(h, Beats(BeginMeasurement(m), loads), 0, 0).1 == SynthMarkResult.SUCCESS
    ensures SynthMarkResult.IsSuccessful(MeasureEndAsWritten(h, Beats(BeginMeasurement(m), loads), 0, 0).0.result)
  {
    ShortRunFails(m, loads, h.result);
  }

  /**
   * Corrected: the code `onEndMeasurement` records is kept and returned, so a
   * run succeeds exactly when the sink started, the loop did not fail and at
   * least four estimates were summed.
   */
  function MeasureEnd(h: TestHarness.Harness, m: Mark, startResult: int, loopResult: int)
    : (r: (TestHarness.Harness, int))
    ensures startResult >= 0 && loopResult >= 0 ==>
              r.0.result == EndMeasurement(m, h.result) && r.1 == r.0.result.resultCode
    ensures startResult < 0 || loopResult < 0 ==> r == TestHarness.FinishMeasure(h, startResult, loopResult)
    ensures r.1 == SynthMarkResult.SUCCESS <==>
              startResult >= 0 && loopResult >= 0 && m.sumVoicesCount >= MINIMUM_VOICE_COUNT
  {
    if startResult >= 0 && loopResult >= 0 then
      var result := EndMeasurement(m, h.result);
      (h.(result := result), result.resultCode)
    else TestHarness.FinishMeasure(h, startResult, loopResult)
  }

  /** With the correction, a run of at most four beats reports its failure to the caller. */
  lemma ShortRunMeasureFails(h: TestHarness.Harness, m: Mark, loads: seq<real>, startResult: int, loopResult: int)
    requires forall k :: 0 <= k < |loads| ==> loads[k] != 0.0
    requires 0 < |loads| <= MINIMUM_VOICE_COUNT
    ensures MeasureEnd(h, Beats(BeginMeasurement(m), loads), startResult, loopResult).1 != SynthMarkResult.SUCCESS
    ensures !SynthMarkResult.IsSuccessful(MeasureEnd(h, Beats(BeginMeasurement(m), loads), startResult, loopResult).0.result)
  {
    BeatsCount(BeginMeasurement(m), loads);
  }
}
